=== FILE: README.md ===
# ls-bdd in Dafny

This project models the core of **ls-bdd**, a Linux block-device driver.
The driver puts a virtual disk (`lsvbd<N>`) in front of a real one and
redirects every write to a fresh region of the backing device. It keeps a
map from each original sector to its redirected sector and block size. On a
read, it looks the sector up in that map. If the sector is not a key, it
reads from the block of the nearest smaller key, splitting the request
where it crosses block ends. The map lives in one of four backends, chosen
at run time: a skiplist, a hash table, a B+tree or a red-black tree. Each
backend has a spinlock-based ("sync") version and a lock-free version. The
repository also ships the Python test harness (`autotest.py`), which writes
files through the device with `dd` and reads them back, plus the plotting
scripts' configuration parsers and block-size sort keys.

The model is purely functional:

- Every backend is a datatype with an abstraction function `Abs` into
  `SectorMap.SMap`, a `map<nat, Redir>` from original sector to
  (redirected sector, block size). Its operations are proved to refine
  lookup, update, removal, "greatest key" (`LastKey`) and "greatest smaller
  key" (`PrevKey`) on that map.
- Machine arithmetic is written out in `MachineInts`: `u8`, `u16`, `u32`,
  `u64`, `s16` and `s32` wrap-around.
- The dispatcher `ds_control.c` is `DsControl`. It is generic over the
  backend state and takes the backend's answer as a parameter.
- Allocation outcomes (`allocOk`), random coin flips and words, and the
  kernel's `hash_min` are parameters.
- Where the C code and its evident intent differ, the model has two
  variants. `AsWritten` follows the code; `Corrected` follows the intent.
  Lemmas exhibit the difference and prove the intended property of the
  corrected variant (see "## Findings").

Modules, one per source file:

- `MachineInts`: integer widths.
- `SectorMap`: the abstract map.
- `SortedLevels`: sorted node lists shared by both skiplists.
- `MarkedPointers`: `lock-free/marked_pointers.h`.
- `SyncSkiplist`, `SyncHashtable`: `sync/skiplist.c`, `sync/hashtable.c`.
- `LfList`, `LfHashtable`, `LfSkiplist`: `lock-free/lf_list.c`,
  `lock-free/hashtable.c`, `lock-free/skiplist.c`.
- `BtreeUtils`: `lock-free/btree_utils.c`.
- `DsControl`: `ds_control.c`.
- `Driver`: `main.c`.
- `Autotest`, `ConfigParsers`, `GeneralConcPlots`, `TpIopsPlots`: the
  Python scripts.
- `Text`: the Python string built-ins they use (`int()`, `strip`, `split`,
  `lower`, `replace`).
- `Wrappers`: `Option`.

## Model

| member | source | states |
|---|---|---|
| MachineInts.U32 | src/main.c:247-281 | the `u32` view of an integer is the unique residue modulo 2^32 and leaves in-range values alone |
| MachineInts.S16 | src/main.c:247 | an `s16` holds the two's-complement residue in [-2^15, 2^15) and leaves in-range values alone |
| MachineInts.S32 | src/main.c:268-281 | an `s32` holds the two's-complement residue in [-2^31, 2^31) and leaves in-range values alone |
| SectorMap.LastKey | src/utils/ds_control.c:205-238 | the greatest key of the map; `None` exactly for the empty map |
| SectorMap.PrevKey | src/utils/ds_control.c:240-277 | the greatest key strictly below the sector; `None` exactly when no key is below it |
| SectorMap.LastKeyOfUpdate | src/utils/lock-free/hashtable.c:76-81 | after an update the greatest key is the larger of the old greatest key and the new key |
| MarkedPointers.TagValue | src/utils/lock-free/marked_pointers.h:8 | `TAG_VALUE` sets the tag bits and keeps every other bit |
| MarkedPointers.IsTagged | src/utils/lock-free/marked_pointers.h:9 | `IS_TAGGED` keeps exactly the word's tag bits and clears every other bit, so it is zero exactly when none of the tag bits is set |
| MarkedPointers.StripTag | src/utils/lock-free/marked_pointers.h:12 | `STRIP_TAG` clears the tag bits and keeps every other bit |
| MarkedPointers.MarkNode | src/utils/lock-free/marked_pointers.h:15 | `MARK_NODE` sets bit 0 and keeps the address bits |
| MarkedPointers.MarkThenHasMark | src/utils/lock-free/marked_pointers.h:15-17 | a marked word has the mark; a stripped word does not |
| MarkedPointers.MarkIdempotent | src/utils/lock-free/marked_pointers.h:14-15 | marking twice is marking once: the macro sets the bit and never toggles it |
| MarkedPointers.StripUndoesMark | src/utils/lock-free/marked_pointers.h:12-15 | stripping the mark from a marked aligned pointer gives the pointer back |
| MarkedPointers.PackUnpack | src/utils/lock-free/marked_pointers.h:12-17 | an aligned address plus a mark bit and a tagged word convert into each other without loss, both ways |
| SyncSkiplist.Init | src/utils/sync/skiplist.c:58-84 | a new skiplist is well formed, maps nothing and reports empty |
| SyncSkiplist.PredsAreLastBelow | src/utils/sync/skiplist.c:176-195 | `get_prev_nodes` leaves, on every level, the last node whose key is below the search key |
| SyncSkiplist.FindNodeRefines | src/utils/sync/skiplist.c:86-101 | on a skiplist without a key-0 node, `skiplist_find_node` finds a node exactly for the keys of the map, holding the map's value |
| SyncSkiplist.FindNodeFixedRefines | src/utils/sync/skiplist.c:86-101 | the search that does not stop at a key-0 node finds a node exactly for the keys of the map, on every valid skiplist |
| SyncSkiplist.ZeroKeyHidesLaterKeys | src/utils/sync/skiplist.c:94 | as written, the search never steps onto a node with key 0, so a stored key after it is reported missing |
| SyncSkiplist.RandomLevel | src/utils/sync/skiplist.c:166-174 | `get_random_lvl` counts successful coin flips, stops at the first failure and never exceeds the cap |
| SyncSkiplist.MoveUp | src/utils/sync/skiplist.c:141-159 | raising the head keeps the existing levels, adds empty ones up to the requested level, and does nothing past `MAX_LVL` |
| SyncSkiplist.MoveUpValid | src/utils/sync/skiplist.c:103-159 | raising the head keeps the skiplist well formed and the bottom level unchanged |
| SyncSkiplist.InsertAtLvlValid | src/utils/sync/skiplist.c:197-227 | linking a new tower of height `lvl` after the predecessors keeps every level sorted, keeps each level a subset of the one below, and adds the key to the map |
| SyncSkiplist.Insert | src/utils/sync/skiplist.c:229-254 | an existing key returns its node and leaves the list alone; a new key returns a fresh node carrying the key and value |
| SyncSkiplist.InsertRefines | src/utils/sync/skiplist.c:229-254 | insertion keeps the skiplist valid; a present key is not updated, a new key is added with its value |
| SyncSkiplist.RemoveDropsBottom | src/utils/sync/skiplist.c:318-358 | as written, removal takes the key out of the map but leaves every level above the bottom untouched |
| SyncSkiplist.RemoveLeavesUpperCopy | src/utils/sync/skiplist.c:342-346 | after that removal the stale upper copy is still found, and re-inserting the key is a no-op; the corrected removal finds nothing |
| SyncSkiplist.StaleUpperCopy | src/utils/sync/skiplist.c:342-346 | a skiplist whose only copy of a key is on an upper level maps nothing, is not valid, yet the key is found |
| SyncSkiplist.RemoveFixedRefines | src/utils/sync/skiplist.c:318-358 | removal from every level keeps the skiplist valid and removes exactly that key from the map |
| SyncSkiplist.LastRefines | src/utils/sync/skiplist.c:360-373 | on a skiplist without a key-0 node, `skiplist_last` is the greatest key of the map, or `HEAD_KEY` for an empty map |
| SyncSkiplist.ZeroKeyHidesLast | src/utils/sync/skiplist.c:369 | as written, the walk stops before a node with key 0: with keys 0 and 5 `skiplist_last` reports 0, while the corrected walk reports 5 |
| SyncSkiplist.LastFixedRefines | src/utils/sync/skiplist.c:360-373 | without the zero-key guard, `skiplist_last` is the greatest key of the map on every valid skiplist, or `HEAD_KEY` for an empty map |
| SyncSkiplist.PrevRefines | src/utils/sync/skiplist.c:375-394 | `skiplist_prev` returns the node of the greatest smaller key with its value, and the head node when there is none |
| SyncSkiplist.IsEmptyIgnoresBottom | src/utils/sync/skiplist.c:396-400 | as written, emptiness is read from the head's level count: a one-key single-level skiplist reports empty and an empty two-level one does not |
| SyncSkiplist.IsEmptyFixedRefines | src/utils/sync/skiplist.c:396-400 | testing the bottom level reports empty exactly when the map is empty |
| SyncHashtable.Init | src/utils/sync/hashtable.c:7-22 | a new table has no entries, `last_el` key 0 and `max_bck_num` 0 |
| SyncHashtable.Insert | src/utils/sync/hashtable.c:24-45 | the entry is prepended to its slot, other slots are unchanged, `last_el` follows the greatest key, and `max_bck_num` is the key's bucket truncated to `u8` |
| SyncHashtable.InsertRefines | src/utils/sync/hashtable.c:24-45 | insertion maps the key to the new value, since the newest entry of a slot wins, and keeps the table free of duplicate keys when the key was absent |
| SyncHashtable.FindRefines | src/utils/sync/hashtable.c:66-79 | on a valid table, `hashtable_find_node` finds an entry exactly for the keys of the union of the slot maps, with that map's value; each slot map is read from the list's tail, newer entries overriding older ones |
| SyncHashtable.RemoveRefines | src/utils/sync/hashtable.c:110-118 | removing a present key from a duplicate-free table removes exactly that key and keeps the table duplicate free |
| SyncHashtable.RemoveUncoversOlderValue | src/utils/sync/hashtable.c:39-116 | inserting a key twice and removing it once brings back the first value, because only the first entry is unlinked |
| SyncHashtable.IsEmptyRefines | src/utils/sync/hashtable.c:120-124 | `hashtable_is_empty` holds exactly when the map is empty |
| SyncHashtable.Prev | src/utils/sync/hashtable.c:81-108 | the result is at most the key, non-zero, and taken from the key's own slot or the fallback slot |
| SyncHashtable.PrevFromOwnSlot | src/utils/sync/hashtable.c:88-91 | when the key's own slot holds a smaller non-zero key, the result is the greatest such key of that slot |
| SyncHashtable.PrevNoneMeansBothSlotsEmpty | src/utils/sync/hashtable.c:93-103 | NULL means neither the own slot nor the fallback slot holds a non-zero key at or below the key |
| SyncHashtable.PrevSound | src/utils/sync/hashtable.c:81-108 | for an absent key, a result is never greater than the true greatest smaller key |
| SyncHashtable.PrevInMap | src/utils/sync/hashtable.c:81-108 | a result is a live entry of the map, with its current value, at or below the key |
| SyncHashtable.PrevMissesEarlierBucket | src/utils/sync/hashtable.c:96 | as written, with keys 100 and 5000 the search below 4500 finds nothing; the corrected search finds 100 |
| SyncHashtable.PrevSkipsSectorZero | src/utils/sync/hashtable.c:85-101 | as written, the zeroed element stands for "nothing found", so with key 0 alone the search from 3 returns NULL; the corrected search returns the sector-0 entry |
| SyncHashtable.PrevFixedIsPrevKey | src/utils/sync/hashtable.c:81-108 | for an unmapped sector, scanning buckets downwards from the key's bucket yields exactly the greatest smaller key and its value, sector 0 included, and nothing exactly when there is none |
| LfList.Init | src/utils/lock-free/lf_list.c:75-91 | a new list maps nothing, has `size` 1 and an empty removed stack |
| LfList.AddToRemovedStack | src/utils/lock-free/lf_list.c:27-49 | the node ends up on top of the removed stack; it is not pushed again when it is already on top |
| LfList.Walk | src/utils/lock-free/lf_list.c:188-246 | the search window: an unmarked left node below the key, and a right node that is the first unmarked node at or above it, with only marked nodes between |
| LfList.LookupRight | src/utils/lock-free/lf_list.c:175-280 | the right node is the live node of the smallest key at or above the search key, or the tail exactly when every key is smaller |
| LfList.LookupLeft | src/utils/lock-free/lf_list.c:175-280 | the left node is the live node of the greatest key below the search key, or the head exactly when no key is smaller |
| LfList.LookupRefines | src/utils/lock-free/lf_list.c:175-280 | unlinking marked nodes during the lookup keeps the list valid and does not change the map |
| LfList.ZeroNotLive | src/utils/lock-free/lf_list.c:183-186 | key 0 is reserved for the head and never maps to a value |
| LfList.AddRefines | src/utils/lock-free/lf_list.c:282-310 | adding key 0 or a present key changes nothing and returns NULL; a new key is mapped to its value |
| LfList.RemoveRefines | src/utils/lock-free/lf_list.c:312-344 | removal succeeds exactly for a present key, removes exactly that key, and pushes the node on the removed stack |
| LfList.SizeCountsKeys | src/utils/lock-free/lf_list.c:88-338 | `size` is always one more than the number of live keys |
| LfHashtable.Init | src/utils/lock-free/hashtable.c:18-53 | every bucket holds an empty lock-free list, and no `last_el` is recorded |
| LfHashtable.InitRefines | src/utils/lock-free/hashtable.c:18-53 | a new table is valid and maps nothing |
| LfHashtable.InsertRefines | src/utils/lock-free/hashtable.c:55-84 | a new non-zero key is mapped to its value; key 0 and present keys change nothing |
| LfHashtable.InsertTracksMax | src/utils/lock-free/hashtable.c:76-81 | insertion keeps `last_el` on the greatest key of the map |
| LfHashtable.FindRefines | src/utils/lock-free/hashtable.c:105-128 | `hashtable_find_node` returns a node exactly for the keys of the map, holding the map's value |
| LfHashtable.FindTailKey | src/utils/lock-free/hashtable.c:120-127 | searching for the tail's key returns the tail sentinel rather than NULL |
| LfHashtable.PrevSound | src/utils/lock-free/hashtable.c:130-153 | a returned node is a live entry below the key and never greater than the true greatest smaller key |
| LfHashtable.PrevMissesEarlierBucket | src/utils/lock-free/hashtable.c:136-145 | as written, with keys 100 and 5000 the search below 4500 ends on a slot head although 100 is smaller; the corrected search finds 100 |
| LfHashtable.PrevFixedIsPrevKey | src/utils/lock-free/hashtable.h:93-103 | scanning the buckets downwards from the key's own yields exactly the greatest smaller key with its value, and nothing exactly when no key is smaller |
| LfHashtable.PrevFromOwnSlot | src/utils/lock-free/hashtable.c:130-153 | when the key's own slot holds a smaller key, the result is the greatest such key of that slot |
| LfHashtable.RemoveRefines | src/utils/lock-free/hashtable.c:155-172 | removal keeps the table valid and removes exactly that key |
| LfHashtable.RemoveKeepsStaleLastEl | src/utils/lock-free/hashtable.c:170 | removing the greatest key leaves `last_el` on the removed key |
| LfHashtable.RemoveFixedTracksMax | src/utils/lock-free/hashtable.c:155-172 | removal that recomputes `last_el` keeps it on the greatest remaining key |
| LfHashtable.IsEmptyNeverHolds | src/utils/lock-free/hashtable.c:174-186 | as written, no valid table is ever reported empty, because every list starts with `size` 1 |
| LfHashtable.IsEmptyFixedRefines | src/utils/lock-free/hashtable.c:174-186 | counting live keys reports empty exactly when the map is empty |
| LfSkiplist.RandomLevels | src/utils/lock-free/skiplist.c:24-40 | the height is between 1 and `MAX_LVL`; the maximal level grows by one exactly when half the trailing zeros of the random word exceed it, and then the new node takes that level |
| LfSkiplist.Init | src/utils/lock-free/skiplist.c:66-81 | a new skiplist is valid, maps nothing and has last key 0 |
| LfSkiplist.IsEmptyRefines | src/utils/lock-free/skiplist.c:98-101 | `skiplist_is_empty` holds exactly when the map is empty |
| LfSkiplist.FindNodeRefines | src/utils/lock-free/skiplist.c:112-222 | with a true key comparison, the search finds a node exactly for the keys of the map, holding the map's value |
| LfSkiplist.AsWrittenFindsOtherKey | src/utils/lock-free/skiplist.c:179 | as written, the difference of 2^32+1 and 1 truncates to 0, so the search for key 1 returns the node of key 2^32+1 |
| LfSkiplist.AsWrittenPassesLargerKey | src/utils/lock-free/skiplist.c:179 | as written, a difference of 2^31 truncates to a negative `int`, so the search walks past a larger key |
| LfSkiplist.FindPredsAgree | src/utils/lock-free/skiplist.c:112-222 | for keys below 2^31 the truncating comparison gives the same predecessors and search result as the true one |
| LfSkiplist.LastBoundsKeys | src/utils/lock-free/skiplist.c:229-232 | `skiplist_last` is at least every key of the map |
| LfSkiplist.Insert | src/utils/lock-free/skiplist.c:259-389 | the last key becomes the larger of the old last key and the new key, and the maximal level grows by at most one |
| LfSkiplist.InsertRefines | src/utils/lock-free/skiplist.c:234-389 | insertion maps the key to the value, updating a present key in place, and returns the previous value |
| LfSkiplist.InsertAgrees | src/utils/lock-free/skiplist.c:279 | for keys below 2^31 the insertion as written equals the corrected one |
| LfSkiplist.AsWrittenInsertOverwrites | src/utils/lock-free/skiplist.c:279-285 | as written, inserting key 1 next to key 2^32+1 overwrites the other key's value and never adds key 1 |
| LfSkiplist.RemoveRefines | src/utils/lock-free/skiplist.c:391-441 | removal keeps the skiplist valid and removes exactly that key |
| LfSkiplist.RemoveAgrees | src/utils/lock-free/skiplist.c:400 | for keys below 2^31 the removal as written equals the corrected one |
| LfSkiplist.AsWrittenRemoveDeletesOther | src/utils/lock-free/skiplist.c:400 | as written, removing the absent key 1 deletes key 2^32+1 |
| LfSkiplist.LastSurvivesRemove | src/utils/lock-free/skiplist.c:274-275 | removing the greatest key leaves `last_key` on the removed key |
| LfSkiplist.PrevRefines | src/utils/lock-free/skiplist.c:442-466 | `skiplist_prev` returns the node of the greatest smaller key with its value, and NULL exactly when there is none |
| BtreeUtils.LongCmpZero | src/utils/lock-free/btree_utils.c:12-23 | `longcmp` is 0 exactly when the first `n` words agree |
| BtreeUtils.LongCmpLess | src/utils/lock-free/btree_utils.c:12-23 | `longcmp` is -1 exactly when the first differing word of the first `n` is smaller in the first argument |
| BtreeUtils.LongCmpAntisymmetric | src/utils/lock-free/btree_utils.c:12-23 | swapping the arguments negates the comparison |
| BtreeUtils.LongCmpTransitive | src/utils/lock-free/btree_utils.c:12-23 | the comparison is transitive |
| BtreeUtils.LongCpy | src/utils/lock-free/btree_utils.c:25-32 | the first `n` words are copied from the source and the rest of the destination is kept |
| BtreeUtils.LongCpyCompares | src/utils/lock-free/btree_utils.c:25-32 | after the copy, the destination compares equal to the source |
| BtreeUtils.KeyZero | src/utils/lock-free/btree_utils.c:57-66 | `keyzero` is 1 exactly when every key word is zero |
| BtreeUtils.DecKeyValue | src/utils/lock-free/btree_utils.c:44-55 | on a non-zero key, `dec_key` subtracts one from the key read as a big-endian number of 64-bit words |
| BtreeUtils.KeyFits | src/utils/lock-free/btree_utils.c:34-37 | the key of every slot below `no_pairs` lies inside the key area |
| BtreeUtils.LastNoRepIsLeafMax | src/utils/lock-free/btree_utils.c:73-85 | `btree_last_no_rep` is at least the first word of every key of the leftmost leaf, the leaf holding the greatest keys |
| BtreeUtils.FirstAtMostIsGreatest | src/utils/lock-free/btree_utils.c:150-175 | on a node in descending key order, the first slot at or below the key holds the greatest such key |
| BtreeUtils.GetPrevNoRep | src/utils/lock-free/btree_utils.c:137-184 | a zero key or an empty tree gives NULL; a hit returns a value and the slot's key; a miss leaves the caller's previous key untouched, since `prev_key = NULL` at line 182 only clears the local parameter |
| BtreeUtils.GetPrevNoRepFindsGreatest | src/utils/lock-free/btree_utils.c:137-184 | a hit returns the value of the greatest key of the reached leaf at or below the search key, and reports that key's first word |
| BtreeUtils.MissKeyIsBelow | src/utils/lock-free/btree_utils.c:150-181 | the retry key saved during the descent never exceeds the search key |
| BtreeUtils.GetNextStartValue | src/utils/lock-free/btree_utils.c:87-99 | `btree_get_next` gives NULL exactly for a zero key or an empty tree, and otherwise searches from the key minus one |
| BtreeUtils.NextScanLeavesKeyArea | src/utils/lock-free/btree_utils.c:103-120 | as written, the scan starts at slot `no_pairs`, whose key lies in the value area and whose value lies past the node; slot 0 is never compared |
| BtreeUtils.NextScanCorrectedCovers | src/utils/lock-free/btree_utils.c:103-120 | scanning from `no_pairs - 1` down to 0 visits every slot once, in key order, inside the node |
| DsControl.SelectType | src/utils/ds_control.c:31-88 | a name selects a type exactly when the type's code is a prefix of it, compared with `strncmp` over the code's length |
| DsControl.AvailableNamesSelect | src/utils/ds_control.c:31-80 | each name the driver advertises selects its own type |
| DsControl.LongerNameSelects | src/utils/ds_control.c:31 | a longer name such as "btree" selects the B+tree although it is not advertised |
| DsControl.DsInit | src/utils/ds_control.c:16-96 | an unknown name gives -1 and leaves the state alone; a failing backend constructor passes its status through; success stores the built backend under the selected type and touches nothing else |
| DsControl.DsLookup | src/utils/ds_control.c:122-157 | the dispatcher returns the backend's value exactly when the backend found a node |
| DsControl.LookupSyncSkiplist | src/utils/ds_control.c:140-144 | through the dispatcher and `skiplist_find_node` as written, a lookup in a sync skiplist without a key-0 node is a lookup in its map; with the zero-key guard dropped it is on every valid skiplist |
| DsControl.LookupLfSkiplist | src/utils/ds_control.c:140-144 | through the dispatcher, a lookup in the lock-free skiplist is a lookup in its map, for keys below 2^31 |
| DsControl.DsPrev | src/utils/ds_control.c:240-277 | a node with a value gives that value and a NULL node gives NULL; as written, a node whose value is NULL (a head sentinel) from the skiplist, hash table or red-black tree reaches `BUG()` |
| DsControl.PrevSyncSkiplist | src/utils/ds_control.c:259-276 | through the dispatcher, the sync skiplist's prev is the value of the greatest smaller key; below every key, the code as written crashes and the corrected code returns NULL |
| DsControl.PrevBelowEveryKeyCrashes | src/utils/ds_control.c:259-276 | a read below the only key of a sync skiplist reaches `BUG()` |
| DsControl.PrevLfSkiplist | src/utils/ds_control.c:259-263 | through the dispatcher, the lock-free skiplist's prev is the value of the greatest smaller key, or NULL |
| DsControl.PrevLfHashtableCrashes | src/utils/ds_control.c:264-276 | with keys 100 and 5000, the lock-free hash table hands back a slot head for 4500, so the dispatcher as written reaches `BUG()` although 100 is smaller; corrected, it returns 100's value |
| DsControl.PrevLfHashtableFixed | src/utils/ds_control.c:264-268 | with the corrected search, the dispatcher returns the value of the greatest smaller key, and NULL exactly when no key is smaller |
| DsControl.DsInsert | src/utils/ds_control.c:182-203 | the selected backend is replaced and the others are kept; only the B+tree's status is returned, every other backend gives 0 |
| DsControl.InsertThenLookup | src/utils/ds_control.c:192-202 | after inserting into the lock-free skiplist, looking the key up gives the inserted value |
| DsControl.DsRemove | src/utils/ds_control.c:159-180 | the selected backend is replaced and the others are kept |
| DsControl.RemoveThenLookup | src/utils/ds_control.c:159-180 | after removing from the lock-free skiplist, the key is gone and every other key looks up as before |
| DsControl.LastLfSkiplist | src/utils/ds_control.c:222-223 | through the dispatcher, the lock-free skiplist's last key bounds every key of the map |
| DsControl.LastSyncSkiplist | src/utils/ds_control.c:222-223 | through the dispatcher, on a sync skiplist without a key-0 node, the last key is the greatest key of the map, or 0 |
| DsControl.LastSyncSkiplistFixed | src/utils/ds_control.c:222-223 | with the zero-key guard of `skiplist_last` dropped, the dispatcher's last key is the greatest key of the map, or 0, on every valid sync skiplist |
| DsControl.EmptyCheckLfHashtable | src/utils/ds_control.c:279-292 | through the dispatcher, the lock-free hash table is never reported empty |
| DsControl.EmptyCheckLfSkiplist | src/utils/ds_control.c:279-292 | through the dispatcher, the lock-free skiplist is reported empty exactly when its map is empty |
| Driver.ConvertToInt | src/main.c:56-68 | status 0 exactly for a parsed number in 0..255, which is stored; `-EINVAL` for text that is not a number; `-ERANGE` otherwise; on failure the old result is kept |
| Driver.CheckAvailableDs | src/main.c:617-629 | 0 exactly when the name is one of the advertised structures, else -1 |
| Driver.GetListElementByIndex | src/main.c:42-54 | the device at that position of the list, or NULL past its end |
| Driver.CreateDiskName | src/main.c:464-474 | the name is "lsvbd" followed by the decimal index, in a buffer one byte longer than the name |
| Driver.DiskNamesDistinct | src/main.c:464-474 | different indices give different disk names |
| Driver.Init | src/main.c:19 | the driver starts with an empty map and `next_free_sector` at 32 |
| Driver.Write | src/main.c:94-151 | a failed allocation gives `-ENOMEM` and no change; otherwise the sector is mapped to the current free sector, other keys are kept, and the free sector advances only for a sector not mapped before; a failed insert after the old entry's removal leaves the sector unmapped |
| Driver.WritePreservesValid | src/main.c:109-128 | every redirected sector stays between the offset and the next free sector |
| Driver.OverwriteSharesSector | src/main.c:123-128 | as written, rewriting a sector and then writing another maps both to sector 40, so two live blocks overlap |
| Driver.WriteFixed | src/main.c:123-128 | the corrected write always advances the free sector by the block's sectors |
| Driver.InitDisjoint | src/main.c:19 | the initial map has no overlapping blocks |
| Driver.WriteFixedPreservesDisjoint | src/main.c:94-151 | with the corrected write, no two mapped blocks ever share a backing sector |
| Driver.PassThroughFixedIffUncovered | src/main.c:204-223 | the corrected check passes a read through exactly when the sector lies above every key and outside the last key's block |
| Driver.ReadInsideFreshBlockPassesThrough | src/main.c:214-221 | as written, a read inside a block that was just written goes to the raw sector; the corrected check reads the block |
| Driver.Read | src/main.c:238-322 | a zero-size read is passed through; the `sectors` allocation failing gives `-ENOMEM`; an unmapped sector with nothing below it is passed through; a never-ending loop happens only on a mapped block of non-positive size |
| Driver.ReadFixed | src/main.c:238-322 | the corrected read agrees with the read as written on mapped sectors and differs only on the unmapped path |
| Driver.ReadAfterWrite | src/main.c:292-305 | reading back a block just written, at its sector and size, targets the written sectors in one piece |
| Driver.MappedReadCoversRequest | src/main.c:292-305 | a read starting at a mapped block is split into whole blocks plus a clone that together cover exactly the request, starting at the redirected sector |
| Driver.FixedReadInsideBlockCoversRequest | src/main.c:259-291 | a corrected read of an unmapped sector inside an earlier block starts at the matching redirected sector, and its pieces cover exactly the request |
| Driver.ReadInsideBlockRunsToBlockEnd | src/main.c:259-291 | as written, a read that ends inside the earlier block gets a clone running to that block's end |
| Driver.SplitStatusWraps | src/main.c:247-281 | as written, a 32768-byte first split wraps to -32768 in the `s16` status and fails the read; the corrected read serves it |
| Driver.ReadPastRequest | src/main.c:291 | as written, a 4 KiB read 4 KiB into a 16 KiB block is given a 12 KiB clone; the corrected read gives 4 KiB |
| Autotest.EvenDivisorSet | test/autotest.py:16-24 | the set of even divisors `d` of `n` with `2 <= d < n` |
| Autotest.GetEvenDivisors | test/autotest.py:16-24 | the loop up to the square root collects exactly the even divisors strictly between 1 and `n` |
| Autotest.OddSizeHasNoBlockSizes | test/autotest.py:16-24 | an odd file size yields no block sizes, so no trial runs |
| Autotest.SixtyFourKiB | test/autotest.py:16-24 | for a 64 KiB file, one of the suitable sizes of line 11, the block sizes include 2..32 KiB but neither 64 nor 6 |
| Autotest.BlockSizes | test/autotest.py:91 | a positive `--block_size_kb` is used alone; otherwise the even divisors of the file size |
| Autotest.BlockSizeList | test/autotest.py:91 | the sizes are iterated in some order, each size exactly once, all positive |
| Autotest.CompareFiles | test/autotest.py:56-67 | comparing in 4096-byte chunks answers "identical" exactly when the contents are equal |
| Autotest.CountBounds | test/autotest.py:79-80 | the `dd` count is the number of whole blocks in the file |
| Autotest.CountCoversFile | test/autotest.py:79-80 | for a block size dividing the file, the blocks cover the file exactly |
| Autotest.Trials | test/autotest.py:78-83 | every (write, read) pair of block sizes is tried once with its counts |
| Autotest.TrialCount | test/autotest.py:78 | there are `|ws| * |rs|` trials |
| Autotest.Failures | test/autotest.py:85-86 | the pair of every failing trial is recorded, only such pairs are, and there are no more entries than trials |
| Autotest.FailuresSnoc | test/autotest.py:78-86 | one more trial keeps the earlier record and appends its pair exactly when it fails, so the pairs appear in trial order, one per failing trial |
| Autotest.ProcessTestFile | test/autotest.py:76-86 | earlier errors are kept, and a pair is appended exactly when its trial fails |
| Autotest.AllPassRecordsNothing | test/autotest.py:85-86 | when every comparison succeeds, no error is recorded |
| Autotest.FileNamesDistinct | test/autotest.py:136-139 | input and output names differ, and different file numbers give different names (the same naming as line 51) |
| Autotest.RunTests | test/autotest.py:88-141 | the test counter grows by the number of files; file `i` gets its numbered names; every recorded error is a pair of used block sizes; with all comparisons passing, no error is recorded |
| ConfigParsers.Assign | test/config_parsers.py:24 | the dictionary holds the old keys and every assigned key |
| ConfigParsers.AssignLastWins | test/config_parsers.py:24 | a key's value is the one of its last assignment |
| ConfigParsers.AssignUntouched | test/config_parsers.py:24 | a key that is not assigned keeps its value |
| ConfigParsers.SearchValue | test/config_parsers.py:18 | the `=\s*["']?([^"']+)["']?` search captures a non-empty quote-free value, and fails exactly when no `=` is followed by one |
| ConfigParsers.QuotedValue | test/config_parsers.py:18 | `NAME="value"` captures the value |
| ConfigParsers.UnquotedValue | test/config_parsers.py:18 | `NAME = value` captures the value after the spaces |
| ConfigParsers.ItemEntry | test/config_parsers.py:22-24 | an item gives an entry exactly when it holds a colon |
| ConfigParsers.ItemEntrySplitsAtFirstColon | test/config_parsers.py:23-24 | only the first colon splits; both halves are stripped |
| ConfigParsers.LoadDsMapping | test/config_parsers.py:6-27 | a missing file gives the empty mapping; otherwise the keys are those the `PY_PL_NEW_DS` lines assign |
| ConfigParsers.LoadDsMappingNextLine | test/config_parsers.py:15-24 | each line updates the mapping built so far; a line without `PY_PL_NEW_DS` leaves it alone |
| ConfigParsers.NewDsLine | test/config_parsers.py:16-24 | a `PY_PL_NEW_DS="..."` line contributes the colon items of its comma-separated value |
| ConfigParsers.IdsOf | test/config_parsers.py:42 | the ids are the non-empty stripped parts |
| ConfigParsers.GetDsNamesFromCfg | test/config_parsers.py:30-44 | a missing file raises `FileNotFoundError`, since the `open` is unguarded; otherwise the result holds non-empty stripped ids, and is empty when no line names `PY_PL_DS_TO_PLOT` |
| ConfigParsers.GetDsNamesFirstLine | test/config_parsers.py:36-43 | the first line that yields ids decides |
| ConfigParsers.DsNamesRoundTrip | test/config_parsers.py:30-44 | writing clean ids as `PY_PL_DS_TO_PLOT="a,b,c"` and parsing gives them back |
| ConfigParsers.ParsePlotTitles | test/config_parsers.py:47-78 | only the seven title variables are recorded |
| ConfigParsers.ParsePlotTitlesNextLine | test/config_parsers.py:71-76 | each line overrides what earlier lines set for its variable |
| ConfigParsers.TitleLineQuoted | test/config_parsers.py:64-76 | `NAME="value"` and `#NAME="value"` record the value under a listed name |
| ConfigParsers.QuotedTitleValue | test/config_parsers.py:65 | the lazy value group drops exactly the two surrounding quotes |
| ConfigParsers.MatchesAtIsWord | test/config_parsers.py:65 | a listed name matches exactly when it is the whole word before the `=` |
| ConfigParsers.DoubleHashIgnored | test/config_parsers.py:65 | a line starting with two `#` records nothing |
| GeneralConcPlots.CaseInsensitive | test/general_conc_plots.py:79 | upper and lower case give the same sort key |
| GeneralConcPlots.KibiAndMebi | test/general_conc_plots.py:73-89 | "<n>k", "<n>K" and "<n>kb" are `n` KiB; "<n>m" and "<n>MB" are `n` MiB |
| GeneralConcPlots.BareNumber | test/general_conc_plots.py:87-89 | a bare number is its own key |
| GeneralConcPlots.LargeUnits | test/general_conc_plots.py:86-88 | `g`, `t` and `p` fall back to the multiplier 1 |
| GeneralConcPlots.KibiBelowMebi | test/general_conc_plots.py:73-89 | KiB sizes sort below MiB sizes exactly when they are fewer bytes |
| GeneralConcPlots.FormattedNamesDistinct | test/general_conc_plots.py:92-105 | each structure code has its own label, and any other code is "unknown" |
| GeneralConcPlots.GetMetric | test/general_conc_plots.py:107-112 | only "iops" and "lat" name a metric column |
| GeneralConcPlots.MetricColumnExists | test/general_conc_plots.py:12-43 | the column `get_metric` (lines 107-112) picks is among the column names of that metric's file |
| TpIopsPlots.PathsSeparateRuns | test/tp_iops_plots.py:34-36 | the four flag combinations write to four directories under `./plots/avg/`, and the device is `nullb0` exactly for raw runs |
| TpIopsPlots.ModeFiltersAgree | test/tp_iops_plots.py:453-456 | the concurrent mode filter and the per-plot one at line 182 pick the same mode, which is `tp` exactly under `--tp` |
| TpIopsPlots.FilterMode | test/tp_iops_plots.py:183 | the kept rows are exactly those of the mode |
| TpIopsPlots.FilterModeKeepsOrder | test/tp_iops_plots.py:183 | filtering keeps the rows' relative order |
| TpIopsPlots.UnitIgnored | test/tp_iops_plots.py:44-56 | as written, the unit is read and then dropped: "<n>", "<n>k" and "<n>m" all give `n * 1024` |
| TpIopsPlots.MegabyteSortsBeforeKilobytes | test/tp_iops_plots.py:56 | as written, "1m" sorts before "4k" |
| TpIopsPlots.CorrectedKeyOrdersBytes | test/tp_iops_plots.py:44-56 | with the byte count the documentation promises, KiB sizes sort below MiB sizes exactly when they are fewer bytes |
| TpIopsPlots.KilobytesSortBeforeMegabyte | test/tp_iops_plots.py:44-56 | with the corrected key, "4k" sorts before "1m" |
| TpIopsPlots.SafeNameHasNoSlash | test/tp_iops_plots.py:157-158 | a sanitised fragment holds no `/`, keeps its length and keeps every other character |

## Left out

- Concurrency is left out. Every lock-free structure is modelled single-threaded, so CAS retries, RCU and the spinlocks of the sync backends have no counterpart. A failed CAS is a retry that ends in the same state as the successful one.
- Kernel memory management is left out: `kmem_cache` allocation and freeing, the removed-node stacks' reclamation, `*_free`, `ds_free` and the `kfree(ds)` on `ds_init`'s error path. Allocation failure is a boolean parameter wherever the code checks it.
- I/O is left out: bio submission and completion, `dd`, `subprocess`, file creation with random bytes, pandas and matplotlib. File contents are sequences, `dd` outcomes are a `passes` predicate, and plot data are rows.
- Randomness is a parameter: the coin flips of `get_random_lvl`, the word of `random_levels` and the file sizes `random.choice` picks.
- `hash_min` is a function parameter. `BUCKET_NUM` is `key / CHUNK_SIZE` with `CHUNK_SIZE` 2048, as in the hash-table headers.
- The kernel's B+tree and red-black tree libraries are not part of this model. Their answers reach `DsControl` as parameters; only `btree_utils.c` is modelled.
- Module parameter callbacks (`lsbdd_set_*`, `lsbdd_get_*`, `lsbdd_delete_bd`), `create_bd`, `delete_bd`, `lsbdd_init` and `lsbdd_exit` are not modelled beyond the helpers they call. They register devices and parse strings with kernel APIs.
- `setup_bio_split` (src/main.c:165-181) never fails in the model, although `bio_split` can and the function then returns -1 (line 170). Only the status-width failure of the split loop is modelled.
- BtreeUtils.GetNextStartValue: the value `btree_get_next` returns after its descent and retry is not modelled. The scan starts at slot `no_pairs`, outside the key area (`NextScanLeavesKeyArea`), so the result depends on memory past the node, and the retry jump may not terminate.
- LfSkiplist.RandomLevels: requires a non-zero random word, because `__builtin_ctz(0)` is undefined in C (src/utils/lock-free/skiplist.c:28).
- LfHashtable.PrevSound: requires `key != 0`. `lf_list_lookup` returns NULL for key 0, and `hashtable_prev` then dereferences that NULL node (src/utils/lock-free/hashtable.c:141-145). The contract states soundness only, because the single fallback bucket misses smaller keys in lower buckets; `PrevMissesEarlierBucket` exhibits the miss and `PrevFixedIsPrevKey` proves the corrected search.
- SyncHashtable.RemoveRefines: requires the key to be present. `hashtable_remove` dereferences the result of its lookup without a check (src/utils/sync/hashtable.c:116).
- SyncHashtable.Prev: the `kzalloc` of the zero sentinel and its failure are not modelled.
- SyncSkiplist.PrevRefines: the walk is modelled on keys, and `PrevRefines` holds for valid lists only. On a list that the as-written `Remove` left with a stale upper copy, `skiplist_prev` follows that copy's `lower` pointer to the unlinked bottom node and its old `next` (src/utils/sync/skiplist.c:375-394), and so can hand back the removed node with its old value. The model does not follow those pointers: it returns the head there, and the read path built on it does not show the C's answer.
- Driver.Write: the insert status is an unbounded integer. `setup_write_in_clone_segments` stores the `s32` from `ds_insert` (src/utils/ds_control.c:182) in an `s8` (src/main.c:96), so a status outside -128..127 would wrap. Only the B+tree returns a non-zero status, and the kernel's error codes fit.
- Driver.Read: reads go through the abstract map (`PrevKey`, `LastKey`). `ds_last` returns a `sector_t` that `check_system_bio` dereferences as a pointer (src/utils/ds_control.c:205, src/main.c:214-217); the model reads the last entry's value instead. The `BUG()` of `ds_prev` on a head sentinel is not threaded through the read path, which treats that case as "nothing below"; it is proved separately for the sync skiplist (`DsControl.PrevBelowEveryKeyCrashes`) and the lock-free hash table (`DsControl.PrevLfHashtableCrashes`). Nor are the key-0 gaps of the sync skiplist's search and `skiplist_last` or of the sync hash table's `hashtable_prev`; each has its own Findings row.
- DsControl.InsertThenLookup: proved only for keys below 2^31. Above that, the truncating key comparison of the lock-free skiplist breaks the round trip (`LfSkiplist.AsWrittenInsertOverwrites`).
- DsControl.RemoveThenLookup: proved only for keys below 2^31, for the same reason (`LfSkiplist.AsWrittenRemoveDeletesOther`).
- DsControl.LookupLfSkiplist: proved only for keys below 2^31, for the same reason (`LfSkiplist.AsWrittenFindsOtherKey`).
- `lf_list_lookup` gives up with NULL after `MAX_LOOKUP_RETRIES` restarts (src/utils/lock-free/lf_list.c:190-193). Restarts come from concurrent changes, so the single-threaded model never reaches that limit.
- LfSkiplist.RemoveRefines: the unlinking pass of `skiplist_remove` is modelled as removing the whole tower at once; marking level by level matters only under concurrency.
- Autotest.GetEvenDivisors: the loop bound is the exact integer square root; `int(n**0.5)` is a floating-point root and is exact only for the sizes the script uses.
- Text: `strip` and `split` whitespace is ASCII whitespace only; Python's Unicode whitespace is not modelled. `Lower` folds only `A`-`Z`, and the digits of the block-size pattern are `0`-`9` only, whereas `str.lower()`, `\d` and `int()` in test/general_conc_plots.py:78-82 are Unicode-aware; strings are sequences of characters without that case table.
- GeneralConcPlots.CaseInsensitive: states case insensitivity for ASCII letters only. Non-ASCII letters, which `str.lower()` folds too, and non-ASCII digits, which `\d` accepts, are outside the model.
- SyncSkiplist.LastRefines: requires a skiplist without a key-0 node, because `skiplist_last` as written stops before such a node (src/utils/sync/skiplist.c:369); `ZeroKeyHidesLast` exhibits this and `LastFixedRefines` proves the corrected walk on every valid skiplist.
- DsControl.LastSyncSkiplist: requires a skiplist without a key-0 node for the same reason; `LastSyncSkiplistFixed` covers every valid skiplist with the corrected walk.
- The merge-conflict branch of `run_tests` (test/autotest.py:93-135) is not modelled; the model follows the other branch (lines 137-141).

## Findings

| source | as written | input that shows it | evidently intended | confidence | as-written member | corrected member |
|---|---|---|---|---|---|---|
| src/main.c:123-128 | a rewrite of a mapped sector takes `next_free_sector` without advancing it | write 4 KiB at sector 100 twice, then at sector 200: both blocks map to sector 40 | every write reserves its own sectors | high, not executed | Driver.OverwriteSharesSector | Driver.WriteFixedPreservesDisjoint |
| src/main.c:247 | the split status is an `s16` holding a byte count | 64 KiB blocks at sectors 0 and 128, a 96 KiB read at sector 64: the first split of 32768 bytes reads as -32768 and fails | keep the status as `s32` | high, not executed | Driver.SplitStatusWraps | Driver.FixedReadInsideBlockCoversRequest |
| src/main.c:291 | a clone that ends inside the earlier block is sized to the block end | a 16 KiB block at sector 0, a 4 KiB read at sector 8: the clone is 12 KiB | size the clone to the request | high, not executed | Driver.ReadPastRequest | Driver.FixedReadInsideBlockCoversRequest |
| src/main.c:217 | `check_system_bio` compares the original sector with the last entry's redirected sector | an 8 KiB block at sector 100000, a read at sector 100008: passed through to the raw disk | compare with the end of the last block | medium, not executed | Driver.ReadInsideFreshBlockPassesThrough | Driver.PassThroughFixedIffUncovered |
| src/utils/sync/skiplist.c:342-346 | removal unlinks the node only from the bottom level | key 5 on two levels, removed: still found, and re-inserting it is a no-op | unlink from every level | high, not executed | SyncSkiplist.RemoveLeavesUpperCopy | SyncSkiplist.RemoveFixedRefines |
| src/utils/sync/skiplist.c:399 | `skiplist_is_empty` tests whether the head has only one level, not whether the bottom level holds nodes | a single-level list holding key 5 reports empty | test the bottom level | high, not executed | SyncSkiplist.IsEmptyIgnoresBottom | SyncSkiplist.IsEmptyFixedRefines |
| src/utils/sync/skiplist.c:94 | the search never steps onto a node with key 0; it drops a level instead | nodes 0 and 5: key 5 is not found | skip only the head | medium, not executed | SyncSkiplist.ZeroKeyHidesLaterKeys | SyncSkiplist.FindNodeFixedRefines |
| src/utils/sync/skiplist.c:369 | `skiplist_last` stops before a node with key 0 | nodes 0 and 5: the last key is reported as 0 | stop only at the tail | medium, not executed | SyncSkiplist.ZeroKeyHidesLast | SyncSkiplist.LastFixedRefines |
| src/utils/lock-free/skiplist.c:179 | keys are compared through `u64` differences stored in an `int` | key 1 next to key 2^32+1: find returns the other node, insert overwrites it, remove deletes it | compare the keys | high, not executed | LfSkiplist.AsWrittenFindsOtherKey | LfSkiplist.FindNodeRefines |
| src/utils/lock-free/skiplist.c:279-285 | insert uses the same truncated comparison | key 1 next to key 2^32+1: the other key's value is overwritten | compare the keys | high, not executed | LfSkiplist.AsWrittenInsertOverwrites | LfSkiplist.InsertRefines |
| src/utils/lock-free/skiplist.c:400 | remove uses the same truncated comparison | removing absent key 1 next to key 2^32+1 deletes the other key | compare the keys | high, not executed | LfSkiplist.AsWrittenRemoveDeletesOther | LfSkiplist.RemoveRefines |
| src/utils/lock-free/hashtable.c:181 | a list counts as non-empty when `size > 0`, but an empty list has `size` 1 | a fresh table is not reported empty | test for live nodes | high, not executed | LfHashtable.IsEmptyNeverHolds | LfHashtable.IsEmptyFixedRefines |
| src/utils/lock-free/hashtable.c:170 | removal never updates `last_el` | insert keys 1 and 9, remove 9: `last_el` stays 9 | recompute `last_el` | high, not executed | LfHashtable.RemoveKeepsStaleLastEl | LfHashtable.RemoveFixedTracksMax |
| src/utils/sync/hashtable.c:96 | the fallback scans only the bucket `min(BUCKET_NUM - 1, max_bck_num)`, not every bucket below the key's | keys 100 and 5000, prev of 4500: NULL although 100 is smaller | scan the lower buckets downwards | high, not executed | SyncHashtable.PrevMissesEarlierBucket | SyncHashtable.PrevFixedIsPrevKey |
| src/utils/sync/hashtable.c:85-101 | the zeroed `kzalloc` element marks "nothing found", and only keys above its key 0 replace it | a block at sector 0 alone, prev of 3: NULL, so the read goes to the raw device | track "nothing found" apart from key 0 | medium, not executed | SyncHashtable.PrevSkipsSectorZero | SyncHashtable.PrevFixedIsPrevKey |
| src/utils/ds_control.c:276 | the sync skiplist answers "nothing below" with its head node, whose value is NULL, and that node reaches `BUG()`; a NULL node would return NULL | a sync skiplist holding key 8, prev of 5 | return NULL for "nothing below" | high, not executed | DsControl.PrevBelowEveryKeyCrashes | DsControl.PrevSyncSkiplist |
| src/utils/lock-free/hashtable.c:140 | the fallback searches only the slot of bucket `min(BUCKET_NUM - 1, max_bck_num)` and hands back that slot's head when it holds no smaller key | keys 100 and 5000, prev of 4500: a slot head, whose NULL value makes `ds_prev` reach `BUG()`, although 100 is smaller | scan the lower buckets downwards | high, not executed | LfHashtable.PrevMissesEarlierBucket | LfHashtable.PrevFixedIsPrevKey |
| src/utils/ds_control.c:265-276 | the lock-free hash table's head node falls through `CHECK_VALUE_AND_RETURN` into `BUG()` | keys 100 and 5000, prev of 4500 | search every lower bucket and return NULL for "nothing below" | high, not executed | DsControl.PrevLfHashtableCrashes | DsControl.PrevLfHashtableFixed |
| src/utils/lock-free/btree_utils.c:103 | the scan runs `i` from `no_pairs` down to 1 | any node: slot `no_pairs` is outside the key area, and slot 0 is never compared | run from `no_pairs - 1` down to 0 | high, not executed | BtreeUtils.NextScanLeavesKeyArea | BtreeUtils.NextScanCorrectedCovers |
| test/tp_iops_plots.py:55-56 | the sort key multiplies every number by 1024 and ignores the unit | "1m" sorts before "4k" | bytes, as the docstring says | high, not executed | TpIopsPlots.MegabyteSortsBeforeKilobytes | TpIopsPlots.KilobytesSortBeforeMegabyte |

=== FILE: autotest.dfy ===
/** The round-trip test driver (`test/autotest.py`): random files are
    written to the virtual device with one block size and read back with
    another, for every ordered pair of block sizes, and every pair whose
    read-back differs is recorded.

    The device, `dd` and the file system are outside the model: what a
    trial reads back is the parameter `passes`, and the comparison itself
    is `CompareFiles` over byte sequences. */
module Autotest {
  import opened Text

  type byte = bv8

  // ---------------------------------------------------------------------
  // get_even_divisors
  // ---------------------------------------------------------------------

  /** `d` is a block size `get_even_divisors(n)` is meant to offer: an
      even divisor of `n` from 2 up to `n / 2`. */
  predicate EvenDivisor(n: nat, d: nat) {
    2 <= d && d <= n / 2 && n % d == 0 && d % 2 == 0
  }

  function EvenDivisorSet(n: nat): (r: set<nat>)
    ensures forall d :: d in r <==> EvenDivisor(n, d)
  {
    set d | 2 <= d <= n / 2 && EvenDivisor(n, d)
  }

  /** `d * (n / d) == n` for a divisor, and the cofactor is a divisor
      whose cofactor is `d`. */
  lemma Cofactor(n: nat, d: nat)
    requires d > 0 && n % d == 0
    ensures d * (n / d) == n
    ensures n / d > 0 ==> n % (n / d) == 0 && n / (n / d) == d
  {
    var c := n / d;
    assert n == d * c + n % d;
    if c > 0 {
      assert n == c * d;
      DivOfProduct(c, d);
    }
  }

  lemma DivOfProduct(c: nat, d: nat)
    requires c > 0
    ensures (c * d) % c == 0 && (c * d) / c == d
  {
    var x := c * d;
    var q := x / c;
    var m := x % c;
    assert x == c * q + m;
    assert c * (d - q) == m by { assert c * d - c * q == c * (d - q); }
    if d - q >= 1 {
      AtLeastOnce(c, d - q);
    } else if d - q <= -1 {
      AtLeastOnce(c, q - d);
    }
  }

  lemma AtLeastOnce(a: nat, k: int)
    requires k >= 1
    ensures a * k >= a
  {
    assert a * k == a + a * (k - 1);
  }

  /** The divisor `i` found by the loop and its cofactor both qualify. */
  lemma LoopFinds(n: nat, i: nat)
    requires 2 <= i && i * i <= n && n % i == 0
    ensures i <= n / 2 && 2 <= n / i <= n / 2
    ensures n % (n / i) == 0 && n / (n / i) == i
  {
    Cofactor(n, i);
    var c := n / i;
    assert i * c == n;
    assert c >= i;
    assert n / 2 >= c by {
      assert n == i * c;
      assert i * c >= 2 * c by { MulMono(2, i, c); }
    }
    assert i <= c;
  }

  lemma MulMono(a: nat, b: nat, c: nat)
    requires a <= b
    ensures a * c <= b * c
  {
  }

  lemma MulBoth(i: nat, d: nat, c: nat)
    requires i <= d && i <= c
    ensures i * i <= d * c
  {
    MulMono(i, d, i);
    MulMono(i, c, d);
  }

  /** Past the square root, every qualifying divisor or its cofactor has
      been visited. */
  lemma PastRoot(n: nat, i: nat, d: nat)
    requires i * i > n && EvenDivisor(n, d)
    ensures d < i || n / d < i
  {
    Cofactor(n, d);
    var c := n / d;
    if d >= i && c >= i {
      MulBoth(i, d, c);
    }
  }

  /** `get_even_divisors(n)`: the loop runs `i` from 2 while `i * i <= n`
      (Python's `range(2, int(n**0.5) + 1)`, the square root taken as
      exact) and collects `i` and `n // i` when they are even divisors. */
  method GetEvenDivisors(n: nat) returns (divisors: set<nat>)
    ensures divisors == EvenDivisorSet(n)
  {
    divisors := {};
    var i := 2;
    while i * i <= n
      invariant 2 <= i <= n + 2
      invariant forall d: nat :: d in divisors <==> EvenDivisor(n, d) && (d < i || n / d < i)
      decreases n + 2 - i
    {
      if n % i == 0 {
        LoopFinds(n, i);
        if i % 2 == 0 {
          divisors := divisors + {i};
        }
        if (n / i) % 2 == 0 {
          divisors := divisors + {n / i};
        }
        forall d: nat | EvenDivisor(n, d) && n / d == i
          ensures d == n / i
        {
          Cofactor(n, d);
        }
      } else {
        forall d: nat | EvenDivisor(n, d) && n / d == i
          ensures false
        {
          Cofactor(n, d);
        }
      }
      assert i <= n by { MulMono(1, i, i); }
      i := i + 1;
    }
    forall d: nat | EvenDivisor(n, d) ensures d in divisors {
      PastRoot(n, i, d);
    }
  }

  /** An odd size has no even divisor, so the matrix is empty: 37 KiB
      files are never written at all. */
  lemma OddSizeHasNoBlockSizes(n: nat)
    requires n % 2 == 1
    ensures EvenDivisorSet(n) == {}
  {
    forall d: nat | EvenDivisor(n, d) ensures false {
      Cofactor(n, d);
      var c := n / d;
      var h := d / 2;
      assert d == 2 * h;
      assert n == 2 * (h * c) by { assert d * c == 2 * h * c; }
      DivOfProduct(2, h * c);
    }
  }

  /** The sizes a 64 KiB file is tested with. */
  lemma SixtyFourKiB()
    ensures {2, 4, 8, 16, 32} <= EvenDivisorSet(64)
    ensures 64 !in EvenDivisorSet(64) && 6 !in EvenDivisorSet(64)
  {
    assert EvenDivisor(64, 2) && EvenDivisor(64, 4) && EvenDivisor(64, 8);
    assert EvenDivisor(64, 16) && EvenDivisor(64, 32);
  }

  /** The block sizes of `run_tests`: the one given on the command line
      when it is positive, else the even divisors of the file size. */
  function BlockSizes(blockSizeKb: int, fileSizeKb: nat): (r: set<nat>)
    ensures blockSizeKb > 0 ==> r == {blockSizeKb as nat}
    ensures blockSizeKb <= 0 ==> r == EvenDivisorSet(fileSizeKb)
    ensures forall d | d in r :: d > 0
  {
    if blockSizeKb > 0 then {blockSizeKb as nat} else EvenDivisorSet(fileSizeKb)
  }

  /** `order` lists the set `s` once each: the order in which Python
      happens to iterate a set, which the model leaves open. */
  predicate Lists(order: seq<nat>, s: set<nat>) {
    (forall k | 0 <= k < |order| :: order[k] in s)
    && (forall d | d in s :: d in order)
    && (forall i, j | 0 <= i < j < |order| :: order[i] != order[j])
  }

  /** `block_sizes` as `run_tests` iterates it: the one-element list, or
      the even divisors in the set's iteration order `order`.  Either way
      it lists exactly `BlockSizes`, each size once. */
  function BlockSizeList(blockSizeKb: int, fileSizeKb: nat, order: seq<nat>): (r: seq<nat>)
    requires blockSizeKb <= 0 ==> Lists(order, EvenDivisorSet(fileSizeKb))
    ensures Lists(r, BlockSizes(blockSizeKb, fileSizeKb))
    ensures forall k | 0 <= k < |r| :: r[k] > 0
  {
    if blockSizeKb > 0 then [blockSizeKb as nat] else order
  }

  // ---------------------------------------------------------------------
  // compare_files
  // ---------------------------------------------------------------------

  const CHUNK: nat := 4096

  function Min(a: nat, b: nat): nat {
    if a <= b then a else b
  }

  /** `compare_files`: reads both files in 4096-byte chunks and stops at
      the first pair of chunks that differ, or when the first file is
      exhausted with both chunks empty. */
  method CompareFiles(a: seq<byte>, b: seq<byte>) returns (same: bool)
    ensures same <==> a == b
  {
    var pos := 0;
    while true
      invariant pos <= |a| && pos <= |b| && a[..pos] == b[..pos]
      decreases |a| - pos
    {
      var c1 := a[pos..Min(pos + CHUNK, |a|)];
      var c2 := b[pos..Min(pos + CHUNK, |b|)];
      if c1 != c2 {
        return false;
      }
      if |c1| == 0 {
        assert a == a[..pos] && b == b[..pos];
        return true;
      }
      assert a[..pos + |c1|] == a[..pos] + c1;
      assert b[..pos + |c1|] == b[..pos] + c2;
      pos := pos + |c1|;
    }
  }

  // ---------------------------------------------------------------------
  // process_test_file
  // ---------------------------------------------------------------------

  /** The `dd` counts: whole blocks of `bs` KiB in the file. */
  function Count(fileSize: nat, bs: nat): nat
    requires bs > 0
  {
    DivOfNats(fileSize, 1024 * bs);
    fileSize / (1024 * bs)
  }

  lemma DivOfNats(a: nat, b: nat)
    requires b > 0
    ensures a / b >= 0
  {
    var q := a / b;
    assert a == b * q + a % b;
    if q < 0 {
      NegativeMultiple(b, q);
    }
  }

  lemma NegativeMultiple(b: int, q: int)
    requires b >= 0 && q <= -1
    ensures b * q <= -b
  {
    AtLeastOnce(b, -q);
    assert b * q == -(b * (-q));
  }

  /** The blocks `dd` copies never exceed the file, and miss less than one
      block of it. */
  lemma CountBounds(fileSize: nat, bs: nat)
    requires bs > 0
    ensures Count(fileSize, bs) * (bs * 1024) <= fileSize < (Count(fileSize, bs) + 1) * (bs * 1024)
  {
    var b := bs * 1024;
    var q := fileSize / b;
    assert fileSize == q * b + fileSize % b;
    assert (q + 1) * b == q * b + b;
  }

  /** When the block size divides the size in KiB, `dd` copies the whole
      file. */
  lemma CountCoversFile(sizeKb: nat, bs: nat)
    requires bs > 0 && sizeKb % bs == 0
    ensures Count(sizeKb * 1024, bs) * (bs * 1024) == sizeKb * 1024
  {
    var k := sizeKb / bs;
    assert sizeKb == k * bs;
    assert sizeKb * 1024 == k * (bs * 1024);
    DivOfProduct(bs * 1024, k);
    assert (k * (bs * 1024)) / (bs * 1024) == k by {
      assert k * (bs * 1024) == (bs * 1024) * k;
    }
  }

  /** One `dd` write followed by one `dd` read. */
  datatype Trial = Trial(writeBs: nat, readBs: nat, writeCount: nat, readCount: nat)

  /** The trials with write size `w` and every read size, in order. */
  function Row(fileSize: nat, w: nat, rs: seq<nat>): (r: seq<Trial>)
    requires w > 0 && forall k | 0 <= k < |rs| :: rs[k] > 0
    ensures |r| == |rs|
    ensures forall k | 0 <= k < |rs| ::
      r[k] == Trial(w, rs[k], Count(fileSize, w), Count(fileSize, rs[k]))
  {
    seq(|rs|, k requires 0 <= k < |rs| => Trial(w, rs[k], Count(fileSize, w), Count(fileSize, rs[k])))
  }

  /** `product(block_sizes, repeat=2)`: every ordered pair, grouped by the
      write size. */
  function Trials(fileSize: nat, ws: seq<nat>, rs: seq<nat>): (r: seq<Trial>)
    requires forall k | 0 <= k < |ws| :: ws[k] > 0
    requires forall k | 0 <= k < |rs| :: rs[k] > 0
    ensures forall t | t in r :: t.writeBs in ws && t.readBs in rs
    ensures forall t | t in r ::
      t.writeCount == Count(fileSize, t.writeBs) && t.readCount == Count(fileSize, t.readBs)
    ensures forall w, x | w in ws && x in rs ::
      Trial(w, x, Count(fileSize, w), Count(fileSize, x)) in r
  {
    if |ws| == 0 then []
    else
      var row := Row(fileSize, ws[0], rs);
      var rest := Trials(fileSize, ws[1..], rs);
      forall w, x | w in ws && x in rs
        ensures Trial(w, x, Count(fileSize, w), Count(fileSize, x)) in row + rest
      {
        if w == ws[0] {
          var k :| 0 <= k < |rs| && rs[k] == x;
          assert row[k] == Trial(w, x, Count(fileSize, w), Count(fileSize, x));
        } else {
          assert w in ws[1..];
        }
      }
      row + rest
  }

  /** The number of trials is the square of the number of sizes. */
  lemma {:induction false} TrialCount(fileSize: nat, ws: seq<nat>, rs: seq<nat>)
    requires forall k | 0 <= k < |ws| :: ws[k] > 0
    requires forall k | 0 <= k < |rs| :: rs[k] > 0
    ensures |Trials(fileSize, ws, rs)| == |ws| * |rs|
  {
    if |ws| > 0 {
      TrialCount(fileSize, ws[1..], rs);
      assert |ws| * |rs| == |rs| + (|ws| - 1) * |rs|;
    }
  }

  /** The pairs whose comparison failed, in trial order. */
  function Failures(trials: seq<Trial>, passes: Trial -> bool): (r: seq<(nat, nat)>)
    ensures |r| <= |trials|
    ensures forall t | t in trials && !passes(t) :: (t.writeBs, t.readBs) in r
    ensures forall p | p in r :: exists t | t in trials :: !passes(t) && p == (t.writeBs, t.readBs)
  {
    if |trials| == 0 then []
    else
      var t := trials[0];
      var rest := Failures(trials[1..], passes);
      assert forall u | u in trials[1..] :: u in trials;
      var r := if passes(t) then rest else [(t.writeBs, t.readBs)] + rest;
      forall u | u in trials && !passes(u) ensures (u.writeBs, u.readBs) in r {
        if u != t { assert u in trials[1..]; }
      }
      r
  }

  /** The record the trial loop builds: after one more trial, the
      earlier record is kept and the trial's pair is appended exactly when
      that trial fails, so the pairs appear in trial order, one per
      failing trial. */
  lemma {:induction false} FailuresSnoc(trials: seq<Trial>, t: Trial, passes: Trial -> bool)
    ensures Failures(trials + [t], passes) ==
      Failures(trials, passes) + (if passes(t) then [] else [(t.writeBs, t.readBs)])
  {
    if |trials| == 0 {
      assert trials + [t] == [t];
      assert [t][1..] == [];
    } else {
      assert (trials + [t])[0] == trials[0];
      assert (trials + [t])[1..] == trials[1..] + [t];
      FailuresSnoc(trials[1..], t, passes);
    }
  }

  /** `process_test_file` on a file of `fileSize` bytes: the failing
      pairs are appended to `errors`; passing pairs add nothing. */
  function ProcessTestFile(errors: seq<(nat, nat)>, fileSize: nat, blockSizes: seq<nat>, passes: Trial -> bool): (r: seq<(nat, nat)>)
    requires forall k | 0 <= k < |blockSizes| :: blockSizes[k] > 0
    ensures |r| >= |errors| && r[..|errors|] == errors
    ensures forall w, x | w in blockSizes && x in blockSizes ::
      !passes(Trial(w, x, Count(fileSize, w), Count(fileSize, x))) ==> (w, x) in r[|errors|..]
    ensures forall p | p in r[|errors|..] ::
      p.0 in blockSizes && p.1 in blockSizes && !passes(Trial(p.0, p.1, Count(fileSize, p.0), Count(fileSize, p.1)))
  {
    var trials := Trials(fileSize, blockSizes, blockSizes);
    var failed := Failures(trials, passes);
    var r := errors + failed;
    assert r[..|errors|] == errors && r[|errors|..] == failed;
    r
  }

  /** When every trial passes, nothing is recorded. */
  lemma AllPassRecordsNothing(errors: seq<(nat, nat)>, fileSize: nat, blockSizes: seq<nat>, passes: Trial -> bool)
    requires forall k | 0 <= k < |blockSizes| :: blockSizes[k] > 0
    requires forall t :: passes(t)
    ensures ProcessTestFile(errors, fileSize, blockSizes, passes) == errors
  {
    NothingFails(Trials(fileSize, blockSizes, blockSizes), passes);
  }

  lemma {:induction false} NothingFails(trials: seq<Trial>, passes: Trial -> bool)
    requires forall t | t in trials :: passes(t)
    ensures Failures(trials, passes) == []
  {
    if |trials| > 0 {
      assert trials[0] in trials;
      assert forall u | u in trials[1..] :: u in trials;
      NothingFails(trials[1..], passes);
    }
  }

  // ---------------------------------------------------------------------
  // run_tests: test-file naming and counting
  // ---------------------------------------------------------------------

  /** `in_tf_{i + 1}_{size}KB.txt`, the input file of the `i`-th file. */
  function InFile(i: nat, sizeKb: nat): string {
    "in_tf_" + Decimal(i + 1) + "_" + Decimal(sizeKb) + "KB.txt"
  }

  /** `out_tf_{i + 1}_{size}KB.txt`, where it is read back to. */
  function OutFile(i: nat, sizeKb: nat): string {
    "out_tf_" + Decimal(i + 1) + "_" + Decimal(sizeKb) + "KB.txt"
  }

  /** Two digit strings that agree once an underscore is put after each
      are the same string. */
  lemma DigitsThenUnderscore(x: string, y: string, tx: string, ty: string)
    requires forall k | 0 <= k < |x| :: IsDigitChar(x[k])
    requires forall k | 0 <= k < |y| :: IsDigitChar(y[k])
    requires x + "_" + tx == y + "_" + ty
    ensures x == y
  {
    var s := x + "_" + tx;
    var t := y + "_" + ty;
    assert forall k | 0 <= k < |x| :: s[k] == x[k];
    assert forall k | 0 <= k < |y| :: t[k] == y[k];
    assert s[|x|] == '_' && t[|y|] == '_';
    assert |x| == |y|;
  }

  /** A name of the form prefix, index, underscore, rest. */
  lemma DropPrefix(prefix: string, x: string, tk: string)
    ensures (prefix + x + "_" + tk)[|prefix|..] == x + "_" + tk
  {
  }

  /** Different files get different names, and no input file is another
      file's output. */
  lemma FileNamesDistinct(i: nat, j: nat, sizeKb: nat)
    ensures i != j ==> InFile(i, sizeKb) != InFile(j, sizeKb) && OutFile(i, sizeKb) != OutFile(j, sizeKb)
    ensures InFile(i, sizeKb) != OutFile(j, sizeKb)
  {
    assert InFile(i, sizeKb)[0] == 'i' && OutFile(j, sizeKb)[0] == 'o';
    if i != j {
      IndexedNamesDiffer("in_tf_", i, j, sizeKb);
      IndexedNamesDiffer("out_tf_", i, j, sizeKb);
    }
  }

  /** Names built from different file indices differ. */
  lemma IndexedNamesDiffer(prefix: string, i: nat, j: nat, sizeKb: nat)
    requires i != j
    ensures prefix + Decimal(i + 1) + "_" + Decimal(sizeKb) + "KB.txt" != prefix + Decimal(j + 1) + "_" + Decimal(sizeKb) + "KB.txt"
  {
    var x := Decimal(i + 1);
    var y := Decimal(j + 1);
    var tk := Decimal(sizeKb) + "KB.txt";
    assert prefix + x + "_" + Decimal(sizeKb) + "KB.txt" == prefix + x + "_" + tk;
    assert prefix + y + "_" + Decimal(sizeKb) + "KB.txt" == prefix + y + "_" + tk;
    NamesDiffer(prefix, x, y, tk);
  }

  /** Names that differ only in their digit-string index differ. */
  lemma NamesDiffer(prefix: string, x: string, y: string, tk: string)
    requires forall k | 0 <= k < |x| :: IsDigitChar(x[k])
    requires forall k | 0 <= k < |y| :: IsDigitChar(y[k])
    requires x != y
    ensures prefix + x + "_" + tk != prefix + y + "_" + tk
  {
    if prefix + x + "_" + tk == prefix + y + "_" + tk {
      DropPrefix(prefix, x, tk);
      DropPrefix(prefix, y, tk);
      DigitsThenUnderscore(x, y, tk, tk);
    }
  }

  /** The `else` branch of `run_tests`: for each of `numFiles` files,
      process it with `block_sizes` and count one test; every recorded
      pair is a pair of those block sizes.  `passes`
      says, for file `i`, whether a trial read the file back intact. */
  method RunTests(numFiles: nat, fileSizeKb: nat, blockSizeKb: int, order: seq<nat>,
                  passes: nat -> Trial -> bool, testCount0: nat, errors0: seq<(nat, nat)>)
    returns (testCount: nat, errors: seq<(nat, nat)>, files: seq<(string, string)>)
    requires blockSizeKb <= 0 ==> Lists(order, EvenDivisorSet(fileSizeKb))
    ensures testCount == testCount0 + numFiles
    ensures |files| == numFiles
    ensures forall i | 0 <= i < numFiles :: files[i] == FilePair(i, fileSizeKb)
    ensures |errors| >= |errors0| && errors[..|errors0|] == errors0
    ensures forall p | p in errors[|errors0|..] ::
      p.0 in BlockSizes(blockSizeKb, fileSizeKb) && p.1 in BlockSizes(blockSizeKb, fileSizeKb)
    ensures (forall i, t :: passes(i)(t)) ==> errors == errors0
  {
    var blockSizes := BlockSizeList(blockSizeKb, fileSizeKb, order);
    ghost var sizes := BlockSizes(blockSizeKb, fileSizeKb);
    testCount, errors, files := testCount0, errors0, [];
    var i := 0;
    while i < numFiles
      invariant i <= numFiles
      invariant testCount == testCount0 + i
      invariant |files| == i
      invariant files == FileList(i, fileSizeKb)
      invariant |errors| >= |errors0| && errors[..|errors0|] == errors0
      invariant forall p | p in errors[|errors0|..] :: p.0 in sizes && p.1 in sizes
      invariant (forall i, t :: passes(i)(t)) ==> errors == errors0
    {
      var before := errors;
      errors := ProcessTestFile(errors, fileSizeKb * 1024, blockSizes, passes(i));
      if forall i, t :: passes(i)(t) {
        AllPassRecordsNothing(before, fileSizeKb * 1024, blockSizes, passes(i));
      }
      ExtendErrors(errors0, before, errors, sizes);
      files := files + [FilePair(i, fileSizeKb)];
      testCount := testCount + 1;
      i := i + 1;
    }
    forall k | 0 <= k < numFiles ensures files[k] == FilePair(k, fileSizeKb) {
      FileListAt(numFiles, fileSizeKb, k);
    }
  }

  /** Appending pairs of sizes to a log that extends `errors0` with pairs
      of sizes keeps both facts. */
  lemma ExtendErrors(errors0: seq<(nat, nat)>, before: seq<(nat, nat)>, after: seq<(nat, nat)>, sizes: set<nat>)
    requires |before| >= |errors0| && before[..|errors0|] == errors0
    requires forall p | p in before[|errors0|..] :: p.0 in sizes && p.1 in sizes
    requires |after| >= |before| && after[..|before|] == before
    requires forall p | p in after[|before|..] :: p.0 in sizes && p.1 in sizes
    ensures |after| >= |errors0| && after[..|errors0|] == errors0
    ensures forall p | p in after[|errors0|..] :: p.0 in sizes && p.1 in sizes
  {
    assert after[..|errors0|] == before[..|before|][..|errors0|];
    forall p | p in after[|errors0|..] ensures p.0 in sizes && p.1 in sizes {
      var k :| |errors0| <= k < |after| && after[k] == p;
      if k < |before| {
        assert p == before[k] && p in before[|errors0|..];
      } else {
        assert p == after[|before|..][k - |before|];
      }
    }
  }

  /** The input and output files of the first `n` files, in order. */
  function FileList(n: nat, sizeKb: nat): (r: seq<(string, string)>)
    ensures |r| == n
  {
    if n == 0 then [] else FileList(n - 1, sizeKb) + [FilePair(n - 1, sizeKb)]
  }

  function FilePair(i: nat, sizeKb: nat): (string, string) {
    (InFile(i, sizeKb), OutFile(i, sizeKb))
  }

  lemma {:induction false} FileListAt(n: nat, sizeKb: nat, i: nat)
    requires i < n
    ensures FileList(n, sizeKb)[i] == FilePair(i, sizeKb)
  {
    if i < n - 1 {
      FileListAt(n - 1, sizeKb, i);
    }
  }
}

=== FILE: btree_utils.dfy ===
/** The B+tree helpers of `src/utils/lock-free/btree_utils.c` that sit on top
    of the kernel's B+tree library.  A node is a flat array of machine words:
    `no_pairs` keys of `keylen` words each, then `no_pairs` value words (child
    pointers in inner nodes, payload pointers in leaves).  Node memory is a
    total map from addresses to such arrays; 0 is NULL.  The library keeps the
    keys of a node in descending order, unused slots holding zero keys at the
    end. */
module BtreeUtils {
  import opened Wrappers
  import opened MachineInts

  /** `struct btree_geo`. */
  datatype Geo = Geo(keylen: nat, noLongs: nat, noPairs: nat)

  /** The key area is `keylen * no_pairs` words.  Every geometry the kernel
      defines also has at least as many slots as words per key. */
  predicate ValidGeo(g: Geo) {
    g.keylen >= 1 && g.noPairs >= g.keylen && g.noLongs == g.keylen * g.noPairs
  }

  function NodeLen(g: Geo): nat {
    g.noLongs + g.noPairs
  }

  /** The node stored at each address. */
  type Mem = nat -> seq<nat>

  ghost predicate Sized(mem: Mem, g: Geo) {
    forall p :: |mem(p)| == NodeLen(g)
  }

  /** `struct btree_head`: the root and the (signed) height. */
  datatype Head = Head(node: nat, height: int)

  predicate Words(ws: seq<nat>) {
    forall i | 0 <= i < |ws| :: ws[i] < U64_MOD
  }

  // ---------------------------------------------------------------------
  // longcmp, longcpy
  // ---------------------------------------------------------------------

  /** `longcmp`: the first `n` words compared from the front, -1, 0 or 1. */
  function LongCmp(a: seq<nat>, b: seq<nat>, n: nat): (r: int)
    requires n <= |a| && n <= |b|
    ensures r == -1 || r == 0 || r == 1
    decreases n
  {
    if n == 0 then 0
    else if a[0] < b[0] then -1
    else if a[0] > b[0] then 1
    else LongCmp(a[1..], b[1..], n - 1)
  }

  /** 0 exactly when the first `n` words agree. */
  lemma {:induction false} LongCmpZero(a: seq<nat>, b: seq<nat>, n: nat)
    requires n <= |a| && n <= |b|
    ensures LongCmp(a, b, n) == 0 <==> a[..n] == b[..n]
    decreases n
  {
    if n > 0 {
      LongCmpZero(a[1..], b[1..], n - 1);
      assert a[..n] == [a[0]] + a[1..][..n - 1];
      assert b[..n] == [b[0]] + b[1..][..n - 1];
      if a[..n] == b[..n] {
        assert a[0] == b[..n][0];
        assert a[1..][..n - 1] == a[..n][1..];
      }
    }
  }

  /** `a` is below `b` at word `i` and equal before it. */
  predicate LessAt(a: seq<nat>, b: seq<nat>, i: nat)
    requires i < |a| && i < |b|
  {
    a[..i] == b[..i] && a[i] < b[i]
  }

  lemma {:induction false} LongCmpLessWitness(a: seq<nat>, b: seq<nat>, n: nat)
    requires n <= |a| && n <= |b| && LongCmp(a, b, n) == -1
    ensures exists i :: 0 <= i < n && LessAt(a, b, i)
    decreases n
  {
    if a[0] < b[0] {
      assert LessAt(a, b, 0);
    } else {
      LongCmpLessWitness(a[1..], b[1..], n - 1);
      var i :| 0 <= i < n - 1 && LessAt(a[1..], b[1..], i);
      assert a[..i + 1] == [a[0]] + a[1..][..i];
      assert b[..i + 1] == [b[0]] + b[1..][..i];
      assert LessAt(a, b, i + 1);
    }
  }

  lemma {:induction false} LongCmpLessFromWitness(a: seq<nat>, b: seq<nat>, n: nat, i: nat)
    requires i < n <= |a| && n <= |b| && LessAt(a, b, i)
    ensures LongCmp(a, b, n) == -1
    decreases n
  {
    if i > 0 {
      assert a[0] == a[..i][0] && b[0] == b[..i][0];
      assert a[1..][..i - 1] == a[..i][1..] && b[1..][..i - 1] == b[..i][1..];
      assert LessAt(a[1..], b[1..], i - 1);
      LongCmpLessFromWitness(a[1..], b[1..], n - 1, i - 1);
    }
  }

  /** -1 exactly when the first differing word of `a` is the smaller one. */
  lemma LongCmpLess(a: seq<nat>, b: seq<nat>, n: nat)
    requires n <= |a| && n <= |b|
    ensures LongCmp(a, b, n) == -1 <==> exists i :: 0 <= i < n && LessAt(a, b, i)
  {
    if LongCmp(a, b, n) == -1 {
      LongCmpLessWitness(a, b, n);
    }
    if exists i :: 0 <= i < n && LessAt(a, b, i) {
      var i :| 0 <= i < n && LessAt(a, b, i);
      LongCmpLessFromWitness(a, b, n, i);
    }
  }

  /** `longcmp(a, b) == -longcmp(b, a)`. */
  lemma {:induction false} LongCmpAntisymmetric(a: seq<nat>, b: seq<nat>, n: nat)
    requires n <= |a| && n <= |b|
    ensures LongCmp(a, b, n) == -LongCmp(b, a, n)
    decreases n
  {
    if n > 0 && a[0] == b[0] {
      LongCmpAntisymmetric(a[1..], b[1..], n - 1);
    }
  }

  /** "Compares at most" is transitive. */
  lemma {:induction false} LongCmpTransitive(a: seq<nat>, b: seq<nat>, c: seq<nat>, n: nat)
    requires n <= |a| && n <= |b| && n <= |c|
    requires LongCmp(a, b, n) <= 0 && LongCmp(b, c, n) <= 0
    ensures LongCmp(a, c, n) <= 0
    decreases n
  {
    if n > 0 && a[0] == b[0] && b[0] == c[0] {
      LongCmpTransitive(a[1..], b[1..], c[1..], n - 1);
    }
  }

  /** A key that compares at least as large starts with a word at least as
      large. */
  lemma LongCmpFirstWord(a: seq<nat>, b: seq<nat>, n: nat)
    requires 1 <= n <= |a| && n <= |b| && LongCmp(a, b, n) >= 0
    ensures a[0] >= b[0]
  {
  }

  /** `longcpy(dest, src, n)`: the first `n` words come from `src`, the rest
      of `dest` is left alone. */
  function LongCpy(dest: seq<nat>, src: seq<nat>, n: nat): (r: seq<nat>)
    requires n <= |dest| && n <= |src|
    ensures |r| == |dest|
    ensures forall i | 0 <= i < n :: r[i] == src[i]
    ensures forall i | n <= i < |dest| :: r[i] == dest[i]
  {
    src[..n] + dest[n..]
  }

  lemma LongCpyCompares(dest: seq<nat>, src: seq<nat>, n: nat)
    requires n <= |dest| && n <= |src|
    ensures LongCmp(LongCpy(dest, src, n), src, n) == 0
  {
    LongCmpZero(LongCpy(dest, src, n), src, n);
    assert LongCpy(dest, src, n)[..n] == src[..n];
  }

  // ---------------------------------------------------------------------
  // keyzero, dec_key
  // ---------------------------------------------------------------------

  /** `keyzero`: 1 when all `keylen` words are zero, else 0. */
  function KeyZero(key: seq<nat>, keylen: nat): (r: int)
    requires keylen <= |key|
    ensures r == 0 || r == 1
    ensures r == 1 <==> forall i | 0 <= i < keylen :: key[i] == 0
    decreases keylen
  {
    if keylen == 0 then 1
    else if key[keylen - 1] != 0 then 0
    else KeyZero(key, keylen - 1)
  }

  /** The key read as one big-endian number. */
  function BigEndian(ws: seq<nat>): nat {
    if |ws| == 0 then 0 else BigEndian(ws[..|ws| - 1]) * U64_MOD + ws[|ws| - 1]
  }

  /** `dec_key` on a key that is not all zero: the last word is decremented,
      a zero word on the way wrapping to the maximum.  (On an all-zero key
      the `size_t` index would run below 0, which `i >= 0` never stops.) */
  function DecKey(key: seq<nat>): (r: seq<nat>)
    requires KeyZero(key, |key|) == 0
    ensures |r| == |key|
    decreases |key|
  {
    var last := |key| - 1;
    if key[last] != 0 then key[last := key[last] - 1]
    else
      assert KeyZero(key[..last], last) == 0 by {
        var i :| 0 <= i < |key| && key[i] != 0;
        assert i < last && key[..last][i] != 0;
      }
      DecKey(key[..last]) + [U64_MAX]
  }

  /** `dec_key` subtracts one from the big-endian value and keeps every word
      a machine word. */
  lemma {:induction false} DecKeyValue(key: seq<nat>)
    requires KeyZero(key, |key|) == 0 && Words(key)
    ensures Words(DecKey(key)) && BigEndian(DecKey(key)) + 1 == BigEndian(key)
    decreases |key|
  {
    var last := |key| - 1;
    var r := DecKey(key);
    if key[last] != 0 {
      assert r[..last] == key[..last];
    } else {
      var pre := key[..last];
      assert KeyZero(pre, last) == 0 by {
        var i :| 0 <= i < |key| && key[i] != 0;
        assert i < last && pre[i] != 0;
      }
      DecKeyValue(pre);
      assert r[..last] == DecKey(pre);
      assert BigEndian(key) == BigEndian(pre) * U64_MOD;
      assert BigEndian(r) == BigEndian(DecKey(pre)) * U64_MOD + U64_MAX;
    }
  }

  // ---------------------------------------------------------------------
  // bkey, bval, keycmp
  // ---------------------------------------------------------------------

  lemma {:induction false} MulMono(a: nat, b: nat, k: nat)
    requires a <= b
    ensures a * k <= b * k
    decreases b - a
  {
    if a < b {
      MulMono(a, b - 1, k);
      assert b * k == (b - 1) * k + k;
    }
  }

  /** Slot `n`'s key ends inside the key area for a real slot, and inside
      the node even for the slot `no_pairs` just past the last one. */
  lemma KeyFits(g: Geo, n: nat)
    requires ValidGeo(g) && n <= g.noPairs
    ensures n * g.keylen + g.keylen <= NodeLen(g)
    ensures n < g.noPairs ==> n * g.keylen + g.keylen <= g.noLongs
  {
    assert n * g.keylen + g.keylen == (n + 1) * g.keylen;
    assert g.noLongs == g.noPairs * g.keylen;
    if n < g.noPairs {
      MulMono(n + 1, g.noPairs, g.keylen);
    } else {
      assert (n + 1) * g.keylen == g.noPairs * g.keylen + g.keylen;
    }
  }

  /** `bkey(geo, node, n)`: the `keylen` words from `node[n * keylen]`. */
  function BKey(g: Geo, node: seq<nat>, n: nat): (r: seq<nat>)
    requires ValidGeo(g) && |node| == NodeLen(g) && n <= g.noPairs
    ensures |r| == g.keylen
  {
    KeyFits(g, n);
    node[n * g.keylen .. n * g.keylen + g.keylen]
  }

  /** `bval(geo, node, n)`: the word `node[no_longs + n]`. */
  function BVal(g: Geo, node: seq<nat>, n: nat): (r: nat)
    requires g.noLongs + n < |node|
  {
    node[g.noLongs + n]
  }

  /** The keys of two different slots and the value words never share a
      word: slot `n` covers `[n * keylen, (n + 1) * keylen)`, below
      `no_longs`, where the values start. */
  lemma SlotLayout(g: Geo, n: nat, m: nat)
    requires ValidGeo(g) && n < m < g.noPairs
    ensures n * g.keylen + g.keylen <= m * g.keylen
    ensures m * g.keylen + g.keylen <= g.noLongs <= g.noLongs + n < g.noLongs + m < NodeLen(g)
  {
    assert n * g.keylen + g.keylen == (n + 1) * g.keylen;
    assert (n + 1) * g.keylen <= m * g.keylen;
    KeyFits(g, m);
  }

  /** `keycmp(geo, node, n, key)`. */
  function KeyCmp(g: Geo, node: seq<nat>, n: nat, key: seq<nat>): (r: int)
    requires ValidGeo(g) && |node| == NodeLen(g) && |key| == g.keylen && n <= g.noPairs
  {
    LongCmp(BKey(g, node, n), key, g.keylen)
  }

  // ---------------------------------------------------------------------
  // btree_last_no_rep
  // ---------------------------------------------------------------------

  /** Following child 0 from `node` until height 1. */
  function Leftmost(mem: Mem, g: Geo, node: nat, height: int): (r: nat)
    requires ValidGeo(g) && Sized(mem, g)
    decreases height
  {
    if height <= 1 then node else Leftmost(mem, g, BVal(g, mem(node), 0), height - 1)
  }

  /** The keys of a node do not increase from slot to slot. */
  predicate Descending(g: Geo, node: seq<nat>)
    requires ValidGeo(g) && |node| == NodeLen(g)
  {
    forall j, k | 0 <= j < k < g.noPairs :: LongCmp(BKey(g, node, k), BKey(g, node, j), g.keylen) <= 0
  }

  /** `btree_last_no_rep`: 0 for an empty tree, else the first word of slot
      0 of the leftmost leaf. */
  function LastNoRep(mem: Mem, g: Geo, head: Head): (r: nat)
    requires ValidGeo(g) && Sized(mem, g)
    ensures head.height == 0 ==> r == 0
  {
    if head.height == 0 then 0
    else
      BKey(g, mem(Leftmost(mem, g, head.node, head.height)), 0)[0]
  }

  /** In a descending leftmost leaf the answer bounds the first word of
      every slot of that leaf: it is that leaf's greatest key. */
  lemma LastNoRepIsLeafMax(mem: Mem, g: Geo, head: Head, j: nat)
    requires ValidGeo(g) && Sized(mem, g) && head.height != 0 && j < g.noPairs
    requires Descending(g, mem(Leftmost(mem, g, head.node, head.height)))
    ensures BKey(g, mem(Leftmost(mem, g, head.node, head.height)), j)[0] <= LastNoRep(mem, g, head)
  {
    var leaf := mem(Leftmost(mem, g, head.node, head.height));
    KeyFits(g, j);
    KeyFits(g, 0);
    if j > 0 {
      assert LongCmp(BKey(g, leaf, j), BKey(g, leaf, 0), g.keylen) <= 0;
      LongCmpAntisymmetric(BKey(g, leaf, j), BKey(g, leaf, 0), g.keylen);
      LongCmpFirstWord(BKey(g, leaf, 0), BKey(g, leaf, j), g.keylen);
    }
  }

  // ---------------------------------------------------------------------
  // btree_get_prev_no_rep
  // ---------------------------------------------------------------------

  /** The first slot from `i` on whose key compares at most `key`,
      `no_pairs` when there is none. */
  function FirstAtMost(g: Geo, node: seq<nat>, key: seq<nat>, i: nat): (r: nat)
    requires ValidGeo(g) && |node| == NodeLen(g) && |key| == g.keylen && i <= g.noPairs
    ensures i <= r <= g.noPairs
    ensures r < g.noPairs ==> KeyCmp(g, node, r, key) <= 0
    ensures forall j | i <= j < r :: KeyCmp(g, node, j, key) > 0
    decreases g.noPairs - i
  {
    if i == g.noPairs then i
    else if KeyCmp(g, node, i, key) <= 0 then i
    else FirstAtMost(g, node, key, i + 1)
  }

  /** Where the descent of `btree_get_prev_no_rep` ends: at a leaf, or at a
      miss; either way with the key of the last inner slot followed. */
  datatype Reach = Leaf(node: nat, retry: Option<seq<nat>>) | Missed(retry: Option<seq<nat>>)

  function DescendPrev(mem: Mem, g: Geo, node: nat, height: int, key: seq<nat>, retry: Option<seq<nat>>): (r: Reach)
    requires ValidGeo(g) && Sized(mem, g) && |key| == g.keylen
    decreases height
  {
    if height <= 1 then Leaf(node, retry)
    else
      var n := mem(node);
      var i := FirstAtMost(g, n, key, 0);
      if i == g.noPairs then Missed(retry)
      else if BVal(g, n, i) == 0 then Missed(retry)
      else
        DescendPrev(mem, g, BVal(g, n, i), height - 1, key, Some(BKey(g, n, i)))
  }

  /** The returned value pointer (0 for NULL), the caller's key afterwards
      and what was written to `*prev_key`. */
  datatype PrevResult = PrevResult(value: nat, key: seq<nat>, prevKey: Option<nat>)

  /** On a miss after at least one inner step, the key of the inner slot
      last followed is copied over the caller's key. */
  function MissResult(key: seq<nat>, retry: Option<seq<nat>>): (r: PrevResult)
    ensures r.value == 0 && r.prevKey == None
  {
    PrevResult(0, if retry.Some? then retry.value else key, None)
  }

  function GetPrevNoRep(mem: Mem, g: Geo, head: Head, key: seq<nat>): (r: PrevResult)
    requires ValidGeo(g) && Sized(mem, g) && |key| == g.keylen
    ensures KeyZero(key, g.keylen) == 1 || head.height == 0 ==> r == PrevResult(0, key, None)
    ensures r.value != 0 ==> r.key == key && r.prevKey.Some?
    ensures r.value == 0 ==> r.prevKey == None
  {
    if KeyZero(key, g.keylen) == 1 || head.height == 0 then PrevResult(0, key, None)
    else
      match DescendPrev(mem, g, head.node, head.height, key, None)
      case Missed(retry) => MissResult(key, retry)
      case Leaf(node, retry) =>
        if node == 0 then MissResult(key, retry)
        else
          var n := mem(node);
          var i := FirstAtMost(g, n, key, 0);
          if i < g.noPairs && BVal(g, n, i) != 0 then
            PrevResult(BVal(g, n, i), key, Some(BKey(g, n, i)[0]))
          else MissResult(key, retry)
  }

  /** In a descending leaf, the first slot at most `key` holds the greatest
      such key, and when there is none no slot is at most `key`. */
  lemma FirstAtMostIsGreatest(g: Geo, node: seq<nat>, key: seq<nat>, j: nat)
    requires ValidGeo(g) && |node| == NodeLen(g) && |key| == g.keylen && Descending(g, node)
    requires j < g.noPairs && KeyCmp(g, node, j, key) <= 0
    ensures var i := FirstAtMost(g, node, key, 0);
      i < g.noPairs && i <= j && LongCmp(BKey(g, node, j), BKey(g, node, i), g.keylen) <= 0
  {
    var i := FirstAtMost(g, node, key, 0);
    KeyFits(g, i);
    KeyFits(g, j);
    if i == j {
      LongCmpZero(BKey(g, node, j), BKey(g, node, i), g.keylen);
    }
  }

  /** On success `btree_get_prev_no_rep` leaves the key alone and reports
      the first word of the greatest key at most `key` in the leaf it
      reached, whose value it returns. */
  lemma GetPrevNoRepFindsGreatest(mem: Mem, g: Geo, head: Head, key: seq<nat>)
    requires ValidGeo(g) && Sized(mem, g) && |key| == g.keylen
    requires KeyZero(key, g.keylen) == 0 && head.height != 0
    requires DescendPrev(mem, g, head.node, head.height, key, None).Leaf?
    requires Descending(g, mem(DescendPrev(mem, g, head.node, head.height, key, None).node))
    ensures var r := GetPrevNoRep(mem, g, head, key);
      var leaf := mem(DescendPrev(mem, g, head.node, head.height, key, None).node);
      r.value != 0 ==>
        exists i :: 0 <= i < g.noPairs && KeyCmp(g, leaf, i, key) <= 0 && r.value == BVal(g, leaf, i)
          && r.prevKey == Some(BKey(g, leaf, i)[0])
          && forall j | 0 <= j < g.noPairs && KeyCmp(g, leaf, j, key) <= 0 ::
               LongCmp(BKey(g, leaf, j), BKey(g, leaf, i), g.keylen) <= 0
  {
    var r := GetPrevNoRep(mem, g, head, key);
    var leaf := mem(DescendPrev(mem, g, head.node, head.height, key, None).node);
    if r.value != 0 {
      var i := FirstAtMost(g, leaf, key, 0);
      forall j | 0 <= j < g.noPairs && KeyCmp(g, leaf, j, key) <= 0
        ensures LongCmp(BKey(g, leaf, j), BKey(g, leaf, i), g.keylen) <= 0
      {
        FirstAtMostIsGreatest(g, leaf, key, j);
      }
    }
  }

  /** A miss overwrites the caller's key only with the key of an inner slot
      that the descent followed, which compares at most `key`. */
  lemma {:induction false} MissKeyIsBelow(mem: Mem, g: Geo, node: nat, height: int, key: seq<nat>, retry: Option<seq<nat>>)
    requires ValidGeo(g) && Sized(mem, g) && |key| == g.keylen
    requires retry.Some? ==> |retry.value| == g.keylen && LongCmp(retry.value, key, g.keylen) <= 0
    ensures var r := DescendPrev(mem, g, node, height, key, retry);
      r.retry.Some? ==> |r.retry.value| == g.keylen && LongCmp(r.retry.value, key, g.keylen) <= 0
    decreases height
  {
    if height > 1 {
      var n := mem(node);
      var i := FirstAtMost(g, n, key, 0);
      if i < g.noPairs && BVal(g, n, i) != 0 {
        KeyFits(g, i);
        MissKeyIsBelow(mem, g, BVal(g, n, i), height - 1, key, Some(BKey(g, n, i)));
      }
    }
  }

  // ---------------------------------------------------------------------
  // btree_get_next
  // ---------------------------------------------------------------------

  /** `btree_get_next` up to its first search: NULL for an all-zero key or
      an empty tree, otherwise the search starts from the decremented key. */
  function GetNextStart(g: Geo, head: Head, key: seq<nat>): (r: Option<seq<nat>>)
    requires |key| == g.keylen
  {
    if KeyZero(key, g.keylen) == 1 then None
    else if head.height == 0 then None
    else Some(DecKey(key))
  }

  lemma GetNextStartValue(g: Geo, head: Head, key: seq<nat>)
    requires |key| == g.keylen && Words(key)
    ensures var r := GetNextStart(g, head, key);
      && (r.None? <==> (forall i | 0 <= i < g.keylen :: key[i] == 0) || head.height == 0)
      && (r.Some? ==> Words(r.value) && BigEndian(r.value) + 1 == BigEndian(key))
  {
    if GetNextStart(g, head, key).Some? {
      DecKeyValue(key);
    }
  }

  /** The slots the inner and leaf loops of `btree_get_next` compare, in
      order: `i` runs from `no_pairs` down to 1. */
  function NextScanAsWritten(g: Geo): (r: seq<nat>)
    ensures |r| == g.noPairs
  {
    seq(g.noPairs, k requires 0 <= k < g.noPairs => g.noPairs - k)
  }

  /** The first slot compared is `no_pairs`: its key words are value words
      and its value word lies just past the node; slot 0 is never compared. */
  lemma NextScanLeavesKeyArea(g: Geo)
    requires ValidGeo(g)
    ensures var s := NextScanAsWritten(g);
      && s[0] == g.noPairs
      && s[0] * g.keylen >= g.noLongs
      && g.noLongs + s[0] == NodeLen(g)
      && 0 !in s
  {
    assert g.noPairs * g.keylen == g.noLongs;
  }

  /** The scan with `i` running from `no_pairs - 1` down to 0. */
  function NextScanCorrected(g: Geo): (r: seq<nat>)
    ensures |r| == g.noPairs
  {
    seq(g.noPairs, k requires 0 <= k < g.noPairs => g.noPairs - 1 - k)
  }

  /** The corrected scan visits every slot exactly once, from the smallest
      key upwards, and never leaves the key and value areas. */
  lemma NextScanCorrectedCovers(g: Geo)
    requires ValidGeo(g)
    ensures var s := NextScanCorrected(g);
      && (forall n: nat :: n in s <==> n < g.noPairs)
      && (forall a, b | 0 <= a < b < |s| :: s[a] > s[b])
      && (forall k | 0 <= k < |s| :: s[k] * g.keylen + g.keylen <= g.noLongs && g.noLongs + s[k] < NodeLen(g))
  {
    var s := NextScanCorrected(g);
    forall n: nat | n < g.noPairs ensures n in s {
      assert s[g.noPairs - 1 - n] == n;
    }
    forall k | 0 <= k < |s| ensures s[k] * g.keylen + g.keylen <= g.noLongs {
      KeyFits(g, s[k]);
    }
  }
}

=== FILE: config_parsers.dfy ===
/** The line scrapers of `test/config_parsers.py`, which read the shell
    file `configurable_params.sh` for the benchmark scripts.

    A file is its sequence of lines; the missing-file case is an `Option`.
    The two regular expressions are modelled by what Python's backtracking
    matcher returns for them, written out position by position. */
module ConfigParsers {
  import opened Wrappers
  import opened Text

  predicate IsQuote(c: char) {
    c == '"' || c == '\''
  }

  predicate QuoteFree(s: string) {
    forall k | 0 <= k < |s| :: !IsQuote(s[k])
  }

  // ---------------------------------------------------------------------
  // Mappings built one assignment at a time
  // ---------------------------------------------------------------------

  /** `d[k] = v` for every pair in turn: the dictionary the loops build. */
  function Assign(m: map<string, string>, kvs: seq<(string, string)>): (r: map<string, string>)
    ensures forall k :: k in r <==> k in m || Assigns(kvs, k)
  {
    if |kvs| == 0 then m
    else
      var init := kvs[..|kvs| - 1];
      var prev := Assign(m, init);
      var last := kvs[|kvs| - 1];
      assert forall k :: Assigns(kvs, k) <==> Assigns(init, k) || k == last.0 by {
        forall k ensures Assigns(kvs, k) <==> Assigns(init, k) || k == last.0 {
          if Assigns(init, k) {
            var i :| 0 <= i < |init| && init[i].0 == k;
            assert kvs[i].0 == k;
          }
        }
      }
      prev[last.0 := last.1]
  }

  /** Some pair of `kvs` assigns the key `k`. */
  predicate Assigns(kvs: seq<(string, string)>, k: string) {
    exists i | 0 <= i < |kvs| :: kvs[i].0 == k
  }

  /** Assigning two batches is assigning their concatenation. */
  lemma {:induction false} AssignAppend(m: map<string, string>, a: seq<(string, string)>, b: seq<(string, string)>)
    ensures Assign(m, a + b) == Assign(Assign(m, a), b)
    decreases |b|
  {
    if |b| > 0 {
      assert (a + b)[..|a + b| - 1] == a + b[..|b| - 1];
      AssignAppend(m, a, b[..|b| - 1]);
    } else {
      assert a + b == a;
    }
  }

  /** A key's value is the one of its last assignment: later duplicates
      overwrite earlier ones. */
  lemma {:induction false} AssignLastWins(m: map<string, string>, kvs: seq<(string, string)>, i: nat)
    requires i < |kvs|
    requires forall j | i < j < |kvs| :: kvs[j].0 != kvs[i].0
    ensures kvs[i].0 in Assign(m, kvs) && Assign(m, kvs)[kvs[i].0] == kvs[i].1
  {
    if i < |kvs| - 1 {
      AssignLastWins(m, kvs[..|kvs| - 1], i);
    }
  }

  /** A key no pair assigns keeps its old value. */
  lemma {:induction false} AssignUntouched(m: map<string, string>, kvs: seq<(string, string)>, k: string)
    requires forall j | 0 <= j < |kvs| :: kvs[j].0 != k
    requires k in m
    ensures Assign(m, kvs)[k] == m[k]
  {
    if |kvs| > 0 {
      AssignUntouched(m, kvs[..|kvs| - 1], k);
    }
  }

  // ---------------------------------------------------------------------
  // re.search(r'=\s*["\']?([^"\']+)["\']?', line).group(1)
  // ---------------------------------------------------------------------

  /** The end of the run of non-quote characters starting at `i`. */
  function QuoteFreeEnd(s: string, i: nat): (e: nat)
    requires i <= |s|
    ensures i <= e <= |s|
    ensures QuoteFree(s[i..e])
    ensures e < |s| ==> IsQuote(s[e])
    decreases |s| - i
  {
    if i < |s| && !IsQuote(s[i]) then
      var e := QuoteFreeEnd(s, i + 1);
      assert forall k | 0 <= k < e - i :: s[i..e][k] == s[i + k];
      e
    else i
  }

  /** The group the pattern captures when it is tried at the `=` at `p`.
      `\s*` first takes all the whitespace; an opening quote is taken when
      a non-quote follows it; failing both, the matcher gives the
      whitespace back one character, which then is the whole group. */
  function MatchAt(s: string, p: nat): (r: Option<string>)
    requires p < |s| && s[p] == '='
    ensures r.Some? ==> |r.value| > 0 && QuoteFree(r.value)
  {
    var q := SpaceEnd(s, p + 1);
    if q + 1 < |s| && IsQuote(s[q]) && !IsQuote(s[q + 1]) then Some(s[q + 1..QuoteFreeEnd(s, q + 1)])
    else if q < |s| && !IsQuote(s[q]) then Some(s[q..QuoteFreeEnd(s, q)])
    else if q > p + 1 then Some(s[q - 1..q])
    else None
  }

  /** The pattern cannot match at the `=` at `p`: the line ends there, or
      it is followed by a quote that the line ends after or that another
      quote follows. */
  predicate NothingAfter(s: string, p: nat)
    requires p < |s|
  {
    p + 1 == |s| || (IsQuote(s[p + 1]) && (p + 2 == |s| || IsQuote(s[p + 2])))
  }

  lemma MatchAtFails(s: string, p: nat)
    requires p < |s| && s[p] == '='
    ensures MatchAt(s, p).None? <==> NothingAfter(s, p)
  {
  }

  /** Tries every start position from `p` on, leftmost first. */
  function SearchFrom(s: string, p: nat): (r: Option<string>)
    requires p <= |s|
    ensures r.Some? ==> |r.value| > 0 && QuoteFree(r.value)
    ensures r.None? <==> forall k | p <= k < |s| && s[k] == '=' :: NothingAfter(s, k)
    decreases |s| - p
  {
    if p == |s| then None
    else if s[p] == '=' && MatchAt(s, p).Some? then MatchAt(s, p)
    else
      if s[p] == '=' then
        MatchAtFails(s, p);
        SearchFrom(s, p + 1)
      else SearchFrom(s, p + 1)
  }

  /** The value group of the search, `None` when the pattern does not
      match: it finds no `=` followed by something capturable. */
  function SearchValue(s: string): (r: Option<string>)
    ensures r.Some? ==> |r.value| > 0 && QuoteFree(r.value)
    ensures r.None? <==> forall k | 0 <= k < |s| && s[k] == '=' :: NothingAfter(s, k)
  {
    SearchFrom(s, 0)
  }

  /** Text without `=` is passed over by the search. */
  lemma {:induction false} SearchSkips(s: string, p: nat, p2: nat)
    requires p <= p2 <= |s|
    requires forall k | p <= k < p2 :: s[k] != '='
    ensures SearchFrom(s, p) == SearchFrom(s, p2)
    decreases p2 - p
  {
    if p < p2 {
      SearchSkips(s, p + 1, p2);
    }
  }

  /** A name without `=` in front of the text is passed over. */
  lemma SkipName(name: string, rest: string)
    requires '=' !in name
    ensures SearchValue(name + rest) == SearchFrom(name + rest, |name|)
  {
    var s := name + rest;
    assert forall k | 0 <= k < |name| :: s[k] == name[k];
    SearchSkips(s, 0, |name|);
  }

  /** `NAME="value"` captures the value, whatever it holds besides quotes. */
  lemma QuotedValue(name: string, v: string)
    requires '=' !in name && |v| > 0 && QuoteFree(v)
    ensures SearchValue(name + "=\"" + v + "\"") == Some(v)
  {
    var s := name + "=\"" + v + "\"";
    var p := |name|;
    assert s[..p] == name;
    assert s[p] == '=' && s[p + 1] == '"' && s[|s| - 1] == '"';
    assert s[p + 2..|s| - 1] == v;
    QuotedAt(s, p, v);
  }

  lemma QuotedAt(s: string, p: nat, v: string)
    requires p + 3 + |v| == |s| && '=' !in s[..p]
    requires s[p] == '=' && s[p + 1] == '"' && s[|s| - 1] == '"'
    requires s[p + 2..|s| - 1] == v && |v| > 0 && QuoteFree(v)
    ensures SearchValue(s) == Some(v)
  {
    assert forall k | 0 <= k < p :: s[k] == s[..p][k];
    SearchSkips(s, 0, p);
    assert SpaceEnd(s, p + 1) == p + 1;
    assert forall k | p + 2 <= k < |s| - 1 :: s[k] == v[k - p - 2];
    QuoteFreeRun(s, p + 2, |s| - 1);
  }

  /** `NAME = value` (unquoted, with any spaces after `=`) captures the
      value. */
  lemma UnquotedValue(name: string, sp: string, v: string)
    requires '=' !in name && AllSpace(sp)
    requires |v| > 0 && QuoteFree(v) && !IsSpace(v[0])
    ensures SearchValue(name + "=" + sp + v) == Some(v)
  {
    var s := name + "=" + sp + v;
    var p := |name|;
    var q := p + 1 + |sp|;
    assert s[..p] == name;
    assert s[p] == '=';
    assert s[p + 1..q] == sp;
    assert s[q..] == v;
    UnquotedAt(s, p, q, v);
  }

  lemma UnquotedAt(s: string, p: nat, q: nat, v: string)
    requires p < q <= |s| && '=' !in s[..p] && s[p] == '='
    requires AllSpace(s[p + 1..q]) && s[q..] == v
    requires |v| > 0 && QuoteFree(v) && !IsSpace(v[0])
    ensures SearchValue(s) == Some(v)
  {
    assert forall k | 0 <= k < p :: s[k] == s[..p][k];
    SearchSkips(s, 0, p);
    assert SearchValue(s) == SearchFrom(s, p);
    assert forall k | p + 1 <= k < q :: s[k] == s[p + 1..q][k - p - 1];
    SpaceRun(s, p + 1, q);
    assert forall k | q <= k < |s| :: s[k] == v[k - q];
    QuoteFreeRun(s, q, |s|);
    assert s[q] == v[0] && !IsQuote(s[q]);
    MatchUnquoted(s, p, q);
    assert s[q..|s|] == v;
  }

  lemma MatchUnquoted(s: string, p: nat, q: nat)
    requires p < |s| && s[p] == '='
    requires SpaceEnd(s, p + 1) == q && q < |s| && !IsQuote(s[q])
    ensures SearchFrom(s, p) == Some(s[q..QuoteFreeEnd(s, q)])
  {
  }

  lemma {:induction false} SpaceRun(s: string, i: nat, e: nat)
    requires i <= e <= |s|
    requires forall k | i <= k < e :: IsSpace(s[k])
    requires e < |s| ==> !IsSpace(s[e])
    ensures SpaceEnd(s, i) == e
    decreases e - i
  {
    if i < e {
      SpaceRun(s, i + 1, e);
    }
  }

  lemma {:induction false} QuoteFreeRun(s: string, i: nat, e: nat)
    requires i <= e <= |s|
    requires forall k | i <= k < e :: !IsQuote(s[k])
    requires e < |s| ==> IsQuote(s[e])
    ensures QuoteFreeEnd(s, i) == e
    decreases e - i
  {
    if i < e {
      QuoteFreeRun(s, i + 1, e);
    }
  }

  // ---------------------------------------------------------------------
  // load_ds_mapping
  // ---------------------------------------------------------------------

  const NEW_DS_VAR := "PY_PL_NEW_DS"
  const DS_TO_PLOT_VAR := "PY_PL_DS_TO_PLOT"

  /** The captured value of a commented-out or live assignment line: the
      leading `#`s and the surrounding whitespace go first. */
  function LineValue(line: string): Option<string> {
    SearchValue(Strip(LStrip(line, '#')))
  }

  /** `key, value = item.split(":", 1)`, both stripped; `None` for an item
      without a colon. */
  function ItemEntry(item: string): (r: Option<(string, string)>)
    ensures r.None? <==> ':' !in item
  {
    if ':' in item then
      var i := IndexOf(item, ':');
      Some((Strip(item[..i]), Strip(item[i + 1..])))
    else None
  }

  /** Only the first colon splits: the value keeps any later ones. */
  lemma ItemEntrySplitsAtFirstColon(k: string, v: string)
    requires ':' !in k
    ensures ItemEntry(k + ":" + v) == Some((Strip(k), Strip(v)))
  {
    var item := k + ":" + v;
    assert item[|k|] == ':';
    assert item[..|k|] == k;
    assert IndexOf(item, ':') == |k|;
    assert item[|k| + 1..] == v;
  }

  /** The entries of the items that hold a colon, in order. */
  function ItemEntries(items: seq<string>): (r: seq<(string, string)>)
    ensures |r| <= |items|
  {
    if |items| == 0 then []
    else
      var init := ItemEntries(items[..|items| - 1]);
      match ItemEntry(items[|items| - 1])
      case Some(e) => init + [e]
      case None => init
  }

  /** What one line adds to the mapping. */
  function NewDsEntries(line: string): seq<(string, string)> {
    if Contains(line, NEW_DS_VAR) then
      match LineValue(line)
      case Some(g) => ItemEntries(Split(g, ','))
      case None => []
    else []
  }

  /** The entries of every line, in file order. */
  function NewDsEntriesOf(lines: seq<string>): seq<(string, string)> {
    if |lines| == 0 then []
    else NewDsEntriesOf(lines[..|lines| - 1]) + NewDsEntries(lines[|lines| - 1])
  }

  /** `load_ds_mapping()`: `None` stands for a missing configuration
      file, which gives the empty mapping. */
  function LoadDsMapping(file: Option<seq<string>>): (r: map<string, string>)
    ensures file.None? ==> r == map[]
    ensures file.Some? ==> forall k :: k in r <==> Assigns(NewDsEntriesOf(file.value), k)
  {
    match file
    case None => map[]
    case Some(lines) => Assign(map[], NewDsEntriesOf(lines))
  }

  /** Lines are read in order, each updating the mapping built so far; a
      line without `PY_PL_NEW_DS` leaves it as it is. */
  lemma LoadDsMappingNextLine(lines: seq<string>, line: string)
    ensures LoadDsMapping(Some(lines + [line])) == Assign(LoadDsMapping(Some(lines)), NewDsEntries(line))
    ensures !Contains(line, NEW_DS_VAR) ==> LoadDsMapping(Some(lines + [line])) == LoadDsMapping(Some(lines))
  {
    assert (lines + [line])[..|lines|] == lines;
    AssignAppend(map[], NewDsEntriesOf(lines), NewDsEntries(line));
  }

  /** A line `PY_PL_NEW_DS="..."` contributes the colon items of its
      value. */
  lemma NewDsLine(v: string)
    requires |v| > 0 && QuoteFree(v)
    ensures NewDsEntries(NEW_DS_VAR + "=\"" + v + "\"") == ItemEntries(Split(v, ','))
  {
    var line := NEW_DS_VAR + "=\"" + v + "\"";
    VarNamesPlain();
    assert !IsSpace(NEW_DS_VAR[0]) && NEW_DS_VAR[0] != '#';
    QuotedLine(NEW_DS_VAR, v);
    EntriesOfValue(line, v);
  }

  lemma EntriesOfValue(line: string, v: string)
    requires Contains(line, NEW_DS_VAR) && LineValue(line) == Some(v)
    ensures NewDsEntries(line) == ItemEntries(Split(v, ','))
  {
  }

  /** The two variable names hold no `=` and start with a letter. */
  lemma VarNamesPlain()
    ensures '=' !in NEW_DS_VAR && NEW_DS_VAR[0] == 'P'
    ensures '=' !in DS_TO_PLOT_VAR && DS_TO_PLOT_VAR[0] == 'P'
  {
  }

  /** A `NAME="value"` line names `NAME` and has the value captured. */
  lemma QuotedLine(name: string, v: string)
    requires |name| > 0 && '=' !in name && name[0] != '#' && !IsSpace(name[0])
    requires |v| > 0 && QuoteFree(v)
    ensures Contains(name + "=\"" + v + "\"", name)
    ensures LineValue(name + "=\"" + v + "\"") == Some(v)
  {
    var line := name + "=\"" + v + "\"";
    ContainsPrefix(line, name);
    assert line[0] == name[0] && line[|line| - 1] == '"';
    PlainLine(line);
    QuotedValue(name, v);
  }

  lemma ContainsPrefix(s: string, sub: string)
    requires |sub| <= |s| && s[..|sub|] == sub
    ensures Contains(s, sub)
  {
    assert OccursAt(s, sub, 0);
  }

  /** A line with no `#` and no whitespace around it is searched as it
      stands. */
  lemma PlainLine(line: string)
    requires |line| > 0 && line[0] != '#' && !IsSpace(line[0]) && !IsSpace(line[|line| - 1])
    ensures LineValue(line) == SearchValue(line)
  {
    assert LStrip(line, '#') == line;
    StripUntouched(line);
  }

  // ---------------------------------------------------------------------
  // get_ds_names_from_cfg
  // ---------------------------------------------------------------------

  /** No whitespace at either end: what `strip()` leaves. */
  predicate Stripped(x: string) {
    |x| > 0 ==> !IsSpace(x[0]) && !IsSpace(x[|x| - 1])
  }

  /** `[x.strip() for x in value.split(",") if x.strip()]`. */
  function IdsOf(parts: seq<string>): (r: seq<string>)
    ensures |r| <= |parts|
    ensures forall k | 0 <= k < |r| :: r[k] != "" && Stripped(r[k])
  {
    if |parts| == 0 then []
    else
      var x := Strip(parts[0]);
      var rest := IdsOf(parts[1..]);
      if x != "" then
        ConsIds(x, rest);
        [x] + rest
      else rest
  }

  lemma ConsIds(x: string, rest: seq<string>)
    requires x != "" && !IsSpace(x[0]) && !IsSpace(x[|x| - 1])
    requires forall k | 0 <= k < |rest| :: rest[k] != "" && Stripped(rest[k])
    ensures forall k | 0 <= k < |[x] + rest| :: ([x] + rest)[k] != "" && Stripped(([x] + rest)[k])
  {
    forall k | 0 <= k < |[x] + rest| ensures ([x] + rest)[k] != "" && Stripped(([x] + rest)[k]) {
      if k > 0 {
        assert ([x] + rest)[k] == rest[k - 1];
      }
    }
  }

  /** Ids without commas or surrounding whitespace come back from their
      comma-joined list unchanged. */
  lemma {:induction false} IdsOfJoin(ids: seq<string>)
    requires |ids| >= 1
    requires forall k | 0 <= k < |ids| :: ids[k] != "" && ',' !in ids[k]
    requires forall k | 0 <= k < |ids| :: Stripped(ids[k])
    ensures IdsOf(Split(Join(ids, ','), ',')) == ids
  {
    SplitJoin(ids, ',');
    IdsOfUntouched(ids);
  }

  lemma {:induction false} IdsOfUntouched(ids: seq<string>)
    requires forall k | 0 <= k < |ids| :: ids[k] != ""
    requires forall k | 0 <= k < |ids| :: Stripped(ids[k])
    ensures IdsOf(ids) == ids
  {
    if |ids| > 0 {
      StripUntouched(ids[0]);
      IdsOfUntouched(ids[1..]);
    }
  }

  /** The ids of one line, when it names `PY_PL_DS_TO_PLOT` and the
      pattern matches. */
  function DsNamesOfLine(line: string): Option<seq<string>> {
    if Contains(line, DS_TO_PLOT_VAR) then
      match LineValue(line)
      case Some(g) => Some(IdsOf(Split(g, ',')))
      case None => None
    else None
  }

  /** The first present value, `[]` when there is none. */
  function FirstIds(found: seq<Option<seq<string>>>): (r: seq<string>)
    ensures (forall i | 0 <= i < |found| :: found[i].None?) ==> r == []
    ensures r != [] ==> exists i | 0 <= i < |found| :: found[i] == Some(r)
  {
    if |found| == 0 then []
    else if found[0].Some? then found[0].value
    else
      var r := FirstIds(found[1..]);
      assert forall i | 1 <= i < |found| :: found[1..][i - 1] == found[i];
      r
  }

  lemma {:induction false} FirstIdsAt(found: seq<Option<seq<string>>>, i: nat)
    requires i < |found| && found[i].Some?
    requires forall j | 0 <= j < i :: found[j].None?
    ensures FirstIds(found) == found[i].value
  {
    if i > 0 {
      assert found[1..][i - 1] == found[i];
      FirstIdsAt(found[1..], i - 1);
    }
  }

  /** `get_ds_names_from_cfg()`. The file is opened outside any `try`,
      so a missing file (`None`) raises `FileNotFoundError`, which the
      result `None` stands for; otherwise the ids of the first line that
      has them, `[]` when none has. */
  function GetDsNamesFromCfg(file: Option<seq<string>>): (r: Option<seq<string>>)
    ensures r.None? <==> file.None?
    ensures r.Some? ==> forall k | 0 <= k < |r.value| :: r.value[k] != "" && Stripped(r.value[k])
    ensures file.Some? && (forall i | 0 <= i < |file.value| :: !Contains(file.value[i], DS_TO_PLOT_VAR)) ==> r == Some([])
  {
    match file
    case None => None
    case Some(lines) => Some(DsNamesOfLines(lines))
  }

  /** The loop over the lines of an open file: the ids of the first line
      that has them, `[]` when none has. */
  function DsNamesOfLines(lines: seq<string>): (r: seq<string>)
    ensures forall k | 0 <= k < |r| :: r[k] != "" && Stripped(r[k])
    ensures (forall i | 0 <= i < |lines| :: !Contains(lines[i], DS_TO_PLOT_VAR)) ==> r == []
  {
    var found := FoundIds(lines);
    var r := FirstIds(found);
    assert r != [] ==> exists i | 0 <= i < |found| :: found[i] == Some(r);
    r
  }

  /** The ids each line would give. */
  function FoundIds(lines: seq<string>): (r: seq<Option<seq<string>>>)
    ensures |r| == |lines|
    ensures forall i | 0 <= i < |lines| :: r[i] == DsNamesOfLine(lines[i])
  {
    seq(|lines|, i requires 0 <= i < |lines| => DsNamesOfLine(lines[i]))
  }

  /** The first line that yields ids decides; later ones are not read. */
  lemma GetDsNamesFirstLine(lines: seq<string>, i: nat)
    requires i < |lines| && DsNamesOfLine(lines[i]).Some?
    requires forall j | 0 <= j < i :: DsNamesOfLine(lines[j]).None?
    ensures GetDsNamesFromCfg(Some(lines)) == Some(DsNamesOfLine(lines[i]).value)
  {
    FirstIdsAt(FoundIds(lines), i);
  }

  /** A `PY_PL_DS_TO_PLOT="..."` line yields the ids of its value. */
  lemma DsToPlotLine(v: string)
    requires |v| > 0 && QuoteFree(v)
    ensures DsNamesOfLine(DS_TO_PLOT_VAR + "=\"" + v + "\"") == Some(IdsOf(Split(v, ',')))
  {
    var line := DS_TO_PLOT_VAR + "=\"" + v + "\"";
    VarNamesPlain();
    assert !IsSpace(DS_TO_PLOT_VAR[0]) && DS_TO_PLOT_VAR[0] != '#';
    QuotedLine(DS_TO_PLOT_VAR, v);
    assert Contains(line, DS_TO_PLOT_VAR) && LineValue(line) == Some(v);
  }

  /** A configuration whose only line lists the ids, comma-separated and
      quoted, gives back exactly those ids. */
  lemma DsNamesRoundTrip(ids: seq<string>)
    requires |ids| >= 1
    requires forall k | 0 <= k < |ids| :: ids[k] != "" && ',' !in ids[k] && Stripped(ids[k]) && QuoteFree(ids[k])
    ensures GetDsNamesFromCfg(Some([DS_TO_PLOT_VAR + "=\"" + Join(ids, ',') + "\""])) == Some(ids)
  {
    var v := Join(ids, ',');
    var line := DS_TO_PLOT_VAR + "=\"" + v + "\"";
    IdsOfJoin(ids);
    JoinQuoteFree(ids);
    DsToPlotLine(v);
    SingleLineIds(line);
  }

  /** A configuration of one line gives that line's ids. */
  lemma SingleLineIds(line: string)
    requires DsNamesOfLine(line).Some?
    ensures GetDsNamesFromCfg(Some([line])) == Some(DsNamesOfLine(line).value)
  {
    GetDsNamesFirstLine([line], 0);
  }

  lemma {:induction false} JoinQuoteFree(parts: seq<string>)
    requires |parts| >= 1 && |parts[0]| > 0
    requires forall k | 0 <= k < |parts| :: QuoteFree(parts[k])
    ensures |Join(parts, ',')| > 0 && QuoteFree(Join(parts, ','))
  {
    if |parts| > 1 {
      var rest := parts[1..];
      if |rest[0]| > 0 {
        JoinQuoteFree(rest);
      } else {
        JoinQuoteFreeAny(rest);
      }
      var j := parts[0] + [','] + Join(rest, ',');
      assert forall k | 0 <= k < |j| :: j[k] in parts[0] || j[k] == ',' || j[k] in Join(rest, ',');
    }
  }

  lemma {:induction false} JoinQuoteFreeAny(parts: seq<string>)
    requires |parts| >= 1
    requires forall k | 0 <= k < |parts| :: QuoteFree(parts[k])
    ensures QuoteFree(Join(parts, ','))
  {
    if |parts| > 1 {
      JoinQuoteFreeAny(parts[1..]);
      var j := parts[0] + [','] + Join(parts[1..], ',');
      assert forall k | 0 <= k < |j| :: j[k] in parts[0] || j[k] == ',' || j[k] in Join(parts[1..], ',');
    }
  }

  // ---------------------------------------------------------------------
  // parse_plot_titles
  // ---------------------------------------------------------------------

  /** The seven title variables, in the order the alternation tries them. */
  const TITLE_VARS: seq<string> := [
    "PL_GENERAL_IOPS_Y_TITLE",
    "PL_GENERAL_LAT_Y_TITLE",
    "PL_GENERAL_IOPS_TITLE_TEMPLATE",
    "PL_GENERAL_LAT_TITLE_TEMPLATE",
    "PL_IOPS_CONC_X_TITLE",
    "PL_IOPS_CONC_Y_TITLE",
    "PL_IOPS_CONC_TITLE_TEMPLATE"
  ]

  predicate NameChar(c: char) {
    'A' <= c <= 'Z' || c == '_'
  }

  /** A shell variable name in capitals: no whitespace, no `=`, no `#`. */
  predicate UpperName(n: string) {
    |n| > 0 && forall k | 0 <= k < |n| :: NameChar(n[k])
  }

  lemma TitleVarsUpper()
    ensures forall a | 0 <= a < |TITLE_VARS| :: UpperName(TITLE_VARS[a])
    ensures forall a, b | 0 <= a < b < |TITLE_VARS| :: TITLE_VARS[a] != TITLE_VARS[b]
  {
    forall a | 0 <= a < |TITLE_VARS| ensures UpperName(TITLE_VARS[a]) {
      TitleVarUpper(a);
    }
  }

  lemma TitleVarUpper(a: nat)
    requires a < |TITLE_VARS|
    ensures UpperName(TITLE_VARS[a])
  {
    var n := TITLE_VARS[a];
    forall k | 0 <= k < |n| ensures NameChar(n[k]) {}
  }

  /** From `e` on only an optional quote and then whitespace remain: where
      `["\']?\s*$` can match. */
  predicate TailOk(s: string, e: nat)
    requires e <= |s|
  {
    (forall k | e <= k < |s| :: IsSpace(s[k]))
    || (e < |s| && IsQuote(s[e]) && forall k | e + 1 <= k < |s| :: IsSpace(s[k]))
  }

  /** Where the lazy group `(.*?)` started at `e` ends: the first position
      from which the rest of the pattern matches. */
  function LazyEnd(s: string, e: nat): (r: nat)
    requires e <= |s|
    ensures e <= r <= |s| && TailOk(s, r)
    ensures forall k | e <= k < r :: !TailOk(s, k)
    decreases |s| - e
  {
    if TailOk(s, e) then e else LazyEnd(s, e + 1)
  }

  /** The value group of `\s*["\']?(.*?)["\']?\s*$` on the text after `=`. */
  function TitleValue(r: string): string {
    var w := SpaceEnd(r, 0);
    var q := if w < |r| && IsQuote(r[w]) then w + 1 else w;
    r[q..LazyEnd(r, q)]
  }

  /** The first name of `names` at `j` that whitespace and `=` follow, and
      the position after that `=`. */
  function NameMatch(l: string, j: nat, names: seq<string>): (r: Option<(string, nat)>)
    requires j <= |l|
    ensures r.Some? ==> r.value.0 in names && r.value.1 <= |l|
  {
    if |names| == 0 then None
    else
      var n := names[0];
      if MatchesAt(l, j, n) then Some((n, SpaceEnd(l, j + |n|) + 1))
      else NameMatch(l, j, names[1..])
  }

  /** `n` stands at `j`, and whitespace and `=` follow it. */
  predicate MatchesAt(l: string, j: nat, n: string) {
    j + |n| <= |l| && l[j..j + |n|] == n && EqualsAfter(l, j + |n|)
  }

  /** Whitespace, then `=`, from `e` on. */
  predicate EqualsAfter(l: string, e: nat)
    requires e <= |l|
  {
    SpaceEnd(l, e) < |l| && l[SpaceEnd(l, e)] == '='
  }

  /** `pattern.match(line.strip())` for the title pattern: at most one
      `#`, whitespace, one of the seven names, `=`, then the value. */
  function ParseTitleLine(line: string): (r: Option<(string, string)>)
    ensures r.Some? ==> r.value.0 in TITLE_VARS
  {
    ParseAssignment(line, TITLE_VARS)
  }

  /** The title pattern with the alternation over `names`. */
  function ParseAssignment(line: string, names: seq<string>): (r: Option<(string, string)>)
    ensures r.Some? ==> r.value.0 in names
  {
    var l := Strip(line);
    var i := if |l| > 0 && l[0] == '#' then 1 else 0;
    var j := SpaceEnd(l, i);
    match NameMatch(l, j, names)
    case None => None
    case Some((v, a)) => Some((v, TitleValue(l[a..])))
  }

  function TitleEntries(lines: seq<string>): (r: seq<(string, string)>)
    ensures forall i | 0 <= i < |r| :: r[i].0 in TITLE_VARS
  {
    if |lines| == 0 then []
    else
      var init := TitleEntries(lines[..|lines| - 1]);
      match ParseTitleLine(lines[|lines| - 1])
      case Some(e) => init + [e]
      case None => init
  }

  /** `parse_plot_titles()`: only the seven title variables are recorded. */
  function ParsePlotTitles(lines: seq<string>): (r: map<string, string>)
    ensures forall k | k in r :: k in TITLE_VARS
  {
    var kvs := TitleEntries(lines);
    var r := Assign(map[], kvs);
    assert forall k | k in r :: Assigns(kvs, k);
    r
  }

  /** Each line overrides what earlier lines set for its variable: the
      last occurrence wins. */
  lemma ParsePlotTitlesNextLine(lines: seq<string>, line: string)
    ensures ParsePlotTitles(lines + [line]) ==
      match ParseTitleLine(line)
      case Some((v, t)) => ParsePlotTitles(lines)[v := t]
      case None => ParsePlotTitles(lines)
  {
    assert (lines + [line])[..|lines|] == lines;
    match ParseTitleLine(line)
    case Some(e) => AssignAppend(map[], TitleEntries(lines), [e]);
    case None =>
  }

  /** The end of the word at `j`: the run of characters that are neither
      whitespace nor `=`. */
  function WordEnd(l: string, j: nat): (e: nat)
    requires j <= |l|
    ensures j <= e <= |l|
    ensures forall k | j <= k < e :: !IsSpace(l[k]) && l[k] != '='
    ensures e < |l| ==> IsSpace(l[e]) || l[e] == '='
    decreases |l| - j
  {
    if j < |l| && !IsSpace(l[j]) && l[j] != '=' then WordEnd(l, j + 1) else j
  }

  /** Names that hold neither whitespace nor `=` are tried in vain except
      for the word at `j` itself, so the alternation finds that word when
      it is listed and followed by `=`, whatever the order of the names. */
  lemma {:induction false} NameMatchIsWord(l: string, j: nat, names: seq<string>)
    requires j <= |l|
    requires forall a | 0 <= a < |names| :: UpperName(names[a])
    ensures var e := WordEnd(l, j);
      NameMatch(l, j, names) ==
        if l[j..e] in names && EqualsAfter(l, e) then Some((l[j..e], SpaceEnd(l, e) + 1)) else None
  {
    var e := WordEnd(l, j);
    if |names| > 0 {
      var n := names[0];
      NameMatchIsWord(l, j, names[1..]);
      MatchesAtIsWord(l, j, n);
      assert l[j..e] in names <==> l[j..e] == n || l[j..e] in names[1..];
    }
  }

  /** A capitalised name matches at `j` exactly when it is the word there
      and `=` follows. */
  lemma MatchesAtIsWord(l: string, j: nat, n: string)
    requires j <= |l| && UpperName(n)
    ensures MatchesAt(l, j, n) <==> n == l[j..WordEnd(l, j)] && EqualsAfter(l, WordEnd(l, j))
  {
    if MatchesAt(l, j, n) {
      assert forall k | j <= k < j + |n| :: l[k] == n[k - j];
      WordRun(l, j, j + |n|);
    }
  }

  /** A capitalised name at `j` with `=` after it is the word at `j`. */
  lemma {:induction false} WordOfName(l: string, j: nat, n: string)
    requires j + |n| <= |l| && l[j..j + |n|] == n
    requires forall k | 0 <= k < |n| :: NameChar(n[k])
    requires EqualsAfter(l, j + |n|)
    ensures WordEnd(l, j) == j + |n|
    decreases |n|
  {
    if |n| > 0 {
      assert l[j] == n[0];
      assert l[j + 1..j + |n|] == n[1..];
      WordOfName(l, j + 1, n[1..]);
    }
  }

  lemma {:induction false} WordRun(l: string, j: nat, e: nat)
    requires j <= e <= |l|
    requires forall k | j <= k < e :: NameChar(l[k])
    requires EqualsAfter(l, e)
    ensures WordEnd(l, j) == e
    decreases e - j
  {
    if j < e {
      WordRun(l, j + 1, e);
    }
  }

  lemma {:induction false} LazyEndAt(s: string, e: nat, r: nat)
    requires e <= r <= |s| && TailOk(s, r)
    requires forall k | e <= k < r :: !TailOk(s, k)
    ensures LazyEnd(s, e) == r
    decreases r - e
  {
    if e < r {
      LazyEndAt(s, e + 1, r);
    }
  }

  /** A quoted value loses exactly its two quotes, whatever it holds. */
  lemma QuotedTitleValue(t: string)
    ensures TitleValue("\"" + t + "\"") == t
  {
    var r := "\"" + t + "\"";
    assert r[0] == '"' && r[|r| - 1] == '"';
    assert SpaceEnd(r, 0) == 0;
    forall k | 1 <= k < |r| - 1 ensures !TailOk(r, k) {
      assert !IsSpace(r[|r| - 1]);
    }
    LazyEndAt(r, 1, |r| - 1);
    assert r[1..|r| - 1] == t;
  }

  /** `NAME="value"` and `#NAME="value"` record the value under a listed
      name, quotes removed. */
  lemma TitleLineQuoted(commented: bool, x: nat, t: string)
    requires x < |TITLE_VARS|
    ensures var v := TITLE_VARS[x];
      ParseTitleLine((if commented then "#" else "") + v + "=\"" + t + "\"") == Some((v, t))
  {
    TitleVarsUpper();
    AssignmentQuoted(commented, TITLE_VARS, x, t);
  }

  lemma AssignmentQuoted(commented: bool, names: seq<string>, x: nat, t: string)
    requires x < |names| && forall a | 0 <= a < |names| :: UpperName(names[a])
    ensures var v := names[x];
      ParseAssignment((if commented then "#" else "") + v + "=\"" + t + "\"", names) == Some((v, t))
  {
    var v := names[x];
    var h := if commented then "#" else "";
    var rest := "\"" + t + "\"";
    var line := h + v + "=" + rest;
    assert line == h + v + "=\"" + t + "\"";
    var i := |h|;
    assert line[i..i + |v|] == v && line[i + |v|] == '=' && line[i + |v| + 1..] == rest;
    assert line[0] == (if commented then '#' else v[0]);
    assert line[|line| - 1] == '"';
    assert NameChar(v[0]);
    AssignmentLine(line, names, x, i, rest);
    QuotedTitleValue(t);
  }

  /** A stripped line holding an optional `#`, a listed name, `=` and
      `rest` assigns `rest`'s value to the name. */
  lemma AssignmentLine(line: string, names: seq<string>, x: nat, i: nat, rest: string)
    requires x < |names| && forall a | 0 <= a < |names| :: UpperName(names[a])
    requires i <= 1 && i + |names[x]| < |line| && Stripped(line)
    requires line[i..i + |names[x]|] == names[x] && line[i + |names[x]|] == '='
    requires line[i + |names[x]| + 1..] == rest
    requires i == 1 ==> line[0] == '#'
    ensures ParseAssignment(line, names) == Some((names[x], TitleValue(rest)))
  {
    var v := names[x];
    var e := i + |v|;
    StripUntouched(line);
    assert NameChar(v[0]);
    assert line[i] == v[0];
    assert (if |line| > 0 && line[0] == '#' then 1 else 0) == i;
    assert SpaceEnd(line, i) == i;
    assert SpaceEnd(line, e) == e;
    assert EqualsAfter(line, e);
    WordOfName(line, i, v);
    NameMatchIsWord(line, i, names);
    assert line[i..e] == v && v in names;
    assert NameMatch(line, i, names) == Some((v, e + 1));
  }

  /** A line that starts with two `#`s records nothing. */
  lemma DoubleHashIgnored(line: string)
    requires |Strip(line)| >= 2 && Strip(line)[0] == '#' && Strip(line)[1] == '#'
    ensures ParseTitleLine(line).None?
  {
    TitleVarsUpper();
    DoubleHashNoAssignment(line, TITLE_VARS);
  }

  lemma DoubleHashNoAssignment(line: string, names: seq<string>)
    requires |Strip(line)| >= 2 && Strip(line)[0] == '#' && Strip(line)[1] == '#'
    requires forall a | 0 <= a < |names| :: UpperName(names[a])
    ensures ParseAssignment(line, names).None?
  {
    var l := Strip(line);
    assert SpaceEnd(l, 1) == 1;
    NameMatchIsWord(l, 1, names);
    var e := WordEnd(l, 1);
    assert l[1..e][0] == '#';
  }
}

=== FILE: driver.dfy ===
/** The request path of the log-structured virtual block device
    (`src/main.c`): every write of an original sector is placed at the
    next free sector of the backing device and recorded in the redirection
    map; every read is translated back through that map.

    The map is the abstract `SectorMap.SMap`; each backend of
    `ds_control` is related to it by its own refinement lemmas.  Bio
    plumbing is reduced to the numbers it carries: the clone's start
    sector and size and the sizes handed to `setup_bio_split`. */
module Driver {
  import opened Wrappers
  import opened MachineInts
  import opened SectorMap
  import opened Text

  const SECTOR_SIZE: nat := 512
  /** `LSBDD_SECTOR_OFFSET`: the first sector handed out on the backing device. */
  const SECTOR_OFFSET: nat := 32
  const EINVAL: int := 22
  const ERANGE: int := 34
  const ENOMEM: int := 12
  /** `LSBDD_BLKDEV_NAME_PREFIX` */
  const DISK_NAME_PREFIX: string := "lsvbd"
  /** `available_ds`: the data-structure names the module parameter accepts. */
  const AVAILABLE_DS: seq<string> := ["bt", "sl", "ht", "rb"]

  // ---------------------------------------------------------------------
  // Module-parameter helpers
  // ---------------------------------------------------------------------

  /** What `kstrtol(arg, 10, &number)` reported. */
  datatype Kstrtol = Parsed(number: int) | Invalid | Overflow

  /** `convert_to_int`: its status and the (possibly untouched) `*result`. */
  datatype Converted = Converted(status: int, result: nat)

  function ConvertToInt(parsed: Kstrtol, result: nat): (r: Converted)
    ensures r.status == 0 <==> parsed.Parsed? && 0 <= parsed.number <= 255
    ensures r.status == 0 ==> r.result == parsed.number
    ensures r.status != 0 ==> r.result == result
    ensures parsed.Parsed? && r.status != 0 ==> r.status == -ERANGE
    ensures parsed == Invalid ==> r.status == -EINVAL
    ensures parsed == Overflow ==> r.status == -ERANGE
    ensures result < U8_MOD ==> r.result < U8_MOD
  {
    match parsed
    case Invalid => Converted(-EINVAL, result)
    case Overflow => Converted(-ERANGE, result)
    case Parsed(n) =>
      if n < 0 || n > 255 then Converted(-ERANGE, result)
      else Converted(0, U8(n))
  }

  /** `check_available_ds`: 0 exactly for the four supported names. */
  method CheckAvailableDs(current: string) returns (r: int)
    ensures r == 0 <==> current in AVAILABLE_DS
    ensures r == 0 || r == -1
  {
    var i := 0;
    while i < |AVAILABLE_DS|
      invariant 0 <= i <= |AVAILABLE_DS|
      invariant current !in AVAILABLE_DS[..i]
    {
      if AVAILABLE_DS[i] == current {
        return 0;
      }
      i := i + 1;
    }
    return -1;
  }

  /** `get_list_element_by_index`: walks the device list with a `u16`
      counter and returns the element at position `index`. */
  method GetListElementByIndex<T>(list: seq<T>, index: nat) returns (r: Option<T>)
    requires index < U16_MOD
    ensures r == if index < |list| then Some(list[index]) else None
  {
    var i: nat := 0;
    var pos := 0;
    while pos < |list|
      invariant 0 <= pos <= |list|
      invariant pos <= index && i == pos
    {
      if i == index {
        return Some(list[pos]);
      }
      i := U16(i + 1);
      pos := pos + 1;
    }
    return None;
  }

  // ---------------------------------------------------------------------
  // Disk names: "lsvbd" followed by the index printed with "%d"
  // ---------------------------------------------------------------------

  /** `create_disk_name_by_index`: the name and the size of the buffer that
      is reserved for it (prefix, `snprintf` length, terminating NUL). */
  datatype DiskName = DiskName(name: string, bufferSize: nat)

  function CreateDiskName(index: int): (r: DiskName)
    requires IsS32(index)
    ensures |r.name| + 1 == r.bufferSize
    ensures |r.name| > |DISK_NAME_PREFIX| && r.name[..|DISK_NAME_PREFIX|] == DISK_NAME_PREFIX
    ensures r.name[|DISK_NAME_PREFIX|..] == Decimal(index)
  {
    var printed := Decimal(index);
    var name := DISK_NAME_PREFIX + printed;
    assert name[|DISK_NAME_PREFIX|..] == printed;
    DiskName(name, |DISK_NAME_PREFIX| + |printed| + 1)
  }

  /** Different indices give different disk names. */
  lemma DiskNamesDistinct(i: int, j: int)
    requires IsS32(i) && IsS32(j) && i != j
    ensures CreateDiskName(i).name != CreateDiskName(j).name
  {
  }

  // ---------------------------------------------------------------------
  // Driver state and the write path
  // ---------------------------------------------------------------------

  /** The redirection map of one virtual device and the global
      `next_free_sector` counter. */
  datatype State = State(mapping: SMap, nextFree: nat)

  /** Module load: empty map, first free sector `LSBDD_SECTOR_OFFSET`. */
  function Init(): (s: State)
    ensures s.mapping == map[] && s.nextFree == SECTOR_OFFSET
  {
    State(map[], SECTOR_OFFSET)
  }

  /** Every recorded block lives at or after the reserved prefix and at or
      before the next free sector; the counter itself never falls below the
      offset. */
  ghost predicate Valid(s: State) {
    SECTOR_OFFSET <= s.nextFree &&
    forall k | k in s.mapping :: SECTOR_OFFSET <= s.mapping[k].redirected <= s.nextFree
  }

  /** Result of `setup_write_in_clone_segments`: the status, the new state
      and the start sector given to the clone (`None` when untouched). */
  datatype WriteResult = WriteResult(status: int, state: State, cloneSector: Option<nat>)

  /** `setup_write_in_clone_segments` as written.  `allocOk` says whether
      the two cache allocations succeeded; `insertStatus` is what
      `ds_insert` answered. */
  function Write(st: State, original: nat, biSize: nat, allocOk: bool, insertStatus: int): (r: WriteResult)
    ensures r.status == 0 <==> allocOk && insertStatus == 0
    ensures !allocOk ==> r.status == -ENOMEM && r.state == st
    ensures r.state.nextFree >= st.nextFree
    ensures allocOk ==>
      (r.state.nextFree == st.nextFree + biSize / SECTOR_SIZE <==> original !in st.mapping || biSize < SECTOR_SIZE)
    ensures r.status == 0 ==>
      original in r.state.mapping && r.state.mapping[original] == Redir(st.nextFree, biSize) &&
      r.cloneSector == Some(st.nextFree)
    ensures r.status != 0 ==> r.cloneSector == None && original !in r.state.mapping - st.mapping.Keys
    ensures forall k | k in st.mapping && k != original ::
      k in r.state.mapping && r.state.mapping[k] == st.mapping[k]
    ensures r.state.mapping.Keys <= st.mapping.Keys + {original}
    ensures allocOk && original in st.mapping ==> r.state.nextFree == st.nextFree
    ensures allocOk && insertStatus != 0 ==> original !in r.state.mapping
  {
    if !allocOk then WriteResult(-ENOMEM, st, None)
    else
      var redirect := st.nextFree;
      var mapped := original in st.mapping;
      var removed := if mapped then st.mapping - {original} else st.mapping;
      var nextFree := if mapped then st.nextFree else st.nextFree + biSize / SECTOR_SIZE;
      if insertStatus != 0 then WriteResult(insertStatus, State(removed, nextFree), None)
      else WriteResult(0, State(removed[original := Redir(redirect, biSize)], nextFree), Some(redirect))
  }

  lemma WritePreservesValid(st: State, original: nat, biSize: nat, allocOk: bool, insertStatus: int)
    requires Valid(st)
    ensures Valid(Write(st, original, biSize, allocOk, insertStatus).state)
  {
  }

  /** The write path as evidently intended: every write takes newBlock space
      at `next_free_sector`, whether or not the sector was mapped before. */
  function WriteFixed(st: State, original: nat, biSize: nat, allocOk: bool, insertStatus: int): (r: WriteResult)
    ensures r.status == 0 <==> allocOk && insertStatus == 0
    ensures !allocOk ==> r.status == -ENOMEM && r.state == st
    ensures allocOk ==> r.state.nextFree == st.nextFree + biSize / SECTOR_SIZE
    ensures r.status == 0 ==>
      original in r.state.mapping && r.state.mapping[original] == Redir(st.nextFree, biSize) &&
      r.cloneSector == Some(st.nextFree)
    ensures forall k | k in st.mapping && k != original ::
      k in r.state.mapping && r.state.mapping[k] == st.mapping[k]
    ensures r.state.mapping.Keys <= st.mapping.Keys + {original}
  {
    if !allocOk then WriteResult(-ENOMEM, st, None)
    else
      var redirect := st.nextFree;
      var removed := st.mapping - {original};
      var nextFree := st.nextFree + biSize / SECTOR_SIZE;
      if insertStatus != 0 then WriteResult(insertStatus, State(removed, nextFree), None)
      else WriteResult(0, State(removed[original := Redir(redirect, biSize)], nextFree), Some(redirect))
  }

  /** One past the last sector of the backing device that block `r`
      occupies. */
  function End(r: Redir): nat {
    r.redirected + r.blockSize / SECTOR_SIZE
  }

  /** Block `r` occupies sector `s` of the backing device. */
  predicate Covers(r: Redir, s: nat) {
    r.redirected <= s < End(r)
  }

  /** No sector of the backing device is occupied by both blocks. */
  predicate Apart(a: Redir, b: Redir) {
    End(a) <= b.redirected || End(b) <= a.redirected ||
    End(a) == a.redirected || End(b) == b.redirected
  }

  lemma ApartMeansNoSharedSector(a: Redir, b: Redir)
    ensures Apart(a, b) <==> forall s: nat :: !(Covers(a, s) && Covers(b, s))
  {
    if !Apart(a, b) {
      var s := if a.redirected <= b.redirected then b.redirected else a.redirected;
      assert Covers(a, s) && Covers(b, s);
    }
  }

  /** The layout a log-structured device must keep: every live block lies
      in the handed-out region past the offset and no two live blocks share
      a sector of the backing device. */
  ghost predicate Disjoint(s: State) {
    SECTOR_OFFSET <= s.nextFree &&
    (forall k | k in s.mapping ::
      SECTOR_OFFSET <= s.mapping[k].redirected &&
      End(s.mapping[k]) <= s.nextFree) &&
    (forall k1, k2 | k1 in s.mapping && k2 in s.mapping && k1 != k2 ::
      Apart(s.mapping[k1], s.mapping[k2]))
  }

  lemma InitDisjoint()
    ensures Disjoint(Init())
  {
  }

  /** The corrected write path keeps live blocks apart. */
  lemma WriteFixedPreservesDisjoint(st: State, original: nat, biSize: nat, allocOk: bool, insertStatus: int)
    requires Disjoint(st)
    ensures Disjoint(WriteFixed(st, original, biSize, allocOk, insertStatus).state)
  {
    var r := WriteFixed(st, original, biSize, allocOk, insertStatus);
    if allocOk && insertStatus == 0 {
      var m := r.state.mapping;
      forall k1, k2 | k1 in m && k2 in m && k1 != k2
        ensures Apart(m[k1], m[k2])
      {
        if k1 == original || k2 == original {
          var other := if k1 == original then k2 else k1;
          assert m[other] == st.mapping[other];
        } else {
          assert m[k1] == st.mapping[k1] && m[k2] == st.mapping[k2];
        }
      }
    }
  }

  /** The write path as written lets two live blocks share the backing
      device: sector 100 is written, rewritten, then sector 200 is written;
      the rewrite did not advance `next_free_sector`, so both map to 40. */
  lemma OverwriteSharesSector()
    ensures
      var w1 := Write(Init(), 100, 4096, true, 0).state;
      var w2 := Write(w1, 100, 4096, true, 0).state;
      var w3 := Write(w2, 200, 4096, true, 0).state;
      100 in w3.mapping && 200 in w3.mapping &&
      w3.mapping[100].redirected == w3.mapping[200].redirected == 40 &&
      !Disjoint(w3)
  {
    var w1 := Write(Init(), 100, 4096, true, 0).state;
    var w2 := Write(w1, 100, 4096, true, 0).state;
    var w3 := Write(w2, 200, 4096, true, 0).state;
    assert w3.mapping[100] == Redir(40, 4096);
    assert w3.mapping[200] == Redir(40, 4096);
    assert !Apart(w3.mapping[100], w3.mapping[200]);
  }

  // ---------------------------------------------------------------------
  // The read path
  // ---------------------------------------------------------------------

  /** What `setup_read_from_clone_segments` leaves behind.
      `Redirected`: it returned 0; the clone starts at `cloneSector` and
      carries `cloneSize` bytes, after the pieces in `splits` were split off
      and submitted in that order.
      `SplitFailed`: it returned -1 (`split_err`) after submitting `splits`.
      `Diverges`: the mapped-read loop never ends (a zero-sized block).
      `NoMemory`: the `sectors` allocation failed and it returned -ENOMEM. */
  datatype ReadResult =
    | Redirected(cloneSector: nat, cloneSize: nat, splits: seq<int>)
    | SplitFailed(splits: seq<int>)
    | Diverges
    | NoMemory

  /** `check_system_bio`: a read of an unmapped sector is passed through to
      the same sector when nothing is mapped yet or when the sector lies
      beyond the redirected sector of the entry with the greatest key. */
  predicate IsSystemBio(m: SMap, original: nat) {
    match LastKey(m)
    case None => true
    case Some(k) => original > m[k].redirected
  }

  /** Sector `s` of the virtual device lies in the block written at
      original sector `k`. */
  predicate InBlock(k: nat, r: Redir, s: nat) {
    k <= s < k + r.blockSize / SECTOR_SIZE
  }

  /** `check_system_bio` as evidently intended: the sector lies past the
      end of the block written at the greatest original sector. */
  predicate IsSystemBioFixed(m: SMap, original: nat) {
    match LastKey(m)
    case None => true
    case Some(k) => original >= k + m[k].blockSize / SECTOR_SIZE
  }

  /** For an unmapped sector of a non-empty map, the corrected check passes
      the read through exactly when every key lies below the sector and the
      block of the key the read path would consult does not reach it. */
  lemma PassThroughFixedIffUncovered(m: SMap, original: nat)
    requires original !in m && m != map[]
    ensures IsSystemBioFixed(m, original) <==>
      PrevKey(m, original) == LastKey(m) && !InBlock(LastKey(m).value, m[LastKey(m).value], original)
  {
    var k := LastKey(m).value;
    if k < original {
      PrevKeyOfAbsent(m, original, k);
    }
  }

  /** As written, a read inside a block that was just written is passed
      through to the raw sector: the original sector is compared with the
      redirected one.  The corrected check sends it to the block. */
  lemma ReadInsideFreshBlockPassesThrough()
    ensures
      var st := Write(Init(), 100000, 8192, true, 0).state;
      && InBlock(100000, st.mapping[100000], 100008)
      && Read(st, 100008, 4096, true) == Redirected(100008, 4096, [])
      && ReadFixed(st, 100008, 4096, true) == Redirected(40, 4096, [])
  {
    var st := Write(Init(), 100000, 8192, true, 0).state;
    assert st.mapping == map[100000 := Redir(32, 8192)];
    assert LastKey(st.mapping) == Some(100000);
    assert PrevKey(st.mapping, 100008) == Some(100000);
    UnmappedArithmetic(100008, 4096, 100000, Redir(32, 8192));
  }

  function Sum(xs: seq<int>): int {
    if |xs| == 0 then 0 else xs[0] + Sum(xs[1..])
  }

  lemma SumAppend(xs: seq<int>, x: int)
    ensures Sum(xs + [x]) == Sum(xs) + x
  {
    if |xs| > 0 {
      assert (xs + [x])[1..] == xs[1..] + [x];
    }
  }

  /** How the two variants of the read path differ: `AsWritten` stores the
      split result in the `s16` status; `Corrected` keeps it as the `s32`
      it is and never sizes the clone past the request. */
  datatype Variant = AsWritten | Corrected

  /** Exit of the split loop of the unmapped read path. */
  datatype LoopExit = LoopDone(toRead: int, toEnd: int, splits: seq<int>) | LoopFailed(splits: seq<int>)

  /** Lines 278-289: split off `to_end_of_block` bytes, then whole blocks,
      while more than a block remains to read. */
  function SplitLoop(toRead: int, toEnd: int, blockSize: nat, v: Variant, splits: seq<int>): (r: LoopExit)
    decreases U32(toRead), if toEnd > 0 then 1 else 0
  {
    if toEnd <= 0 then LoopDone(toRead, toEnd, splits)
    else
      var status := if v == AsWritten then S16(toEnd) else toEnd;
      if status < 0 then LoopFailed(splits + [toEnd])
      else if U32(toRead) > blockSize then
        var next := S32(U32(toRead - blockSize));
        U32Sub(toRead, blockSize);
        U32OfS32(U32(toRead - blockSize));
        SplitLoop(next, S32(blockSize), blockSize, v, splits + [toEnd])
      else LoopDone(toRead, toEnd, splits + [toEnd])
  }

  /** Reading an unmapped sector that follows the entry `p -> prev`
      (lines 267-291). */
  function ReadFromPrev(original: nat, biSize: nat, p: nat, prev: Redir, v: Variant): ReadResult {
    var (sector, toRead, toEnd) := PrevPlan(original, biSize, p, prev);
    CloneFromPrev(sector, biSize, toRead, toEnd, prev.blockSize, v)
  }

  /** The machine arithmetic of lines 268-273: where the clone starts, the
      bytes past the earlier block and the bytes left in it. */
  function PrevPlan(original: nat, biSize: nat, p: nat, prev: Redir): (nat, int, int) {
    var rs := prev.redirected;
    var bs := prev.blockSize;
    var redirect := U64(U64(rs * SECTOR_SIZE) + U64(U64(original - p) * SECTOR_SIZE));
    var toEnd := S32(U64(U64(rs * SECTOR_SIZE + bs) - redirect));
    var toRead := S32(U32(biSize - U32(toEnd)));
    var sector := U64(rs + U32(bs - U32(toEnd)) / SECTOR_SIZE);
    (sector, toRead, toEnd)
  }

  /** The rest of the unmapped read once the clone's start `sector`, the
      bytes `toEnd` left in the earlier block and the bytes `toRead` past
      it are known: split while the request runs past the block, then size
      the clone. */
  function CloneFromPrev(sector: nat, biSize: nat, toRead: int, toEnd: int, bs: nat, v: Variant): ReadResult {
    var loop :=
      if U32(toRead) < biSize && toRead != 0 then SplitLoop(toRead, toEnd, bs, v, [])
      else LoopDone(toRead, toEnd, []);
    match loop
    case LoopFailed(splits) => SplitFailed(splits)
    case LoopDone(tr, te, splits) =>
      var size :=
        if tr > 0 then tr
        else if v == AsWritten then te
        else biSize;
      Redirected(sector, U32(size), splits)
  }

  /** Lines 299-303: split off whole blocks while the request is longer. */
  function MappedLoop(toRead: int, step: int): (r: (int, seq<int>))
    requires step > 0
    decreases toRead
  {
    if toRead <= 0 then (toRead, [])
    else
      var (rest, splits) := MappedLoop(toRead - step, step);
      (rest, [step] + splits)
  }

  /** Reading a sector that starts a recorded block (lines 292-308). */
  function ReadMapped(original: nat, biSize: nat, cur: Redir): ReadResult {
    if cur.redirected == 0 then Redirected(original, biSize, [])
    else
      var bs := cur.blockSize;
      var toRead := S32(U32(biSize - bs));
      if toRead > 0 && S32(bs) <= 0 then Diverges
      else
        var (rest, splits) := if toRead > 0 then MappedLoop(toRead, S32(bs)) else (toRead, []);
        Redirected(cur.redirected, if rest < 0 then U32(bs + rest) else bs, splits)
  }

  /** `setup_read_from_clone_segments` in either variant.  The clone starts
      as a copy of the request (`original`, `biSize`). */
  function ReadAs(st: State, original: nat, biSize: nat, allocOk: bool, v: Variant): ReadResult {
    if biSize == 0 then Redirected(original, 0, [])
    else if !allocOk then NoMemory
    else if original in st.mapping then ReadMapped(original, biSize, st.mapping[original])
    else if (if v == AsWritten then IsSystemBio(st.mapping, original) else IsSystemBioFixed(st.mapping, original)) then
      Redirected(original, biSize, [])
    else match PrevKey(st.mapping, original)
      case None => Redirected(original, biSize, [])
      case Some(p) => ReadFromPrev(original, biSize, p, st.mapping[p], v)
  }

  /** `setup_read_from_clone_segments` as written.  `allocOk` says whether
      the `sectors` allocation succeeded. */
  function Read(st: State, original: nat, biSize: nat, allocOk: bool): (r: ReadResult)
    ensures biSize == 0 ==> r == Redirected(original, 0, [])
    ensures r.NoMemory? <==> biSize != 0 && !allocOk
    ensures allocOk && original !in st.mapping && IsSystemBio(st.mapping, original) ==> r == Redirected(original, biSize, [])
    ensures allocOk && original !in st.mapping && PrevKey(st.mapping, original).None? ==> r == Redirected(original, biSize, [])
    ensures r.Diverges? ==> original in st.mapping && S32(st.mapping[original].blockSize) <= 0
  {
    ReadAs(st, original, biSize, allocOk, AsWritten)
  }

  /** The read path with the two corrections: the split status is kept as
      `s32` and a read that ends inside the earlier block is sized to the
      request. */
  function ReadFixed(st: State, original: nat, biSize: nat, allocOk: bool): (r: ReadResult)
    ensures biSize == 0 ==> r == Redirected(original, 0, [])
    ensures r.NoMemory? <==> biSize != 0 && !allocOk
    ensures original in st.mapping ==> r == Read(st, original, biSize, allocOk)
    ensures allocOk && original !in st.mapping && IsSystemBioFixed(st.mapping, original) ==> r == Redirected(original, biSize, [])
  {
    ReadAs(st, original, biSize, allocOk, Corrected)
  }

  // ---------------------------------------------------------------------
  // Properties of the read path
  // ---------------------------------------------------------------------

  /** Converting to `u32` and back to `s32` is the identity on `s32`. */
  lemma S32OfU32(x: int)
    requires IsS32(x)
    ensures S32(U32(x)) == x
  {
    var u := U32(x);
    if x < 0 {
      assert u == x + U32_MOD;
    }
  }

  /** Reading back a block just written at the same sector with the same
      size targets exactly the sectors the write went to, in one piece. */
  lemma ReadAfterWrite(st: State, original: nat, biSize: nat)
    requires Valid(st)
    requires 0 < biSize < 0x8000_0000
    ensures
      var w := Write(st, original, biSize, true, 0);
      w.cloneSector == Some(st.nextFree) &&
      Read(w.state, original, biSize, true) == Redirected(st.nextFree, biSize, []) &&
      ReadFixed(w.state, original, biSize, true) == Redirected(st.nextFree, biSize, [])
  {
    var w := Write(st, original, biSize, true, 0);
    assert w.state.mapping[original] == Redir(st.nextFree, biSize);
    assert S32(U32(biSize - biSize)) == 0;
  }

  lemma {:induction false} MappedLoopSum(toRead: int, step: int)
    requires step > 0
    ensures
      var (rest, splits) := MappedLoop(toRead, step);
      (toRead <= 0 ==> rest == toRead && splits == []) &&
      (toRead > 0 ==> -step < rest <= 0) &&
      Sum(splits) == toRead - rest &&
      forall i | 0 <= i < |splits| :: splits[i] == step
    decreases toRead
  {
    if toRead > 0 {
      MappedLoopSum(toRead - step, step);
    }
  }

  /** A read that starts at a recorded block is cut into whole blocks and a
      final clone; together they cover exactly the requested bytes, and the
      first piece starts at the block's redirected sector. */
  lemma MappedReadCoversRequest(st: State, original: nat, biSize: nat)
    requires original in st.mapping && st.mapping[original].redirected != 0
    requires 0 < st.mapping[original].blockSize < 0x8000_0000
    requires 0 < biSize < 0x8000_0000
    ensures
      var cur := st.mapping[original];
      var r := Read(st, original, biSize, true);
      r.Redirected? && r.cloneSector == cur.redirected &&
      Sum(r.splits) + r.cloneSize == biSize &&
      0 < r.cloneSize <= cur.blockSize &&
      (forall i | 0 <= i < |r.splits| :: r.splits[i] == cur.blockSize) &&
      (biSize <= cur.blockSize ==> r.splits == [] && r.cloneSize == biSize)
  {
    var cur := st.mapping[original];
    S32OfU32(biSize - cur.blockSize);
    MappedLoopSum(biSize - cur.blockSize, cur.blockSize);
  }

  /** The quantities the unmapped read path derives from the previous
      entry, for an in-range request starting inside that entry's block. */
  lemma UnmappedArithmetic(original: nat, biSize: nat, p: nat, prev: Redir)
    requires p < original && original - p < prev.blockSize / SECTOR_SIZE
    requires prev.redirected * SECTOR_SIZE + prev.blockSize < U64_MOD
    requires prev.blockSize < 0x8000_0000 && 0 < biSize < 0x8000_0000
    ensures var toEnd := prev.blockSize - (original - p) * SECTOR_SIZE;
      0 < toEnd && PrevPlan(original, biSize, p, prev) == (prev.redirected + (original - p), biSize - toEnd, toEnd)
  {
    var rs := prev.redirected;
    var bs := prev.blockSize;
    var d := original - p;
    assert d * SECTOR_SIZE < bs by {
      assert d + 1 <= bs / SECTOR_SIZE;
      assert (d + 1) * SECTOR_SIZE <= bs;
    }
    var redirect := U64(U64(rs * SECTOR_SIZE) + U64(d * SECTOR_SIZE));
    assert redirect == rs * SECTOR_SIZE + d * SECTOR_SIZE;
    var toEnd := S32(U64(U64(rs * SECTOR_SIZE + bs) - redirect));
    assert toEnd == bs - d * SECTOR_SIZE;
    S32OfU32(biSize - toEnd);
    assert U32(bs - U32(toEnd)) == d * SECTOR_SIZE;
  }

  /** Inside the earlier block the machine arithmetic of the unmapped read
      is exact: the clone starts `original - p` sectors into the block, and
      `toEnd` is the bytes left in it. */
  lemma ReadFromPrevIsClone(original: nat, biSize: nat, p: nat, prev: Redir, v: Variant)
    requires p < original && original - p < prev.blockSize / SECTOR_SIZE
    requires prev.redirected * SECTOR_SIZE + prev.blockSize < U64_MOD
    requires prev.blockSize < 0x8000_0000 && 0 < biSize < 0x8000_0000
    ensures var toEnd := prev.blockSize - (original - p) * SECTOR_SIZE;
      0 < toEnd &&
      ReadFromPrev(original, biSize, p, prev, v) ==
        CloneFromPrev(prev.redirected + (original - p), biSize, biSize - toEnd, toEnd, prev.blockSize, v)
  {
    UnmappedArithmetic(original, biSize, p, prev);
  }

  /** The split loop of the corrected read path: the pieces it splits off
      and what remains to read add up to what there was to read. */
  lemma {:induction false} SplitLoopSum(toRead: int, toEnd: int, blockSize: nat, splits: seq<int>)
    requires 0 < toEnd < 0x8000_0000 && 0 < toRead < 0x8000_0000
    requires 0 < blockSize < 0x8000_0000
    ensures
      var r := SplitLoop(toRead, toEnd, blockSize, Corrected, splits);
      r.LoopDone? && 0 < r.toRead <= blockSize &&
      Sum(r.splits) + r.toRead == Sum(splits) + toEnd + toRead
    decreases toRead
  {
    SumAppend(splits, toEnd);
    if U32(toRead) > blockSize {
      var next := S32(U32(toRead - blockSize));
      assert next == toRead - blockSize;
      SplitLoopSum(next, S32(blockSize), blockSize, splits + [toEnd]);
    }
  }

  lemma FixedReadFromPrevCovers(original: nat, biSize: nat, p: nat, prev: Redir)
    requires p < original && original - p < prev.blockSize / SECTOR_SIZE
    requires prev.redirected * SECTOR_SIZE + prev.blockSize < U64_MOD
    requires prev.blockSize < 0x8000_0000 && 0 < biSize < 0x8000_0000
    ensures
      var r := ReadFromPrev(original, biSize, p, prev, Corrected);
      r.Redirected? && r.cloneSector == prev.redirected + (original - p) &&
      Sum(r.splits) + r.cloneSize == biSize
  {
    ReadFromPrevIsClone(original, biSize, p, prev, Corrected);
    var toEnd := prev.blockSize - (original - p) * SECTOR_SIZE;
    CorrectedCloneCovers(prev.redirected + (original - p), biSize, toEnd, prev.blockSize);
  }

  /** On the corrected path the split pieces and the clone add up to the
      request. */
  lemma CorrectedCloneCovers(sector: nat, biSize: nat, toEnd: int, bs: nat)
    requires 0 < biSize < 0x8000_0000 && 0 < toEnd <= bs < 0x8000_0000
    ensures var r := CloneFromPrev(sector, biSize, biSize - toEnd, toEnd, bs, Corrected);
      r.Redirected? && r.cloneSector == sector && Sum(r.splits) + r.cloneSize == biSize
  {
    if biSize - toEnd > 0 {
      SplitLoopSum(biSize - toEnd, toEnd, bs, []);
    }
  }

  /** A read of an unmapped sector inside an earlier block, on the
      corrected path: the clone starts at the matching sector of the
      redirected block and the split pieces plus the clone cover exactly the
      request. */
  lemma FixedReadInsideBlockCoversRequest(st: State, original: nat, biSize: nat)
    requires original !in st.mapping
    requires PrevKey(st.mapping, original).Some?
    requires
      var p := PrevKey(st.mapping, original).value;
      var prev := st.mapping[p];
      original - p < prev.blockSize / SECTOR_SIZE &&
      prev.redirected * SECTOR_SIZE + prev.blockSize < U64_MOD &&
      prev.blockSize < 0x8000_0000
    requires 0 < biSize < 0x8000_0000
    ensures
      var p := PrevKey(st.mapping, original).value;
      var prev := st.mapping[p];
      var r := ReadFixed(st, original, biSize, true);
      r.Redirected? && r.cloneSector == prev.redirected + (original - p) &&
      Sum(r.splits) + r.cloneSize == biSize
  {
    var p := PrevKey(st.mapping, original).value;
    PassThroughFixedIffUncovered(st.mapping, original);
    assert ReadFixed(st, original, biSize, true) == ReadFromPrev(original, biSize, p, st.mapping[p], Corrected);
    FixedReadFromPrevCovers(original, biSize, p, st.mapping[p]);
  }

  /** On the path as written, a read that ends inside the earlier block
      gets a clone that runs to the end of that block rather than the
      requested size. */
  lemma ReadInsideBlockRunsToBlockEnd(st: State, original: nat, biSize: nat)
    requires original !in st.mapping && !IsSystemBio(st.mapping, original)
    requires PrevKey(st.mapping, original).Some?
    requires
      var p := PrevKey(st.mapping, original).value;
      var prev := st.mapping[p];
      original - p < prev.blockSize / SECTOR_SIZE &&
      prev.redirected * SECTOR_SIZE + prev.blockSize < U64_MOD &&
      prev.blockSize < 0x8000_0000 &&
      biSize <= prev.blockSize - (original - p) * SECTOR_SIZE
    requires 0 < biSize < 0x8000_0000
    ensures
      var p := PrevKey(st.mapping, original).value;
      var prev := st.mapping[p];
      Read(st, original, biSize, true) ==
        Redirected(prev.redirected + (original - p), prev.blockSize - (original - p) * SECTOR_SIZE, [])
  {
    var p := PrevKey(st.mapping, original).value;
    var prev := st.mapping[p];
    assert Read(st, original, biSize, true) == ReadFromPrev(original, biSize, p, prev, AsWritten);
    ReadFromPrevIsClone(original, biSize, p, prev, AsWritten);
    AsWrittenCloneRunsToEnd(prev.redirected + (original - p), biSize, prev.blockSize - (original - p) * SECTOR_SIZE, prev.blockSize);
  }

  /** As written, a request that ends inside the earlier block is not
      split, and its clone takes every byte left in the block. */
  lemma AsWrittenCloneRunsToEnd(sector: nat, biSize: nat, toEnd: int, bs: nat)
    requires 0 < biSize <= toEnd < 0x8000_0000
    ensures CloneFromPrev(sector, biSize, biSize - toEnd, toEnd, bs, AsWritten) == Redirected(sector, toEnd, [])
  {
  }

  /** Counterexample for the `s16` status: after 64 KiB writes at sectors
      0 and 128, a 96 KiB read at sector 64 first splits off 32768 bytes;
      stored in an `s16` that is -32768, so the read fails, while the
      corrected path serves it as 32768 + 65536 bytes from sector 96. */
  lemma SplitStatusWraps()
    ensures
      var s1 := Write(Init(), 0, 65536, true, 0).state;
      var s2 := Write(s1, 128, 65536, true, 0).state;
      Read(s2, 64, 98304, true) == SplitFailed([32768]) &&
      ReadFixed(s2, 64, 98304, true) == Redirected(96, 65536, [32768])
  {
    var s1 := Write(Init(), 0, 65536, true, 0).state;
    var s2 := Write(s1, 128, 65536, true, 0).state;
    assert s2.mapping == map[0 := Redir(32, 65536), 128 := Redir(160, 65536)];
    assert LastKey(s2.mapping) == Some(128);
    assert PrevKey(s2.mapping, 64) == Some(0);
    UnmappedArithmetic(64, 98304, 0, Redir(32, 65536));
    assert S16(32768) == -32768;
  }

  /** Counterexample for the clone size: after a 16 KiB write at sector 0,
      a 4 KiB read at sector 8 is given a 12 KiB clone; the corrected path
      gives 4 KiB. */
  lemma ReadPastRequest()
    ensures
      var s1 := Write(Init(), 0, 16384, true, 0).state;
      Read(s1, 8, 4096, true) == Redirected(40, 12288, []) &&
      ReadFixed(s1, 8, 4096, true) == Redirected(40, 4096, [])
  {
    var s1 := Write(Init(), 0, 16384, true, 0).state;
    assert s1.mapping == map[0 := Redir(32, 16384)];
    assert LastKey(s1.mapping) == Some(0);
    assert PrevKey(s1.mapping, 8) == Some(0);
    UnmappedArithmetic(8, 4096, 0, Redir(32, 16384));
  }
}

=== FILE: ds_control.dfy ===
/** The backend dispatcher (`src/utils/ds_control.c`): `ds_init` picks one
    of four map structures by name, and every later map operation of the
    driver is routed to that structure.

    The dispatcher only routes and interprets what a backend hands back, so
    each operation here takes the selected backend's own answer (its search
    result, its state after an update, its emptiness verdict) as a
    parameter; what the backends compute is modelled in their own modules,
    and the lemmas at the end of this module connect the two for the
    skiplist and hashtable backends. */
module DsControl {
  import opened Wrappers
  import opened MachineInts
  import opened SectorMap
  import SortedLevels
  import D = Driver
  import SS = SyncSkiplist
  import LS = LfSkiplist
  import LH = LfHashtable

  /** `enum data_type`. */
  datatype DsType = Btree | Skiplist | Hashtable | Rbtree

  /** `struct data_struct`: the selected type and the backend structures.
      In C the structures share a union of which only the selected one is
      live; the model keeps one slot per type so that "the others are left
      alone" can be stated. */
  datatype Ds<S> = Ds(kind: DsType, bt: S, sl: S, ht: S, rb: S)

  function Of<S>(ds: Ds<S>, t: DsType): S {
    match t
    case Btree => ds.bt
    case Skiplist => ds.sl
    case Hashtable => ds.ht
    case Rbtree => ds.rb
  }

  /** Replaces the structure of type `t` and nothing else. */
  function Put<S>(ds: Ds<S>, t: DsType, s: S): (r: Ds<S>)
    ensures r.kind == ds.kind && Of(r, t) == s
    ensures forall u | u != t :: Of(r, u) == Of(ds, u)
  {
    match t
    case Btree => ds.(bt := s)
    case Skiplist => ds.(sl := s)
    case Hashtable => ds.(ht := s)
    case Rbtree => ds.(rb := s)
  }

  /** A status together with the dispatcher's state after the call. */
  datatype Outcome<S> = Outcome(status: int, ds: Ds<S>)

  // ---------------------------------------------------------------------
  // ds_init
  // ---------------------------------------------------------------------

  /** The two-letter code `ds_init` compares the name against. */
  function Code(t: DsType): string {
    match t
    case Btree => "bt"
    case Skiplist => "sl"
    case Hashtable => "ht"
    case Rbtree => "rb"
  }

  /** `!strncmp(name, code, 2)`: the first two characters are the code.  A
      shorter name reaches its terminating NUL first and so differs. */
  predicate Selects(name: string, t: DsType) {
    |name| >= 2 && name[..2] == Code(t)
  }

  /** The branch of `ds_init` a name takes: the codes are tried in the
      order bt, sl, ht, rb, and they are pairwise different, so at most
      one applies. */
  function SelectType(name: string): (r: Option<DsType>)
    ensures forall t :: Selects(name, t) <==> r == Some(t)
  {
    if Selects(name, Btree) then Some(Btree)
    else if Selects(name, Skiplist) then Some(Skiplist)
    else if Selects(name, Hashtable) then Some(Hashtable)
    else if Selects(name, Rbtree) then Some(Rbtree)
    else None
  }

  /** `ds_init`.  `setup` is the status of the chosen branch's allocation
      and initialisation steps (0 when they all succeed): `kzalloc` and
      `btree_init` for the btree, the node cache and the constructor for
      the skiplist and the hashtable.  The rbtree branch checks nothing.
      `built` is the structure the chosen constructor builds. */
  function DsInit<S>(ds: Ds<S>, name: string, setup: int, built: S): (r: Outcome<S>)
    ensures r.status == 0 <==>
      (exists t :: Selects(name, t)) && (setup == 0 || Selects(name, Rbtree))
    ensures (forall t :: !Selects(name, t)) ==> r.status == -1
    ensures (exists t :: Selects(name, t) && t != Rbtree) && setup != 0 ==> r.status == setup
    ensures r.status != 0 ==> r.ds == ds
    ensures r.status == 0 ==> Selects(name, r.ds.kind) && Of(r.ds, r.ds.kind) == built
    ensures r.status == 0 ==> forall u | u != r.ds.kind :: Of(r.ds, u) == Of(ds, u)
  {
    match SelectType(name)
    case None => Outcome(-1, ds)
    case Some(t) =>
      if t != Rbtree && setup != 0 then Outcome(setup, ds)
      else Outcome(0, Put(ds, t, built).(kind := t))
  }

  /** Every name the module parameter check accepts selects the backend of
      the same code in `ds_init`; `ds_init` on its own also accepts longer
      names such as "btree". */
  lemma AvailableNamesSelect(name: string)
    requires name in D.AVAILABLE_DS
    ensures SelectType(name).Some? && Code(SelectType(name).value) == name
  {
    assert name == "bt" || name == "sl" || name == "ht" || name == "rb";
    assert name[..2] == name;
  }

  lemma LongerNameSelects()
    ensures SelectType("btree") == Some(Btree) && "btree" !in D.AVAILABLE_DS
  {
    assert "btree"[..2] == "bt";
  }

  // ---------------------------------------------------------------------
  // ds_lookup, ds_prev
  // ---------------------------------------------------------------------

  /** What a backend's search hands back: no node (NULL), or a node whose
      value pointer may itself be NULL.  The btree library returns the
      value pointer directly, which is `None` or `Some(Some(v))`. */
  type Answer = Option<Option<Redir>>

  /** `ds_lookup`: `CHECK_FOR_NULL` then `CHECK_VALUE_AND_RETURN` on the
      node, and NULL when the value check falls through. */
  function DsLookup(kind: DsType, a: Answer): (r: Option<Redir>)
    ensures r.Some? <==> a.Some? && a.value.Some?
    ensures r.Some? ==> r.value == a.value.value
  {
    if kind == Btree then
      if a.Some? && a.value.Some? then Some(a.value.value) else None
    else
      match a
      case None => None
      case Some(v) => v
  }

  /** `ds_prev` as written falls out of the switch into `BUG()` when the
      backend returns a node whose value is NULL; the corrected dispatcher
      returns NULL there, as `ds_lookup` does. */
  datatype Variant = AsWritten | Corrected

  /** How `ds_prev` ends: with a value, with NULL, or in `BUG()`. */
  datatype PrevReply = Found(value: Redir) | Null | Crash

  function DsPrev(kind: DsType, a: Answer, v: Variant): (r: PrevReply)
    ensures r.Found? <==> a.Some? && a.value.Some?
    ensures r.Found? ==> r.value == a.value.value
    ensures r.Crash? <==> v == AsWritten && kind != Btree && a == Some(None)
  {
    if kind == Btree then
      if a.Some? && a.value.Some? then Found(a.value.value) else Null
    else
      match a
      case None => Null
      case Some(None) => if v == AsWritten then Crash else Null
      case Some(Some(x)) => Found(x)
  }

  // ---------------------------------------------------------------------
  // ds_insert, ds_remove
  // ---------------------------------------------------------------------

  /** `ds_insert`: `after` is the selected structure once its own insert
      has run, `btStatus` the btree library's status.  Only the btree
      branch passes a status on; the other three return 0 whatever the
      backend did. */
  function DsInsert<S>(ds: Ds<S>, btStatus: int, after: S): (r: Outcome<S>)
    ensures r.ds.kind == ds.kind && Of(r.ds, ds.kind) == after
    ensures forall u | u != ds.kind :: Of(r.ds, u) == Of(ds, u)
    ensures ds.kind != Btree ==> r.status == 0
    ensures ds.kind == Btree ==> r.status == btStatus
  {
    Outcome(if ds.kind == Btree then btStatus else 0, Put(ds, ds.kind, after))
  }

  /** `ds_remove`: `after` is the selected structure once its own remove
      has run. */
  function DsRemove<S>(ds: Ds<S>, after: S): (r: Ds<S>)
    ensures r.kind == ds.kind && Of(r, ds.kind) == after
    ensures forall u | u != ds.kind :: Of(r, u) == Of(ds, u)
  {
    Put(ds, ds.kind, after)
  }

  // ---------------------------------------------------------------------
  // ds_last, ds_empty_check
  // ---------------------------------------------------------------------

  /** `ds_last`: the hashtable's `last_el` and `rbtree_last` may be NULL,
      which reads as 0; the btree and skiplist functions return a sector
      themselves (`Some`).  The `BUG()` after the switch is unreachable for
      the four types. */
  function DsLast(kind: DsType, last: Option<nat>): (r: nat)
  {
    match kind
    case Btree => last.GetOr(0)
    case Skiplist => last.GetOr(0)
    case Hashtable => if last.None? then 0 else last.value
    case Rbtree => if last.None? then 0 else last.value
  }

  /** `ds_empty_check`: 1 exactly when the selected backend reports empty
      (`height == 0` for the btree, `node_num == 0` for the rbtree, the
      backend's `is_empty` otherwise), else 0. */
  function DsEmptyCheck(kind: DsType, reportsEmpty: bool): (r: int)
  {
    match kind
    case Btree => if reportsEmpty then 1 else 0
    case Skiplist => if reportsEmpty then 1 else 0
    case Hashtable => if reportsEmpty then 1 else 0
    case Rbtree => if reportsEmpty then 1 else 0
  }

  // ---------------------------------------------------------------------
  // The dispatcher over concrete backends
  // ---------------------------------------------------------------------

  /** A node of the sync skiplist as the dispatcher sees it: the head and
      tail sentinels carry NULL values (`HEAD_VALUE`, `TAIL_VALUE`). */
  function SyncNode(n: SS.NodeRef): Option<Redir> {
    if n.Real? then Some(n.node.value) else None
  }

  /** The abstract lookup: the value mapped to `key`, if any. */
  function Lookup(m: SMap, key: nat): Option<Redir> {
    if key in m then Some(m[key]) else None
  }

  /** Through the sync skiplist's search, `ds_lookup` answers the
      abstract lookup: as written on a list without a key-0 node, and
      with the zero-key guard dropped on every valid list. */
  lemma LookupSyncSkiplist(sl: SS.Skiplist, key: nat)
    requires SS.Valid(sl) && key < SS.TAIL_KEY
    ensures SS.NoZeroKey(sl) ==>
      var f := SS.FindNode(sl, key);
      var a: Answer := if f.Some? then Some(SyncNode(f.value)) else None;
      DsLookup(Skiplist, a) == Lookup(SS.Abs(sl), key)
    ensures
      var f := SS.FindNodeFixed(sl, key);
      var a: Answer := if f.Some? then Some(SyncNode(f.value)) else None;
      DsLookup(Skiplist, a) == Lookup(SS.Abs(sl), key)
  {
    if SS.NoZeroKey(sl) {
      SS.FindNodeRefines(sl, key);
    }
    SS.FindNodeFixedRefines(sl, key);
  }

  /** Through the lock-free skiplist's search, `ds_lookup` answers the
      abstract lookup. */
  lemma LookupLfSkiplist(sl: LS.Skiplist, key: nat)
    requires LS.Valid(sl) && LS.SmallKeys(sl.towers) && key < 0x8000_0000
    ensures
      var f := LS.FindNode(sl, key, LS.AsWritten);
      var a: Answer := if f.Some? then Some(Some(f.value.node.value)) else None;
      DsLookup(Skiplist, a) == Lookup(LS.Abs(sl), key)
  {
    LS.FindPredsAgree(sl, key);
    LS.FindNodeRefines(sl, key);
  }

  /** The sync skiplist hands back its head when no key is below `key`.
      The head's value is NULL, so `ds_prev` as written ends in `BUG()`;
      corrected, it returns NULL.  Otherwise both return the value of the
      greatest key below `key`. */
  lemma PrevSyncSkiplist(sl: SS.Skiplist, key: nat)
    requires SS.Valid(sl)
    ensures
      var a: Answer := Some(SyncNode(SS.Prev(sl, key).node));
      match PrevKey(SS.Abs(sl), key)
      case None => DsPrev(Skiplist, a, AsWritten) == Crash && DsPrev(Skiplist, a, Corrected) == Null
      case Some(p) =>
        DsPrev(Skiplist, a, AsWritten) == Found(SS.Abs(sl)[p])
        && DsPrev(Skiplist, a, Corrected) == Found(SS.Abs(sl)[p])
  {
    SS.PrevRefines(sl, key);
  }

  /** A valid sync skiplist holding the key 8, asked for the key 5: the
      dispatcher as written crashes. */
  lemma PrevBelowEveryKeyCrashes()
    ensures
      var sl := SS.Skiplist([[SortedLevels.Node(8, Redir(32, 4096))]]);
      SS.Valid(sl) && 8 in SS.Abs(sl)
      && DsPrev(Skiplist, Some(SyncNode(SS.Prev(sl, 5).node)), AsWritten) == Crash
  {
    var sl := SS.Skiplist([[SortedLevels.Node(8, Redir(32, 4096))]]);
    assert SS.Valid(sl);
    assert 8 in SS.Abs(sl);
    assert PrevKey(SS.Abs(sl), 5).None?;
    PrevSyncSkiplist(sl, 5);
  }

  /** The lock-free skiplist returns NULL when no key is below `key`, so
      `ds_prev` never crashes on it and returns the predecessor's value. */
  lemma PrevLfSkiplist(sl: LS.Skiplist, key: nat)
    requires LS.Valid(sl)
    ensures
      var p := LS.Prev(sl, key);
      var a: Answer := if p.Some? then Some(Some(p.value.value)) else None;
      var want := PrevKey(LS.Abs(sl), key);
      DsPrev(Skiplist, a, AsWritten) == (if want.None? then Null else Found(LS.Abs(sl)[want.value]))
  {
    LS.PrevRefines(sl, key);
  }

  /** A node of the lock-free hash table as the dispatcher sees it: the
      head of a slot list carries a NULL value. */
  function LfHashNode(r: LH.PrevResult): Option<Redir> {
    if r.PrevNode? then Some(r.node.value) else None
  }

  /** What the corrected lock-free hash table search hands the dispatcher:
      NULL when nothing lies below, else the entry's node. */
  function LfHashFixed(r: Option<SortedLevels.Node>): Answer {
    if r.Some? then Some(Some(r.value.value)) else None
  }

  /** A lock-free hash table holding keys 100 and 5000, asked for the key
      4500: it hands back a slot head, so the dispatcher as written ends in
      `BUG()` although 100 lies below; the corrected search returns 100's
      value. */
  lemma PrevLfHashtableCrashes()
    ensures
      var ht := LH.TwoBuckets();
      && PrevKey(LH.Abs(ht, LH.Identity), 4500) == Some(100)
      && DsPrev(Hashtable, Some(LfHashNode(LH.Prev(ht, 4500, LH.Identity))), AsWritten) == Crash
      && DsPrev(Hashtable, LfHashFixed(LH.PrevFixed(ht, 4500, LH.Identity)), Corrected) == Found(Redir(32, 8))
  {
    LH.PrevMissesEarlierBucket();
  }

  /** Through the corrected search, `ds_prev` answers the abstract
      `ds_prev` on every valid lock-free hash table. */
  lemma PrevLfHashtableFixed(ht: LH.Hashtable, key: nat, hash: nat -> nat)
    requires LH.Valid(ht, hash)
    ensures
      var want := PrevKey(LH.Abs(ht, hash), key);
      DsPrev(Hashtable, LfHashFixed(LH.PrevFixed(ht, key, hash)), Corrected)
        == (if want.None? then Null else Found(LH.Abs(ht, hash)[want.value]))
  {
    LH.PrevFixedIsPrevKey(ht, key, hash);
  }

  /** Insert through the dispatcher into the lock-free skiplist, with the
      key comparison as written and every key below 2^31: status 0, and a
      later `ds_lookup` finds the new value. */
  lemma InsertThenLookup(ds: Ds<LS.Skiplist>, key: nat, value: Redir, word: nat)
    requires ds.kind == Skiplist && LS.Valid(ds.sl) && LS.SmallKeys(ds.sl.towers)
    requires key < 0x8000_0000 && 0 < word < U32_MOD
    ensures
      var r := DsInsert(ds, 0, LS.Insert(ds.sl, key, value, word, LS.AsWritten).sl);
      var f := LS.FindNode(r.ds.sl, key, LS.AsWritten);
      && r.status == 0
      && DsLookup(Skiplist, if f.Some? then Some(Some(f.value.node.value)) else None) == Some(value)
  {
    LS.InsertAgrees(ds.sl, key, value, word);
    var after := LS.Insert(ds.sl, key, value, word, LS.Corrected).sl;
    LS.InsertRefines(ds.sl, key, value, word);
    SmallKeysInsert(ds.sl, key, value, word);
    LookupLfSkiplist(after, key);
  }

  /** The corrected insert only adds `key` to the keys already there. */
  lemma SmallKeysInsert(sl: LS.Skiplist, key: nat, value: Redir, word: nat)
    requires LS.Valid(sl) && LS.SmallKeys(sl.towers) && key < 0x8000_0000 && 0 < word < U32_MOD
    ensures LS.SmallKeys(LS.Insert(sl, key, value, word, LS.Corrected).sl.towers)
  {
    var after := LS.Insert(sl, key, value, word, LS.Corrected).sl;
    LS.InsertRefines(sl, key, value, word);
    forall i | 0 <= i < |after.towers|
      ensures after.towers[i].node.key < 0x8000_0000
    {
      var k := after.towers[i].node.key;
      LS.KeyAt(after.towers, k);
      LS.KeyAt(sl.towers, k);
    }
  }

  /** The corrected remove only drops keys. */
  lemma SmallKeysRemove(sl: LS.Skiplist, key: nat)
    requires LS.Valid(sl) && LS.SmallKeys(sl.towers)
    ensures LS.SmallKeys(LS.Remove(sl, key, LS.Corrected).towers)
  {
    var after := LS.Remove(sl, key, LS.Corrected);
    LS.RemoveRefines(sl, key);
    forall i | 0 <= i < |after.towers|
      ensures after.towers[i].node.key < 0x8000_0000
    {
      var k := after.towers[i].node.key;
      LS.KeyAt(after.towers, k);
      LS.KeyAt(sl.towers, k);
    }
  }

  /** Remove through the dispatcher from the lock-free skiplist, with the
      key comparison as written and every key below 2^31: a later
      `ds_lookup` of the key returns NULL and other keys are unaffected. */
  lemma RemoveThenLookup(ds: Ds<LS.Skiplist>, key: nat, other: nat)
    requires ds.kind == Skiplist && LS.Valid(ds.sl) && LS.SmallKeys(ds.sl.towers) && other != key
    requires key < 0x8000_0000 && other < 0x8000_0000
    ensures
      var r := DsRemove(ds, LS.Remove(ds.sl, key, LS.AsWritten));
      var f := LS.FindNode(r.sl, key, LS.AsWritten);
      var g := LS.FindNode(r.sl, other, LS.AsWritten);
      var h := LS.FindNode(ds.sl, other, LS.AsWritten);
      && DsLookup(Skiplist, if f.Some? then Some(Some(f.value.node.value)) else None) == None
      && DsLookup(Skiplist, if g.Some? then Some(Some(g.value.node.value)) else None)
         == DsLookup(Skiplist, if h.Some? then Some(Some(h.value.node.value)) else None)
  {
    LS.RemoveAgrees(ds.sl, key);
    var after := LS.Remove(ds.sl, key, LS.Corrected);
    LS.RemoveRefines(ds.sl, key);
    SmallKeysRemove(ds.sl, key);
    LookupLfSkiplist(after, key);
    LookupLfSkiplist(after, other);
    LookupLfSkiplist(ds.sl, other);
  }

  /** With the lock-free skiplist, `ds_last` reports `last_key`, which
      bounds every mapped key from above. */
  lemma LastLfSkiplist(sl: LS.Skiplist)
    requires LS.Valid(sl)
    ensures forall k | k in LS.Abs(sl) :: k <= DsLast(Skiplist, Some(LS.Last(sl)))
  {
    LS.LastBoundsKeys(sl);
  }

  /** With the sync skiplist (no key-0 node), `ds_last` is the greatest
      mapped key, or 0 for an empty map. */
  lemma LastSyncSkiplist(sl: SS.Skiplist)
    requires SS.Valid(sl) && SS.NoZeroKey(sl)
    ensures DsLast(Skiplist, Some(SS.Last(sl))) == LastKey(SS.Abs(sl)).GetOr(0)
  {
    SS.LastRefines(sl);
  }

  /** With the zero-key guard of `skiplist_last` dropped, `ds_last` is the
      greatest mapped key, or 0 for an empty map, on every valid list. */
  lemma LastSyncSkiplistFixed(sl: SS.Skiplist)
    requires SS.Valid(sl)
    ensures DsLast(Skiplist, Some(SS.LastFixed(sl))) == LastKey(SS.Abs(sl)).GetOr(0)
  {
    SS.LastFixedRefines(sl);
  }

  /** With the lock-free hashtable, `ds_empty_check` never reports empty,
      because `hashtable_is_empty` never holds on a valid table. */
  lemma EmptyCheckLfHashtable(ht: LH.Hashtable, hash: nat -> nat)
    requires LH.Valid(ht, hash)
    ensures DsEmptyCheck(Hashtable, LH.IsEmpty(ht)) == 0
  {
    LH.IsEmptyNeverHolds(ht, hash);
  }

  /** With the lock-free skiplist, `ds_empty_check` reports 1 exactly for
      the empty map. */
  lemma EmptyCheckLfSkiplist(sl: LS.Skiplist)
    ensures DsEmptyCheck(Skiplist, LS.IsEmpty(sl)) == 1 <==> LS.Abs(sl) == map[]
  {
    LS.IsEmptyRefines(sl);
  }
}

=== FILE: general_conc_plots.dfy ===
/** The pure helpers of `test/general_conc_plots.py`: the block-size sort
    key, the display names of the structures and the metric column. The
    plotting itself is outside the model. */
module GeneralConcPlots {
  import opened Wrappers
  import opened Text
  import DsControl

  // ---------------------------------------------------------------------
  // parse_block_size_for_sorting
  // ---------------------------------------------------------------------

  /** `{"k": 1024, "m": 1024**2}.get(unit, 1)`. */
  function Multiplier(unit: char): nat {
    if unit == 'k' then 1024 else if unit == 'm' then 1024 * 1024 else 1
  }

  /** `re.match(r"(\d+)([kmgtp]?)b?", s.lower())`, then the number times
      the unit's multiplier; 0 when the string does not start with a
      digit. */
  function ParseBlockSizeForSorting(bs: string): (r: nat)
    ensures (|bs| == 0 || !IsDigitChar(bs[0])) ==> r == 0
  {
    var l := Lower(bs);
    var d := LeadingDigits(l);
    if |d| == 0 then 0
    else
      var n := ParseDigits(d);
      var rest := l[|d|..];
      if |rest| > 0 && rest[0] in "kmgtp" then n * Multiplier(rest[0]) else n
  }

  /** Upper and lower case give the same key. */
  lemma CaseInsensitive(bs: string)
    ensures ParseBlockSizeForSorting(Lower(bs)) == ParseBlockSizeForSorting(bs)
  {
    LowerIdempotent(bs);
  }

  /** The key of `n` followed by a non-digit suffix, read in lower case. */
  lemma KeyOfSuffix(n: nat, suffix: string)
    requires |suffix| > 0 ==> !IsDigitChar(LowerChar(suffix[0]))
    ensures var l := Lower(suffix);
      ParseBlockSizeForSorting(Digits(n) + suffix) ==
        if |l| > 0 && l[0] in "kmgtp" then n * Multiplier(l[0]) else n
  {
    var d := Digits(n);
    var l := Lower(d + suffix);
    assert l == d + Lower(suffix) by {
      assert forall i | 0 <= i < |d| :: LowerChar(d[i]) == d[i];
    }
    LeadingDigitsOf(d, Lower(suffix));
    ParseDigitsOfDigits(n);
    assert l[|d|..] == Lower(suffix);
  }

  /** `"<n>k"`, `"<n>K"` and `"<n>kb"` are `n` KiB; `"<n>m"` and
      `"<n>MB"` are `n` MiB. */
  lemma KibiAndMebi(n: nat)
    ensures ParseBlockSizeForSorting(Digits(n) + "k") == n * 1024
    ensures ParseBlockSizeForSorting(Digits(n) + "K") == n * 1024
    ensures ParseBlockSizeForSorting(Digits(n) + "kb") == n * 1024
    ensures ParseBlockSizeForSorting(Digits(n) + "m") == n * 1048576
    ensures ParseBlockSizeForSorting(Digits(n) + "MB") == n * 1048576
  {
    KeyOfSuffix(n, "k");
    KeyOfSuffix(n, "K");
    KeyOfSuffix(n, "kb");
    KeyOfSuffix(n, "m");
    KeyOfSuffix(n, "MB");
  }

  /** A bare number is itself. */
  lemma BareNumber(n: nat)
    ensures ParseBlockSizeForSorting(Digits(n)) == n
  {
    var d := Digits(n);
    assert Lower(d) == d by {
      assert forall i | 0 <= i < |d| :: LowerChar(d[i]) == d[i];
    }
    LeadingDigitsOf(d, "");
    assert d + "" == d;
    ParseDigitsOfDigits(n);
  }

  /** `g`, `t` and `p` fall back to the multiplier 1. */
  lemma LargeUnits(n: nat)
    ensures ParseBlockSizeForSorting(Digits(n) + "g") == n
    ensures ParseBlockSizeForSorting(Digits(n) + "t") == n
    ensures ParseBlockSizeForSorting(Digits(n) + "p") == n
  {
    KeyOfSuffix(n, "g");
    KeyOfSuffix(n, "t");
    KeyOfSuffix(n, "p");
  }

  /** KiB sizes sort below MiB sizes exactly when they are fewer bytes. */
  lemma KibiBelowMebi(a: nat, b: nat)
    ensures ParseBlockSizeForSorting(Digits(a) + "k") < ParseBlockSizeForSorting(Digits(b) + "m") <==> a < 1024 * b
  {
    KibiAndMebi(a);
    KibiAndMebi(b);
  }

  // ---------------------------------------------------------------------
  // get_formatted_ds_name, get_metric
  // ---------------------------------------------------------------------

  /** The legend label of a structure code; "unknown" for any other
      string. */
  function FormattedDsName(ds: string): string {
    if ds == "ht" then "Хеш-таблица"
    else if ds == "sl" then "Список с пропусками"
    else if ds == "bt" then "Б+ дерево"
    else if ds == "rb" then "Красно-черное дерево"
    else "unknown"
  }

  /** Every structure the driver can select has its own label, and only
      those four codes have one. */
  lemma FormattedNamesDistinct(t: DsControl.DsType, u: DsControl.DsType, ds: string)
    ensures FormattedDsName(DsControl.Code(t)) != "unknown"
    ensures t != u ==> FormattedDsName(DsControl.Code(t)) != FormattedDsName(DsControl.Code(u))
    ensures (forall v: DsControl.DsType :: ds != DsControl.Code(v)) ==> FormattedDsName(ds) == "unknown"
  {
    if forall v: DsControl.DsType :: ds != DsControl.Code(v) {
      assert ds != DsControl.Code(DsControl.Hashtable) && ds != DsControl.Code(DsControl.Skiplist);
      assert ds != DsControl.Code(DsControl.Btree) && ds != DsControl.Code(DsControl.Rbtree);
    }
  }

  /** Columns of the latency and the IOPS result files. */
  const LAT_COLUMNS: seq<string> := [
    "RunID", "DS", "BS", "RW_MIX", "RW_TYPE", "Avg_SLAT", "Avg_CLAT", "Avg_LAT",
    "Max_SLAT", "Max_CLAT", "Max_LAT", "P99_SLAT", "P99_CLAT", "P99_LAT",
    "RW_MIX", "IODEPTH", "NUMJOBS"
  ]
  const IOPS_COLUMNS: seq<string> := [
    "RunID", "DS", "BS", "MIX", "BW", "IOPS", "MODE", "RW_TYPE", "IODEPTH", "NUMJOBS"
  ]

  /** `get_metric()`: the column plotted for the metric argument; `None`
      (the function falls off its `match`) for anything else. */
  function GetMetric(metric: string): (r: Option<string>)
    ensures r.Some? <==> metric == "iops" || metric == "lat"
  {
    if metric == "iops" then Some("IOPS")
    else if metric == "lat" then Some("P99_LAT")
    else None
  }

  /** The column `get_metric` picks exists in the file of that metric. */
  lemma MetricColumnExists(metric: string)
    ensures metric == "iops" ==> GetMetric(metric).value in IOPS_COLUMNS
    ensures metric == "lat" ==> GetMetric(metric).value in LAT_COLUMNS
  {
    assert IOPS_COLUMNS[5] == "IOPS";
    assert LAT_COLUMNS[13] == "P99_LAT";
  }
}

=== FILE: lf_hashtable.dfy ===
/** The lock-free bucketed hash table backend
    (`src/utils/lock-free/hashtable.c`), run by one thread at a time.

    2^17 slots (`HT_MAP_BITS` = 17), each a lock-free sorted list
    (`LfList`).  A key's bucket number is `key / 2048` (`BUCKET_NUM`) and
    its slot `hash_min(bucket, 17)`; `hash_min` is kernel code outside this
    model and is the parameter `hash`, reduced below 2^17 as `hash_min`
    guarantees.  Allocation failures are not modelled. */
module LfHashtable {
  import opened Wrappers
  import opened MachineInts
  import opened SectorMap
  import opened SortedLevels
  import L = LfList

  const HT_MAP_BITS: nat := 17
  const BUCKET_COUNT: nat := 0x2_0000
  const CHUNK_SIZE: nat := 2048

  /** `struct hashtable`: the slot lists, `last_el` (`None` is `NULL`) and
      the `u8` `max_bck_num`. */
  datatype Hashtable = Hashtable(heads: seq<L.LfList>, lastEl: Option<L.LfNode>, maxBckNum: nat)

  /** `BUCKET_NUM`. */
  function BucketNum(key: nat): nat {
    key / CHUNK_SIZE
  }

  /** `hash_min(bucket, HT_MAP_BITS)`. */
  function Slot(hash: nat -> nat, bucket: nat): (s: nat)
    ensures s < BUCKET_COUNT
  {
    hash(bucket) % BUCKET_COUNT
  }

  function SlotOf(hash: nat -> nat, key: nat): nat {
    Slot(hash, BucketNum(key))
  }

  predicate WellFormed(ht: Hashtable) {
    |ht.heads| == BUCKET_COUNT
  }

  /** Every slot list is valid and holds only keys that hash to it. */
  ghost predicate Valid(ht: Hashtable, hash: nat -> nat) {
    WellFormed(ht) &&
    (forall i | 0 <= i < BUCKET_COUNT :: L.Valid(ht.heads[i])) &&
    (forall i | 0 <= i < BUCKET_COUNT :: forall k | k in L.Abs(ht.heads[i]) :: SlotOf(hash, k) == i)
  }

  // ---------------------------------------------------------------------
  // The abstract map
  // ---------------------------------------------------------------------

  ghost function AllKeys(ls: seq<L.LfList>): set<nat> {
    if |ls| == 0 then {} else L.Abs(ls[0]).Keys + AllKeys(ls[1..])
  }

  lemma {:induction false} AllKeysHas(ls: seq<L.LfList>, i: nat, k: nat)
    requires i < |ls| && k in L.Abs(ls[i])
    ensures k in AllKeys(ls)
  {
    if i > 0 {
      assert ls[1..][i - 1] == ls[i];
      AllKeysHas(ls[1..], i - 1, k);
    } else {
      assert k in L.Abs(ls[0]).Keys;
    }
  }

  /** The map the table stands for: each key as its own slot list maps it. */
  ghost function Abs(ht: Hashtable, hash: nat -> nat): SMap
    requires WellFormed(ht)
  {
    map k | k in AllKeys(ht.heads) && k in L.Abs(ht.heads[SlotOf(hash, k)]) :: L.Abs(ht.heads[SlotOf(hash, k)])[k]
  }

  lemma AbsAt(ht: Hashtable, hash: nat -> nat, k: nat)
    requires WellFormed(ht)
    ensures k in Abs(ht, hash) <==> k in L.Abs(ht.heads[SlotOf(hash, k)])
    ensures k in Abs(ht, hash) ==> Abs(ht, hash)[k] == L.Abs(ht.heads[SlotOf(hash, k)])[k]
  {
    if k in L.Abs(ht.heads[SlotOf(hash, k)]) {
      AllKeysHas(ht.heads, SlotOf(hash, k), k);
    }
  }

  /** Replacing the list of slot `s` changes the map only at keys of that
      slot, the way the list's own map changes. */
  lemma AbsReplace(ht: Hashtable, hash: nat -> nat, s: nat, l: L.LfList, m: SMap)
    requires WellFormed(ht) && s < BUCKET_COUNT
    requires forall k | SlotOf(hash, k) == s :: SameAt(L.Abs(l), m, k)
    requires forall k | SlotOf(hash, k) != s :: SameAt(Abs(ht, hash), m, k)
    ensures Abs(ht.(heads := ht.heads[s := l]), hash) == m
  {
    var r := ht.(heads := ht.heads[s := l]);
    forall k ensures SameAt(Abs(r, hash), m, k) {
      AbsAt(r, hash, k);
      if SlotOf(hash, k) == s {
        assert SameAt(L.Abs(l), m, k);
      } else {
        assert SameAt(Abs(ht, hash), m, k);
        AbsAt(ht, hash, k);
      }
    }
    SameEverywhere(Abs(r, hash), m);
  }

  // ---------------------------------------------------------------------
  // hashtable_init, hashtable_is_empty
  // ---------------------------------------------------------------------

  /** `hashtable_init`: a fresh list per slot, `last_el` NULL,
      `max_bck_num` 0. */
  function Init(): (ht: Hashtable)
    ensures WellFormed(ht) && ht.lastEl == None && ht.maxBckNum == 0
    ensures forall i | 0 <= i < BUCKET_COUNT :: ht.heads[i] == L.Init()
  {
    Hashtable(seq(BUCKET_COUNT, _ => L.Init()), None, 0)
  }

  lemma InitRefines(hash: nat -> nat)
    ensures Valid(Init(), hash) && Abs(Init(), hash) == map[]
  {
    forall k ensures k !in Abs(Init(), hash) {
      AbsAt(Init(), hash, k);
    }
  }

  /** `hashtable_is_empty` as written: empty only when no slot list has a
      positive `size`. */
  predicate IsEmpty(ht: Hashtable) {
    forall i | 0 <= i < |ht.heads| :: ht.heads[i].size <= 0
  }

  /** The list's `size` starts at 1 and counts the head, so a valid table,
      a fresh one included, is never reported empty. */
  lemma IsEmptyNeverHolds(ht: Hashtable, hash: nat -> nat)
    requires Valid(ht, hash)
    ensures !IsEmpty(ht)
  {
    L.SizeCountsKeys(ht.heads[0]);
  }

  /** `hashtable_is_empty` as evidently intended: only the head is left in
      every slot. */
  predicate IsEmptyFixed(ht: Hashtable) {
    forall i | 0 <= i < |ht.heads| :: ht.heads[i].size <= 1
  }

  lemma IsEmptyFixedRefines(ht: Hashtable, hash: nat -> nat)
    requires Valid(ht, hash)
    ensures IsEmptyFixed(ht) <==> Abs(ht, hash) == map[]
  {
    if IsEmptyFixed(ht) {
      forall k | k in Abs(ht, hash) ensures false {
        AbsAt(ht, hash, k);
        L.SizeCountsKeys(ht.heads[SlotOf(hash, k)]);
      }
    } else {
      var i :| 0 <= i < |ht.heads| && ht.heads[i].size > 1;
      L.SizeCountsKeys(ht.heads[i]);
      var k :| k in L.Abs(ht.heads[i]);
      AbsAt(ht, hash, k);
    }
  }

  // ---------------------------------------------------------------------
  // hashtable_insert
  // ---------------------------------------------------------------------

  datatype InsertResult = InsertResult(ht: Hashtable, node: Option<L.LfNode>)

  /** The key of `last_el`, 0 for `NULL`. */
  function LastElKey(ht: Hashtable): nat {
    if ht.lastEl.None? then 0 else ht.lastEl.value.key
  }

  /** `hashtable_insert`: NULL for key 0; otherwise `lf_list_add` in the
      key's slot.  On failure only the list's clean-up shows; on success
      `max_bck_num` becomes `max(max_bck_num, BUCKET_NUM)` cut to `u8`,
      and `last_el` moves to the new node when it was NULL or held a
      smaller key. */
  function Insert(ht: Hashtable, key: nat, value: Redir, hash: nat -> nat): (r: InsertResult)
    requires WellFormed(ht)
    ensures WellFormed(r.ht)
    ensures r.node.None? ==> r.ht.lastEl == ht.lastEl && r.ht.maxBckNum == ht.maxBckNum
    ensures r.node.Some? ==> r.node.value.key == key && r.node.value.value == value
    ensures r.node.Some? ==> (r.ht.maxBckNum < U8_MOD &&
      r.ht.maxBckNum == U8(if ht.maxBckNum < BucketNum(key) then BucketNum(key) else ht.maxBckNum))
    ensures r.node.Some? ==> LastElKey(r.ht) == if LastElKey(ht) < key then key else LastElKey(ht)
  {
    if key == 0 then InsertResult(ht, None)
    else
      var s := SlotOf(hash, key);
      var a := L.Add(ht.heads[s], key, value);
      if a.node.None? then InsertResult(ht.(heads := ht.heads[s := a.list]), None)
      else
        var bucket := BucketNum(key);
        var maxBck := U8(if ht.maxBckNum < bucket then bucket else ht.maxBckNum);
        var last := if ht.lastEl.None? || ht.lastEl.value.key < key then a.node else ht.lastEl;
        InsertResult(Hashtable(ht.heads[s := a.list], last, maxBck), a.node)
  }

  /** Inserting keeps the table valid; key 0 changes nothing; a present key
      fails and keeps the map; an absent nonzero key is added with its
      value. */
  lemma InsertRefines(ht: Hashtable, key: nat, value: Redir, hash: nat -> nat)
    requires Valid(ht, hash)
    ensures var r := Insert(ht, key, value, hash);
      && Valid(r.ht, hash)
      && (key == 0 ==> r == InsertResult(ht, None))
      && (key in Abs(ht, hash) ==> r.node.None? && Abs(r.ht, hash) == Abs(ht, hash))
      && (key != 0 && key !in Abs(ht, hash) ==> r.node.Some? && Abs(r.ht, hash) == Abs(ht, hash)[key := value])
  {
    if key != 0 {
      var s := SlotOf(hash, key);
      var a := L.Add(ht.heads[s], key, value);
      AddInSlot(ht, key, value, hash);
      var r := Insert(ht, key, value, hash);
      assert r.ht == Hashtable(ht.heads[s := a.list], r.ht.lastEl, r.ht.maxBckNum);
      ReplaceValid(ht, hash, s, a.list, r.ht.lastEl, r.ht.maxBckNum);
      AbsIgnoresFields(ht, hash, ht.heads[s := a.list], r.ht.lastEl, r.ht.maxBckNum);
    } else {
      assert Insert(ht, key, value, hash) == InsertResult(ht, None);
    }
  }

  /** The map is read from the slot lists alone. */
  lemma AbsIgnoresFields(ht: Hashtable, hash: nat -> nat, heads: seq<L.LfList>, last: Option<L.LfNode>, maxBck: nat)
    requires |heads| == BUCKET_COUNT
    ensures Abs(Hashtable(heads, last, maxBck), hash) == Abs(ht.(heads := heads), hash)
  {
  }

  /** `lf_list_add` in the key's slot keeps that list valid and its keys in
      the slot, fails exactly for a present key, and changes the table's
      map as adding the key would. */
  lemma AddInSlot(ht: Hashtable, key: nat, value: Redir, hash: nat -> nat)
    requires Valid(ht, hash) && key != 0
    ensures var s := SlotOf(hash, key);
      var a := L.Add(ht.heads[s], key, value);
      && L.Valid(a.list)
      && (forall k | k in L.Abs(a.list) :: SlotOf(hash, k) == s)
      && (a.node.None? <==> key in Abs(ht, hash))
      && Abs(ht.(heads := ht.heads[s := a.list]), hash) ==
           if key in Abs(ht, hash) then Abs(ht, hash) else Abs(ht, hash)[key := value]
  {
    var s := SlotOf(hash, key);
    var l := ht.heads[s];
    var a := L.Add(l, key, value);
    L.AddRefines(l, key, value);
    AbsAt(ht, hash, key);
    var m := if key in Abs(ht, hash) then Abs(ht, hash) else Abs(ht, hash)[key := value];
    forall k | SlotOf(hash, k) == s ensures SameAt(L.Abs(a.list), m, k) {
      AbsAt(ht, hash, k);
    }
    forall k | SlotOf(hash, k) != s ensures SameAt(Abs(ht, hash), m, k) {
    }
    AbsReplace(ht, hash, s, a.list, m);
  }

  /** Putting a valid list whose keys hash to slot `s` into slot `s`
      keeps the table valid. */
  lemma ReplaceValid(ht: Hashtable, hash: nat -> nat, s: nat, l: L.LfList, last: Option<L.LfNode>, maxBck: nat)
    requires Valid(ht, hash) && s < BUCKET_COUNT && L.Valid(l)
    requires forall k | k in L.Abs(l) :: SlotOf(hash, k) == s
    ensures Valid(Hashtable(ht.heads[s := l], last, maxBck), hash)
  {
  }

  // ---------------------------------------------------------------------
  // hashtable_find_node
  // ---------------------------------------------------------------------

  /** What `hashtable_find_node` hands back: a linked node, or the tail
      sentinel of the slot list, whose key is `U32_MAX`. */
  datatype Found = Entry(node: L.LfNode) | TailSentinel

  /** `hashtable_find_node`: the lookup's `right` when its key is the one
      searched for.  The clean-up the lookup does is not kept: it changes
      nothing the map can see (`LfList.LookupRefines`). */
  function Find(ht: Hashtable, key: nat, hash: nat -> nat): (r: Option<Found>)
    requires WellFormed(ht)
    ensures r.Some? && r.value.Entry? ==> r.value.node.key == key
    ensures r == Some(TailSentinel) ==> key == L.TAIL_KEY
  {
    match L.Lookup(ht.heads[SlotOf(hash, key)], key)
    case None => None
    case Some(w) =>
      match w.right
      case NodeRef(n) => if n.key == key then Some(Entry(n)) else None
      case TailRef => if key == L.TAIL_KEY then Some(TailSentinel) else None
      case HeadRef => None
  }

  /** The search finds a mapped key with its value, and reports nothing
      for an unmapped key other than `U32_MAX`; for an unmapped `U32_MAX`
      it hands back the tail sentinel when no larger key shares its slot. */
  lemma FindRefines(ht: Hashtable, key: nat, hash: nat -> nat)
    requires Valid(ht, hash)
    ensures var r := Find(ht, key, hash);
      && (key in Abs(ht, hash) ==> r.Some? && r.value.Entry? && r.value.node.value == Abs(ht, hash)[key])
      && (key !in Abs(ht, hash) && key != L.TAIL_KEY ==> r.None?)
      && (r.Some? && r.value.Entry? ==> key in Abs(ht, hash))
  {
    var s := SlotOf(hash, key);
    AbsAt(ht, hash, key);
    FindInSlot(ht, key, hash, ht.heads[s]);
  }

  /** `Find` read against the map of the one slot list it searches. */
  lemma FindInSlot(ht: Hashtable, key: nat, hash: nat -> nat, l: L.LfList)
    requires WellFormed(ht) && ht.heads[SlotOf(hash, key)] == l && L.Valid(l)
    ensures var r := Find(ht, key, hash);
      && (key in L.Abs(l) ==> r.Some? && r.value.Entry? && r.value.node.value == L.Abs(l)[key])
      && (key !in L.Abs(l) && key != L.TAIL_KEY ==> r.None?)
      && (r.Some? && r.value.Entry? ==> key in L.Abs(l))
  {
    if key != 0 {
      L.LookupRight(l, key);
      var w := L.Lookup(l, key).value;
      assert L.Lookup(ht.heads[SlotOf(hash, key)], key) == Some(w);
      if w.right.NodeRef? && w.right.node.key == key {
        assert Find(ht, key, hash) == Some(Entry(w.right.node));
      } else {
        assert key !in L.Abs(l);
      }
    } else {
      L.ZeroNotLive(l);
    }
  }

  /** Searching for `U32_MAX` in a fresh table hands back the tail
      sentinel rather than NULL. */
  lemma FindTailKey(hash: nat -> nat)
    ensures Find(Init(), L.TAIL_KEY, hash) == Some(TailSentinel)
  {
    var s := SlotOf(hash, L.TAIL_KEY);
    assert Init().heads[s] == L.Init();
    L.LookupEmpty(L.TAIL_KEY);
    TailWindow(Init(), hash, L.Init());
  }

  /** A lookup of `U32_MAX` that stops between head and tail. */
  lemma TailWindow(ht: Hashtable, hash: nat -> nat, l: L.LfList)
    requires WellFormed(ht)
    requires L.Lookup(ht.heads[SlotOf(hash, L.TAIL_KEY)], L.TAIL_KEY) == Some(L.Window(l, L.HeadRef, L.TailRef))
    ensures Find(ht, L.TAIL_KEY, hash) == Some(TailSentinel)
  {
  }

  // ---------------------------------------------------------------------
  // hashtable_remove
  // ---------------------------------------------------------------------

  /** `hashtable_remove`: `lf_list_remove` in the key's slot; neither
      `last_el` nor `max_bck_num` is touched. */
  function Remove(ht: Hashtable, key: nat, hash: nat -> nat): (r: Hashtable)
    requires WellFormed(ht)
    ensures WellFormed(r) && r.lastEl == ht.lastEl && r.maxBckNum == ht.maxBckNum
  {
    var s := SlotOf(hash, key);
    ht.(heads := ht.heads[s := L.Remove(ht.heads[s], key).list])
  }

  /** Removing keeps the table valid and takes exactly the key out of the
      map, present or not. */
  lemma RemoveRefines(ht: Hashtable, key: nat, hash: nat -> nat)
    requires Valid(ht, hash)
    ensures Valid(Remove(ht, key, hash), hash) && Abs(Remove(ht, key, hash), hash) == Abs(ht, hash) - {key}
  {
    var s := SlotOf(hash, key);
    var l := L.Remove(ht.heads[s], key).list;
    RemoveInSlot(ht, key, hash);
    ReplaceValid(ht, hash, s, l, ht.lastEl, ht.maxBckNum);
  }

  lemma RemoveInSlot(ht: Hashtable, key: nat, hash: nat -> nat)
    requires Valid(ht, hash)
    ensures var s := SlotOf(hash, key);
      var l := L.Remove(ht.heads[s], key).list;
      && L.Valid(l)
      && (forall k | k in L.Abs(l) :: SlotOf(hash, k) == s)
      && Abs(ht.(heads := ht.heads[s := l]), hash) == Abs(ht, hash) - {key}
  {
    var s := SlotOf(hash, key);
    var l := L.Remove(ht.heads[s], key).list;
    L.RemoveRefines(ht.heads[s], key);
    var m := Abs(ht, hash) - {key};
    forall k | SlotOf(hash, k) == s ensures SameAt(L.Abs(l), m, k) {
      AbsAt(ht, hash, k);
    }
    forall k | SlotOf(hash, k) != s ensures SameAt(Abs(ht, hash), m, k) {
    }
    AbsReplace(ht, hash, s, l, m);
  }

  /** Removing the key `last_el` holds leaves `last_el` at the removed
      node: `ds_last` then reports a key the map no longer has, and
      `last_el` no longer tracks the greatest key (`RemoveFixed` does). */
  lemma RemoveKeepsStaleLastEl(ht: Hashtable, key: nat, hash: nat -> nat)
    requires Valid(ht, hash) && key in Abs(ht, hash) && LastElKey(ht) == key
    ensures var r := Remove(ht, key, hash);
      key !in Abs(r, hash) && LastElKey(r) == key && !LastTracksMax(r, hash)
  {
    RemoveRefines(ht, key, hash);
    ZeroNotInTable(ht, hash);
    var m := Abs(Remove(ht, key, hash), hash);
    if m != map[] {
      assert LastKey(m).value in m;
    }
  }

  /** `last_el` holds the greatest key of the map, 0 when it is empty:
      what `ds_last` must report. */
  ghost predicate LastTracksMax(ht: Hashtable, hash: nat -> nat)
    requires WellFormed(ht)
  {
    LastElKey(ht) == LastKey(Abs(ht, hash)).GetOr(0)
  }

  /** The last unmarked node of a slot list. */
  function LastLive(nodes: seq<L.LfNode>): (r: Option<L.LfNode>)
    ensures r.Some? ==> r.value in nodes && !r.value.marked
  {
    if |nodes| == 0 then None
    else if !nodes[|nodes| - 1].marked then Some(nodes[|nodes| - 1])
    else LastLive(nodes[..|nodes| - 1])
  }

  /** Of two candidates for `last_el`, the one with the greater key. */
  function Greater(a: Option<L.LfNode>, b: Option<L.LfNode>): (r: Option<L.LfNode>)
    ensures r == a || r == b
  {
    if a.None? then b
    else if b.None? || b.value.key <= a.value.key then a
    else b
  }

  /** The live node with the greatest key over all slot lists. */
  function MaxLive(ls: seq<L.LfList>): (r: Option<L.LfNode>) {
    if |ls| == 0 then None else Greater(LastLive(ls[0].nodes), MaxLive(ls[1..]))
  }

  /** `hashtable_remove` as evidently intended: when the removed key is
      the one `last_el` holds, `last_el` moves to the live node with the
      greatest remaining key (NULL when none is left). */
  function RemoveFixed(ht: Hashtable, key: nat, hash: nat -> nat): (r: Hashtable)
    requires WellFormed(ht)
    ensures WellFormed(r) && r.heads == Remove(ht, key, hash).heads && r.maxBckNum == ht.maxBckNum
    ensures LastElKey(ht) != key ==> r.lastEl == ht.lastEl
  {
    var removed := Remove(ht, key, hash);
    if LastElKey(ht) == key then removed.(lastEl := MaxLive(removed.heads)) else removed
  }

  /** The last unmarked node of an ascending list carries its greatest
      live key. */
  lemma {:induction false} LastLiveIsMax(nodes: seq<L.LfNode>)
    requires L.Ascending(nodes)
    ensures var r := LastLive(nodes);
      && (r.None? <==> Keys(L.Live(nodes)) == {})
      && (r.Some? ==> r.value.key in Keys(L.Live(nodes)) && forall k | k in Keys(L.Live(nodes)) :: k <= r.value.key)
    decreases |nodes|
  {
    if |nodes| == 0 {
      assert Keys(L.Live(nodes)) == {};
    } else {
      var init := nodes[..|nodes| - 1];
      var last := nodes[|nodes| - 1];
      assert nodes == init + [last];
      L.LiveAppend(init, [last]);
      assert [last][1..] == [];
      if last.marked {
        assert L.Live(nodes) == L.Live(init);
        LastLiveIsMax(init);
      } else {
        var n := Node(last.key, last.value);
        assert L.Live(nodes) == L.Live(init) + [n];
        assert n in L.Live(nodes);
        assert n.key in Keys(L.Live(nodes));
        forall k | k in Keys(L.Live(nodes)) ensures k <= last.key {
          var m :| m in L.Live(nodes) && m.key == k;
          if m != n {
            assert m in L.Live(init);
            L.LiveMember(init, m);
            var i :| 0 <= i < |init| && !init[i].marked && Node(init[i].key, init[i].value) == m;
            assert init[i] == nodes[i];
          }
        }
      }
    }
  }

  /** Over all slot lists, `MaxLive` carries the greatest key. */
  lemma {:induction false} MaxLiveIsMax(ls: seq<L.LfList>)
    requires forall i | 0 <= i < |ls| :: L.Ascending(ls[i].nodes)
    ensures var r := MaxLive(ls);
      && (r.None? <==> AllKeys(ls) == {})
      && (r.Some? ==> r.value.key in AllKeys(ls) && forall k | k in AllKeys(ls) :: k <= r.value.key)
    decreases |ls|
  {
    if |ls| > 0 {
      assert L.Abs(ls[0]).Keys == Keys(L.Live(ls[0].nodes));
      LastLiveIsMax(ls[0].nodes);
      assert forall i | 0 <= i < |ls[1..]| :: ls[1..][i] == ls[i + 1];
      MaxLiveIsMax(ls[1..]);
    }
  }

  /** On a valid table the map's keys are the keys of all slot lists. */
  lemma AbsKeys(ht: Hashtable, hash: nat -> nat)
    requires Valid(ht, hash)
    ensures Abs(ht, hash).Keys == AllKeys(ht.heads)
  {
    forall k | k in AllKeys(ht.heads) ensures k in Abs(ht, hash) {
      var i := AllKeysWitness(ht.heads, k);
      AbsAt(ht, hash, k);
    }
  }

  lemma {:induction false} AllKeysWitness(ls: seq<L.LfList>, k: nat) returns (i: nat)
    requires k in AllKeys(ls)
    ensures i < |ls| && k in L.Abs(ls[i])
    decreases |ls|
  {
    if k in L.Abs(ls[0]).Keys {
      i := 0;
    } else {
      var j := AllKeysWitness(ls[1..], k);
      assert ls[1..][j] == ls[j + 1];
      i := j + 1;
    }
  }

  /** A fresh table tracks the maximum. */
  lemma InitTracksMax(hash: nat -> nat)
    ensures LastTracksMax(Init(), hash)
  {
    InitRefines(hash);
  }

  /** `hashtable_insert` keeps `last_el` at the greatest key. */
  lemma InsertTracksMax(ht: Hashtable, key: nat, value: Redir, hash: nat -> nat)
    requires Valid(ht, hash) && LastTracksMax(ht, hash)
    ensures LastTracksMax(Insert(ht, key, value, hash).ht, hash)
  {
    var r := Insert(ht, key, value, hash);
    InsertRefines(ht, key, value, hash);
    if key != 0 && key !in Abs(ht, hash) {
      LastKeyOfUpdate(Abs(ht, hash), key, value);
    }
  }

  /** The corrected remove keeps the table valid, takes exactly the key out
      of the map, and keeps `last_el` at the greatest key. */
  lemma RemoveFixedTracksMax(ht: Hashtable, key: nat, hash: nat -> nat)
    requires Valid(ht, hash) && LastTracksMax(ht, hash)
    ensures var r := RemoveFixed(ht, key, hash);
      && Valid(r, hash) && Abs(r, hash) == Abs(ht, hash) - {key}
      && LastTracksMax(r, hash)
  {
    var removed := Remove(ht, key, hash);
    var r := RemoveFixed(ht, key, hash);
    RemoveRefines(ht, key, hash);
    AbsIgnoresFields(removed, hash, removed.heads, r.lastEl, r.maxBckNum);
    assert r == Hashtable(removed.heads, r.lastEl, r.maxBckNum);
    assert Abs(r, hash) == Abs(removed, hash);
    if LastElKey(ht) == key {
      RemoveMaxTracks(removed, hash);
    } else {
      RemoveOtherTracks(ht, key, hash, r);
    }
  }

  /** Recomputing `last_el` over the live nodes tracks the maximum. */
  lemma RemoveMaxTracks(removed: Hashtable, hash: nat -> nat)
    requires Valid(removed, hash)
    ensures LastTracksMax(removed.(lastEl := MaxLive(removed.heads)), hash)
  {
    var r := removed.(lastEl := MaxLive(removed.heads));
    AbsIgnoresFields(removed, hash, removed.heads, r.lastEl, r.maxBckNum);
    assert r == Hashtable(removed.heads, r.lastEl, r.maxBckNum);
    AbsKeys(removed, hash);
    MaxLiveIsMax(removed.heads);
  }

  /** Removing a key other than `last_el`'s leaves the maximum in place. */
  lemma RemoveOtherTracks(ht: Hashtable, key: nat, hash: nat -> nat, r: Hashtable)
    requires Valid(ht, hash) && LastTracksMax(ht, hash) && LastElKey(ht) != key
    requires WellFormed(r) && r.lastEl == ht.lastEl && Abs(r, hash) == Abs(ht, hash) - {key}
    ensures LastTracksMax(r, hash)
  {
    ZeroNotInTable(ht, hash);
    LastKeyOfDrop(Abs(ht, hash), key);
  }

  /** Key 0 belongs to the slot heads and is never in the map. */
  lemma ZeroNotInTable(ht: Hashtable, hash: nat -> nat)
    requires Valid(ht, hash)
    ensures 0 !in Abs(ht, hash)
  {
    AbsAt(ht, hash, 0);
    L.ZeroNotLive(ht.heads[SlotOf(hash, 0)]);
  }

  // ---------------------------------------------------------------------
  // hashtable_prev
  // ---------------------------------------------------------------------

  /** `min(BUCKET_NUM - 1, ht->max_bck_num)`, the subtraction in `u64`. */
  function FallbackBucket(ht: Hashtable, key: nat): nat {
    var b := U64(BucketNum(key) - 1);
    if b <= ht.maxBckNum then b else ht.maxBckNum
  }

  /** What `hashtable_prev` returns: the head of a slot list (so
      `*prev_key` is 0) or a linked node. */
  datatype PrevResult = PrevHead | PrevNode(node: L.LfNode)

  function PrevOf(left: L.Ref): PrevResult {
    if left.NodeRef? then PrevNode(left.node) else PrevHead
  }

  /** `hashtable_prev`: the lookup's `left` in the key's slot; when that is
      the head (key 0), the lookup's `left` in the slot of bucket
      `min(BUCKET_NUM - 1, max_bck_num)`, which may again be the head.  A
      lookup of key 0 returns NULL and the fallback then dereferences it,
      so the key must be nonzero. */
  function Prev(ht: Hashtable, key: nat, hash: nat -> nat): (r: PrevResult)
    requires WellFormed(ht) && key != 0
  {
    var w := L.Lookup(ht.heads[SlotOf(hash, key)], key).value;
    if w.left.NodeRef? && w.left.node.key != 0 then PrevNode(w.left.node)
    else PrevOf(L.Lookup(ht.heads[Slot(hash, FallbackBucket(ht, key))], key).value.left)
  }

  /** Whatever `hashtable_prev` returns is an entry of the map strictly
      below `key`, hence never above the true predecessor. */
  lemma PrevSound(ht: Hashtable, key: nat, hash: nat -> nat)
    requires Valid(ht, hash) && key != 0
    ensures var r := Prev(ht, key, hash);
      r.PrevNode? ==> && r.node.key in Abs(ht, hash) && Abs(ht, hash)[r.node.key] == r.node.value && r.node.key < key
                      && PrevKey(Abs(ht, hash), key).Some? && r.node.key <= PrevKey(Abs(ht, hash), key).value
  {
    var r := Prev(ht, key, hash);
    if r.PrevNode? {
      PrevNodeInMap(ht, key, hash);
      PrevKeyAtLeast(Abs(ht, hash), key, r.node.key);
    }
  }

  lemma PrevNodeInMap(ht: Hashtable, key: nat, hash: nat -> nat)
    requires Valid(ht, hash) && key != 0 && Prev(ht, key, hash).PrevNode?
    ensures var n := Prev(ht, key, hash).node;
      n.key in Abs(ht, hash) && Abs(ht, hash)[n.key] == n.value && n.key < key
  {
    var s := SlotOf(hash, key);
    var w := L.Lookup(ht.heads[s], key).value;
    if w.left.NodeRef? && w.left.node.key != 0 {
      LeftInMap(ht, hash, s, key);
    } else {
      LeftInMap(ht, hash, Slot(hash, FallbackBucket(ht, key)), key);
    }
  }

  /** A node the lookup in any slot leaves as `left` is an entry of the
      map below `key`. */
  lemma LeftInMap(ht: Hashtable, hash: nat -> nat, i: nat, key: nat)
    requires Valid(ht, hash) && i < BUCKET_COUNT && key != 0
    requires L.Lookup(ht.heads[i], key).value.left.NodeRef?
    ensures var n := L.Lookup(ht.heads[i], key).value.left.node;
      n.key in Abs(ht, hash) && Abs(ht, hash)[n.key] == n.value && n.key < key
  {
    var n := L.Lookup(ht.heads[i], key).value.left.node;
    L.LookupLeft(ht.heads[i], key);
    assert SlotOf(hash, n.key) == i;
    AbsAt(ht, hash, n.key);
  }

  /** When the key's own slot holds a smaller key, `hashtable_prev`
      answers from that slot with its greatest key below `key`. */
  lemma PrevFromOwnSlot(ht: Hashtable, key: nat, hash: nat -> nat, k: nat)
    requires Valid(ht, hash) && key != 0
    requires k in Abs(ht, hash) && k < key && SlotOf(hash, k) == SlotOf(hash, key)
    ensures var r := Prev(ht, key, hash);
      && r.PrevNode? && SlotOf(hash, r.node.key) == SlotOf(hash, key)
      && forall j | j in Abs(ht, hash) && j < key && SlotOf(hash, j) == SlotOf(hash, key) :: j <= r.node.key
  {
    var s := SlotOf(hash, key);
    var l := ht.heads[s];
    L.LookupLeft(l, key);
    L.ZeroNotLive(l);
    SlotView(ht, hash, s);
    assert SameAt(Abs(ht, hash), L.Abs(l), k);
    var w := L.Lookup(l, key).value;
    assert w.left.NodeRef?;
    var n := w.left.node;
    assert n.key in L.Abs(l);
    assert Prev(ht, key, hash) == PrevNode(n);
    forall j | j in Abs(ht, hash) && j < key && SlotOf(hash, j) == s ensures j <= n.key {
      assert SameAt(Abs(ht, hash), L.Abs(l), j);
    }
  }

  /** On the keys of slot `s` the table's map is the slot list's map. */
  lemma SlotView(ht: Hashtable, hash: nat -> nat, s: nat)
    requires WellFormed(ht) && s < BUCKET_COUNT
    ensures forall j | SlotOf(hash, j) == s :: SameAt(Abs(ht, hash), L.Abs(ht.heads[s]), j)
  {
    forall j | SlotOf(hash, j) == s ensures SameAt(Abs(ht, hash), L.Abs(ht.heads[s]), j) {
      AbsAt(ht, hash, j);
    }
  }

  // ---------------------------------------------------------------------
  // hashtable_prev, corrected
  // ---------------------------------------------------------------------

  /** The slot function of the examples: every bucket in its own slot. */
  function Identity(b: nat): nat {
    b
  }

  /** The table after inserting key 100 (bucket 0) with `Identity` as
      `hash`. */
  function OneBucket(): (ht: Hashtable)
    ensures WellFormed(ht)
  {
    Insert(Init(), 100, Redir(32, 8), Identity).ht
  }

  /** The same table after inserting key 5000 (bucket 2). */
  function TwoBuckets(): (ht: Hashtable)
    ensures WellFormed(ht)
  {
    Insert(OneBucket(), 5000, Redir(33, 8), Identity).ht
  }

  lemma OneBucketMap()
    ensures Valid(OneBucket(), Identity)
    ensures Abs(OneBucket(), Identity) == map[100 := Redir(32, 8)]
    ensures OneBucket().maxBckNum == 0
  {
    InitRefines(Identity);
    InsertRefines(Init(), 100, Redir(32, 8), Identity);
  }

  lemma TwoBucketsMap()
    ensures Valid(TwoBuckets(), Identity)
    ensures Abs(TwoBuckets(), Identity) == map[100 := Redir(32, 8), 5000 := Redir(33, 8)]
    ensures TwoBuckets().maxBckNum == 2
  {
    OneBucketMap();
    AddFiveThousand(OneBucket());
  }

  /** Inserting 5000 into a table that maps only 100 and has seen bucket 0. */
  lemma AddFiveThousand(h: Hashtable)
    requires Valid(h, Identity) && Abs(h, Identity) == map[100 := Redir(32, 8)] && h.maxBckNum == 0
    ensures var ht := Insert(h, 5000, Redir(33, 8), Identity).ht;
      && Valid(ht, Identity) && Abs(ht, Identity) == map[100 := Redir(32, 8), 5000 := Redir(33, 8)]
      && ht.maxBckNum == 2
  {
    InsertRefines(h, 5000, Redir(33, 8), Identity);
  }

  /** The fallback consults one bucket only: keys 100 (bucket 0) and 5000
      (bucket 2), a search from sector 4500 looks in the slots of buckets 2
      and 1, both without a smaller key, and hands back the head of the
      second, though 100 lies below. */
  lemma PrevMissesEarlierBucket()
    ensures
      var ht := TwoBuckets();
      && Valid(ht, Identity) && Abs(ht, Identity) == map[100 := Redir(32, 8), 5000 := Redir(33, 8)]
      && PrevKey(Abs(ht, Identity), 4500) == Some(100)
      && Prev(ht, 4500, Identity) == PrevHead
      && PrevFixed(ht, 4500, Identity) == Some(Node(100, Redir(32, 8)))
  {
    TwoBucketsMap();
    TwoKeysSlot(TwoBuckets(), 1);
    TwoKeysSlot(TwoBuckets(), 2);
    TwoKeysPrev(TwoBuckets());
    TwoKeysPrevFixed(TwoBuckets());
  }

  /** With keys 100 and 5000 only, the slot of bucket 1 or 2 holds no
      key below 4500. */
  lemma TwoKeysSlot(ht: Hashtable, s: nat)
    requires Valid(ht, Identity) && Abs(ht, Identity) == map[100 := Redir(32, 8), 5000 := Redir(33, 8)]
    requires s == 1 || s == 2
    ensures L.Valid(ht.heads[s]) && forall k | k in L.Abs(ht.heads[s]) :: k >= 4500
  {
    assert SlotOf(Identity, 100) == 0;
    OnlyLargerInSlot(ht, Identity, s, 4500);
  }

  /** As written, the search from 4500 ends on a slot head when the slots
      of buckets 2 and 1 hold nothing below it and bucket 2 is the
      highest seen. */
  lemma TwoKeysPrev(ht: Hashtable)
    requires WellFormed(ht) && ht.maxBckNum == 2
    requires L.Valid(ht.heads[1]) && forall k | k in L.Abs(ht.heads[1]) :: k >= 4500
    requires L.Valid(ht.heads[2]) && forall k | k in L.Abs(ht.heads[2]) :: k >= 4500
    ensures Prev(ht, 4500, Identity) == PrevHead
  {
    assert FallbackBucket(ht, 4500) == 1;
    assert SlotOf(Identity, 4500) == 2 && Slot(Identity, 1) == 1;
    L.LookupLeft(ht.heads[2], 4500);
    L.LookupLeft(ht.heads[1], 4500);
  }

  /** In the map of keys 100 and 5000, 100 is the greatest key below 4500. */
  lemma TwoKeysPrevKey(m: SMap)
    requires m == map[100 := Redir(32, 8), 5000 := Redir(33, 8)]
    ensures PrevKey(m, 4500) == Some(100)
  {
    assert m.Keys == {100, 5000};
  }

  /** Corrected, the search from 4500 finds 100. */
  lemma TwoKeysPrevFixed(ht: Hashtable)
    requires Valid(ht, Identity) && Abs(ht, Identity) == map[100 := Redir(32, 8), 5000 := Redir(33, 8)]
    ensures PrevKey(Abs(ht, Identity), 4500) == Some(100)
    ensures PrevFixed(ht, 4500, Identity) == Some(Node(100, Redir(32, 8)))
  {
    TwoKeysPrevKey(Abs(ht, Identity));
    PrevFixedIsPrevKey(ht, 4500, Identity);
  }

  /** A slot holds no live key below `key` when no key of the map that
      hashes to it lies below `key`. */
  lemma OnlyLargerInSlot(ht: Hashtable, hash: nat -> nat, s: nat, key: nat)
    requires Valid(ht, hash) && s < BUCKET_COUNT
    requires forall k | k in Abs(ht, hash) && SlotOf(hash, k) == s :: k >= key
    ensures forall k | k in L.Abs(ht.heads[s]) :: k >= key
  {
    forall k | k in L.Abs(ht.heads[s]) ensures k >= key {
      assert SlotOf(hash, k) == s;
      AbsAt(ht, hash, k);
    }
  }

  /** The key of an optional entry, 0 for none. */
  function BestKey(best: Option<Node>): nat {
    if best.Some? then best.value.key else 0
  }

  /** One pass over the live entries of a slot list, keeping the entry of
      bucket `b` with the greatest key below `key`. */
  function ScanBucket(ns: seq<Node>, b: nat, key: nat, best: Option<Node>): (r: Option<Node>)
    requires best.Some? ==> best.value.key < key && BucketNum(best.value.key) == b
    ensures r.Some? ==> r.value.key < key && BucketNum(r.value.key) == b && (r == best || r.value in ns)
    ensures best.Some? ==> r.Some? && best.value.key <= r.value.key
    ensures forall n | n in ns && n.key < key && BucketNum(n.key) == b :: r.Some? && n.key <= r.value.key
  {
    if |ns| == 0 then best
    else
      var n := ns[0];
      var next := if n.key < key && BucketNum(n.key) == b && (best.None? || best.value.key < n.key) then Some(n) else best;
      assert forall x | x in ns :: x == n || x in ns[1..];
      ScanBucket(ns[1..], b, key, next)
  }

  /** The scan of the entries filed under bucket `b`, in that bucket's slot. */
  function BucketHit(ht: Hashtable, key: nat, hash: nat -> nat, b: nat): (r: Option<Node>)
    requires WellFormed(ht)
  {
    ScanBucket(L.Live(ht.heads[Slot(hash, b)].nodes), b, key, None)
  }

  /** The search from bucket `b` downwards: the entry of bucket `b` with
      the greatest key below `key`, else the same search from bucket
      `b - 1`, down to bucket 0. */
  function PrevFixedFrom(ht: Hashtable, key: nat, hash: nat -> nat, b: nat): (r: Option<Node>)
    requires WellFormed(ht)
    ensures r.Some? ==> r.value.key < key
    decreases b
  {
    var found := BucketHit(ht, key, hash, b);
    if found.Some? || b == 0 then found else PrevFixedFrom(ht, key, hash, b - 1)
  }

  /** `hashtable_prev` as evidently intended: every bucket from the key's
      own downwards is searched in turn, not only the key's and
      `min(BUCKET_NUM - 1, max_bck_num)`; `None` stands for NULL. */
  function PrevFixed(ht: Hashtable, key: nat, hash: nat -> nat): (r: Option<Node>)
    requires WellFormed(ht)
  {
    PrevFixedFrom(ht, key, hash, BucketNum(key))
  }

  /** `n` is the entry with the greatest key below `key`. */
  ghost predicate GreatestBelow(m: SMap, key: nat, n: Node) {
    n.key in m && m[n.key] == n.value && n.key < key && forall k | k in m && k < key :: k <= n.key
  }

  /** No key lies below `key`. */
  ghost predicate NoneBelow(m: SMap, key: nat) {
    forall k | k in m :: k >= key
  }

  /** `r` is the greatest entry below `key`, or nothing when none is below. */
  ghost predicate Answers(m: SMap, key: nat, r: Option<Node>) {
    && (r.None? ==> NoneBelow(m, key))
    && (r.Some? ==> GreatestBelow(m, key, r.value))
  }

  /** Every key below `key` is filed under bucket `b` or lower. */
  ghost predicate BucketsAtMost(m: SMap, key: nat, b: nat) {
    forall k | k in m && k < key :: BucketNum(k) <= b
  }

  /** No key below `key` is filed under bucket `b`. */
  ghost predicate NoneInBucket(m: SMap, key: nat, b: nat) {
    forall k | k in m && k < key :: BucketNum(k) != b
  }

  /** What the scan of one bucket tells about the map: a hit is the
      greatest entry of that bucket below `key`, a miss means the bucket
      holds no key below `key`. */
  ghost predicate BucketAnswer(m: SMap, key: nat, b: nat, hit: Option<Node>) {
    && (hit.Some? ==>
          && hit.value.key in m && m[hit.value.key] == hit.value.value && BucketNum(hit.value.key) == b
          && forall k | k in m && k < key && BucketNum(k) == b :: k <= hit.value.key)
    && (hit.None? ==> NoneInBucket(m, key, b))
  }

  /** A key of the map is a live entry, with its value, of its own slot. */
  lemma EntryInSlot(ht: Hashtable, hash: nat -> nat, k: nat)
    requires Valid(ht, hash) && k in Abs(ht, hash)
    ensures Node(k, Abs(ht, hash)[k]) in L.Live(ht.heads[SlotOf(hash, k)].nodes)
  {
    var l := ht.heads[SlotOf(hash, k)];
    AbsAt(ht, hash, k);
    assert k in Keys(L.Live(l.nodes));
    var n :| n in L.Live(l.nodes) && n.key == k;
    L.LiveSorted(l.nodes);
    ValueOfMember(L.Live(l.nodes), n);
  }

  /** A live entry of a slot list is an entry of the table's map. */
  lemma LiveInMap(ht: Hashtable, hash: nat -> nat, s: nat, n: Node)
    requires Valid(ht, hash) && s < BUCKET_COUNT && n in L.Live(ht.heads[s].nodes)
    ensures n.key in Abs(ht, hash) && Abs(ht, hash)[n.key] == n.value && SlotOf(hash, n.key) == s
  {
    var l := ht.heads[s];
    L.LiveSorted(l.nodes);
    ValueOfMember(L.Live(l.nodes), n);
    assert n.key in L.Abs(l);
    AbsAt(ht, hash, n.key);
  }

  /** Every bucket's scan answers for the map. */
  lemma ScanAnswers(ht: Hashtable, key: nat, hash: nat -> nat, b: nat)
    requires Valid(ht, hash)
    ensures BucketAnswer(Abs(ht, hash), key, b, BucketHit(ht, key, hash, b))
  {
    var m := Abs(ht, hash);
    var s := Slot(hash, b);
    var hit := BucketHit(ht, key, hash, b);
    if hit.Some? {
      LiveInMap(ht, hash, s, hit.value);
    }
    forall k | k in m && k < key && BucketNum(k) == b ensures hit.Some? && k <= hit.value.key {
      EntryInSlot(ht, hash, k);
    }
  }

  /** Keys of a lower bucket are smaller. */
  lemma BucketOrder(j: nat, k: nat)
    requires BucketNum(j) < BucketNum(k)
    ensures j < k
  {
  }

  /** An empty bucket `b` moves the bound down by one, or ends the search. */
  lemma MissLowers(m: SMap, key: nat, b: nat)
    requires BucketsAtMost(m, key, b) && NoneInBucket(m, key, b)
    ensures b > 0 ==> BucketsAtMost(m, key, b - 1)
    ensures b == 0 ==> NoneBelow(m, key)
  {
  }

  /** The entry found in bucket `b` is the greatest below `key` when no
      such key lies in a higher bucket. */
  lemma FoundGreatest(m: SMap, key: nat, b: nat, n: Node)
    requires BucketsAtMost(m, key, b) && n.key < key
    requires n.key in m && m[n.key] == n.value && BucketNum(n.key) == b
    requires forall k | k in m && k < key && BucketNum(k) == b :: k <= n.key
    ensures GreatestBelow(m, key, n)
  {
    forall k | k in m && k < key && BucketNum(k) != b ensures k <= n.key {
      BucketOrder(k, n.key);
    }
  }

  /** The downward search answers for `m` once every bucket from `b` down
      answers for `m` and no key below `key` lies above bucket `b`. */
  lemma {:induction false} PrevFixedFromGreatest(ht: Hashtable, key: nat, hash: nat -> nat, m: SMap, b: nat)
    requires WellFormed(ht)
    requires BucketsAtMost(m, key, b)
    requires forall i | 0 <= i <= b :: BucketAnswer(m, key, i, BucketHit(ht, key, hash, i))
    ensures Answers(m, key, PrevFixedFrom(ht, key, hash, b))
    decreases b
  {
    var found := BucketHit(ht, key, hash, b);
    assert BucketAnswer(m, key, b, found);
    if found.Some? {
      FoundGreatest(m, key, b, found.value);
    } else {
      MissLowers(m, key, b);
      if b > 0 {
        PrevFixedFromGreatest(ht, key, hash, m, b - 1);
      }
    }
  }

  /** Every key below `key` is filed under the key's bucket or lower. */
  lemma BucketsBelowKey(m: SMap, key: nat)
    ensures BucketsAtMost(m, key, BucketNum(key))
  {
    forall k | k in m && k < key ensures BucketNum(k) <= BucketNum(key) {
      if BucketNum(k) > BucketNum(key) {
        BucketOrder(key, k);
      }
    }
  }

  /** Every bucket from `b` down answers for the table's map. */
  lemma AllBucketsAnswer(ht: Hashtable, key: nat, hash: nat -> nat, b: nat)
    requires Valid(ht, hash)
    ensures forall i | 0 <= i <= b :: BucketAnswer(Abs(ht, hash), key, i, BucketHit(ht, key, hash, i))
  {
    forall i | 0 <= i <= b ensures BucketAnswer(Abs(ht, hash), key, i, BucketHit(ht, key, hash, i)) {
      ScanAnswers(ht, key, hash, i);
    }
  }

  /** An answer for the map is what `PrevKey` computes. */
  lemma AnswersArePrevKey(m: SMap, key: nat, r: Option<Node>)
    requires Answers(m, key, r)
    ensures r.None? <==> PrevKey(m, key).None?
    ensures r.Some? ==> PrevKey(m, key) == Some(r.value.key) && m[r.value.key] == r.value.value
  {
  }

  /** The corrected search answers `ds_prev` for the map: nothing exactly
      when no key lies below `key`, otherwise the greatest key below with
      its value. */
  lemma PrevFixedIsPrevKey(ht: Hashtable, key: nat, hash: nat -> nat)
    requires Valid(ht, hash)
    ensures var r := PrevFixed(ht, key, hash);
      var m := Abs(ht, hash);
      && (r.None? <==> PrevKey(m, key).None?)
      && (r.Some? ==> PrevKey(m, key) == Some(r.value.key) && m[r.value.key] == r.value.value)
  {
    var m := Abs(ht, hash);
    BucketsBelowKey(m, key);
    AllBucketsAnswer(ht, key, hash, BucketNum(key));
    PrevFixedFromGreatest(ht, key, hash, m, BucketNum(key));
    AnswersArePrevKey(m, key, PrevFixed(ht, key, hash));
  }
}

=== FILE: lf_list.dfy ===
/** The lock-free sorted list (`src/utils/lock-free/lf_list.c`), run by one
    thread at a time: every compare-and-swap succeeds, and the mark bit of a
    node's `next` pointer (see `MarkedPointers`) is the boolean `marked`.

    The list is the sequence of nodes between the head (key `U32_MIN` = 0)
    and the tail (key `U32_MAX`).  A removed node is only marked and pushed
    onto the removed stack; a later lookup that walks over it unlinks it.
    Node addresses are modelled by ids drawn from a counter. */
module LfList {
  import opened Wrappers
  import opened MachineInts
  import opened SectorMap
  import opened SortedLevels

  const HEAD_KEY: nat := 0
  const TAIL_KEY: nat := U32_MAX

  /** `struct lf_list_node`; `marked` is bit 0 of its `next` pointer. */
  datatype LfNode = LfNode(id: nat, key: nat, value: Redir, marked: bool)

  /** `struct lf_list`: the linked nodes, the removed stack (top first),
      the `size` counter, and the next fresh node id. */
  datatype LfList = LfList(nodes: seq<LfNode>, removed: seq<LfNode>, size: int, nextId: nat)

  /** A node a lookup hands back: a sentinel or a linked node. */
  datatype Ref = HeadRef | TailRef | NodeRef(node: LfNode)

  // ---------------------------------------------------------------------
  // The abstract map
  // ---------------------------------------------------------------------

  /** The unmarked nodes, in list order, as key/value nodes. */
  function Live(nodes: seq<LfNode>): (r: seq<Node>)
    ensures |r| <= |nodes|
  {
    if |nodes| == 0 then []
    else (if nodes[0].marked then [] else [Node(nodes[0].key, nodes[0].value)]) + Live(nodes[1..])
  }

  lemma {:induction false} LiveAppend(a: seq<LfNode>, b: seq<LfNode>)
    ensures Live(a + b) == Live(a) + Live(b)
  {
    if |a| > 0 {
      assert (a + b)[1..] == a[1..] + b;
      LiveAppend(a[1..], b);
    } else {
      assert a + b == b;
    }
  }

  lemma {:induction false} LiveMember(nodes: seq<LfNode>, n: Node)
    ensures n in Live(nodes) <==> exists i | 0 <= i < |nodes| :: !nodes[i].marked && Node(nodes[i].key, nodes[i].value) == n
  {
    if |nodes| > 0 {
      LiveMember(nodes[1..], n);
      if n in Live(nodes[1..]) {
        var i :| 0 <= i < |nodes[1..]| && !nodes[1..][i].marked && Node(nodes[1..][i].key, nodes[1..][i].value) == n;
        assert nodes[i + 1] == nodes[1..][i];
      }
      if exists i | 0 <= i < |nodes| :: !nodes[i].marked && Node(nodes[i].key, nodes[i].value) == n {
        var i :| 0 <= i < |nodes| && !nodes[i].marked && Node(nodes[i].key, nodes[i].value) == n;
        if i > 0 {
          assert nodes[1..][i - 1] == nodes[i];
        }
      }
    }
  }

  lemma {:induction false} LiveOfMarked(m: seq<LfNode>)
    requires forall j | 0 <= j < |m| :: m[j].marked
    ensures Live(m) == []
  {
    if |m| > 0 {
      LiveOfMarked(m[1..]);
    }
  }

  /** Keys strictly ascend along the list, marked nodes included. */
  predicate Ascending(nodes: seq<LfNode>) {
    forall i, j | 0 <= i < j < |nodes| :: nodes[i].key < nodes[j].key
  }

  lemma LiveSorted(nodes: seq<LfNode>)
    requires Ascending(nodes)
    ensures StrictlySorted(Live(nodes))
    decreases |nodes|
  {
    if |nodes| > 0 {
      LiveSorted(nodes[1..]);
      if !nodes[0].marked {
        forall n | n in Live(nodes[1..]) ensures nodes[0].key < n.key {
          LiveMember(nodes[1..], n);
          var i :| 0 <= i < |nodes[1..]| && !nodes[1..][i].marked && Node(nodes[1..][i].key, nodes[1..][i].value) == n;
          assert nodes[1..][i] == nodes[i + 1];
        }
        ConsSorted(Node(nodes[0].key, nodes[0].value), Live(nodes[1..]));
      }
    }
  }

  predicate DistinctIds(nodes: seq<LfNode>) {
    forall i, j | 0 <= i < j < |nodes| :: nodes[i].id != nodes[j].id
  }

  /** No node on `stack` has the id `id`. */
  predicate OffStack(stack: seq<LfNode>, id: nat) {
    forall m | m in stack :: m.id != id
  }

  /** The list invariant: ascending nonzero keys, distinct node ids below
      the id counter, no live node on the removed stack, and `size` one
      more than the number of live nodes. */
  ghost predicate Valid(l: LfList) {
    Ascending(l.nodes) &&
    (forall n | n in l.nodes :: n.key != HEAD_KEY && n.id < l.nextId) &&
    DistinctIds(l.nodes) &&
    (forall n | n in l.removed :: n.id < l.nextId) &&
    (forall n | n in l.nodes && !n.marked :: OffStack(l.removed, n.id)) &&
    l.size == 1 + |Live(l.nodes)|
  }

  /** The map the list stands for: its unmarked nodes. */
  ghost function Abs(l: LfList): SMap {
    LevelMap(Live(l.nodes))
  }

  /** Key 0 is never in the map: it belongs to the head. */
  lemma ZeroNotLive(l: LfList)
    requires Valid(l)
    ensures HEAD_KEY !in Abs(l)
  {
    assert Abs(l).Keys == Keys(Live(l.nodes));
    if HEAD_KEY in Keys(Live(l.nodes)) {
      var n :| n in Live(l.nodes) && n.key == HEAD_KEY;
      LiveMember(l.nodes, n);
    }
  }

  // ---------------------------------------------------------------------
  // lf_list_init, add_to_removed_stack
  // ---------------------------------------------------------------------

  /** `lf_list_init`: head linked to tail, empty removed stack, `size` 1. */
  function Init(): (l: LfList)
    ensures Valid(l) && Abs(l) == map[] && l.size == 1 && l.removed == []
  {
    LfList([], [], 1, 0)
  }

  /** `add_to_removed_stack`: push a node, unless it already is the top of
      the stack. */
  function AddToRemovedStack(stack: seq<LfNode>, node: LfNode): (r: seq<LfNode>)
    ensures |r| > 0 && r[0].id == node.id
    ensures |stack| > 0 && stack[0].id == node.id ==> r == stack
    ensures OffStack(stack, node.id) ==> r == [node] + stack
  {
    if |stack| > 0 && stack[0].id == node.id then stack else [node] + stack
  }

  // ---------------------------------------------------------------------
  // lf_list_lookup
  // ---------------------------------------------------------------------

  /** Position `i` of the list, `-1` standing for the head. */
  predicate UnmarkedAt(nodes: seq<LfNode>, i: int)
    requires -1 <= i < |nodes|
  {
    i == -1 || !nodes[i].marked
  }

  /** The inner loop of `lf_list_lookup`: `t` is the node examined, `left`
      the last unmarked node passed.  The walk goes on while `t` is marked
      or its key is below `key`, and stops at the tail (`|nodes|`). */
  function Walk(nodes: seq<LfNode>, t: int, left: int, key: nat): (r: (int, int))
    requires -1 <= left <= t < |nodes| && UnmarkedAt(nodes, left)
    requires t == -1 ==> key > HEAD_KEY
    requires t >= 0 ==> left < t
    requires forall j | left < j < t :: nodes[j].marked
    ensures left <= r.0 < r.1 <= |nodes| && UnmarkedAt(nodes, r.0)
    ensures r.1 < |nodes| ==> !nodes[r.1].marked && nodes[r.1].key >= key
    ensures forall j | 0 <= j < r.1 && t <= j :: nodes[j].marked || nodes[j].key < key
    ensures forall j | r.0 < j < r.1 :: nodes[j].marked
    decreases |nodes| - t
  {
    var marked := t >= 0 && nodes[t].marked;
    var tkey := if t < 0 then HEAD_KEY else nodes[t].key;
    if marked || tkey < key then
      var left' := if !marked then t else left;
      if t + 1 == |nodes| then (left', |nodes|) else Walk(nodes, t + 1, left', key)
    else (left, t)
  }

  /** Unlinking the marked nodes at positions `lo` to `hi - 1` keeps the
      live nodes, keys ascending and ids distinct. */
  lemma CleanWindow(nodes: seq<LfNode>, lo: nat, hi: nat)
    requires lo < hi <= |nodes|
    requires forall j | lo <= j < hi :: nodes[j].marked
    ensures var c := nodes[..lo] + nodes[hi..];
      && |c| < |nodes|
      && Live(c) == Live(nodes)
      && (forall n | n in c :: n in nodes)
      && (Ascending(nodes) ==> Ascending(c))
      && (DistinctIds(nodes) ==> DistinctIds(c))
  {
    var a := nodes[..lo];
    var m := nodes[lo..hi];
    var b := nodes[hi..];
    assert nodes == a + m + b;
    DropMarked(a, m, b);
  }

  lemma DropMarked(a: seq<LfNode>, m: seq<LfNode>, b: seq<LfNode>)
    requires forall j | 0 <= j < |m| :: m[j].marked
    ensures Live(a + b) == Live(a + m + b)
    ensures forall n | n in a + b :: n in a + m + b
    ensures Ascending(a + m + b) ==> Ascending(a + b)
    ensures DistinctIds(a + m + b) ==> DistinctIds(a + b)
  {
    LiveAppend(a + m, b);
    LiveAppend(a, m);
    LiveAppend(a, b);
    LiveOfMarked(m);
    DropWindow(a, m, b);
  }

  /** Unlinking a window of nodes keeps keys ascending and ids distinct. */
  lemma DropWindow(a: seq<LfNode>, m: seq<LfNode>, b: seq<LfNode>)
    ensures Ascending(a + m + b) ==> Ascending(a + b)
    ensures DistinctIds(a + m + b) ==> DistinctIds(a + b)
  {
    var w := a + m + b;
    var c := a + b;
    forall i, j | 0 <= i < j < |c|
      ensures (Ascending(w) ==> c[i].key < c[j].key) && (DistinctIds(w) ==> c[i].id != c[j].id)
    {
      var i' := if i < |a| then i else i + |m|;
      var j' := if j < |a| then j else j + |m|;
      assert c[i] == w[i'] && c[j] == w[j'];
    }
  }

  /** One pass of `lf_list_lookup` for a nonzero key: walk, then, if
      marked nodes lie between `left` and `right`, swing `left->next` to
      `right`.  The result is the list after the clean-up and the position
      of `left` (-1 for the head); `right` is the position after it.  The
      source then searches again; `RetryFindsCleanWindow` shows that this
      second walk stops at the same window, now clean, and returns it. */
  function LookupFrom(nodes: seq<LfNode>, key: nat): (r: (seq<LfNode>, int))
    requires key > HEAD_KEY
    ensures -1 <= r.1 < |r.0|
    ensures UnmarkedAt(r.0, r.1)
    ensures r.1 + 1 < |r.0| ==> !r.0[r.1 + 1].marked && r.0[r.1 + 1].key >= key
    ensures forall j | 0 <= j <= r.1 :: r.0[j].marked || r.0[j].key < key
  {
    var w := Walk(nodes, -1, -1, key);
    var c := nodes[..w.0 + 1] + nodes[w.1..];
    assert forall j | 0 <= j <= w.0 :: c[j] == nodes[j];
    assert w.0 + 1 < |c| ==> c[w.0 + 1] == nodes[w.1];
    (c, w.0)
  }

  /** The search the source repeats after a clean-up finds the window it
      left behind: `left` unchanged and `right` right after it. */
  lemma RetryFindsCleanWindow(nodes: seq<LfNode>, key: nat)
    requires key > HEAD_KEY
    ensures var r := LookupFrom(nodes, key);
      Walk(r.0, -1, -1, key) == (r.1, r.1 + 1)
  {
  }

  /** A lookup's clean-up unlinks marked nodes only. */
  lemma LookupFromKeeps(nodes: seq<LfNode>, key: nat)
    requires key > HEAD_KEY
    ensures var r := LookupFrom(nodes, key);
      && Live(r.0) == Live(nodes)
      && (forall n | n in r.0 :: n in nodes)
      && (Ascending(nodes) ==> Ascending(r.0))
      && (DistinctIds(nodes) ==> DistinctIds(r.0))
  {
    var w := Walk(nodes, -1, -1, key);
    if w.0 + 1 == w.1 {
      assert nodes[..w.0 + 1] + nodes[w.1..] == nodes;
    } else {
      CleanWindow(nodes, w.0 + 1, w.1);
    }
  }

  /** What a finished walk tells about the live keys: those below `key`
      sit at or before `left`, the others at or after `right`. */
  /** Each unmarked node lies at or before `left` when its key is below
      `key`, and at or after `right` otherwise. */
  lemma WindowAt(ns: seq<LfNode>, lf: int, key: nat, i: nat)
    requires Ascending(ns) && -1 <= lf < |ns| && UnmarkedAt(ns, lf)
    requires lf + 1 < |ns| ==> !ns[lf + 1].marked && ns[lf + 1].key >= key
    requires forall j | 0 <= j <= lf :: ns[j].marked || ns[j].key < key
    requires i < |ns| && !ns[i].marked
    ensures ns[i].key < key ==> 0 <= lf && ns[i].key <= ns[lf].key
    ensures ns[i].key >= key ==> lf + 1 < |ns| && ns[lf + 1].key <= ns[i].key
  {
    if i <= lf {
      assert ns[i].key < key;
    }
  }

  lemma WindowFacts(ns: seq<LfNode>, lf: int, key: nat)
    requires Ascending(ns) && -1 <= lf < |ns| && UnmarkedAt(ns, lf)
    requires lf + 1 < |ns| ==> !ns[lf + 1].marked && ns[lf + 1].key >= key
    requires forall j | 0 <= j <= lf :: ns[j].marked || ns[j].key < key
    ensures forall j | 0 <= j <= lf :: ns[j].key < key
    ensures forall k | k in Keys(Live(ns)) && k < key :: 0 <= lf && k <= ns[lf].key
    ensures forall k | k in Keys(Live(ns)) && k >= key :: lf + 1 < |ns| && ns[lf + 1].key <= k
    ensures 0 <= lf ==> Node(ns[lf].key, ns[lf].value) in Live(ns)
    ensures lf + 1 < |ns| ==> Node(ns[lf + 1].key, ns[lf + 1].value) in Live(ns)
  {
    forall k | k in Keys(Live(ns))
      ensures k < key ==> 0 <= lf && k <= ns[lf].key
      ensures k >= key ==> lf + 1 < |ns| && ns[lf + 1].key <= k
    {
      var n :| n in Live(ns) && n.key == k;
      LiveMember(ns, n);
      var i :| 0 <= i < |ns| && !ns[i].marked && Node(ns[i].key, ns[i].value) == n;
      WindowAt(ns, lf, key, i);
    }
    if 0 <= lf {
      LiveMember(ns, Node(ns[lf].key, ns[lf].value));
    }
    if lf + 1 < |ns| {
      LiveMember(ns, Node(ns[lf + 1].key, ns[lf + 1].value));
    }
  }

  /** The list and window `lf_list_lookup` leaves: `left` and `right`. */
  datatype Window = Window(list: LfList, left: Ref, right: Ref)

  function RefAt(nodes: seq<LfNode>, i: int): Ref
    requires -1 <= i <= |nodes|
  {
    if i == -1 then HeadRef else if i == |nodes| then TailRef else NodeRef(nodes[i])
  }

  /** `lf_list_lookup`: NULL for key 0; otherwise the window around `key`,
      after unlinking the marked nodes inside it. */
  function Lookup(l: LfList, key: nat): (r: Option<Window>)
    ensures r.None? <==> key == HEAD_KEY
    ensures r.Some? ==> r.value.list == l.(nodes := r.value.list.nodes)
  {
    if key == HEAD_KEY then None
    else
      var w := LookupFrom(l.nodes, key);
      Some(Window(l.(nodes := w.0), RefAt(w.0, w.1), RefAt(w.0, w.1 + 1)))
  }

  /** In a fresh list the window of any nonzero key is head and tail. */
  lemma LookupEmpty(key: nat)
    requires key != HEAD_KEY
    ensures Lookup(Init(), key) == Some(Window(Init(), HeadRef, TailRef))
  {
    assert Walk([], -1, -1, key) == (-1, 0);
  }

  lemma LiveKeysSame(a: seq<LfNode>, b: seq<LfNode>)
    requires Live(a) == Live(b)
    ensures forall n | n in b && !n.marked :: n in a || Node(n.key, n.value) in Live(a)
  {
    forall n | n in b && !n.marked ensures Node(n.key, n.value) in Live(a) {
      var i :| 0 <= i < |b| && b[i] == n;
      LiveMember(b, Node(n.key, n.value));
    }
  }

  /** The window `(left, right)` at positions `lf` and `lf + 1` brackets
      `key` among the live keys. */
  lemma WindowBrackets(ns: seq<LfNode>, lf: int, key: nat)
    requires Ascending(ns) && -1 <= lf < |ns| && UnmarkedAt(ns, lf)
    requires lf + 1 < |ns| ==> !ns[lf + 1].marked && ns[lf + 1].key >= key
    requires forall j | 0 <= j <= lf :: ns[j].marked || ns[j].key < key
    ensures var m := LevelMap(Live(ns));
      var left := RefAt(ns, lf);
      var right := RefAt(ns, lf + 1);
      && (right.TailRef? <==> forall k | k in m :: k < key)
      && (right.NodeRef? ==> var n := right.node;
            !n.marked && n.key >= key && n.key in m && m[n.key] == n.value
            && forall k | k in m && k >= key :: n.key <= k)
      && (left.HeadRef? <==> forall k | k in m :: k >= key)
      && (left.NodeRef? ==> var n := left.node;
            !n.marked && n.key < key && n.key in m && m[n.key] == n.value
            && forall k | k in m && k < key :: k <= n.key)
      && !right.HeadRef? && !left.TailRef?
  {
    WindowFacts(ns, lf, key);
    LiveSorted(ns);
    var m := LevelMap(Live(ns));
    assert m.Keys == Keys(Live(ns));
    if 0 <= lf {
      ValueOfMember(Live(ns), Node(ns[lf].key, ns[lf].value));
      assert ns[lf].key in m;
    }
    if lf + 1 < |ns| {
      ValueOfMember(Live(ns), Node(ns[lf + 1].key, ns[lf + 1].value));
      assert ns[lf + 1].key in m;
    }
  }

  /** A lookup changes nothing the invariant or the map can see. */
  lemma LookupKeepsValid(l: LfList, key: nat)
    requires Valid(l) && key != HEAD_KEY
    ensures var w := LookupFrom(l.nodes, key);
      Valid(l.(nodes := w.0)) && Abs(l.(nodes := w.0)) == Abs(l)
  {
    LookupFromKeeps(l.nodes, key);
  }

  /** `right` after a lookup holds the least live key at or above `key`,
      and is the tail exactly when every live key is below it. */
  lemma LookupRight(l: LfList, key: nat)
    requires Valid(l) && key != HEAD_KEY
    ensures var w := Lookup(l, key).value;
      && (w.right.TailRef? <==> forall k | k in Abs(l) :: k < key)
      && (w.right.NodeRef? ==> var n := w.right.node;
            !n.marked && n.key >= key && n.key in Abs(l) && Abs(l)[n.key] == n.value
            && forall k | k in Abs(l) && k >= key :: n.key <= k)
      && !w.right.HeadRef?
  {
    var r := LookupFrom(l.nodes, key);
    LookupFromKeeps(l.nodes, key);
    assert Abs(l) == LevelMap(Live(r.0));
    assert Lookup(l, key).value.right == RefAt(r.0, r.1 + 1);
    WindowBrackets(r.0, r.1, key);
  }

  /** `left` after a lookup holds the greatest live key below `key`, and
      is the head exactly when no live key is below it. */
  lemma LookupLeft(l: LfList, key: nat)
    requires Valid(l) && key != HEAD_KEY
    ensures var w := Lookup(l, key).value;
      && (w.left.HeadRef? <==> forall k | k in Abs(l) :: k >= key)
      && (w.left.NodeRef? ==> var n := w.left.node;
            !n.marked && n.key < key && n.key in Abs(l) && Abs(l)[n.key] == n.value
            && forall k | k in Abs(l) && k < key :: k <= n.key)
      && !w.left.TailRef?
  {
    var r := LookupFrom(l.nodes, key);
    LookupFromKeeps(l.nodes, key);
    assert Abs(l) == LevelMap(Live(r.0));
    assert Lookup(l, key).value.left == RefAt(r.0, r.1);
    WindowBrackets(r.0, r.1, key);
  }

  /** A lookup keeps the invariant and the map. */
  lemma LookupRefines(l: LfList, key: nat)
    requires Valid(l) && key != HEAD_KEY
    ensures var w := Lookup(l, key).value;
      Valid(w.list) && Abs(w.list) == Abs(l)
  {
    LookupKeepsValid(l, key);
  }

  // ---------------------------------------------------------------------
  // lf_list_add
  // ---------------------------------------------------------------------

  datatype AddResult = AddResult(list: LfList, node: Option<LfNode>)

  /** `lf_list_add`: look the key up; fail (NULL) on key 0 or when `right`
      already holds the key; otherwise link a fresh node between `left`
      and `right` and count it in `size`. */
  function Add(l: LfList, key: nat, value: Redir): (r: AddResult)
    ensures r.node.Some? ==> r.node.value.key == key && r.node.value.value == value && !r.node.value.marked
    ensures r.node.Some? ==> r.list.size == l.size + 1 && r.node.value in r.list.nodes
    ensures r.node.None? ==> r.list.size == l.size && r.list.removed == l.removed
  {
    if key == HEAD_KEY then AddResult(l, None)
    else
      var w := LookupFrom(l.nodes, key);
      var ns := w.0;
      var at := w.1 + 1;
      if at < |ns| && ns[at].key == key then AddResult(l.(nodes := ns), None)
      else
        var node := LfNode(l.nextId, key, value, false);
        var ns' := ns[..at] + [node] + ns[at..];
        assert ns'[at] == node;
        AddResult(LfList(ns', l.removed, l.size + 1, l.nextId + 1), Some(node))
  }

  lemma InsertAscending(ns: seq<LfNode>, at: nat, node: LfNode)
    requires Ascending(ns) && DistinctIds(ns) && at <= |ns|
    requires forall j | 0 <= j < at :: ns[j].key < node.key
    requires at < |ns| ==> node.key < ns[at].key
    requires forall n | n in ns :: n.id < node.id
    ensures Ascending(ns[..at] + [node] + ns[at..]) && DistinctIds(ns[..at] + [node] + ns[at..])
  {
    var c := ns[..at] + [node] + ns[at..];
    forall i | 0 <= i < |c|
      ensures c[i] == (if i < at then ns[i] else if i == at then node else ns[i - 1])
    {}
    forall i, j | 0 <= i < j < |c| ensures c[i].key < c[j].key && c[i].id != c[j].id {
      if j == at {
        assert c[i] == ns[i];
      } else if i == at {
        assert c[j] == ns[j - 1];
        assert ns[at].key <= ns[j - 1].key;
        assert ns[j - 1] in ns;
      } else if j < at || at < i {
      } else {
        assert ns[i] in ns && ns[j - 1] in ns;
      }
    }
  }

  /** Adding keeps the invariant; key 0 changes nothing; a present key
      fails and leaves the map; an absent one is added to the map and to
      `size`. */
  lemma AddRefines(l: LfList, key: nat, value: Redir)
    requires Valid(l)
    ensures var r := Add(l, key, value);
      && Valid(r.list)
      && (key == HEAD_KEY ==> r == AddResult(l, None))
      && (key in Abs(l) ==> r.node.None? && Abs(r.list) == Abs(l))
      && (key != HEAD_KEY && key !in Abs(l) ==> r.node.Some? && Abs(r.list) == Abs(l)[key := value])
  {
    if key == HEAD_KEY {
      ZeroNotLive(l);
    } else {
      var w := LookupFrom(l.nodes, key);
      if w.1 + 1 < |w.0| && w.0[w.1 + 1].key == key {
        AddPresent(l, key, value);
      } else {
        AddAbsent(l, key, value);
      }
    }
  }

  /** `right` holds the key: the add fails and only the clean-up shows. */
  lemma AddPresent(l: LfList, key: nat, value: Redir)
    requires Valid(l) && key != HEAD_KEY
    requires var w := LookupFrom(l.nodes, key); w.1 + 1 < |w.0| && w.0[w.1 + 1].key == key
    ensures var r := Add(l, key, value);
      Valid(r.list) && key in Abs(l) && r.node.None? && Abs(r.list) == Abs(l)
  {
    var w := LookupFrom(l.nodes, key);
    var l1 := l.(nodes := w.0);
    assert Add(l, key, value) == AddResult(l1, None);
    LookupKeepsValid(l, key);
    PresentAtRight(l1, w.1, key);
  }

  /** A live node right after `left` holding `key` puts `key` in the map. */
  lemma PresentAtRight(l: LfList, lf: int, key: nat)
    requires Valid(l) && -1 <= lf && lf + 1 < |l.nodes|
    requires !l.nodes[lf + 1].marked && l.nodes[lf + 1].key == key
    ensures key in Abs(l)
  {
    LiveMember(l.nodes, Node(key, l.nodes[lf + 1].value));
    assert Abs(l).Keys == Keys(Live(l.nodes));
  }

  /** `right` holds a greater key or is the tail: the fresh node goes in
      between `left` and `right`. */
  lemma AddAbsent(l: LfList, key: nat, value: Redir)
    requires Valid(l) && key != HEAD_KEY
    requires var w := LookupFrom(l.nodes, key); !(w.1 + 1 < |w.0| && w.0[w.1 + 1].key == key)
    ensures var r := Add(l, key, value);
      Valid(r.list) && key !in Abs(l) && r.node.Some? && Abs(r.list) == Abs(l)[key := value]
  {
    var w := LookupFrom(l.nodes, key);
    var at := w.1 + 1;
    var node := LfNode(l.nextId, key, value, false);
    assert Add(l, key, value) == AddResult(LfList(w.0[..at] + [node] + w.0[at..], l.removed, l.size + 1, l.nextId + 1), Some(node));
    AddGap(l, key);
    InsertValid(l.(nodes := w.0), at, key, value);
  }

  /** After the lookup, an absent key fits between `left` and `right`. */
  lemma AddGap(l: LfList, key: nat)
    requires Valid(l) && key != HEAD_KEY
    requires var w := LookupFrom(l.nodes, key); !(w.1 + 1 < |w.0| && w.0[w.1 + 1].key == key)
    ensures var w := LookupFrom(l.nodes, key);
      var l1 := l.(nodes := w.0);
      && Valid(l1) && Abs(l1) == Abs(l) && key !in Abs(l1)
      && (forall j | 0 <= j < w.1 + 1 :: w.0[j].key < key)
      && (w.1 + 1 < |w.0| ==> key < w.0[w.1 + 1].key)
  {
    var w := LookupFrom(l.nodes, key);
    var l1 := l.(nodes := w.0);
    LookupKeepsValid(l, key);
    WindowFacts(w.0, w.1, key);
    assert Abs(l1).Keys == Keys(Live(w.0));
  }

  /** Linking a fresh node at `at`, between smaller and greater keys,
      keeps the invariant and adds its key to the map. */
  /** Linking an unmarked node in at `at` puts its entry between the live
      entries before and after it. */
  lemma InsertLive(ns: seq<LfNode>, at: nat, node: LfNode)
    requires at <= |ns| && !node.marked
    ensures Live(ns) == Live(ns[..at]) + Live(ns[at..])
    ensures Live(ns[..at] + [node] + ns[at..]) == Live(ns[..at]) + [Node(node.key, node.value)] + Live(ns[at..])
  {
    assert ns == ns[..at] + ns[at..];
    LiveAppend(ns[..at], ns[at..]);
    LiveAppend(ns[..at] + [node], ns[at..]);
    LiveAppend(ns[..at], [node]);
    assert Live([node]) == [Node(node.key, node.value)];
  }

  lemma InsertValid(l: LfList, at: nat, key: nat, value: Redir)
    requires Valid(l) && at <= |l.nodes| && key != HEAD_KEY && key !in Abs(l)
    requires forall j | 0 <= j < at :: l.nodes[j].key < key
    requires at < |l.nodes| ==> key < l.nodes[at].key
    ensures var node := LfNode(l.nextId, key, value, false);
      var l' := LfList(l.nodes[..at] + [node] + l.nodes[at..], l.removed, l.size + 1, l.nextId + 1);
      Valid(l') && Abs(l') == Abs(l)[key := value]
  {
    var ns := l.nodes;
    var node := LfNode(l.nextId, key, value, false);
    InsertAscending(ns, at, node);
    InsertLiveMap(ns, at, node);
    InsertFresh(l, at, node);
  }

  /** Linking in a node with a new key adds exactly its entry to the live
      map and one to the live count. */
  lemma InsertLiveMap(ns: seq<LfNode>, at: nat, node: LfNode)
    requires Ascending(ns) && at <= |ns| && !node.marked
    requires Ascending(ns[..at] + [node] + ns[at..])
    requires node.key !in LevelMap(Live(ns))
    ensures var ns' := ns[..at] + [node] + ns[at..];
      |Live(ns')| == |Live(ns)| + 1 && LevelMap(Live(ns')) == LevelMap(Live(ns))[node.key := node.value]
  {
    var ns' := ns[..at] + [node] + ns[at..];
    assert LevelMap(Live(ns)).Keys == Keys(Live(ns));
    InsertLive(ns, at, node);
    LiveSorted(ns);
    LiveSorted(ns');
    LevelMapAdd(Live(ns), Live(ns'), Node(node.key, node.value));
  }

  /** The new node carries a fresh id and a nonzero key, and is off the
      removed stack. */
  lemma InsertFresh(l: LfList, at: nat, node: LfNode)
    requires Valid(l) && at <= |l.nodes| && node.id == l.nextId && node.key != HEAD_KEY
    ensures forall n | n in l.nodes[..at] + [node] + l.nodes[at..] ::
      n.key != HEAD_KEY && n.id < l.nextId + 1 && (!n.marked ==> OffStack(l.removed, n.id))
  {
    var ns' := l.nodes[..at] + [node] + l.nodes[at..];
    forall n | n in ns' ensures n.key != HEAD_KEY && n.id < l.nextId + 1 && (!n.marked ==> OffStack(l.removed, n.id)) {
      if n != node { assert n in l.nodes; }
    }
  }

  // ---------------------------------------------------------------------
  // lf_list_remove
  // ---------------------------------------------------------------------

  datatype RemoveResult = RemoveResult(list: LfList, ok: bool)

  /** `lf_list_remove`: look the key up; fail when `right` is the tail or
      holds another key; otherwise mark `right`, count it out of `size`
      and push it on the removed stack.  The node stays linked until a
      later lookup passes it.  (`right` is never already marked here: a
      lookup returns an unmarked `right`.) */
  function Remove(l: LfList, key: nat): (r: RemoveResult)
    ensures !r.ok ==> r.list.size == l.size && r.list.removed == l.removed
    ensures r.ok ==> r.list.size == l.size - 1 && |r.list.removed| > 0
    ensures r.ok ==> exists n | n in r.list.nodes :: n.id == r.list.removed[0].id && n.key == key && n.marked
  {
    if key == HEAD_KEY then RemoveResult(l, false)
    else
      var w := LookupFrom(l.nodes, key);
      var ns := w.0;
      var at := w.1 + 1;
      if at == |ns| || ns[at].key != key then RemoveResult(l.(nodes := ns), false)
      else
        var gone := ns[at].(marked := true);
        var stack := AddToRemovedStack(l.removed, gone);
        assert ns[at := gone][at] in ns[at := gone];
        RemoveResult(LfList(ns[at := gone], stack, l.size - 1, l.nextId), true)
  }

  /** Marking the live node at `at`, whose successors all hold greater
      keys, drops its key from the live map and from the live count. */
  lemma MarkAt(ns: seq<LfNode>, at: nat)
    requires Ascending(ns) && DistinctIds(ns) && at < |ns| && !ns[at].marked
    ensures var ns' := ns[at := ns[at].(marked := true)];
      && Ascending(ns') && DistinctIds(ns')
      && |Live(ns')| + 1 == |Live(ns)|
      && LevelMap(Live(ns')) == LevelMap(Live(ns)) - {ns[at].key}
  {
    var key := ns[at].key;
    var gone := ns[at].(marked := true);
    var ns' := ns[at := gone];
    assert ns == ns[..at] + [ns[at]] + ns[at + 1..];
    assert ns' == ns[..at] + [gone] + ns[at + 1..];
    LiveAppend(ns[..at] + [ns[at]], ns[at + 1..]);
    LiveAppend(ns[..at], [ns[at]]);
    LiveAppend(ns[..at] + [gone], ns[at + 1..]);
    LiveAppend(ns[..at], [gone]);
    assert Live([gone]) == [];
    assert Live([ns[at]]) == [Node(key, ns[at].value)];
    assert Ascending(ns') && DistinctIds(ns') by {
      forall i, j | 0 <= i < j < |ns'| ensures ns'[i].key < ns'[j].key && ns'[i].id != ns'[j].id {
        assert ns'[i].key == ns[i].key && ns'[j].key == ns[j].key;
        assert ns'[i].id == ns[i].id && ns'[j].id == ns[j].id;
      }
    }
    LiveSorted(ns);
    LiveSorted(ns');
    forall n ensures n in Live(ns') <==> n in Live(ns) && n.key != key {
      LiveMember(ns[..at], n);
      LiveMember(ns[at + 1..], n);
      if n in Live(ns[..at]) {
        var i :| 0 <= i < |ns[..at]| && !ns[..at][i].marked && Node(ns[..at][i].key, ns[..at][i].value) == n;
        assert ns[i] == ns[..at][i];
      }
      if n in Live(ns[at + 1..]) {
        var i :| 0 <= i < |ns[at + 1..]| && !ns[at + 1..][i].marked && Node(ns[at + 1..][i].key, ns[at + 1..][i].value) == n;
        assert ns[at + 1 + i] == ns[at + 1..][i];
      }
    }
    LevelMapDrop(Live(ns), Live(ns'), key);
  }

  /** Removing keeps the invariant, succeeds exactly for a present key,
      drops it from the map and from `size`, and pushes the node. */
  lemma RemoveRefines(l: LfList, key: nat)
    requires Valid(l)
    ensures var r := Remove(l, key);
      && Valid(r.list)
      && (r.ok <==> key in Abs(l))
      && Abs(r.list) == Abs(l) - {key}
      && (r.ok ==> r.list.removed == [r.list.removed[0]] + l.removed)
  {
    if key == HEAD_KEY {
      ZeroNotLive(l);
    } else {
      var w := LookupFrom(l.nodes, key);
      if w.1 + 1 == |w.0| || w.0[w.1 + 1].key != key {
        RemoveAbsent(l, key);
      } else {
        RemovePresent(l, key);
      }
    }
  }

  /** `right` is the tail or holds another key: nothing is removed. */
  lemma RemoveAbsent(l: LfList, key: nat)
    requires Valid(l) && key != HEAD_KEY
    requires var w := LookupFrom(l.nodes, key); w.1 + 1 == |w.0| || w.0[w.1 + 1].key != key
    ensures var r := Remove(l, key);
      Valid(r.list) && !r.ok && key !in Abs(l) && Abs(r.list) == Abs(l) - {key}
  {
    var w := LookupFrom(l.nodes, key);
    var l1 := l.(nodes := w.0);
    assert Remove(l, key) == RemoveResult(l1, false);
    LookupKeepsValid(l, key);
    assert key !in Abs(l1) by {
      WindowFacts(w.0, w.1, key);
      assert Abs(l1).Keys == Keys(Live(w.0));
    }
    assert Abs(l) - {key} == Abs(l);
  }

  /** `right` holds the key: it is marked, counted out and pushed. */
  lemma RemovePresent(l: LfList, key: nat)
    requires Valid(l) && key != HEAD_KEY
    requires var w := LookupFrom(l.nodes, key); w.1 + 1 < |w.0| && w.0[w.1 + 1].key == key
    ensures var r := Remove(l, key);
      Valid(r.list) && r.ok && key in Abs(l) && Abs(r.list) == Abs(l) - {key}
      && r.list.removed == [r.list.removed[0]] + l.removed
  {
    var w := LookupFrom(l.nodes, key);
    var l1 := l.(nodes := w.0);
    var at := w.1 + 1;
    var gone := w.0[at].(marked := true);
    assert Remove(l, key) == RemoveResult(LfList(w.0[at := gone], AddToRemovedStack(l.removed, gone), l.size - 1, l.nextId), true);
    LookupKeepsValid(l, key);
    PresentAtRight(l1, w.1, key);
    MarkValid(l1, at);
  }

  /** Marking the live node at `at` and pushing it keeps the invariant and
      drops its key from the map. */
  lemma MarkValid(l: LfList, at: nat)
    requires Valid(l) && at < |l.nodes| && !l.nodes[at].marked
    ensures var gone := l.nodes[at].(marked := true);
      var l' := LfList(l.nodes[at := gone], AddToRemovedStack(l.removed, gone), l.size - 1, l.nextId);
      && Valid(l') && Abs(l') == Abs(l) - {l.nodes[at].key}
      && l'.removed == [gone] + l.removed
  {
    var ns := l.nodes;
    var gone := ns[at].(marked := true);
    assert ns[at] in ns;
    MarkAt(ns, at);
    MarkKeepsBounds(ns, at, l.nextId);
    assert OffStack(l.removed, gone.id);
    MarkKeepsOffStack(ns, at, l.removed);
  }

  /** Marking a node changes neither a key nor an id. */
  lemma MarkKeepsBounds(ns: seq<LfNode>, at: nat, nextId: nat)
    requires at < |ns| && forall n | n in ns :: n.key != HEAD_KEY && n.id < nextId
    ensures forall n | n in ns[at := ns[at].(marked := true)] :: n.key != HEAD_KEY && n.id < nextId
  {
    var ns' := ns[at := ns[at].(marked := true)];
    forall n | n in ns' ensures n.key != HEAD_KEY && n.id < nextId {
      var i :| 0 <= i < |ns'| && ns'[i] == n;
      assert ns[i] in ns;
    }
  }

  /** Pushing the marked node keeps every node still live off the stack. */
  lemma MarkKeepsOffStack(ns: seq<LfNode>, at: nat, removed: seq<LfNode>)
    requires at < |ns| && DistinctIds(ns)
    requires forall n | n in ns && !n.marked :: OffStack(removed, n.id)
    ensures var gone := ns[at].(marked := true);
      forall n | n in ns[at := gone] && !n.marked :: OffStack([gone] + removed, n.id)
  {
    var gone := ns[at].(marked := true);
    var ns' := ns[at := gone];
    forall n | n in ns' && !n.marked ensures OffStack([gone] + removed, n.id) {
      var i :| 0 <= i < |ns'| && ns'[i] == n;
      assert i != at && ns[i] == n && n in ns;
    }
  }

  // ---------------------------------------------------------------------
  // The size counter
  // ---------------------------------------------------------------------

  lemma {:induction false} SortedKeysCount(level: seq<Node>)
    requires StrictlySorted(level)
    ensures |Keys(level)| == |level|
  {
    if |level| > 0 {
      SortedTail(level);
      SortedKeysCount(level[1..]);
      assert Keys(level) == {level[0].key} + Keys(level[1..]) by {
        forall k | k in Keys(level) ensures k in {level[0].key} + Keys(level[1..]) {
          var n :| n in level && n.key == k;
          if n != level[0] { InTail(level, n); }
        }
      }
      assert level[0].key !in Keys(level[1..]);
    }
  }

  /** `size` is one more than the number of keys the list holds, so it
      never drops below 1: the head counts as an element. */
  lemma SizeCountsKeys(l: LfList)
    requires Valid(l)
    ensures l.size == 1 + |Abs(l)| && l.size >= 1
  {
    LiveSorted(l.nodes);
    SortedKeysCount(Live(l.nodes));
    assert Abs(l).Keys == Keys(Live(l.nodes));
  }
}

=== FILE: lf_skiplist.dfy ===
/** The lock-free skip list backend (`src/utils/lock-free/skiplist.c`) as one
    thread sees it.  With no other thread around, a mark set by `remove` is
    consumed by the same call's unlinking pass, so between operations no node
    is marked and every level is exactly the bottom level restricted to the
    towers tall enough for it.  The model therefore keeps the bottom level as
    a sequence of towers (node plus height); level `l` is the subsequence of
    towers whose height exceeds `l`, and `next[l]` of a position is the first
    later tower on that level.  Positions are indices, `-1` standing for the
    head (key 0, height `MAX_LVL`). */
module LfSkiplist {
  import opened Wrappers
  import opened MachineInts
  import opened SectorMap
  import opened SortedLevels

  const MAX_LVL: nat := 24

  datatype Tower = Tower(node: Node, height: nat)

  /** `max_lvl` is the historic number of levels, `last_key` the cached
      answer of `skiplist_last`. */
  datatype Skiplist = Skiplist(towers: seq<Tower>, maxLvl: nat, lastKey: nat)

  /** The bottom level's nodes. */
  function Nodes(ts: seq<Tower>): (r: seq<Node>)
    ensures |r| == |ts| && forall i | 0 <= i < |ts| :: r[i] == ts[i].node
  {
    seq(|ts|, i requires 0 <= i < |ts| => ts[i].node)
  }

  predicate Ascending(ts: seq<Tower>) {
    forall i, j | 0 <= i < j < |ts| :: ts[i].node.key < ts[j].node.key
  }

  ghost predicate Valid(sl: Skiplist) {
    && 1 <= sl.maxLvl <= MAX_LVL
    && sl.lastKey < U64_MOD
    && Ascending(sl.towers)
    && (forall i | 0 <= i < |sl.towers| :: 1 <= sl.towers[i].height <= sl.maxLvl)
    && (forall i | 0 <= i < |sl.towers| :: sl.towers[i].node.key <= sl.lastKey)
  }

  ghost function Abs(sl: Skiplist): SMap {
    LevelMap(Nodes(sl.towers))
  }

  lemma AscendingNodes(ts: seq<Tower>)
    requires Ascending(ts)
    ensures StrictlySorted(Nodes(ts))
  {
  }

  /** A key is mapped exactly when some tower carries it. */
  lemma KeyAt(ts: seq<Tower>, k: nat)
    ensures k in Keys(Nodes(ts)) <==> exists i :: 0 <= i < |ts| && ts[i].node.key == k
  {
    if k in Keys(Nodes(ts)) {
      var n :| n in Nodes(ts) && n.key == k;
      var i :| 0 <= i < |ts| && Nodes(ts)[i] == n;
      assert ts[i].node.key == k;
    }
    if exists i :: 0 <= i < |ts| && ts[i].node.key == k {
      var i :| 0 <= i < |ts| && ts[i].node.key == k;
      assert Nodes(ts)[i] in Nodes(ts);
    }
  }

  // ---------------------------------------------------------------------
  // skiplist_init, skiplist_is_empty, skiplist_last
  // ---------------------------------------------------------------------

  /** A zeroed structure with `max_lvl = 1` and a head of height `MAX_LVL`
      whose links are all NULL. */
  function Init(): (sl: Skiplist)
    ensures Valid(sl) && Abs(sl) == map[] && sl.lastKey == 0
  {
    Skiplist([], 1, 0)
  }

  /** `head->next[0] == 0`. */
  function IsEmpty(sl: Skiplist): (r: bool) {
    |sl.towers| == 0
  }

  lemma IsEmptyRefines(sl: Skiplist)
    ensures IsEmpty(sl) <==> Abs(sl) == map[]
  {
    if !IsEmpty(sl) {
      KeyAt(sl.towers, sl.towers[0].node.key);
      assert sl.towers[0].node.key in Abs(sl);
    }
  }

  function Last(sl: Skiplist): (r: nat) {
    sl.lastKey
  }

  /** `last_key` bounds every mapped key from above. */
  lemma LastBoundsKeys(sl: Skiplist)
    requires Valid(sl)
    ensures forall k | k in Abs(sl) :: k <= Last(sl)
    ensures LastKey(Abs(sl)).Some? ==> LastKey(Abs(sl)).value <= Last(sl)
  {
    forall k | k in Abs(sl) ensures k <= Last(sl) {
      KeyAt(sl.towers, k);
    }
  }

  // ---------------------------------------------------------------------
  // random_levels
  // ---------------------------------------------------------------------

  function Pow2(n: nat): (r: nat)
    ensures r >= 1
  {
    if n == 0 then 1 else 2 * Pow2(n - 1)
  }

  /** `__builtin_ctz`, undefined for 0. */
  function Ctz(w: nat): (r: nat)
    requires w > 0
    ensures Pow2(r) <= w
  {
    if w % 2 == 1 then 0 else 1 + Ctz(w / 2)
  }

  /** The new tower's height and the new `max_lvl`. */
  datatype Levels = Levels(height: nat, maxLvl: nat)

  /** `random_levels` for the random word `word`: half the number of trailing
      zero bits, at least 1, clipped to `MAX_LVL`; a height above `max_lvl`
      raises `max_lvl` by one and is replaced by the raised value. */
  function RandomLevels(maxLvl: nat, word: nat): (r: Levels)
    requires 0 < word < U32_MOD
    ensures 1 <= r.height <= MAX_LVL
    ensures maxLvl <= r.maxLvl <= maxLvl + 1
    ensures 1 <= maxLvl <= MAX_LVL ==> r.height <= r.maxLvl <= MAX_LVL
    ensures r.maxLvl == maxLvl + 1 ==> r.height == r.maxLvl
    ensures r.maxLvl == maxLvl + 1 <==> maxLvl < Ctz(word) / 2 && maxLvl < MAX_LVL
  {
    var levels := Ctz(word) / 2;
    if levels == 0 then Levels(1, maxLvl)
    else
      var levels := if levels > MAX_LVL then MAX_LVL else levels;
      if levels > maxLvl then Levels(maxLvl + 1, maxLvl + 1) else Levels(levels, maxLvl)
  }

  // ---------------------------------------------------------------------
  // find_preds
  // ---------------------------------------------------------------------

  /** The key comparison of `find_preds`: `AsWritten` stores the `u64`
      difference `node->key - key` in an `int`; `Corrected` compares the
      keys themselves. */
  datatype Variant = AsWritten | Corrected

  function Diff(v: Variant, nodeKey: nat, key: nat): (d: int)
    ensures v == Corrected ==> (d > 0 <==> nodeKey > key) && (d == 0 <==> nodeKey == key)
    ensures v == AsWritten ==> IsS32(d)
  {
    if v == AsWritten then S32(U64(nodeKey - key)) else nodeKey - key
  }

  /** `next[lvl]` seen from position `j - 1`: the first tower at or after
      `j` that reaches level `lvl`, `|ts|` for NULL. */
  function NextAt(ts: seq<Tower>, lvl: nat, j: nat): (r: nat)
    requires j <= |ts|
    ensures j <= r <= |ts|
    ensures r < |ts| ==> ts[r].height > lvl
    ensures forall k | j <= k < r :: ts[k].height <= lvl
    decreases |ts| - j
  {
    if j == |ts| then j
    else if ts[j].height > lvl then j
    else NextAt(ts, lvl, j + 1)
  }

  /** Where a walk stops on one level, and the last comparison `d`. */
  datatype Stop = Stop(pred: int, succ: nat, d: int)

  /** The inner loop of `find_preds` on level `lvl` from `pred`: step right
      while the comparison is negative; `d` keeps its old value when no
      node is compared. */
  function WalkLevel(ts: seq<Tower>, lvl: nat, pred: int, key: nat, v: Variant, d: int): (r: Stop)
    requires -1 <= pred < |ts|
    ensures pred <= r.pred < |ts| && r.pred < r.succ <= |ts|
    decreases |ts| - pred
  {
    var s := NextAt(ts, lvl, pred + 1);
    if s == |ts| then Stop(pred, s, d)
    else
      var d' := Diff(v, ts[s].node.key, key);
      if d' >= 0 then Stop(pred, s, d') else WalkLevel(ts, lvl, s, key, v, d')
  }

  /** The predecessors and successors recorded on levels `0..lvl` (index =
      level) and the final `d`. */
  datatype Descent = Descent(preds: seq<int>, succs: seq<nat>, d: int)

  function Descend(ts: seq<Tower>, lvl: int, pred: int, key: nat, v: Variant, d: int): (r: Descent)
    requires -1 <= lvl && -1 <= pred < |ts|
    ensures |r.preds| == |r.succs| == lvl + 1
    ensures forall i | 0 <= i <= lvl :: -1 <= r.preds[i] < r.succs[i] <= |ts|
    decreases lvl + 1
  {
    if lvl < 0 then Descent([], [], d)
    else
      var w := WalkLevel(ts, lvl, pred, key, v, d);
      var rest := Descend(ts, lvl - 1, w.pred, key, v, w.d);
      Descent(rest.preds + [w.pred], rest.succs + [w.succ], rest.d)
  }

  /** `find_preds` from the head on every level below `max_lvl`, `d`
      starting at -1. */
  function FindPreds(sl: Skiplist, key: nat, v: Variant): (r: Descent)
    ensures |r.preds| == |r.succs| == if sl.maxLvl == 0 then 0 else sl.maxLvl
  {
    Descend(sl.towers, sl.maxLvl as int - 1, -1, key, v, -1)
  }

  /** `skiplist_find_node`: the bottom-level successor when the last
      comparison gave 0. */
  function FindNode(sl: Skiplist, key: nat, v: Variant): (r: Option<Tower>)
    ensures r.Some? ==> r.value in sl.towers
  {
    var f := FindPreds(sl, key, v);
    if f.d == 0 && |f.succs| > 0 && f.succs[0] < |sl.towers| then Some(sl.towers[f.succs[0]])
    else None
  }

  predicate BelowKey(ts: seq<Tower>, p: int, key: nat)
    requires -1 <= p < |ts|
  {
    p == -1 || ts[p].node.key < key
  }

  /** What one level's walk leaves behind under the exact comparison. */
  predicate LinkOk(ts: seq<Tower>, lvl: nat, p: int, s: nat, key: nat)
    requires -1 <= p < s <= |ts|
  {
    && BelowKey(ts, p, key)
    && s == NextAt(ts, lvl, p + 1)
    && (s < |ts| ==> key <= ts[s].node.key)
  }

  lemma {:induction false} WalkCorrect(ts: seq<Tower>, lvl: nat, p: int, key: nat, d: int)
    requires -1 <= p < |ts| && BelowKey(ts, p, key)
    ensures var r := WalkLevel(ts, lvl, p, key, Corrected, d);
      && LinkOk(ts, lvl, r.pred, r.succ, key)
      && (r.succ < |ts| ==> r.d == ts[r.succ].node.key - key)
      && (r.succ == |ts| ==> (r.pred == p && r.d == d) || r.d < 0)
    decreases |ts| - p
  {
    var s := NextAt(ts, lvl, p + 1);
    if s < |ts| && ts[s].node.key < key {
      WalkCorrect(ts, lvl, s, key, ts[s].node.key - key);
    }
  }

  /** On the bottom level every tower is present. */
  lemma NextAtBottom(ts: seq<Tower>, j: nat)
    requires j <= |ts| && forall i | 0 <= i < |ts| :: ts[i].height >= 1
    ensures NextAt(ts, 0, j) == j
  {
  }

  /** What a descent leaves on the bottom level: the recorded predecessor
      is immediately followed by the recorded successor, and the final
      comparison is 0 exactly when that successor carries the key. */
  predicate BottomOk(ts: seq<Tower>, r: Descent, key: nat)
    requires |r.preds| == |r.succs| >= 1 && -1 <= r.preds[0] < r.succs[0] <= |ts|
  {
    && LinkOk(ts, 0, r.preds[0], r.succs[0], key)
    && r.succs[0] == r.preds[0] + 1
    && (r.d == 0 <==> r.succs[0] < |ts| && ts[r.succs[0]].node.key == key)
  }

  lemma BottomWalk(ts: seq<Tower>, p: int, key: nat, d: int)
    requires -1 <= p < |ts| && BelowKey(ts, p, key)
    requires forall i | 0 <= i < |ts| :: ts[i].height >= 1
    requires d == 0 ==> p + 1 < |ts|
    ensures BottomOk(ts, Descend(ts, 0, p, key, Corrected, d), key)
  {
    var w := WalkLevel(ts, 0, p, key, Corrected, d);
    WalkCorrect(ts, 0, p, key, d);
    NextAtBottom(ts, w.pred + 1);
    assert Descend(ts, 0, p, key, Corrected, d) == Descent([w.pred], [w.succ], w.d);
  }

  lemma {:induction false} DescendBottom(ts: seq<Tower>, lvl: int, p: int, key: nat, d: int)
    requires 0 <= lvl && -1 <= p < |ts| && BelowKey(ts, p, key)
    requires forall i | 0 <= i < |ts| :: ts[i].height >= 1
    requires d == 0 ==> p + 1 < |ts|
    ensures BottomOk(ts, Descend(ts, lvl, p, key, Corrected, d), key)
    decreases lvl
  {
    if lvl == 0 {
      BottomWalk(ts, p, key, d);
    } else {
      var w := WalkLevel(ts, lvl, p, key, Corrected, d);
      WalkCorrect(ts, lvl, p, key, d);
      var rest := Descend(ts, lvl - 1, w.pred, key, Corrected, w.d);
      DescendBottom(ts, lvl - 1, w.pred, key, w.d);
      assert Descend(ts, lvl, p, key, Corrected, d) == Descent(rest.preds + [w.pred], rest.succs + [w.succ], rest.d);
    }
  }

  /** Every level `0..lvl` of a descent holds a correct link point. */
  predicate LinksOk(ts: seq<Tower>, r: Descent, lvl: int, key: nat)
    requires |r.preds| == |r.succs| == lvl + 1
    requires forall i | 0 <= i <= lvl :: -1 <= r.preds[i] < r.succs[i] <= |ts|
  {
    forall i | 0 <= i <= lvl :: LinkOk(ts, i, r.preds[i], r.succs[i], key)
  }

  /** Every level's record is a correct link point for `key`. */
  lemma {:induction false} DescendLinks(ts: seq<Tower>, lvl: int, p: int, key: nat, d: int)
    requires 0 <= lvl && -1 <= p < |ts| && BelowKey(ts, p, key)
    ensures LinksOk(ts, Descend(ts, lvl, p, key, Corrected, d), lvl, key)
    decreases lvl
  {
    var w := WalkLevel(ts, lvl, p, key, Corrected, d);
    WalkCorrect(ts, lvl, p, key, d);
    var r := Descend(ts, lvl, p, key, Corrected, d);
    var rest := Descend(ts, lvl - 1, w.pred, key, Corrected, w.d);
    assert r == Descent(rest.preds + [w.pred], rest.succs + [w.succ], rest.d);
    if lvl > 0 {
      DescendLinks(ts, lvl - 1, w.pred, key, w.d);
      forall i | 0 <= i < lvl ensures LinkOk(ts, i, r.preds[i], r.succs[i], key) {
        assert LinkOk(ts, i, rest.preds[i], rest.succs[i], key);
        assert r.preds[i] == rest.preds[i] && r.succs[i] == rest.succs[i];
      }
    }
  }

  /** `q` is where `key` belongs on the bottom level. */
  predicate InsertionPoint(ts: seq<Tower>, q: nat, key: nat)
    requires q <= |ts|
  {
    BelowKey(ts, q - 1, key) && (q < |ts| ==> key <= ts[q].node.key)
  }

  lemma FindPredsPoint(sl: Skiplist, key: nat)
    requires Valid(sl)
    ensures var f := FindPreds(sl, key, Corrected);
      && (forall i | 0 <= i < sl.maxLvl :: LinkOk(sl.towers, i, f.preds[i], f.succs[i], key))
      && f.succs[0] == f.preds[0] + 1 && InsertionPoint(sl.towers, f.succs[0], key)
      && (f.d == 0 <==> f.succs[0] < |sl.towers| && sl.towers[f.succs[0]].node.key == key)
  {
    DescendBottom(sl.towers, sl.maxLvl - 1, -1, key, -1);
    DescendLinks(sl.towers, sl.maxLvl - 1, -1, key, -1);
  }

  /** Below the insertion point every key is smaller, from it on every key
      is at least `key`. */
  lemma SplitAt(ts: seq<Tower>, q: nat, key: nat)
    requires Ascending(ts) && q <= |ts| && InsertionPoint(ts, q, key)
    ensures forall i | 0 <= i < q :: ts[i].node.key < key
    ensures forall i | q <= i < |ts| :: key <= ts[i].node.key
  {
  }

  /** The key is mapped exactly when it sits at the insertion point. */
  lemma PresentAtPoint(ts: seq<Tower>, q: nat, key: nat)
    requires Ascending(ts) && q <= |ts| && InsertionPoint(ts, q, key)
    ensures key in Keys(Nodes(ts)) <==> q < |ts| && ts[q].node.key == key
  {
    SplitAt(ts, q, key);
    KeyAt(ts, key);
    if q < |ts| && ts[q].node.key == key {
      assert Nodes(ts)[q] in Nodes(ts);
    }
  }

  /** `skiplist_find_node` with the exact comparison answers the abstract
      lookup. */
  lemma FindNodeRefines(sl: Skiplist, key: nat)
    requires Valid(sl)
    ensures var r := FindNode(sl, key, Corrected);
      && (r.Some? <==> key in Abs(sl))
      && (r.Some? ==> r.value.node.key == key && Abs(sl)[key] == r.value.node.value)
  {
    var f := FindPreds(sl, key, Corrected);
    FindPredsPoint(sl, key);
    PresentAtPoint(sl.towers, f.succs[0], key);
    if f.d == 0 {
      AscendingNodes(sl.towers);
      ValueOfMember(Nodes(sl.towers), Nodes(sl.towers)[f.succs[0]]);
    }
  }

  /** With the comparison as written, a search for key 1 stops at a node
      whose key is 1 + 2^32: the difference truncates to 0 in an `int`. */
  lemma AsWrittenFindsOtherKey(v: Redir)
    ensures var t := Tower(Node(0x1_0000_0001, v), 1);
      var sl := Skiplist([t], 1, 0x1_0000_0001);
      && Valid(sl) && 1 !in Abs(sl)
      && FindNode(sl, 1, AsWritten) == Some(t)
      && FindNode(sl, 1, Corrected) == None
  {
    var t := Tower(Node(0x1_0000_0001, v), 1);
    var sl := Skiplist([t], 1, 0x1_0000_0001);
    assert Diff(AsWritten, 0x1_0000_0001, 1) == 0;
    assert WalkLevel(sl.towers, 0, -1, 1, AsWritten, -1) == Stop(-1, 0, 0);
    assert Descend(sl.towers, -1, -1, 1, AsWritten, 0) == Descent([], [], 0);
    KeyAt(sl.towers, 1);
    FindNodeRefines(sl, 1);
  }

  /** With the comparison as written, a larger key 2^31 above the search
      key compares as smaller, so the bottom-level predecessor recorded for
      `insert` lies past it and the new node would be linked out of order. */
  lemma AsWrittenPassesLargerKey(v: Redir)
    ensures var t := Tower(Node(0x8000_0001, v), 1);
      var sl := Skiplist([t], 1, 0x8000_0001);
      && Valid(sl)
      && FindPreds(sl, 1, AsWritten).preds[0] == 0
      && sl.towers[0].node.key > 1
  {
    var t := Tower(Node(0x8000_0001, v), 1);
    var sl := Skiplist([t], 1, 0x8000_0001);
    assert Diff(AsWritten, 0x8000_0001, 1) < 0;
    assert WalkLevel(sl.towers, 0, 0, 1, AsWritten, Diff(AsWritten, 0x8000_0001, 1)).pred == 0;
  }

  /** Every key of the structure lies below 2^31. */
  predicate SmallKeys(ts: seq<Tower>) {
    forall i | 0 <= i < |ts| :: ts[i].node.key < 0x8000_0000
  }

  /** Below 2^31 the truncated difference is the true difference. */
  lemma DiffAgrees(nodeKey: nat, key: nat)
    requires nodeKey < 0x8000_0000 && key < 0x8000_0000
    ensures Diff(AsWritten, nodeKey, key) == Diff(Corrected, nodeKey, key)
  {
    S32OfU64(nodeKey - key);
  }

  lemma {:induction false} WalkAgrees(ts: seq<Tower>, lvl: nat, pred: int, key: nat, d: int)
    requires -1 <= pred < |ts| && SmallKeys(ts) && key < 0x8000_0000
    ensures WalkLevel(ts, lvl, pred, key, AsWritten, d) == WalkLevel(ts, lvl, pred, key, Corrected, d)
    decreases |ts| - pred
  {
    var s := NextAt(ts, lvl, pred + 1);
    if s < |ts| {
      DiffAgrees(ts[s].node.key, key);
      WalkAgrees(ts, lvl, s, key, Diff(Corrected, ts[s].node.key, key));
    }
  }

  lemma {:induction false} DescendAgrees(ts: seq<Tower>, lvl: int, pred: int, key: nat, d: int)
    requires -1 <= lvl && -1 <= pred < |ts| && SmallKeys(ts) && key < 0x8000_0000
    ensures Descend(ts, lvl, pred, key, AsWritten, d) == Descend(ts, lvl, pred, key, Corrected, d)
    decreases lvl + 1
  {
    if lvl >= 0 {
      WalkAgrees(ts, lvl, pred, key, d);
      var w := WalkLevel(ts, lvl, pred, key, Corrected, d);
      DescendAgrees(ts, lvl - 1, w.pred, key, w.d);
    }
  }

  /** While every key, and the key searched for, lies below 2^31, the
      comparison as written records the same predecessors, successors and
      final result as the corrected one. */
  lemma FindPredsAgree(sl: Skiplist, key: nat)
    requires SmallKeys(sl.towers) && key < 0x8000_0000
    ensures FindPreds(sl, key, AsWritten) == FindPreds(sl, key, Corrected)
    ensures FindNode(sl, key, AsWritten) == FindNode(sl, key, Corrected)
  {
    DescendAgrees(sl.towers, sl.maxLvl as int - 1, -1, key, -1);
  }

  // ---------------------------------------------------------------------
  // skiplist_prev
  // ---------------------------------------------------------------------

  /** `skiplist_prev`: the same top-down walk, stepping while
      `node->key < key`; NULL when it never leaves the head.  The node's
      key is what the call writes to `*prev_key`. */
  function Prev(sl: Skiplist, key: nat): (r: Option<Node>)
    ensures r.Some? ==> r.value in Nodes(sl.towers)
  {
    var f := FindPreds(sl, key, Corrected);
    if |f.preds| == 0 || f.preds[0] == -1 then None
    else
      assert Nodes(sl.towers)[f.preds[0]] in Nodes(sl.towers);
      Some(sl.towers[f.preds[0]].node)
  }

  /** Nothing below the insertion point: no key below `key` is mapped. */
  lemma NoneBelowPoint(ts: seq<Tower>, key: nat)
    requires Ascending(ts) && InsertionPoint(ts, 0, key)
    ensures PrevKey(LevelMap(Nodes(ts)), key).None?
  {
    SplitAt(ts, 0, key);
    forall k | k in LevelMap(Nodes(ts)) ensures k >= key {
      KeyAt(ts, k);
    }
  }

  /** The tower just below the insertion point carries the greatest key
      below `key`. */
  lemma LastBelowPoint(ts: seq<Tower>, q: nat, key: nat)
    requires Ascending(ts) && 0 < q <= |ts| && InsertionPoint(ts, q, key)
    ensures var m := LevelMap(Nodes(ts));
      PrevKey(m, key) == Some(ts[q - 1].node.key) && m[ts[q - 1].node.key] == ts[q - 1].node.value
  {
    var m := LevelMap(Nodes(ts));
    var n := ts[q - 1].node;
    SplitAt(ts, q, key);
    KeyAt(ts, n.key);
    PrevKeyAtLeast(m, key, n.key);
    var p := PrevKey(m, key).value;
    KeyAt(ts, p);
    AscendingNodes(ts);
    ValueOfMember(Nodes(ts), Nodes(ts)[q - 1]);
  }

  lemma PrevRefines(sl: Skiplist, key: nat)
    requires Valid(sl)
    ensures var r := Prev(sl, key);
      && (r.None? <==> PrevKey(Abs(sl), key).None?)
      && (r.Some? ==> r.value.key == PrevKey(Abs(sl), key).value && Abs(sl)[r.value.key] == r.value.value)
  {
    var f := FindPreds(sl, key, Corrected);
    FindPredsPoint(sl, key);
    var q := f.succs[0];
    if q == 0 {
      assert Prev(sl, key) == None;
      NoneBelowPoint(sl.towers, key);
    } else {
      assert Prev(sl, key) == Some(sl.towers[q - 1].node);
      LastBelowPoint(sl.towers, q, key);
    }
  }

  // ---------------------------------------------------------------------
  // skiplist_insert
  // ---------------------------------------------------------------------

  /** The new structure and the returned pointer: the old value when the
      key was present, NULL after linking a new node. */
  datatype InsertResult = InsertResult(sl: Skiplist, prior: Option<Redir>)

  /** `skiplist_insert` with the random word `word` for `random_levels`:
      `last_key` is raised first, then `max_lvl` may grow, then the key is
      either updated in place (`update_node`) or a new tower is linked at
      the point `find_preds` recorded.  `v` selects the key comparison of
      `find_preds`; the source is `AsWritten`. */
  function Insert(sl: Skiplist, key: nat, value: Redir, word: nat, v: Variant): (r: InsertResult)
    requires 0 < word < U32_MOD
    ensures r.sl.lastKey == if key > sl.lastKey then key else sl.lastKey
    ensures sl.maxLvl <= r.sl.maxLvl <= sl.maxLvl + 1
  {
    var last := if key > sl.lastKey then key else sl.lastKey;
    var lv := RandomLevels(sl.maxLvl, word);
    var grown := Skiplist(sl.towers, lv.maxLvl, last);
    var ts := sl.towers;
    var f := FindPreds(grown, key, v);
    if f.d == 0 && |f.succs| > 0 && f.succs[0] < |ts| then
      var i := f.succs[0];
      InsertResult(Skiplist(ts[i := Tower(Node(ts[i].node.key, value), ts[i].height)], lv.maxLvl, last),
                   Some(ts[i].node.value))
    else
      var q := if |f.succs| > 0 then f.succs[0] else 0;
      InsertResult(Skiplist(ts[..q] + [Tower(Node(key, value), lv.height)] + ts[q..], lv.maxLvl, last),
                   None)
  }

  lemma SpliceAscending(ts: seq<Tower>, q: nat, t: Tower)
    requires Ascending(ts) && q <= |ts|
    requires InsertionPoint(ts, q, t.node.key) && (q < |ts| ==> t.node.key != ts[q].node.key)
    ensures Ascending(ts[..q] + [t] + ts[q..])
  {
    var r := ts[..q] + [t] + ts[q..];
    forall i, j | 0 <= i < j < |r| ensures r[i].node.key < r[j].node.key {
      if j < q {
        assert r[i] == ts[i] && r[j] == ts[j];
      } else if j == q {
        assert r[i] == ts[i];
      } else if i < q {
        assert r[i] == ts[i] && r[j] == ts[j - 1];
      } else if i == q {
        assert r[j] == ts[j - 1];
      } else {
        assert r[i] == ts[i - 1] && r[j] == ts[j - 1];
      }
    }
  }

  lemma SpliceNodes(ts: seq<Tower>, q: nat, t: Tower)
    requires q <= |ts|
    ensures forall n :: n in Nodes(ts[..q] + [t] + ts[q..]) <==> n in Nodes(ts) || n == t.node
  {
    assert Nodes(ts[..q] + [t] + ts[q..]) == Nodes(ts)[..q] + [t.node] + Nodes(ts)[q..];
    assert Nodes(ts) == Nodes(ts)[..q] + Nodes(ts)[q..];
  }

  /** A new key: the map gains it. */
  lemma InsertNewRefines(ts: seq<Tower>, q: nat, t: Tower)
    requires Ascending(ts) && q <= |ts| && InsertionPoint(ts, q, t.node.key)
    requires t.node.key !in Keys(Nodes(ts))
    ensures Ascending(ts[..q] + [t] + ts[q..])
    ensures LevelMap(Nodes(ts[..q] + [t] + ts[q..])) == LevelMap(Nodes(ts))[t.node.key := t.node.value]
  {
    if q < |ts| {
      assert Nodes(ts)[q] in Nodes(ts);
    }
    SpliceAscending(ts, q, t);
    SpliceNodes(ts, q, t);
    AscendingNodes(ts);
    AscendingNodes(ts[..q] + [t] + ts[q..]);
    LevelMapAdd(Nodes(ts), Nodes(ts[..q] + [t] + ts[q..]), t.node);
  }

  /** A present key: its value is overwritten in place. */
  lemma UpdateRefines(ts: seq<Tower>, i: nat, value: Redir)
    requires Ascending(ts) && i < |ts|
    ensures var r := ts[i := Tower(Node(ts[i].node.key, value), ts[i].height)];
      && Ascending(r)
      && LevelMap(Nodes(r)) == LevelMap(Nodes(ts))[ts[i].node.key := value]
  {
    var node := Node(ts[i].node.key, value);
    var r := ts[i := Tower(node, ts[i].height)];
    assert Ascending(r) by {
      forall a, b | 0 <= a < b < |r| ensures r[a].node.key < r[b].node.key {
        assert r[a].node.key == ts[a].node.key && r[b].node.key == ts[b].node.key;
      }
    }
    assert Nodes(r) == Nodes(ts)[i := node];
    assert Nodes(r)[i] == node;
    forall n ensures n in Nodes(r) <==> (n in Nodes(ts) && n.key != node.key) || n == node {
      if n in Nodes(ts) && n.key != node.key {
        var j :| 0 <= j < |ts| && Nodes(ts)[j] == n;
        assert j != i && Nodes(r)[j] == n;
      }
      if n in Nodes(r) && n != node {
        var j :| 0 <= j < |r| && Nodes(r)[j] == n;
        assert j != i && Nodes(ts)[j] == n;
      }
    }
    assert Nodes(ts)[i] in Nodes(ts);
    AscendingNodes(ts);
    AscendingNodes(r);
    LevelMapReplace(Nodes(ts), Nodes(r), node);
  }

  /** Overwriting the value of the tower at `q`. */
  lemma UpdateAt(sl: Skiplist, q: nat, value: Redir)
    requires Valid(sl) && q < |sl.towers|
    ensures var ts := sl.towers;
      var r := Skiplist(ts[q := Tower(Node(ts[q].node.key, value), ts[q].height)], sl.maxLvl, sl.lastKey);
      && Valid(r)
      && Abs(r) == Abs(sl)[ts[q].node.key := value]
      && ts[q].node.key in Abs(sl) && Abs(sl)[ts[q].node.key] == ts[q].node.value
  {
    var ts := sl.towers;
    var r := Skiplist(ts[q := Tower(Node(ts[q].node.key, value), ts[q].height)], sl.maxLvl, sl.lastKey);
    UpdateRefines(ts, q, value);
    AscendingNodes(ts);
    ValueOfMember(Nodes(ts), Nodes(ts)[q]);
    forall i | 0 <= i < |r.towers| ensures 1 <= r.towers[i].height <= r.maxLvl && r.towers[i].node.key <= r.lastKey {
      assert r.towers[i].height == ts[i].height && r.towers[i].node.key == ts[i].node.key;
    }
  }

  /** Splicing a new tower in at its insertion point. */
  lemma SpliceAt(sl: Skiplist, q: nat, t: Tower)
    requires Valid(sl) && q <= |sl.towers| && InsertionPoint(sl.towers, q, t.node.key)
    requires t.node.key !in Abs(sl) && 1 <= t.height <= sl.maxLvl && t.node.key <= sl.lastKey
    ensures var r := Skiplist(sl.towers[..q] + [t] + sl.towers[q..], sl.maxLvl, sl.lastKey);
      && Valid(r)
      && Abs(r) == Abs(sl)[t.node.key := t.node.value]
  {
    var ts := sl.towers;
    var r := Skiplist(ts[..q] + [t] + ts[q..], sl.maxLvl, sl.lastKey);
    assert t.node.key !in Keys(Nodes(ts));
    InsertNewRefines(ts, q, t);
    SpliceBounded(ts, q, t, sl.maxLvl, sl.lastKey);
  }

  /** Every tower of a splice is within the level and key bounds when the
      spliced tower and the old ones are. */
  lemma SpliceBounded(ts: seq<Tower>, q: nat, t: Tower, maxLvl: nat, lastKey: nat)
    requires q <= |ts| && 1 <= t.height <= maxLvl && t.node.key <= lastKey
    requires forall i | 0 <= i < |ts| :: 1 <= ts[i].height <= maxLvl && ts[i].node.key <= lastKey
    ensures var u := ts[..q] + [t] + ts[q..];
      forall i | 0 <= i < |u| :: 1 <= u[i].height <= maxLvl && u[i].node.key <= lastKey
  {
    var u := ts[..q] + [t] + ts[q..];
    forall i | 0 <= i < |u| ensures 1 <= u[i].height <= maxLvl && u[i].node.key <= lastKey {
      if i < q { assert u[i] == ts[i]; }
      else if i > q { assert u[i] == ts[i - 1]; }
    }
  }

  /** Insert keeps the structure valid, maps the key to the new value and
      returns the value it replaced (NULL for a new key). */
  lemma InsertRefines(sl: Skiplist, key: nat, value: Redir, word: nat)
    requires Valid(sl) && key < U64_MOD && 0 < word < U32_MOD
    ensures var r := Insert(sl, key, value, word, Corrected);
      && Valid(r.sl)
      && Abs(r.sl) == Abs(sl)[key := value]
      && r.prior == (if key in Abs(sl) then Some(Abs(sl)[key]) else None)
  {
    var last := if key > sl.lastKey then key else sl.lastKey;
    var lv := RandomLevels(sl.maxLvl, word);
    var grown := Skiplist(sl.towers, lv.maxLvl, last);
    var ts := sl.towers;
    assert Valid(grown) && Abs(grown) == Abs(sl);
    var f := FindPreds(grown, key, Corrected);
    FindPredsPoint(grown, key);
    var q := f.succs[0];
    PresentAtPoint(ts, q, key);
    if f.d == 0 {
      assert Insert(sl, key, value, word, Corrected)
        == InsertResult(Skiplist(ts[q := Tower(Node(ts[q].node.key, value), ts[q].height)], lv.maxLvl, last),
                        Some(ts[q].node.value));
      UpdateAt(grown, q, value);
    } else {
      var t := Tower(Node(key, value), lv.height);
      assert Insert(sl, key, value, word, Corrected) == InsertResult(Skiplist(ts[..q] + [t] + ts[q..], lv.maxLvl, last), None);
      SpliceAt(grown, q, t);
    }
  }

  /** `skiplist_insert` links the new node at level `i` between the
      predecessor and successor `find_preds` recorded for that level: every
      tower between them is lower than `i + 1`, and the bottom-level
      insertion point lies between them, so linking there and splicing the
      tower in at the insertion point describe the same structure. */
  lemma InsertLinksAgree(sl: Skiplist, key: nat, lvl: nat)
    requires Valid(sl) && lvl < sl.maxLvl
    ensures var f := FindPreds(sl, key, Corrected);
      var q := f.succs[0];
      && f.preds[lvl] < q <= f.succs[lvl]
      && forall k | f.preds[lvl] < k < f.succs[lvl] :: sl.towers[k].height <= lvl
  {
    var f := FindPreds(sl, key, Corrected);
    FindPredsPoint(sl, key);
    SplitAt(sl.towers, f.succs[0], key);
    assert LinkOk(sl.towers, lvl, f.preds[lvl], f.succs[lvl], key);
  }

  /** Below 2^31 the insert as written is the corrected insert. */
  lemma InsertAgrees(sl: Skiplist, key: nat, value: Redir, word: nat)
    requires SmallKeys(sl.towers) && key < 0x8000_0000 && 0 < word < U32_MOD
    ensures Insert(sl, key, value, word, AsWritten) == Insert(sl, key, value, word, Corrected)
  {
    var last := if key > sl.lastKey then key else sl.lastKey;
    FindPredsAgree(Skiplist(sl.towers, RandomLevels(sl.maxLvl, word).maxLvl, last), key);
  }

  /** With the comparison as written, inserting key 1 next to key 1 + 2^32
      overwrites that node's value through `update_node` and hands back its
      old value; key 1 stays unmapped.  Corrected, key 1 is added. */
  lemma AsWrittenInsertOverwrites(v0: Redir, v1: Redir)
    ensures var sl := Skiplist([Tower(Node(0x1_0000_0001, v0), 1)], 1, 0x1_0000_0001);
      var r := Insert(sl, 1, v1, 1, AsWritten);
      && Valid(sl) && 1 !in Abs(sl)
      && r.prior == Some(v0)
      && r.sl.towers == [Tower(Node(0x1_0000_0001, v1), 1)]
      && 1 !in Abs(r.sl)
      && Insert(sl, 1, v1, 1, Corrected).prior == None
      && Abs(Insert(sl, 1, v1, 1, Corrected).sl) == Abs(sl)[1 := v1]
  {
    var sl := Skiplist([Tower(Node(0x1_0000_0001, v0), 1)], 1, 0x1_0000_0001);
    assert RandomLevels(1, 1) == Levels(1, 1);
    assert Diff(AsWritten, 0x1_0000_0001, 1) == 0;
    assert WalkLevel(sl.towers, 0, -1, 1, AsWritten, -1) == Stop(-1, 0, 0);
    assert Descend(sl.towers, -1, -1, 1, AsWritten, 0) == Descent([], [], 0);
    var r := Insert(sl, 1, v1, 1, AsWritten);
    KeyAt(sl.towers, 1);
    KeyAt(r.sl.towers, 1);
    InsertRefines(sl, 1, v1, 1);
  }

  // ---------------------------------------------------------------------
  // skiplist_remove
  // ---------------------------------------------------------------------

  /** `skiplist_remove`: nothing for an absent key; otherwise the node is
      marked on every level, its value swapped out and the unlinking pass
      of `find_preds` removes it from every level it stands on.  `v`
      selects the key comparison of `find_preds`; the source is
      `AsWritten`. */
  function Remove(sl: Skiplist, key: nat, v: Variant): (r: Skiplist)
    ensures r.maxLvl == sl.maxLvl && r.lastKey == sl.lastKey
    ensures |r.towers| <= |sl.towers|
  {
    var ts := sl.towers;
    var f := FindPreds(sl, key, v);
    if f.d == 0 && |f.succs| > 0 && f.succs[0] < |ts| then
      var i := f.succs[0];
      Skiplist(ts[..i] + ts[i + 1..], sl.maxLvl, sl.lastKey)
    else sl
  }

  lemma DropNodes(ts: seq<Tower>, i: nat)
    requires Ascending(ts) && i < |ts|
    ensures Ascending(ts[..i] + ts[i + 1..])
    ensures forall n :: n in Nodes(ts[..i] + ts[i + 1..]) <==> n in Nodes(ts) && n.key != ts[i].node.key
  {
    DropAscending(ts, i);
    DropMembers(ts, i);
  }

  lemma DropAscending(ts: seq<Tower>, i: nat)
    requires Ascending(ts) && i < |ts|
    ensures Ascending(ts[..i] + ts[i + 1..])
  {
    var r := ts[..i] + ts[i + 1..];
    forall a, b | 0 <= a < b < |r| ensures r[a].node.key < r[b].node.key {
      if b < i { assert r[a] == ts[a] && r[b] == ts[b]; }
      else if a < i { assert r[a] == ts[a] && r[b] == ts[b + 1]; }
      else { assert r[a] == ts[a + 1] && r[b] == ts[b + 1]; }
    }
  }

  lemma DropMembers(ts: seq<Tower>, i: nat)
    requires Ascending(ts) && i < |ts|
    ensures forall n :: n in Nodes(ts[..i] + ts[i + 1..]) <==> n in Nodes(ts) && n.key != ts[i].node.key
  {
    var r := ts[..i] + ts[i + 1..];
    var nr := Nodes(r);
    var ns := Nodes(ts);
    forall n | n in nr ensures n in ns && n.key != ts[i].node.key {
      var j :| 0 <= j < |nr| && nr[j] == n;
      var k := if j < i then j else j + 1;
      assert r[j] == ts[k];
      assert ns[k] == n;
    }
    forall n | n in ns && n.key != ts[i].node.key ensures n in nr {
      var k :| 0 <= k < |ns| && ns[k] == n;
      var j := if k < i then k else k - 1;
      assert r[j] == ts[k];
      assert nr[j] == n;
    }
  }

  /** Dropping the tower at `q` keeps the structure valid and unmaps its key. */
  lemma DropRefines(sl: Skiplist, q: nat)
    requires Valid(sl) && q < |sl.towers|
    ensures var r := Skiplist(sl.towers[..q] + sl.towers[q + 1..], sl.maxLvl, sl.lastKey);
      && Valid(r)
      && Abs(r) == Abs(sl) - {sl.towers[q].node.key}
  {
    var ts := sl.towers;
    var r := Skiplist(ts[..q] + ts[q + 1..], sl.maxLvl, sl.lastKey);
    DropNodes(ts, q);
    AscendingNodes(ts);
    AscendingNodes(r.towers);
    LevelMapDrop(Nodes(ts), Nodes(r.towers), ts[q].node.key);
    forall i | 0 <= i < |r.towers| ensures 1 <= r.towers[i].height <= r.maxLvl && r.towers[i].node.key <= r.lastKey {
      if i < q { assert r.towers[i] == ts[i]; } else { assert r.towers[i] == ts[i + 1]; }
    }
  }

  /** Remove keeps the structure valid and unmaps exactly the key. */
  lemma RemoveRefines(sl: Skiplist, key: nat)
    requires Valid(sl)
    ensures var r := Remove(sl, key, Corrected);
      && Valid(r)
      && Abs(r) == Abs(sl) - {key}
  {
    var f := FindPreds(sl, key, Corrected);
    FindPredsPoint(sl, key);
    var q := f.succs[0];
    PresentAtPoint(sl.towers, q, key);
    if f.d == 0 {
      assert Remove(sl, key, Corrected) == Skiplist(sl.towers[..q] + sl.towers[q + 1..], sl.maxLvl, sl.lastKey);
      DropRefines(sl, q);
    } else {
      assert Remove(sl, key, Corrected) == sl;
      assert Abs(sl) - {key} == Abs(sl);
    }
  }

  /** `last_key` is never lowered: after the greatest key is removed,
      `skiplist_last` still reports it although it is no longer mapped. */
  lemma LastSurvivesRemove(sl: Skiplist, key: nat)
    requires Valid(sl) && key in Abs(sl) && key == sl.lastKey
    ensures Last(Remove(sl, key, Corrected)) == key && key !in Abs(Remove(sl, key, Corrected))
  {
    RemoveRefines(sl, key);
  }

  /** Below 2^31 the remove as written is the corrected remove. */
  lemma RemoveAgrees(sl: Skiplist, key: nat)
    requires SmallKeys(sl.towers) && key < 0x8000_0000
    ensures Remove(sl, key, AsWritten) == Remove(sl, key, Corrected)
  {
    FindPredsAgree(sl, key);
  }

  /** With the comparison as written, removing the absent key 1 deletes
      key 1 + 2^32; corrected, nothing changes. */
  lemma AsWrittenRemoveDeletesOther(v: Redir)
    ensures var sl := Skiplist([Tower(Node(0x1_0000_0001, v), 1)], 1, 0x1_0000_0001);
      && Valid(sl) && 1 !in Abs(sl) && 0x1_0000_0001 in Abs(sl)
      && 0x1_0000_0001 !in Abs(Remove(sl, 1, AsWritten))
      && Remove(sl, 1, Corrected) == sl
  {
    var sl := Skiplist([Tower(Node(0x1_0000_0001, v), 1)], 1, 0x1_0000_0001);
    assert Diff(AsWritten, 0x1_0000_0001, 1) == 0;
    assert WalkLevel(sl.towers, 0, -1, 1, AsWritten, -1) == Stop(-1, 0, 0);
    assert Descend(sl.towers, -1, -1, 1, AsWritten, 0) == Descent([], [], 0);
    assert Remove(sl, 1, AsWritten).towers == [];
    KeyAt(sl.towers, 1);
    KeyAt(sl.towers, 0x1_0000_0001);
    KeyAt([], 0x1_0000_0001);
    RemoveRefines(sl, 1);
  }
}

=== FILE: machine_ints.dfy ===
/** Fixed-width C integers.  Dafny integers are unbounded, so every
    truncating assignment, wrapping subtraction and signed/unsigned
    reinterpretation that the kernel module relies on is written out here.
    Conversions to a signed type follow GCC: the value is reduced modulo
    2^N into the signed range. */
module MachineInts {

  const U8_MOD: nat := 0x100
  const U16_MOD: nat := 0x1_0000
  const U32_MOD: nat := 0x1_0000_0000
  const U64_MOD: nat := 0x1_0000_0000_0000_0000

  /** `U32_MAX` and `U64_MAX` from the kernel headers. */
  const U32_MAX: nat := U32_MOD - 1
  const U64_MAX: nat := U64_MOD - 1

  /** Conversion to `u8`. */
  function U8(x: int): (r: nat)
    ensures r < U8_MOD && (r - x) % U8_MOD == 0
    ensures 0 <= x < U8_MOD ==> r == x
  { x % U8_MOD }

  /** Conversion to `u16`. */
  function U16(x: int): (r: nat)
    ensures r < U16_MOD && (r - x) % U16_MOD == 0
    ensures 0 <= x < U16_MOD ==> r == x
  { x % U16_MOD }

  /** Conversion to `u32` (also: the `unsigned int` arithmetic C uses when an
      `s32` meets a `u32`). */
  function U32(x: int): (r: nat)
    ensures r < U32_MOD && (r - x) % U32_MOD == 0
    ensures 0 <= x < U32_MOD ==> r == x
  { x % U32_MOD }

  /** Conversion to `u64` / `sector_t`. */
  function U64(x: int): (r: nat)
    ensures r < U64_MOD && (r - x) % U64_MOD == 0
    ensures 0 <= x < U64_MOD ==> r == x
  { x % U64_MOD }

  /** Conversion to `s16`. */
  function S16(x: int): (r: int)
    ensures -0x8000 <= r < 0x8000 && (r - x) % U16_MOD == 0
    ensures -0x8000 <= x < 0x8000 ==> r == x
  {
    var u := x % U16_MOD;
    if u >= 0x8000 then u - U16_MOD else u
  }

  /** Conversion to `s32` / `int`. */
  function S32(x: int): (r: int)
    ensures -0x8000_0000 <= r < 0x8000_0000 && (r - x) % U32_MOD == 0
    ensures -0x8000_0000 <= x < 0x8000_0000 ==> r == x
  {
    var u := x % U32_MOD;
    if u >= 0x8000_0000 then u - U32_MOD else u
  }

  predicate IsU32(x: int) { 0 <= x < U32_MOD }
  predicate IsU64(x: int) { 0 <= x < U64_MOD }
  predicate IsS32(x: int) { -0x8000_0000 <= x < 0x8000_0000 }

  /** Unsigned subtraction that does not wrap is ordinary subtraction. */
  lemma U32Sub(a: int, b: int)
    requires 0 <= b <= U32(a)
    ensures U32(a - b) == U32(a) - b
  {
    var r := U32(a) - b;
    assert (r - (a - b)) % U32_MOD == (U32(a) - a) % U32_MOD;
  }

  /** An `int` that holds a `u32` reads back as the same `u32`. */
  lemma U32OfS32(y: int)
    requires 0 <= y < U32_MOD
    ensures U32(S32(y)) == y
  {
  }

  /** A value in the `int` range survives the trip through `u64` and back:
      the difference of two `sector_t` keys below 2^31 truncates to itself. */
  lemma S32OfU64(x: int)
    requires IsS32(x)
    ensures S32(U64(x)) == x
  {
    if x < 0 {
      assert U64(x) == x + U64_MOD;
      assert (x + U64_MOD) % U32_MOD == x + U32_MOD by {
        assert x + U64_MOD == (x + U32_MOD) + (U32_MOD - 1) * U32_MOD;
      }
    }
  }
}

=== FILE: marked_pointers.dfy ===
/** The pointer-tagging macros of the lock-free structures
    (`src/utils/lock-free/marked_pointers.h`) on 64-bit words.  Nodes are at
    least 2-byte aligned, so bit 0 of a node address is free to carry the
    "logically deleted" mark; the lock-free list model keeps that bit as a
    boolean next to the node, which `Pack`/`Unpack` below justify. */
module MarkedPointers {
  type Word = bv64

  /** `TAG_VALUE(v, tag)`. */
  function TagValue(v: Word, tag: Word): (r: Word)
    ensures r & tag == tag && r & !tag == v & !tag
  {
    v | tag
  }

  /** `IS_TAGGED(v, tag)`. */
  function IsTagged(v: Word, tag: Word): (r: Word)
    ensures r & !tag == 0 && r & tag == v & tag
    ensures r == 0 <==> v & tag == 0
  {
    v & tag
  }

  /** `STRIP_TAG(v, tag)`. */
  function StripTag(v: Word, tag: Word): (r: Word)
    ensures r & tag == 0 && r & !tag == v & !tag
  {
    v & !tag
  }

  /** `MARK_NODE(x)`: sets bit 0 and leaves every other bit alone. */
  function MarkNode(x: Word): (r: Word)
    ensures r & 1 == 1 && r & !1 == x & !1
  {
    TagValue(x, 1)
  }

  /** `HAS_MARK(x)`. */
  predicate HasMark(x: Word) {
    IsTagged(x, 1) == 1
  }

  /** Marking always yields a marked word, and stripping never does. */
  lemma MarkThenHasMark(x: Word)
    ensures HasMark(MarkNode(x)) && !HasMark(StripTag(x, 1))
  {
  }

  /** Marking sets the bit rather than toggling it: marking twice is
      marking once. */
  lemma MarkIdempotent(x: Word)
    ensures MarkNode(MarkNode(x)) == MarkNode(x)
  {
  }

  /** Stripping the mark gives back an unmarked word. */
  lemma StripUndoesMark(x: Word)
    requires x & 1 == 0
    ensures StripTag(MarkNode(x), 1) == x
  {
  }

  /** A node address together with its mark, as one tagged word. */
  function Pack(addr: Word, marked: bool): (w: Word)
    requires addr & 1 == 0
    ensures HasMark(w) == marked && StripTag(w, 1) == addr
  {
    if marked then MarkNode(addr) else addr
  }

  /** The address and the mark a tagged word carries. */
  function Unpack(w: Word): (r: (Word, bool))
    ensures r.0 & 1 == 0 && r.1 == HasMark(w)
  {
    (StripTag(w, 1), HasMark(w))
  }

  /** Packing and unpacking are inverse on aligned addresses, so a marked
      pointer is exactly an aligned address plus one boolean. */
  lemma PackUnpack(addr: Word, marked: bool, w: Word)
    requires addr & 1 == 0
    ensures Unpack(Pack(addr, marked)) == (addr, marked)
    ensures Pack(Unpack(w).0, Unpack(w).1) == w
  {
  }
}

=== FILE: sector_map.dfy ===
/** The abstract redirection map that every backend of the driver stands
    for: original sector -> (redirected sector, block size), with the
    ordered queries the read path needs (`ds_lookup`, `ds_last`, `ds_prev`,
    `ds_empty_check`). */
module SectorMap {
  import opened Wrappers

  /** `struct lsbdd_value_redir`: the sector a block was written to and the
      number of bytes that were written there. */
  datatype Redir = Redir(redirected: nat, blockSize: nat)

  type SMap = map<nat, Redir>

  /** `k` is the greatest element of `s`. */
  ghost predicate IsMax(s: set<nat>, k: nat) {
    k in s && forall j | j in s :: j <= k
  }

  lemma {:induction false} MaxExists(s: set<nat>)
    requires s != {}
    ensures exists k :: IsMax(s, k)
  {
    var x :| x in s;
    if s != {x} {
      MaxExists(s - {x});
      var m :| IsMax(s - {x}, m);
      forall j | j in s
        ensures j <= if x <= m then m else x
      {
        if j != x { assert j in s - {x}; }
      }
      assert IsMax(s, if x <= m then m else x);
    } else {
      assert IsMax(s, x);
    }
  }

  /** The greatest element of a non-empty finite set of sectors. */
  function MaxOf(s: set<nat>): (k: nat)
    requires s != {}
    ensures k in s && forall j | j in s :: j <= k
  {
    MaxExists(s);
    var k :| k in s && (forall j | j in s :: j <= k);
    k
  }

  /** The greatest key of the map (what `ds_last` looks for), `None` when the
      map is empty. */
  function LastKey(m: SMap): (r: Option<nat>)
    ensures r.None? <==> m == map[]
    ensures r.Some? ==> r.value in m && forall j | j in m :: j <= r.value
  {
    if m == map[] then None
    else
      assert m.Keys != {} by { var k :| k in m; assert k in m.Keys; }
      Some(MaxOf(m.Keys))
  }

  /** The greatest key strictly below `key` (what `ds_prev` looks for),
      `None` when every key is at least `key`. */
  function PrevKey(m: SMap, key: nat): (r: Option<nat>)
    ensures r.None? <==> forall j | j in m :: j >= key
    ensures r.Some? ==> r.value in m && r.value < key
    ensures r.Some? ==> forall j | j in m && j < key :: j <= r.value
  {
    var below := set j | j in m && j < key;
    assert forall j | j in m && j < key :: j in below;
    if below == {} then None else Some(MaxOf(below))
  }

  /** For a key that is not in the map, "greatest key below" and "greatest
      key at or below" coincide, which is why backends that search with
      `<=` still answer `ds_prev` correctly for unmapped sectors. */
  lemma PrevKeyOfAbsent(m: SMap, key: nat, p: nat)
    requires key !in m
    requires p in m && p <= key && forall j | j in m && j <= key :: j <= p
    ensures PrevKey(m, key) == Some(p)
  {
    assert p < key;
  }

  /** The two maps agree at `k`: both lack it or both map it alike. */
  ghost predicate SameAt(a: SMap, b: SMap, k: nat) {
    (k in a <==> k in b) && (k in a ==> a[k] == b[k])
  }

  lemma SameEverywhere(a: SMap, b: SMap)
    requires forall k :: SameAt(a, b, k)
    ensures a == b
  {
    forall k ensures k in a <==> k in b { assert SameAt(a, b, k); }
    forall k | k in a ensures a[k] == b[k] { assert SameAt(a, b, k); }
  }

  /** Any key below `key` bounds the greatest one from below. */
  lemma PrevKeyAtLeast(m: SMap, key: nat, k: nat)
    requires k in m && k < key
    ensures PrevKey(m, key).Some? && k <= PrevKey(m, key).value
  {
  }

  /** Adding a key raises the greatest key to it when it is larger. */
  lemma LastKeyOfUpdate(m: SMap, key: nat, value: Redir)
    ensures var before := LastKey(m).GetOr(0);
      LastKey(m[key := value]).GetOr(0) == if before < key then key else before
  {
    var u := m[key := value];
    assert key in u;
    var a := LastKey(u).value;
    assert a == key || a in m;
    if m != map[] {
      var b := LastKey(m).value;
      assert b in u;
      assert a <= b || a == key;
    }
  }

  /** Taking out a key that is not the greatest leaves the greatest. */
  lemma LastKeyOfDrop(m: SMap, key: nat)
    requires key !in m || LastKey(m) != Some(key)
    ensures LastKey(m - {key}) == LastKey(m)
  {
    if key in m {
      var b := LastKey(m).value;
      assert b != key;
      assert b in m - {key};
      var a := LastKey(m - {key}).value;
      assert a in m && a <= b && b <= a;
    } else {
      assert m - {key} == m;
    }
  }
}

=== FILE: sorted_levels.dfy ===
/** Sorted levels of key/value nodes, the shape shared by the skip list
    backends: one level is the sequence of real nodes between a head and a
    tail sentinel, in ascending key order.  A walk stands on the head
    (`None`) or on the node with a given key; `curr->next` is the first node
    whose key is past the current one. */
module SortedLevels {
  import opened Wrappers
  import opened SectorMap

  /** A real node: its key and the `lsbdd_value_redir` it points to. */
  datatype Node = Node(key: nat, value: Redir)

  predicate StrictlySorted(level: seq<Node>) {
    forall i, j | 0 <= i < j < |level| :: level[i].key < level[j].key
  }

  function Keys(level: seq<Node>): set<nat> {
    set n | n in level :: n.key
  }

  /** Every node of `upper` is also a node of `lower`. */
  predicate SubList(upper: seq<Node>, lower: seq<Node>) {
    forall n | n in upper :: n in lower
  }

  /** The value stored for `k` on a level (the first node with that key). */
  function ValueOf(level: seq<Node>, k: nat): Redir
    requires k in Keys(level)
  {
    if level[0].key == k then level[0].value
    else
      assert k in Keys(level[1..]) by {
        var n :| n in level && n.key == k;
        assert n != level[0];
        assert n in level[1..];
      }
      ValueOf(level[1..], k)
  }

  lemma ValueOfMember(level: seq<Node>, n: Node)
    requires StrictlySorted(level) && n in level
    ensures n.key in Keys(level) && ValueOf(level, n.key) == n.value
  {
    if level[0] != n {
      assert n in level[1..];
      ValueOfMember(level[1..], n);
    }
  }

  // ---------------------------------------------------------------------
  // Walking one level
  // ---------------------------------------------------------------------

  /** The key a walk stands on; the head is below every key. */
  function Pos(cur: Option<nat>): int {
    if cur.None? then -1 else cur.value
  }

  /** `curr->next` on one level: the first node past `cur`. */
  function NextAfter(level: seq<Node>, cur: Option<nat>): (r: Option<Node>)
    ensures r.Some? ==> r.value in level && r.value.key > Pos(cur)
    ensures r.None? ==> forall n | n in level :: n.key <= Pos(cur)
  {
    if |level| == 0 then None
    else if level[0].key > Pos(cur) then Some(level[0])
    else NextAfter(level[1..], cur)
  }

  lemma NextAfterIsLeast(level: seq<Node>, cur: Option<nat>, m: Node)
    requires StrictlySorted(level) && m in level && m.key > Pos(cur)
    ensures NextAfter(level, cur).Some? && NextAfter(level, cur).value.key <= m.key
  {
    if level[0].key <= Pos(cur) {
      assert m != level[0] && m in level[1..];
      NextAfterIsLeast(level[1..], cur, m);
    }
  }

  /** The greatest key on a level below `key`, `None` when there is none. */
  function LastBelow(level: seq<Node>, key: nat): (r: Option<nat>)
    ensures r.None? <==> forall n | n in level :: n.key >= key
    ensures r.Some? ==> r.value in Keys(level) && r.value < key
    ensures r.Some? ==> forall n | n in level && n.key < key :: n.key <= r.value
  {
    var below := set n | n in level && n.key < key :: n.key;
    assert forall n | n in level && n.key < key :: n.key in below;
    if below == {} then None else Some(MaxOf(below))
  }

  /** The inner loop of every search: move right while the next key is
      below `key`. */
  function Advance(level: seq<Node>, cur: Option<nat>, key: nat): Option<nat>
    decreases key - Pos(cur)
  {
    var nxt := NextAfter(level, cur);
    if nxt.Some? && nxt.value.key < key then Advance(level, Some(nxt.value.key), key)
    else cur
  }

  /** A walk position: the head, or a node of the level below `key`. */
  predicate StartsBelow(level: seq<Node>, cur: Option<nat>, key: nat) {
    cur.None? || (cur.value in Keys(level) && cur.value < key)
  }

  lemma {:induction false} AdvanceFindsLastBelow(level: seq<Node>, cur: Option<nat>, key: nat)
    requires StrictlySorted(level) && StartsBelow(level, cur, key)
    ensures Advance(level, cur, key) == LastBelow(level, key)
    decreases key - Pos(cur)
  {
    var nxt := NextAfter(level, cur);
    if nxt.Some? && nxt.value.key < key {
      assert nxt.value.key in Keys(level);
      AdvanceFindsLastBelow(level, Some(nxt.value.key), key);
    } else {
      forall n | n in level && n.key < key
        ensures n.key <= Pos(cur)
      {
        if n.key > Pos(cur) {
          NextAfterIsLeast(level, cur, n);
        }
      }
      var lb := LastBelow(level, key);
      if cur.Some? {
        var c := cur.value;
        var cn :| cn in level && cn.key == c;
        assert lb.Some? && lb.value <= c;
        var ln :| ln in level && ln.key == lb.value;
        assert ln.key <= c;
      }
    }
  }

  // ---------------------------------------------------------------------
  // Splicing one sorted level
  // ---------------------------------------------------------------------

  /** `pred` is the head or a node of the level, and no key of the level
      lies strictly between it and `key`: where a search for `key` stops. */
  predicate GapBefore(level: seq<Node>, pred: Option<nat>, key: nat) {
    (pred.None? || pred.value in Keys(level)) && Pos(pred) < key &&
    forall n | n in level :: n.key <= Pos(pred) || n.key >= key
  }

  lemma LastBelowGap(level: seq<Node>, key: nat)
    ensures GapBefore(level, LastBelow(level, key), key)
  {
  }

  lemma ConsSorted(x: Node, s: seq<Node>)
    requires StrictlySorted(s) && forall n | n in s :: x.key < n.key
    ensures StrictlySorted([x] + s)
  {
    var r := [x] + s;
    forall i, j | 0 <= i < j < |r| ensures r[i].key < r[j].key {
      assert r[j] == s[j - 1];
      if i > 0 {
        assert r[i] == s[i - 1];
      } else {
        assert s[j - 1] in s;
      }
    }
  }

  lemma InTail(s: seq<Node>, n: Node)
    requires n in s && n != s[0]
    ensures n in s[1..]
  {
    var j :| 0 <= j < |s| && s[j] == n;
    assert s[1..][j - 1] == n;
  }

  lemma SortedTail(s: seq<Node>)
    requires StrictlySorted(s) && |s| > 0
    ensures StrictlySorted(s[1..]) && forall n | n in s[1..] :: s[0].key < n.key
  {
    forall n | n in s[1..] ensures s[0].key < n.key {
      var j :| 0 <= j < |s[1..]| && s[1..][j] == n;
      assert s[j + 1] == n;
    }
  }

  /** Splice `node` in right after the node with key `pred` (`new->next =
      prev[i]->next; prev[i]->next = new`); `None` is the head. */
  function InsertAfter(level: seq<Node>, pred: Option<nat>, node: Node): seq<Node> {
    if pred.None? then [node] + level
    else if |level| == 0 then [node]
    else if level[0].key == pred.value then [level[0], node] + level[1..]
    else [level[0]] + InsertAfter(level[1..], pred, node)
  }

  /** Unlink the node right after the node with key `pred`
      (`prev[i]->next = curr->next`). */
  function RemoveAfter(level: seq<Node>, pred: Option<nat>): seq<Node> {
    if |level| == 0 then level
    else if pred.None? then level[1..]
    else if level[0].key == pred.value then (if |level| == 1 then level else [level[0]] + level[2..])
    else [level[0]] + RemoveAfter(level[1..], pred)
  }

  /** Splicing right after the first node of a sorted level, before all
      the others. */
  lemma SpliceAfterFirst(level: seq<Node>, node: Node)
    requires StrictlySorted(level) && |level| > 0 && level[0].key < node.key
    requires forall n | n in level[1..] :: node.key < n.key
    ensures StrictlySorted([level[0], node] + level[1..])
    ensures forall n :: n in [level[0], node] + level[1..] <==> n in level || n == node
  {
    SortedTail(level);
    ConsSorted(node, level[1..]);
    ConsSorted(level[0], [node] + level[1..]);
    assert [level[0], node] + level[1..] == [level[0]] + ([node] + level[1..]);
    assert level == [level[0]] + level[1..];
  }

  /** Splicing at the gap before a new key keeps the level sorted and adds
      exactly the new node. */
  lemma {:induction false} InsertAfterSorted(level: seq<Node>, pred: Option<nat>, node: Node)
    requires StrictlySorted(level) && node.key !in Keys(level)
    requires GapBefore(level, pred, node.key)
    ensures var r := InsertAfter(level, pred, node);
      StrictlySorted(r) && forall n :: n in r <==> n in level || n == node
  {
    if pred.None? {
      InsertAtFront(level, node);
    } else if level[0].key == pred.value {
      InsertAtFirst(level, node);
    } else {
      InsertTailPre(level, pred, node);
      InsertAfterSorted(level[1..], pred, node);
      ConsKeeps(level, InsertAfter(level[1..], pred, node), node);
    }
  }

  lemma InsertAtFront(level: seq<Node>, node: Node)
    requires StrictlySorted(level) && node.key !in Keys(level)
    requires GapBefore(level, None, node.key)
    ensures StrictlySorted([node] + level) && forall n :: n in [node] + level <==> n in level || n == node
  {
    forall n | n in level ensures node.key < n.key { assert n.key != node.key; }
    ConsSorted(node, level);
  }

  lemma InsertAtFirst(level: seq<Node>, node: Node)
    requires StrictlySorted(level) && node.key !in Keys(level) && |level| > 0
    requires GapBefore(level, Some(level[0].key), node.key)
    ensures var r := [level[0], node] + level[1..];
      StrictlySorted(r) && forall n :: n in r <==> n in level || n == node
  {
    SortedTail(level);
    forall n | n in level[1..] ensures node.key < n.key {
      assert n in level && n.key != node.key;
    }
    SpliceAfterFirst(level, node);
  }

  /** When the predecessor lies further on, the tail meets the
      preconditions of the insertion and the head stays below the key. */
  lemma InsertTailPre(level: seq<Node>, pred: Option<nat>, node: Node)
    requires StrictlySorted(level) && node.key !in Keys(level)
    requires GapBefore(level, pred, node.key) && pred.Some? && level[0].key != pred.value
    ensures |level| > 0 && StrictlySorted(level[1..]) && node.key !in Keys(level[1..])
    ensures GapBefore(level[1..], pred, node.key) && level[0].key < node.key
  {
    SortedTail(level);
    var m :| m in level && m.key == pred.value;
    InTail(level, m);
    forall n | n in level[1..] ensures n.key != node.key { assert n in level; }
  }

  /** Putting back the head in front of the changed tail. */
  lemma ConsKeeps(level: seq<Node>, rest: seq<Node>, node: Node)
    requires StrictlySorted(level) && |level| > 0 && level[0].key < node.key
    requires StrictlySorted(rest) && forall n :: n in rest <==> n in level[1..] || n == node
    ensures StrictlySorted([level[0]] + rest)
    ensures forall n :: n in [level[0]] + rest <==> n in level || n == node
  {
    SortedTail(level);
    ConsSorted(level[0], rest);
    assert level == [level[0]] + level[1..];
  }

  /** Unlinking after the gap before a present key removes exactly that
      key's node and keeps the level sorted. */
  lemma {:induction false} RemoveAfterSorted(level: seq<Node>, pred: Option<nat>, key: nat)
    requires StrictlySorted(level) && key in Keys(level)
    requires GapBefore(level, pred, key)
    ensures var r := RemoveAfter(level, pred);
      StrictlySorted(r) && forall n :: n in r <==> n in level && n.key != key
  {
    if pred.None? {
      RemoveAtFront(level, key);
    } else if level[0].key == pred.value {
      RemoveAtSecond(level, key);
    } else {
      RemoveTailPre(level, pred, key);
      RemoveAfterSorted(level[1..], pred, key);
      UnconsKeeps(level, RemoveAfter(level[1..], pred), key);
    }
  }

  lemma RemoveAtFront(level: seq<Node>, key: nat)
    requires StrictlySorted(level) && key in Keys(level)
    requires GapBefore(level, None, key)
    ensures |level| > 0 && StrictlySorted(level[1..]) && forall n :: n in level[1..] <==> n in level && n.key != key
  {
    var m :| m in level && m.key == key;
    SortedTail(level);
    assert level[0].key == key;
    assert level == [level[0]] + level[1..];
  }

  lemma RemoveAtSecond(level: seq<Node>, key: nat)
    requires StrictlySorted(level) && key in Keys(level) && |level| > 0
    requires GapBefore(level, Some(level[0].key), key)
    ensures |level| > 1
    ensures var r := [level[0]] + level[2..];
      StrictlySorted(r) && forall n :: n in r <==> n in level && n.key != key
  {
    var m :| m in level && m.key == key;
    SortedTail(level);
    InTail(level, m);
    assert level[1].key == key by {
      assert level[1] in level;
    }
    SortedTail(level[1..]);
    assert level[2..] == level[1..][1..];
    ConsSorted(level[0], level[2..]);
    assert level == [level[0], level[1]] + level[2..];
  }

  lemma RemoveTailPre(level: seq<Node>, pred: Option<nat>, key: nat)
    requires StrictlySorted(level) && key in Keys(level)
    requires GapBefore(level, pred, key) && pred.Some? && |level| > 0 && level[0].key != pred.value
    ensures StrictlySorted(level[1..]) && key in Keys(level[1..])
    ensures GapBefore(level[1..], pred, key) && level[0].key < key
  {
    SortedTail(level);
    var m :| m in level && m.key == key;
    var pn :| pn in level && pn.key == pred.value;
    InTail(level, pn);
    InTail(level, m);
  }

  lemma UnconsKeeps(level: seq<Node>, rest: seq<Node>, key: nat)
    requires StrictlySorted(level) && |level| > 0 && level[0].key < key
    requires StrictlySorted(rest) && forall n :: n in rest <==> n in level[1..] && n.key != key
    ensures StrictlySorted([level[0]] + rest)
    ensures forall n :: n in [level[0]] + rest <==> n in level && n.key != key
  {
    SortedTail(level);
    ConsSorted(level[0], rest);
    assert level == [level[0]] + level[1..];
  }

  /** The map of one sorted level. */
  ghost function LevelMap(level: seq<Node>): SMap {
    map k | k in Keys(level) :: ValueOf(level, k)
  }

  lemma LevelMapAdd(a: seq<Node>, b: seq<Node>, node: Node)
    requires StrictlySorted(a) && StrictlySorted(b) && node.key !in Keys(a)
    requires forall n :: n in b <==> n in a || n == node
    ensures LevelMap(b) == LevelMap(a)[node.key := node.value]
  {
    assert Keys(b) == Keys(a) + {node.key} by {
      forall k | k in Keys(a) ensures k in Keys(b) { var n :| n in a && n.key == k; assert n in b; }
      assert node in b;
    }
    forall k | k in Keys(b)
      ensures LevelMap(b)[k] == LevelMap(a)[node.key := node.value][k]
    {
      var n :| n in b && n.key == k;
      ValueOfMember(b, n);
      if n != node {
        ValueOfMember(a, n);
      }
    }
  }

  lemma LevelMapDrop(a: seq<Node>, b: seq<Node>, key: nat)
    requires StrictlySorted(a) && StrictlySorted(b)
    requires forall n :: n in b <==> n in a && n.key != key
    ensures LevelMap(b) == LevelMap(a) - {key}
  {
    assert Keys(b) == Keys(a) - {key} by {
      forall k | k in Keys(a) - {key} ensures k in Keys(b) { var n :| n in a && n.key == k; assert n in b; }
    }
    forall k | k in Keys(b)
      ensures LevelMap(b)[k] == LevelMap(a)[k]
    {
      var n :| n in b && n.key == k;
      ValueOfMember(b, n);
      ValueOfMember(a, n);
    }
  }

  /** Overwriting the value of a node that is already on the level. */
  lemma LevelMapReplace(a: seq<Node>, b: seq<Node>, node: Node)
    requires StrictlySorted(a) && StrictlySorted(b) && node.key in Keys(a)
    requires forall n :: n in b <==> (n in a && n.key != node.key) || n == node
    ensures LevelMap(b) == LevelMap(a)[node.key := node.value]
  {
    assert Keys(b) == Keys(a) by {
      forall k | k in Keys(a) ensures k in Keys(b) {
        var n :| n in a && n.key == k;
        if k != node.key { assert n in b; } else { assert node in b; }
      }
    }
    forall k | k in Keys(b)
      ensures LevelMap(b)[k] == LevelMap(a)[node.key := node.value][k]
    {
      var n :| n in b && n.key == k;
      ValueOfMember(b, n);
      if n != node {
        ValueOfMember(a, n);
      }
    }
  }

  /** Removing from one sorted level through the recorded predecessor. */
  lemma RemoveOnLevel(level: seq<Node>, key: nat)
    requires StrictlySorted(level)
    ensures var pred := LastBelow(level, key);
      var curr := NextAfter(level, pred);
      var r := if curr.Some? && curr.value.key == key then RemoveAfter(level, pred) else level;
      StrictlySorted(r) && (forall n :: n in r <==> n in level && n.key != key)
  {
    var pred := LastBelow(level, key);
    var curr := NextAfter(level, pred);
    LastBelowGap(level, key);
    if key in Keys(level) {
      var n :| n in level && n.key == key;
      NextAfterIsLeast(level, pred, n);
      RemoveAfterSorted(level, pred, key);
    }
  }
}

=== FILE: sync_hashtable.dfy ===
/** The lock-based bucketed hash table backend
    (`src/utils/sync/hashtable.c`).

    128 chained slots (`HT_MAP_BITS` = 7).  A key's bucket number is
    `key / 2048` (`BUCKET_NUM`, one bucket per 2048 sectors), and the slot is
    `hash_min(bucket, 7)`.  `hash_min` is kernel code outside this model: it
    is the parameter `hash`, reduced below 2^7 as `hash_min` guarantees.
    Allocation failures of `kzalloc` are not modelled. */
module SyncHashtable {
  import opened Wrappers
  import opened MachineInts
  import opened SectorMap

  const HT_MAP_BITS: nat := 7
  const HT_SIZE: nat := 128
  const CHUNK_SIZE: nat := 2048

  /** `struct hash_el` without its list links. */
  datatype El = El(key: nat, value: Redir)

  /** `struct hashtable`.  `lastEl == None` is the zeroed dummy element that
      `hashtable_init` allocates (key 0, no value). */
  datatype Hashtable = Hashtable(buckets: seq<seq<El>>, lastEl: Option<El>, maxBckNum: nat)

  /** `BUCKET_NUM`. */
  function BucketNum(key: nat): nat {
    key / CHUNK_SIZE
  }

  /** `hash_min(bucket, HT_MAP_BITS)`. */
  function Slot(hash: nat -> nat, bucket: nat): (s: nat)
    ensures s < HT_SIZE
  {
    hash(bucket) % HT_SIZE
  }

  /** The slot list a key is filed under. */
  function SlotOf(hash: nat -> nat, key: nat): nat {
    Slot(hash, BucketNum(key))
  }

  predicate WellFormed(ht: Hashtable) {
    |ht.buckets| == HT_SIZE
  }

  /** Every element sits in the slot of its own key. */
  ghost predicate Valid(ht: Hashtable, hash: nat -> nat) {
    WellFormed(ht) &&
    forall i | 0 <= i < HT_SIZE :: forall e | e in ht.buckets[i] :: SlotOf(hash, e.key) == i
  }

  predicate DistinctKeys(bucket: seq<El>) {
    forall i, j | 0 <= i < j < |bucket| :: bucket[i].key != bucket[j].key
  }

  /** No key is filed twice; the driver keeps this by removing a mapped
      sector before inserting it again. */
  ghost predicate NoDup(ht: Hashtable) {
    forall i | 0 <= i < |ht.buckets| :: DistinctKeys(ht.buckets[i])
  }

  /** The key of `last_el`. */
  function LastElKey(ht: Hashtable): nat {
    if ht.lastEl.None? then 0 else ht.lastEl.value.key
  }

  // ---------------------------------------------------------------------
  // hashtable_init, hashtable_is_empty
  // ---------------------------------------------------------------------

  /** `hashtable_init`, with `max_bck_num` zeroed as `ds_init` does. */
  function Init(): (ht: Hashtable)
    ensures WellFormed(ht) && IsEmpty(ht) && LastElKey(ht) == 0 && ht.maxBckNum == 0
  {
    Hashtable(seq(HT_SIZE, _ => []), None, 0)
  }

  /** `hashtable_is_empty`: `hash_empty` over every slot. */
  predicate IsEmpty(ht: Hashtable) {
    forall i | 0 <= i < |ht.buckets| :: ht.buckets[i] == []
  }

  // ---------------------------------------------------------------------
  // hashtable_find_node
  // ---------------------------------------------------------------------

  function KeysIn(bucket: seq<El>): set<nat> {
    set e | e in bucket :: e.key
  }

  /** `hlist_for_each_entry` looking for `key`: the first element with it. */
  function FindIn(bucket: seq<El>, key: nat): (r: Option<El>)
    ensures r.None? <==> key !in KeysIn(bucket)
    ensures r.Some? ==> r.value in bucket && r.value.key == key
  {
    if |bucket| == 0 then None
    else if bucket[0].key == key then Some(bucket[0])
    else
      assert key in KeysIn(bucket[1..]) <==> key in KeysIn(bucket) by {
        assert bucket == [bucket[0]] + bucket[1..];
      }
      FindIn(bucket[1..], key)
  }

  lemma DistinctTail(bucket: seq<El>)
    requires DistinctKeys(bucket) && |bucket| > 0
    ensures DistinctKeys(bucket[1..])
    ensures forall e | e in bucket[1..] :: e.key != bucket[0].key
  {
    forall i, j | 0 <= i < j < |bucket[1..]| ensures bucket[1..][i].key != bucket[1..][j].key {
      assert bucket[1..][i] == bucket[i + 1] && bucket[1..][j] == bucket[j + 1];
    }
    forall e | e in bucket[1..] ensures e.key != bucket[0].key {
      var j :| 0 <= j < |bucket[1..]| && bucket[1..][j] == e;
      assert bucket[j + 1] == e;
    }
  }

  /** Without duplicates the search finds every element by its key. */
  lemma {:induction false} FindInDistinct(bucket: seq<El>, e: El)
    requires DistinctKeys(bucket) && e in bucket
    ensures FindIn(bucket, e.key) == Some(e)
  {
    if bucket[0] != e {
      DistinctTail(bucket);
      assert e in bucket[1..];
      FindInDistinct(bucket[1..], e);
    }
  }

  /** `hashtable_find_node`. */
  function Find(ht: Hashtable, key: nat, hash: nat -> nat): (r: Option<El>)
    requires WellFormed(ht)
    ensures r.Some? ==> r.value.key == key
  {
    FindIn(ht.buckets[SlotOf(hash, key)], key)
  }

  // ---------------------------------------------------------------------
  // The abstract map
  // ---------------------------------------------------------------------

  function AllKeys(bs: seq<seq<El>>): set<nat> {
    if |bs| == 0 then {} else KeysIn(bs[0]) + AllKeys(bs[1..])
  }

  lemma {:induction false} AllKeysHas(bs: seq<seq<El>>, i: nat, k: nat)
    requires i < |bs| && k in KeysIn(bs[i])
    ensures k in AllKeys(bs)
  {
    if i > 0 {
      assert bs[1..][i - 1] == bs[i];
      AllKeysHas(bs[1..], i - 1, k);
    }
  }

  /** The map the table stands for: every filed key, with the value the
      search finds for it. */
  ghost function Abs(ht: Hashtable, hash: nat -> nat): SMap
    requires WellFormed(ht)
  {
    map k | k in AllKeys(ht.buckets) && Find(ht, k, hash).Some? :: Find(ht, k, hash).value.value
  }

  lemma AbsIsFind(ht: Hashtable, hash: nat -> nat, k: nat)
    requires WellFormed(ht)
    ensures k in Abs(ht, hash) <==> Find(ht, k, hash).Some?
    ensures k in Abs(ht, hash) ==> Abs(ht, hash)[k] == Find(ht, k, hash).value.value
  {
    if Find(ht, k, hash).Some? {
      AllKeysHas(ht.buckets, SlotOf(hash, k), k);
    }
  }

  /** The map one slot list stands for, read independently of the search:
      built from the tail, with each element overriding the later ones of
      its key, since `hlist_add_head` puts the newest element first. */
  ghost function SlotMap(bucket: seq<El>): SMap {
    if |bucket| == 0 then map[] else SlotMap(bucket[1..])[bucket[0].key := bucket[0].value]
  }

  /** The union of the slot maps. */
  ghost function TableMap(bs: seq<seq<El>>): SMap {
    if |bs| == 0 then map[] else TableMap(bs[1..]) + SlotMap(bs[0])
  }

  lemma {:induction false} SlotMapKeys(bucket: seq<El>)
    ensures SlotMap(bucket).Keys == KeysIn(bucket)
  {
    if |bucket| > 0 {
      SlotMapKeys(bucket[1..]);
      assert bucket == [bucket[0]] + bucket[1..];
      assert KeysIn(bucket) == {bucket[0].key} + KeysIn(bucket[1..]);
    }
  }

  /** The first-match search of one slot agrees with its map. */
  lemma {:induction false} FindInIsSlotMap(bucket: seq<El>, k: nat)
    ensures FindIn(bucket, k).Some? <==> k in SlotMap(bucket)
    ensures k in SlotMap(bucket) ==> SlotMap(bucket)[k] == FindIn(bucket, k).value.value
  {
    if |bucket| > 0 && bucket[0].key != k {
      FindInIsSlotMap(bucket[1..], k);
    }
  }

  /** A key filed in slot `i` only reads in the union as in slot `i`. */
  lemma {:induction false} TableMapAt(bs: seq<seq<El>>, i: nat, k: nat)
    requires i < |bs|
    requires forall j | 0 <= j < |bs| && j != i :: k !in KeysIn(bs[j])
    ensures k in TableMap(bs) <==> k in SlotMap(bs[i])
    ensures k in TableMap(bs) ==> TableMap(bs)[k] == SlotMap(bs[i])[k]
  {
    SlotMapKeys(bs[0]);
    if i == 0 {
      if |bs| > 1 {
        NotInTable(bs[1..], k);
      }
    } else {
      forall j | 0 <= j < |bs[1..]| && j != i - 1 ensures k !in KeysIn(bs[1..][j]) {
        assert bs[1..][j] == bs[j + 1];
      }
      TableMapAt(bs[1..], i - 1, k);
    }
  }

  /** A key filed in no slot is not in the union. */
  lemma {:induction false} NotInTable(bs: seq<seq<El>>, k: nat)
    requires forall j | 0 <= j < |bs| :: k !in KeysIn(bs[j])
    ensures k !in TableMap(bs)
  {
    if |bs| > 0 {
      SlotMapKeys(bs[0]);
      forall j | 0 <= j < |bs[1..]| ensures k !in KeysIn(bs[1..][j]) {
        assert bs[1..][j] == bs[j + 1];
      }
      NotInTable(bs[1..], k);
    }
  }

  /** On a valid table `hashtable_find_node` finds an element exactly for
      the keys of the slot maps' union, carrying that map's value. */
  lemma FindRefines(ht: Hashtable, hash: nat -> nat, k: nat)
    requires Valid(ht, hash)
    ensures Find(ht, k, hash).Some? <==> k in TableMap(ht.buckets)
    ensures k in TableMap(ht.buckets) ==> TableMap(ht.buckets)[k] == Find(ht, k, hash).value.value
  {
    var s := SlotOf(hash, k);
    TableMapAt(ht.buckets, s, k);
    FindInIsSlotMap(ht.buckets[s], k);
  }

  /** On a valid table the map read through the search is the union of
      the slot maps. */
  lemma AbsIsTableMap(ht: Hashtable, hash: nat -> nat)
    requires Valid(ht, hash)
    ensures Abs(ht, hash) == TableMap(ht.buckets)
  {
    forall k ensures SameAt(Abs(ht, hash), TableMap(ht.buckets), k) {
      AbsIsFind(ht, hash, k);
      FindRefines(ht, hash, k);
    }
    SameEverywhere(Abs(ht, hash), TableMap(ht.buckets));
  }

  /** A map is the table's abstraction when the search agrees with it on
      every key. */
  lemma AbsByFind(ht: Hashtable, hash: nat -> nat, m: SMap)
    requires WellFormed(ht)
    requires forall k :: Find(ht, k, hash).Some? <==> k in m
    requires forall k | k in m :: Find(ht, k, hash).value.value == m[k]
    ensures Abs(ht, hash) == m
  {
    forall k ensures k in Abs(ht, hash) <==> k in m {
      AbsIsFind(ht, hash, k);
    }
    forall k | k in m ensures Abs(ht, hash)[k] == m[k] {
      AbsIsFind(ht, hash, k);
    }
  }

  /** On a valid table `hashtable_is_empty` holds exactly when the map is
      empty. */
  lemma IsEmptyRefines(ht: Hashtable, hash: nat -> nat)
    requires Valid(ht, hash)
    ensures IsEmpty(ht) <==> Abs(ht, hash) == map[]
  {
    if !IsEmpty(ht) {
      var i :| 0 <= i < |ht.buckets| && ht.buckets[i] != [];
      var e := ht.buckets[i][0];
      assert e in ht.buckets[i];
      assert e.key in KeysIn(ht.buckets[i]);
      AbsIsFind(ht, hash, e.key);
    } else {
      forall k | k in Abs(ht, hash) ensures false {
        AbsIsFind(ht, hash, k);
      }
    }
  }

  // ---------------------------------------------------------------------
  // hashtable_insert
  // ---------------------------------------------------------------------

  /** `hashtable_insert`: prepend to the key's slot without looking for
      the key, record the bucket number in the `u8` `max_bck_num`, and move
      `last_el` to the new element when its key is larger. */
  function Insert(ht: Hashtable, key: nat, value: Redir, hash: nat -> nat): (r: Hashtable)
    requires WellFormed(ht)
    ensures WellFormed(r)
    ensures r.buckets[SlotOf(hash, key)] == [El(key, value)] + ht.buckets[SlotOf(hash, key)]
    ensures forall i | 0 <= i < HT_SIZE && i != SlotOf(hash, key) :: r.buckets[i] == ht.buckets[i]
    ensures LastElKey(r) == if LastElKey(ht) < key then key else LastElKey(ht)
    ensures r.maxBckNum < U8_MOD && r.maxBckNum % U8_MOD == BucketNum(key) % U8_MOD
  {
    var el := El(key, value);
    var s := SlotOf(hash, key);
    Hashtable(ht.buckets[s := [el] + ht.buckets[s]],
              if LastElKey(ht) < key then Some(el) else ht.lastEl,
              U8(BucketNum(key)))
  }

  /** Inserting makes the search find the new value for the key and
      changes no other key's answer; a key that was already present is
      shadowed, not replaced. */
  lemma InsertRefines(ht: Hashtable, key: nat, value: Redir, hash: nat -> nat)
    requires Valid(ht, hash)
    ensures var r := Insert(ht, key, value, hash);
      Valid(r, hash) && Abs(r, hash) == Abs(ht, hash)[key := value] &&
      (key !in Abs(ht, hash) && NoDup(ht) ==> NoDup(r))
  {
    var r := Insert(ht, key, value, hash);
    var m := Abs(ht, hash)[key := value];
    forall k ensures (Find(r, k, hash).Some? <==> k in m) && (k in m ==> Find(r, k, hash).value.value == m[k]) {
      AbsIsFind(ht, hash, k);
    }
    AbsByFind(r, hash, m);
    if key !in Abs(ht, hash) && NoDup(ht) {
      AbsIsFind(ht, hash, key);
      InsertKeepsNoDup(ht, key, value, hash);
    }
  }

  /** Prepending a key its slot does not hold keeps the slots free of
      duplicates. */
  lemma InsertKeepsNoDup(ht: Hashtable, key: nat, value: Redir, hash: nat -> nat)
    requires WellFormed(ht) && NoDup(ht) && Find(ht, key, hash).None?
    ensures NoDup(Insert(ht, key, value, hash))
  {
    var r := Insert(ht, key, value, hash);
    var s := SlotOf(hash, key);
    forall i | 0 <= i < |r.buckets| ensures DistinctKeys(r.buckets[i]) {
      if i == s {
        PrependDistinct(ht.buckets[s], El(key, value));
      }
    }
  }

  lemma PrependDistinct(bucket: seq<El>, e: El)
    requires DistinctKeys(bucket) && e.key !in KeysIn(bucket)
    ensures DistinctKeys([e] + bucket)
  {
    var b := [e] + bucket;
    forall a, c | 0 <= a < c < |b| ensures b[a].key != b[c].key {
      if a == 0 {
        assert b[c] == bucket[c - 1];
        assert b[c] in bucket;
      } else {
        assert b[a] == bucket[a - 1] && b[c] == bucket[c - 1];
      }
    }
  }

  // ---------------------------------------------------------------------
  // hashtable_remove
  // ---------------------------------------------------------------------

  /** `hash_del` of the element the search found: the first one with the
      key. */
  function RemoveFirst(bucket: seq<El>, key: nat): (r: seq<El>)
    ensures forall e | e in r :: e in bucket
    ensures key in KeysIn(bucket) ==> |r| == |bucket| - 1
    ensures key !in KeysIn(bucket) ==> r == bucket
  {
    if |bucket| == 0 then bucket
    else if bucket[0].key == key then bucket[1..]
    else
      assert key in KeysIn(bucket[1..]) <==> key in KeysIn(bucket) by {
        assert bucket == [bucket[0]] + bucket[1..];
      }
      [bucket[0]] + RemoveFirst(bucket[1..], key)
  }

  /** `hashtable_remove`.  The search result is dereferenced without a
      check, so the key must be present. */
  function Remove(ht: Hashtable, key: nat, hash: nat -> nat): (r: Hashtable)
    requires WellFormed(ht) && Find(ht, key, hash).Some?
    ensures WellFormed(r) && r.lastEl == ht.lastEl && r.maxBckNum == ht.maxBckNum
  {
    var s := SlotOf(hash, key);
    Hashtable(ht.buckets[s := RemoveFirst(ht.buckets[s], key)], ht.lastEl, ht.maxBckNum)
  }

  lemma {:induction false} RemoveFirstFind(bucket: seq<El>, key: nat, k: nat)
    requires DistinctKeys(bucket)
    ensures DistinctKeys(RemoveFirst(bucket, key))
    ensures FindIn(RemoveFirst(bucket, key), k) == if k == key then None else FindIn(bucket, k)
  {
    if |bucket| > 0 {
      DistinctTail(bucket);
      if bucket[0].key == key {
      } else {
        RemoveFirstFind(bucket[1..], key, k);
        var rest := RemoveFirst(bucket[1..], key);
        var r := [bucket[0]] + rest;
        assert r[1..] == rest;
        forall i, j | 0 <= i < j < |r| ensures r[i].key != r[j].key {
          if i == 0 {
            assert r[j] == rest[j - 1];
            assert rest[j - 1] in bucket[1..];
            var t :| 0 <= t < |bucket[1..]| && bucket[1..][t] == rest[j - 1];
            assert bucket[t + 1] == r[j];
          } else {
            assert r[i] == rest[i - 1] && r[j] == rest[j - 1];
          }
        }
      }
    }
  }

  /** On a table without duplicates removing a present key takes exactly
      that key out of the map. */
  lemma RemoveRefines(ht: Hashtable, key: nat, hash: nat -> nat)
    requires Valid(ht, hash) && NoDup(ht) && Find(ht, key, hash).Some?
    ensures var r := Remove(ht, key, hash);
      Valid(r, hash) && NoDup(r) && Abs(r, hash) == Abs(ht, hash) - {key}
  {
    var r := Remove(ht, key, hash);
    var s := SlotOf(hash, key);
    var m := Abs(ht, hash) - {key};
    forall k ensures (Find(r, k, hash).Some? <==> k in m) && (k in m ==> Find(r, k, hash).value.value == m[k]) {
      RemoveFindsOthers(ht, key, hash, k);
    }
    AbsByFind(r, hash, m);
    RemoveFirstFind(ht.buckets[s], key, key);
  }

  /** After the removal the search finds exactly the other keys of the
      map, with their values. */
  lemma RemoveFindsOthers(ht: Hashtable, key: nat, hash: nat -> nat, k: nat)
    requires Valid(ht, hash) && NoDup(ht) && Find(ht, key, hash).Some?
    ensures var r := Remove(ht, key, hash);
      var m := Abs(ht, hash) - {key};
      && (Find(r, k, hash).Some? <==> k in m)
      && (k in m ==> Find(r, k, hash).value.value == m[k])
  {
    var s := SlotOf(hash, key);
    AbsIsFind(ht, hash, k);
    if SlotOf(hash, k) == s {
      RemoveFirstFind(ht.buckets[s], key, k);
    }
  }

  /** Because inserting does not look for the key, inserting a present key
      files it twice; removing it afterwards uncovers the older value
      instead of deleting the key. */
  lemma RemoveUncoversOlderValue(hash: nat -> nat)
    ensures
      var v1 := Redir(32, 4096);
      var v2 := Redir(40, 4096);
      var ht := Insert(Insert(Init(), 100, v1, hash), 100, v2, hash);
      Find(ht, 100, hash) == Some(El(100, v2)) &&
      Find(Remove(ht, 100, hash), 100, hash) == Some(El(100, v1))
  {
    var s := SlotOf(hash, 100);
    var ht := Insert(Insert(Init(), 100, Redir(32, 4096), hash), 100, Redir(40, 4096), hash);
    assert ht.buckets[s] == [El(100, Redir(40, 4096)), El(100, Redir(32, 4096))];
  }

  // ---------------------------------------------------------------------
  // hashtable_prev
  // ---------------------------------------------------------------------

  function BestKey(best: Option<El>): nat {
    if best.None? then 0 else best.value.key
  }

  /** One `hlist_for_each_entry` pass of `hashtable_prev`: keep the first
      element whose key is at most `key` and larger than the best so far
      (the zeroed element counts as key 0). */
  function ScanPrev(bucket: seq<El>, key: nat, best: Option<El>): (r: Option<El>)
    requires best.Some? ==> 0 < best.value.key <= key
    ensures r.Some? ==> 0 < r.value.key <= key && (r == best || r.value in bucket)
    ensures best.Some? ==> r.Some?
    ensures BestKey(r) >= BestKey(best)
    ensures forall e | e in bucket && e.key <= key :: e.key <= BestKey(r)
  {
    if |bucket| == 0 then best
    else
      var e := bucket[0];
      var next := if e.key <= key && e.key > BestKey(best) then Some(e) else best;
      var r := ScanPrev(bucket[1..], key, next);
      assert forall x | x in bucket :: x == e || x in bucket[1..];
      r
  }

  /** `hashtable_prev`: the element with the greatest nonzero key at most
      `key` in the key's slot; failing that, the same search in the slot of
      bucket `min(BUCKET_NUM - 1, max_bck_num)`, with the subtraction in
      `u64`; failing that, nothing. */
  function Prev(ht: Hashtable, key: nat, hash: nat -> nat): (r: Option<El>)
    requires WellFormed(ht)
    ensures r.Some? ==> 0 < r.value.key <= key
    ensures r.Some? ==> r.value in ht.buckets[SlotOf(hash, key)] || r.value in ht.buckets[Slot(hash, FallbackBucket(ht, key))]
  {
    var first := ScanPrev(ht.buckets[SlotOf(hash, key)], key, None);
    if first.Some? then first
    else ScanPrev(ht.buckets[Slot(hash, FallbackBucket(ht, key))], key, None)
  }

  /** `min(BUCKET_NUM - 1, ht->max_bck_num)`. */
  function FallbackBucket(ht: Hashtable, key: nat): nat {
    var b := U64(BucketNum(key) - 1);
    if b <= ht.maxBckNum then b else ht.maxBckNum
  }

  /** When the key's own slot holds a smaller nonzero key, `hashtable_prev`
      answers from that slot with its greatest key at most `key`. */
  lemma PrevFromOwnSlot(ht: Hashtable, key: nat, hash: nat -> nat, e: El)
    requires WellFormed(ht) && e in ht.buckets[SlotOf(hash, key)] && 0 < e.key <= key
    ensures Prev(ht, key, hash).Some?
    ensures Prev(ht, key, hash).value in ht.buckets[SlotOf(hash, key)]
    ensures forall x | x in ht.buckets[SlotOf(hash, key)] && x.key <= key :: x.key <= Prev(ht, key, hash).value.key
  {
  }

  /** Nothing found means neither searched slot holds a nonzero key at most
      `key`. */
  lemma PrevNoneMeansBothSlotsEmpty(ht: Hashtable, key: nat, hash: nat -> nat)
    requires WellFormed(ht) && Prev(ht, key, hash).None?
    ensures forall x | x in ht.buckets[SlotOf(hash, key)] :: x.key == 0 || x.key > key
    ensures forall x | x in ht.buckets[Slot(hash, FallbackBucket(ht, key))] :: x.key == 0 || x.key > key
  {
  }

  /** For an unmapped sector, what `hashtable_prev` returns is never above
      the true predecessor. */
  lemma PrevSound(ht: Hashtable, key: nat, hash: nat -> nat)
    requires Valid(ht, hash) && NoDup(ht) && key !in Abs(ht, hash)
    ensures var r := Prev(ht, key, hash);
      r.Some? ==> PrevKey(Abs(ht, hash), key).Some? && r.value.key <= PrevKey(Abs(ht, hash), key).value
  {
    var r := Prev(ht, key, hash);
    if r.Some? {
      PrevInMap(ht, key, hash);
      AtOrBelowAbsent(Abs(ht, hash), key, r.value.key);
    }
  }

  lemma AtOrBelowAbsent(m: SMap, key: nat, k: nat)
    requires k in m && k <= key && key !in m
    ensures PrevKey(m, key).Some? && k <= PrevKey(m, key).value
  {
    PrevKeyAtLeast(m, key, k);
  }

  /** What `hashtable_prev` returns is a real entry of the map, never above
      `key`. */
  lemma PrevInMap(ht: Hashtable, key: nat, hash: nat -> nat)
    requires Valid(ht, hash) && NoDup(ht) && Prev(ht, key, hash).Some?
    ensures var e := Prev(ht, key, hash).value;
      e.key in Abs(ht, hash) && Abs(ht, hash)[e.key] == e.value && e.key <= key
  {
    PrevIsFound(ht, key, hash);
    AbsIsFind(ht, hash, Prev(ht, key, hash).value.key);
  }

  /** The element `hashtable_prev` returns is the one the search finds for
      its key. */
  lemma PrevIsFound(ht: Hashtable, key: nat, hash: nat -> nat)
    requires Valid(ht, hash) && NoDup(ht) && Prev(ht, key, hash).Some?
    ensures Find(ht, Prev(ht, key, hash).value.key, hash) == Prev(ht, key, hash)
  {
    var e := Prev(ht, key, hash).value;
    var i := if e in ht.buckets[SlotOf(hash, key)] then SlotOf(hash, key) else Slot(hash, FallbackBucket(ht, key));
    assert e in ht.buckets[i];
    assert SlotOf(hash, e.key) == i;
    assert DistinctKeys(ht.buckets[i]);
    FindInDistinct(ht.buckets[i], e);
  }

  /** The fallback searches one bucket only: with the identity as `hash`,
      keys 100 (bucket 0) and 5000 (bucket 2), a search from sector 4500
      looks in buckets 2 and 1 and finds nothing, though 100 lies below. */
  lemma PrevMissesEarlierBucket()
    ensures
      var hash := (b: nat) => b;
      var ht := Insert(Insert(Init(), 100, Redir(32, 8), hash), 5000, Redir(33, 8), hash);
      Prev(ht, 4500, hash) == None &&
      Find(ht, 100, hash).Some? && 100 < 4500 &&
      PrevFixed(ht, 4500, hash) == Some(El(100, Redir(32, 8)))
  {
    var hash := (b: nat) => b;
    var ht := Insert(Insert(Init(), 100, Redir(32, 8), hash), 5000, Redir(33, 8), hash);
    assert SlotOf(hash, 4500) == 2 && SlotOf(hash, 5000) == 2 && SlotOf(hash, 100) == 0;
    assert FallbackBucket(ht, 4500) == 1;
    assert ht.buckets[1] == [];
    assert ht.buckets[2] == [El(5000, Redir(33, 8))];
    assert ht.buckets[0] == [El(100, Redir(32, 8))];
    assert ScanPrev(ht.buckets[2], 4500, None) == None;
    assert ScanPrev(ht.buckets[1], 4500, None) == None;
    assert Prev(ht, 4500, hash) == None;
    assert InBucket(ht.buckets[0], 0) == [El(100, Redir(32, 8))];
    assert InBucket(ht.buckets[1], 1) == [];
    assert InBucket(ht.buckets[2], 2) == [El(5000, Redir(33, 8))];
    assert BucketHit(ht, 4500, hash, 2) == None;
    assert BucketHit(ht, 4500, hash, 1) == None;
    assert BucketHit(ht, 4500, hash, 0) == Some(El(100, Redir(32, 8)));
  }

  /** The zeroed element stands for "nothing found", so a block at sector
      0 is never a predecessor: with key 0 alone, the search from sector 3
      returns NULL, while the corrected search returns the sector-0 entry. */
  lemma PrevSkipsSectorZero()
    ensures
      var hash := (b: nat) => b;
      var ht := Insert(Init(), 0, Redir(32, 8), hash);
      Prev(ht, 3, hash) == None &&
      Find(ht, 0, hash) == Some(El(0, Redir(32, 8))) &&
      PrevFixed(ht, 3, hash) == Some(El(0, Redir(32, 8)))
  {
    var hash := (b: nat) => b;
    var ht := Insert(Init(), 0, Redir(32, 8), hash);
    assert ht.buckets[0] == [El(0, Redir(32, 8))];
    assert FallbackBucket(ht, 3) == 0;
    assert InBucket(ht.buckets[0], 0) == [El(0, Redir(32, 8))];
  }

  /** The scan of one bucket as evidently intended: the first element of
      greatest key at most `key`, where "nothing yet" is `None` rather
      than a zeroed element, so that key 0 can be the answer. */
  function ScanPrevFixed(bucket: seq<El>, key: nat, best: Option<El>): (r: Option<El>)
    requires best.Some? ==> best.value.key <= key
    ensures r.Some? ==> r.value.key <= key && (r == best || r.value in bucket)
    ensures best.Some? ==> r.Some? && best.value.key <= r.value.key
    ensures forall e | e in bucket && e.key <= key :: r.Some? && e.key <= r.value.key
  {
    if |bucket| == 0 then best
    else
      var e := bucket[0];
      var next := if e.key <= key && (best.None? || e.key > best.value.key) then Some(e) else best;
      var r := ScanPrevFixed(bucket[1..], key, next);
      assert forall x | x in bucket :: x == e || x in bucket[1..];
      r
  }

  /** The elements of a slot list filed under bucket number `b`. */
  function InBucket(bucket: seq<El>, b: nat): (r: seq<El>)
    ensures forall e :: e in r <==> e in bucket && BucketNum(e.key) == b
  {
    if |bucket| == 0 then []
    else
      assert forall x | x in bucket :: x == bucket[0] || x in bucket[1..];
      (if BucketNum(bucket[0].key) == b then [bucket[0]] else []) + InBucket(bucket[1..], b)
  }

  /** The search of `hashtable_prev` from bucket `b` downwards: the
      greatest key at most `key` filed under bucket `b`, else the same
      search from bucket `b - 1`, down to bucket 0. */
  function PrevFixedFrom(ht: Hashtable, key: nat, hash: nat -> nat, b: nat): (r: Option<El>)
    requires WellFormed(ht)
    ensures r.Some? ==> r.value.key <= key
    decreases b
  {
    var found := BucketHit(ht, key, hash, b);
    if found.Some? || b == 0 then found else PrevFixedFrom(ht, key, hash, b - 1)
  }

  /** The scan of the elements filed under bucket `b`, in that bucket's slot. */
  function BucketHit(ht: Hashtable, key: nat, hash: nat -> nat, b: nat): (r: Option<El>)
    requires WellFormed(ht)
  {
    ScanPrevFixed(InBucket(ht.buckets[Slot(hash, b)], b), key, None)
  }

  /** `hashtable_prev` as evidently intended: every lower bucket is
      searched in turn, not only `min(BUCKET_NUM - 1, max_bck_num)`, and
      key 0 is an ordinary key rather than the mark of "nothing found". */
  function PrevFixed(ht: Hashtable, key: nat, hash: nat -> nat): (r: Option<El>)
    requires WellFormed(ht)
  {
    PrevFixedFrom(ht, key, hash, BucketNum(key))
  }

  /** Keys of a lower bucket are smaller. */
  lemma BucketOrder(j: nat, k: nat)
    requires BucketNum(j) < BucketNum(k)
    ensures j < k
  {
  }

  /** A key of the map is filed, with its value, in its own slot. */
  lemma EntryInSlot(ht: Hashtable, hash: nat -> nat, k: nat)
    requires Valid(ht, hash) && k in Abs(ht, hash)
    ensures El(k, Abs(ht, hash)[k]) in ht.buckets[SlotOf(hash, k)]
  {
    AbsIsFind(ht, hash, k);
  }

  /** What the scan of bucket `b` finds is an entry of the map, and no
      key of bucket `b` at most `key` lies above it. */
  lemma ScanFoundInMap(ht: Hashtable, key: nat, hash: nat -> nat, b: nat)
    requires Valid(ht, hash) && NoDup(ht)
    requires BucketHit(ht, key, hash, b).Some?
    ensures var e := BucketHit(ht, key, hash, b).value;
      && e.key in Abs(ht, hash) && Abs(ht, hash)[e.key] == e.value && BucketNum(e.key) == b
      && forall k | k in Abs(ht, hash) && k <= key && BucketNum(k) == b :: k <= e.key
  {
    var m := Abs(ht, hash);
    var s := Slot(hash, b);
    var filed := InBucket(ht.buckets[s], b);
    var e := ScanPrevFixed(filed, key, None).value;
    assert e in ht.buckets[s] && SlotOf(hash, e.key) == s;
    FindInDistinct(ht.buckets[s], e);
    AbsIsFind(ht, hash, e.key);
    forall k | k in m && k <= key && BucketNum(k) == b ensures k <= e.key {
      EntryInSlot(ht, hash, k);
      assert El(k, m[k]) in filed;
    }
  }

  /** When the scan of bucket `b` finds nothing, no key of bucket `b`
      lies at or below `key`. */
  lemma ScanMissEmpty(ht: Hashtable, key: nat, hash: nat -> nat, b: nat)
    requires Valid(ht, hash)
    requires BucketHit(ht, key, hash, b).None?
    ensures NoneInBucket(Abs(ht, hash), key, b)
  {
    var m := Abs(ht, hash);
    var filed := InBucket(ht.buckets[Slot(hash, b)], b);
    forall k | k in m && k <= key && BucketNum(k) == b ensures El(k, m[k]) in filed {
      EntryInSlot(ht, hash, k);
    }
  }

  /** `e` is the entry with the greatest key at most `key`. */
  ghost predicate GreatestAtMost(m: SMap, key: nat, e: El) {
    e.key in m && m[e.key] == e.value && forall k | k in m && k <= key :: k <= e.key
  }

  /** No key lies at or below `key`. */
  ghost predicate NoneAtMost(m: SMap, key: nat) {
    forall k | k in m :: k > key
  }

  /** `r` is the greatest entry at most `key`, or nothing when no key lies
      at or below `key`. */
  ghost predicate Answers(m: SMap, key: nat, r: Option<El>) {
    && (r.None? ==> NoneAtMost(m, key))
    && (r.Some? ==> GreatestAtMost(m, key, r.value))
  }

  /** Every key at most `key` is filed under bucket `b` or lower. */
  ghost predicate BucketsAtMost(m: SMap, key: nat, b: nat) {
    forall k | k in m && k <= key :: BucketNum(k) <= b
  }

  /** No key at most `key` is filed under bucket `b`. */
  ghost predicate NoneInBucket(m: SMap, key: nat, b: nat) {
    forall k | k in m && k <= key :: BucketNum(k) != b
  }

  /** What the scan of one bucket tells about the map: a hit is the
      greatest entry of that bucket at most `key`, a miss means the bucket
      holds no key at most `key`. */
  ghost predicate BucketAnswer(m: SMap, key: nat, b: nat, hit: Option<El>) {
    && (hit.Some? ==>
          && hit.value.key in m && m[hit.value.key] == hit.value.value && BucketNum(hit.value.key) == b
          && forall k | k in m && k <= key && BucketNum(k) == b :: k <= hit.value.key)
    && (hit.None? ==> NoneInBucket(m, key, b))
  }

  /** Every bucket's scan answers for the map. */
  lemma ScanAnswers(ht: Hashtable, key: nat, hash: nat -> nat, b: nat)
    requires Valid(ht, hash) && NoDup(ht)
    ensures BucketAnswer(Abs(ht, hash), key, b, BucketHit(ht, key, hash, b))
  {
    if BucketHit(ht, key, hash, b).Some? {
      ScanFoundInMap(ht, key, hash, b);
    } else {
      ScanMissEmpty(ht, key, hash, b);
    }
  }

  /** An empty bucket `b` moves the bound down by one, or ends the search. */
  lemma MissLowers(m: SMap, key: nat, b: nat)
    requires BucketsAtMost(m, key, b) && NoneInBucket(m, key, b)
    ensures b > 0 ==> BucketsAtMost(m, key, b - 1)
    ensures b == 0 ==> NoneAtMost(m, key)
  {
  }

  /** The downward search answers for `m` once every bucket from `b` down
      answers for `m` and no key at most `key` lies above bucket `b`. */
  lemma {:induction false} PrevFixedFromGreatest(ht: Hashtable, key: nat, hash: nat -> nat, m: SMap, b: nat)
    requires WellFormed(ht)
    requires BucketsAtMost(m, key, b)
    requires forall i | 0 <= i <= b :: BucketAnswer(m, key, i, BucketHit(ht, key, hash, i))
    ensures Answers(m, key, PrevFixedFrom(ht, key, hash, b))
    decreases b
  {
    var found := BucketHit(ht, key, hash, b);
    assert BucketAnswer(m, key, b, found);
    if found.Some? {
      FoundGreatest(m, key, b, found.value);
    } else {
      MissLowers(m, key, b);
      if b > 0 {
        PrevFixedFromGreatest(ht, key, hash, m, b - 1);
      }
    }
  }

  /** The entry found in bucket `b` is the greatest at most `key` when no
      such key lies in a higher bucket. */
  lemma FoundGreatest(m: SMap, key: nat, b: nat, e: El)
    requires BucketsAtMost(m, key, b)
    requires e.key in m && m[e.key] == e.value && BucketNum(e.key) == b
    requires forall k | k in m && k <= key && BucketNum(k) == b :: k <= e.key
    ensures GreatestAtMost(m, key, e)
  {
    forall k | k in m && k <= key && BucketNum(k) != b ensures k <= e.key {
      BucketOrder(k, e.key);
    }
  }

  /** For an unmapped sector the corrected search answers the abstract
      `ds_prev`: nothing exactly when no key lies below, otherwise the
      greatest key below with its value, sector 0 included. */
  lemma PrevFixedIsPrevKey(ht: Hashtable, key: nat, hash: nat -> nat)
    requires Valid(ht, hash) && NoDup(ht) && key !in Abs(ht, hash)
    ensures var r := PrevFixed(ht, key, hash);
      var m := Abs(ht, hash);
      && (r.None? <==> PrevKey(m, key).None?)
      && (r.Some? ==> PrevKey(m, key) == Some(r.value.key) && m[r.value.key] == r.value.value)
  {
    var m := Abs(ht, hash);
    forall k | k in m && k <= key ensures BucketNum(k) <= BucketNum(key) {
      if BucketNum(k) > BucketNum(key) {
        BucketOrder(key, k);
      }
    }
    forall i | 0 <= i <= BucketNum(key) ensures BucketAnswer(m, key, i, BucketHit(ht, key, hash, i)) {
      ScanAnswers(ht, key, hash, i);
    }
    PrevFixedFromGreatest(ht, key, hash, m, BucketNum(key));
    var r := PrevFixed(ht, key, hash);
    if r.Some? {
      PrevKeyOfAbsent(m, key, r.value.key);
    } else if PrevKey(m, key).Some? {
      assert PrevKey(m, key).value in m;
    }
  }
}

=== FILE: sync_skiplist.dfy ===
/** The lock-based skip list backend (`src/utils/sync/skiplist.c`).

    Every level is a list that starts at a head sentinel (key 0) and ends at
    a tail sentinel (key `U64_MAX`); each node has its own copy on every
    level it reaches, linked downwards by `lower`.  The model keeps level
    `i` as the sequence of real nodes between the sentinels, so the head
    level is `|levels| - 1`.  A node on level `i` is found on level `i - 1`
    by its key, which is what following `lower` does while every upper
    level is a sub-list of the one below (`Valid`).

    Randomness (`get_random_u8`) is a parameter: `coin(i)` is the outcome
    of the `i`-th flip. */
module SyncSkiplist {
  import opened Wrappers
  import opened MachineInts
  import opened SectorMap
  import opened SortedLevels

  const HEAD_KEY: nat := 0
  const TAIL_KEY: nat := U64_MAX
  const MAX_LVL: nat := 20

  /** What a search hands back: one of the sentinels or a real node. */
  datatype NodeRef = Head | Tail | Real(node: Node)

  datatype Skiplist = Skiplist(levels: seq<seq<Node>>)

  // ---------------------------------------------------------------------
  // Shape
  // ---------------------------------------------------------------------

  /** Sorted levels between the sentinels, at most `MAX_LVL + 1` of them,
      and every node of an upper level present on the level below. */
  ghost predicate Valid(sl: Skiplist) {
    1 <= |sl.levels| <= MAX_LVL + 1 &&
    (forall i | 0 <= i < |sl.levels| :: forall n | n in sl.levels[i] :: n.key < TAIL_KEY) &&
    Layered(sl.levels)
  }

  /** Every level sorted, and a sub-list of the level below. */
  ghost predicate Layered(levels: seq<seq<Node>>) {
    (forall i | 0 <= i < |levels| :: StrictlySorted(levels[i])) &&
    (forall i | 0 < i < |levels| :: SubList(levels[i], levels[i - 1]))
  }

  /** No real node carries the head's key 0. */
  ghost predicate NoZeroKey(sl: Skiplist)
    requires |sl.levels| >= 1
  {
    forall n | n in sl.levels[0] :: n.key != HEAD_KEY
  }

  /** The map the skip list stands for: its bottom level. */
  ghost function Abs(sl: Skiplist): SMap
    requires |sl.levels| >= 1
  {
    LevelMap(sl.levels[0])
  }

  lemma TowerReachesBottom(levels: seq<seq<Node>>, i: nat, n: Node)
    requires Layered(levels) && i < |levels| && n in levels[i]
    ensures n in levels[0]
  {
    if i > 0 {
      assert SubList(levels[i], levels[i - 1]);
      TowerReachesBottom(levels, i - 1, n);
    }
  }

  // ---------------------------------------------------------------------
  // get_prev_nodes
  // ---------------------------------------------------------------------

  /** The level-by-level predecessors a top-down walk from `cur` on level
      `lvl` records: element `i` is where the walk stood on level `i`. */
  function PredsFrom(levels: seq<seq<Node>>, lvl: nat, cur: Option<nat>, key: nat): (r: seq<Option<nat>>)
    requires lvl < |levels|
    ensures |r| == lvl + 1
  {
    var c := Advance(levels[lvl], cur, key);
    if lvl == 0 then [c] else PredsFrom(levels, lvl - 1, c, key) + [c]
  }

  /** The walk from the head over every level. */
  function Preds(sl: Skiplist, key: nat): (r: seq<Option<nat>>)
    requires |sl.levels| >= 1
    ensures |r| == |sl.levels|
  {
    PredsFrom(sl.levels, |sl.levels| - 1, None, key)
  }

  /** A key on a level is also on the level below. */
  lemma StartsBelowLower(levels: seq<seq<Node>>, lvl: nat, cur: Option<nat>, key: nat)
    requires Layered(levels) && 0 < lvl < |levels|
    requires StartsBelow(levels[lvl], cur, key)
    ensures StartsBelow(levels[lvl - 1], cur, key)
  {
    if cur.Some? {
      var n :| n in levels[lvl] && n.key == cur.value;
      assert SubList(levels[lvl], levels[lvl - 1]);
      assert n in levels[lvl - 1];
    }
  }

  /** Level `i` of the walk from level `lvl` ends at the greatest key
      below `key` on that level. */
  lemma {:induction false} PredAtIsLastBelow(levels: seq<seq<Node>>, lvl: nat, cur: Option<nat>, key: nat, i: nat)
    requires Layered(levels) && i <= lvl < |levels|
    requires StartsBelow(levels[lvl], cur, key)
    ensures PredsFrom(levels, lvl, cur, key)[i] == LastBelow(levels[i], key)
  {
    AdvanceFindsLastBelow(levels[lvl], cur, key);
    if i < lvl {
      var c := Advance(levels[lvl], cur, key);
      StartsBelowLower(levels, lvl, c, key);
      PredAtIsLastBelow(levels, lvl - 1, c, key, i);
    }
  }

  /** On sorted, layered levels the walk stops, on every level, at the
      greatest key below `key`. */
  lemma PredsAreLastBelow(sl: Skiplist, key: nat)
    requires |sl.levels| >= 1 && Layered(sl.levels)
    ensures forall i | 0 <= i < |sl.levels| :: Preds(sl, key)[i] == LastBelow(sl.levels[i], key)
  {
    forall i | 0 <= i < |sl.levels| ensures Preds(sl, key)[i] == LastBelow(sl.levels[i], key) {
      PredAtIsLastBelow(sl.levels, |sl.levels| - 1, None, key, i);
    }
  }

  // ---------------------------------------------------------------------
  // skiplist_init, skiplist_is_empty
  // ---------------------------------------------------------------------

  /** `skiplist_init`: a head linked to a tail on level 0. */
  function Init(): (sl: Skiplist)
    ensures Valid(sl) && Abs(sl) == map[] && IsEmpty(sl)
  {
    Skiplist([[]])
  }

  /** `skiplist_is_empty`: true while the head is on level 0. */
  predicate IsEmpty(sl: Skiplist) {
    |sl.levels| == 1
  }

  // ---------------------------------------------------------------------
  // skiplist_find_node
  // ---------------------------------------------------------------------

  /** The search of `skiplist_find_node` from `cur` on level `lvl`.  With
      `skipZero` (as written) the walk never moves onto a node whose key is
      0; without it, it only compares keys. */
  function FindFrom(levels: seq<seq<Node>>, lvl: nat, cur: Option<nat>, key: nat, skipZero: bool): Option<NodeRef>
    requires lvl < |levels|
    decreases lvl, key - Pos(cur)
  {
    var nxt := NextAfter(levels[lvl], cur);
    var nk := if nxt.None? then TAIL_KEY else nxt.value.key;
    if nk == key then Some(if nxt.None? then Tail else Real(nxt.value))
    else if nxt.Some? && (nk != 0 || !skipZero) && nk < key then FindFrom(levels, lvl, Some(nk), key, skipZero)
    else if lvl == 0 then None
    else FindFrom(levels, lvl - 1, cur, key, skipZero)
  }

  /** `skiplist_find_node` as written. */
  function FindNode(sl: Skiplist, key: nat): (r: Option<NodeRef>)
    requires |sl.levels| >= 1
    ensures r.Some? && r.value.Real? ==> r.value.node.key == key
  {
    FindResultKey(sl.levels, |sl.levels| - 1, None, key, true);
    FindFrom(sl.levels, |sl.levels| - 1, None, key, true)
  }

  /** The search without the zero-key guard. */
  function FindNodeFixed(sl: Skiplist, key: nat): (r: Option<NodeRef>)
    requires |sl.levels| >= 1
    ensures r.Some? && r.value.Real? ==> r.value.node.key == key
  {
    FindResultKey(sl.levels, |sl.levels| - 1, None, key, false);
    FindFrom(sl.levels, |sl.levels| - 1, None, key, false)
  }

  lemma {:induction false} FindResultKey(levels: seq<seq<Node>>, lvl: nat, cur: Option<nat>, key: nat, skipZero: bool)
    requires lvl < |levels|
    ensures var r := FindFrom(levels, lvl, cur, key, skipZero);
      r.Some? && r.value.Real? ==> r.value.node.key == key
    decreases lvl, key - Pos(cur)
  {
    var nxt := NextAfter(levels[lvl], cur);
    var nk := if nxt.None? then TAIL_KEY else nxt.value.key;
    if nk == key {
    } else if nxt.Some? && (nk != 0 || !skipZero) && nk < key {
      FindResultKey(levels, lvl, Some(nk), key, skipZero);
    } else if lvl > 0 {
      FindResultKey(levels, lvl - 1, cur, key, skipZero);
    }
  }

  lemma {:induction false} FindFromCorrect(levels: seq<seq<Node>>, lvl: nat, cur: Option<nat>, key: nat, skipZero: bool)
    requires Layered(levels) && lvl < |levels| && key < TAIL_KEY
    requires skipZero ==> forall n | n in levels[0] :: n.key != HEAD_KEY
    requires StartsBelow(levels[lvl], cur, key)
    ensures var r := FindFrom(levels, lvl, cur, key, skipZero);
      (key in Keys(levels[0]) <==> r.Some?) &&
      (r.Some? ==> r.value.Real? && r.value.node in levels[0] && r.value.node.key == key)
    decreases lvl, key - Pos(cur)
  {
    var level := levels[lvl];
    var nxt := NextAfter(level, cur);
    var nk := if nxt.None? then TAIL_KEY else nxt.value.key;
    if nk == key {
      TowerReachesBottom(levels, lvl, nxt.value);
    } else if nxt.Some? && (nk != 0 || !skipZero) && nk < key {
      assert nk in Keys(level);
      FindFromCorrect(levels, lvl, Some(nk), key, skipZero);
    } else if lvl > 0 {
      StartsBelowLower(levels, lvl, cur, key);
      FindFromCorrect(levels, lvl - 1, cur, key, skipZero);
    } else {
      BottomMiss(level, cur, key, skipZero);
    }
  }

  /** On the bottom level, a search that stops before a key it neither
      hit nor passed has no node with that key. */
  lemma BottomMiss(level: seq<Node>, cur: Option<nat>, key: nat, skipZero: bool)
    requires StrictlySorted(level) && StartsBelow(level, cur, key)
    requires skipZero ==> forall n | n in level :: n.key != HEAD_KEY
    requires var nxt := NextAfter(level, cur);
      nxt.Some? ==> nxt.value.key != key && !((nxt.value.key != 0 || !skipZero) && nxt.value.key < key)
    ensures key !in Keys(level)
  {
    var nxt := NextAfter(level, cur);
    if nxt.Some? && skipZero {
      assert nxt.value in level;
    }
    forall n | n in level
      ensures n.key != key
    {
      if n.key > Pos(cur) {
        NextAfterIsLeast(level, cur, n);
      }
    }
  }

  /** On a valid list without a key-0 node, `skiplist_find_node` finds
      exactly the keys of the bottom level, with their values. */
  lemma FindNodeRefines(sl: Skiplist, key: nat)
    requires Valid(sl) && NoZeroKey(sl) && key < TAIL_KEY
    ensures FindNode(sl, key).Some? <==> key in Abs(sl)
    ensures key in Abs(sl) ==> FindNode(sl, key) == Some(Real(Node(key, Abs(sl)[key])))
  {
    FindFromCorrect(sl.levels, |sl.levels| - 1, None, key, true);
    var r := FindNode(sl, key);
    if r.Some? {
      ValueOfMember(sl.levels[0], r.value.node);
    }
  }

  /** Without the zero-key guard the search is exact on every valid list. */
  lemma FindNodeFixedRefines(sl: Skiplist, key: nat)
    requires Valid(sl) && key < TAIL_KEY
    ensures FindNodeFixed(sl, key).Some? <==> key in Abs(sl)
    ensures key in Abs(sl) ==> FindNodeFixed(sl, key) == Some(Real(Node(key, Abs(sl)[key])))
  {
    FindFromCorrect(sl.levels, |sl.levels| - 1, None, key, false);
    var r := FindNodeFixed(sl, key);
    if r.Some? {
      ValueOfMember(sl.levels[0], r.value.node);
    }
  }

  /** A node with key 0 (original sector 0) blocks the search: the walk
      never steps onto it, so nothing behind it on the bottom level is
      found. */
  lemma ZeroKeyHidesLaterKeys()
    ensures
      var sl := Skiplist([[Node(0, Redir(32, 4096)), Node(5, Redir(40, 4096))]]);
      Valid(sl) && 5 in Abs(sl) &&
      FindNode(sl, 5) == None &&
      FindNodeFixed(sl, 5) == Some(Real(Node(5, Redir(40, 4096))))
  {
    var sl := Skiplist([[Node(0, Redir(32, 4096)), Node(5, Redir(40, 4096))]]);
    assert 5 in Keys(sl.levels[0]) by { assert sl.levels[0][1] in sl.levels[0]; }
    assert NextAfter(sl.levels[0], None) == Some(Node(0, Redir(32, 4096)));
    assert NextAfter(sl.levels[0], Some(0)) == Some(Node(5, Redir(40, 4096)));
  }

  // ---------------------------------------------------------------------
  // get_random_lvl, move_up_if_lvl_nex
  // ---------------------------------------------------------------------

  /** `get_random_lvl` from level `lvl` on: count heads, at most `max`. */
  function RandomLevelFrom(coin: nat -> bool, lvl: nat, max: nat): (r: nat)
    requires lvl <= max
    ensures lvl <= r <= max
    ensures forall i | lvl <= i < r :: coin(i)
    ensures r < max ==> !coin(r)
    decreases max - lvl
  {
    if lvl < max && coin(lvl) then RandomLevelFrom(coin, lvl + 1, max) else lvl
  }

  /** `get_random_lvl(max)`: the number of leading heads, capped at `max`. */
  function RandomLevel(coin: nat -> bool, max: nat): (r: nat)
    ensures r <= max
    ensures forall i | 0 <= i < r :: coin(i)
    ensures r < max ==> !coin(r)
  {
    RandomLevelFrom(coin, 0, max)
  }

  /** `move_up_if_lvl_nex`: raise the head and tail to level `lvl` with
      empty levels, unless the head is already that high or `lvl` exceeds
      `MAX_LVL`. */
  function MoveUp(sl: Skiplist, lvl: nat): (r: Skiplist)
    requires |sl.levels| >= 1
    ensures |r.levels| >= |sl.levels| && r.levels[..|sl.levels|] == sl.levels
    ensures forall i | |sl.levels| <= i < |r.levels| :: r.levels[i] == []
    ensures lvl <= MAX_LVL ==> |r.levels| == if lvl < |sl.levels| then |sl.levels| else lvl + 1
    ensures lvl > MAX_LVL ==> r == sl
  {
    if lvl <= |sl.levels| - 1 || lvl > MAX_LVL then sl
    else Skiplist(sl.levels + seq(lvl - (|sl.levels| - 1), _ => []))
  }

  // ---------------------------------------------------------------------
  // skiplist_insert
  // ---------------------------------------------------------------------

  /** `skiplist_insert_at_lvl`: record the predecessors with
      `get_prev_nodes`, then splice a copy of the node into levels
      `0..lvl`. */
  function InsertAtLvl(sl: Skiplist, node: Node, lvl: nat): (r: Skiplist)
    requires lvl < |sl.levels|
    ensures |r.levels| == |sl.levels|
  {
    var preds := Preds(sl, node.key);
    Skiplist(seq(|sl.levels|, i requires 0 <= i < |sl.levels| =>
      if i <= lvl then InsertAfter(sl.levels[i], preds[i], node) else sl.levels[i]))
  }

  /** What `skiplist_insert` returns and the list it leaves. */
  datatype InsertResult = InsertResult(sl: Skiplist, node: NodeRef)

  /** `skiplist_insert`: an existing node is returned unchanged; otherwise
      a tower of random height is built. */
  function Insert(sl: Skiplist, key: nat, value: Redir, coin: nat -> bool): (r: InsertResult)
    requires |sl.levels| >= 1
    ensures FindNode(sl, key).Some? ==> r == InsertResult(sl, FindNode(sl, key).value)
    ensures FindNode(sl, key).None? ==> r.node == Real(Node(key, value))
  {
    match FindNode(sl, key)
    case Some(found) => InsertResult(sl, found)
    case None =>
      var lvl := RandomLevel(coin, MAX_LVL);
      var grown := MoveUp(sl, lvl);
      InsertResult(InsertAtLvl(grown, Node(key, value), lvl), Real(Node(key, value)))
  }

  lemma MoveUpValid(sl: Skiplist, lvl: nat)
    requires Valid(sl) && lvl <= MAX_LVL
    ensures Valid(MoveUp(sl, lvl)) && MoveUp(sl, lvl).levels[0] == sl.levels[0]
  {
    var r := MoveUp(sl, lvl);
    assert r.levels[0] == r.levels[..|sl.levels|][0];
    forall i | 0 < i < |r.levels| ensures SubList(r.levels[i], r.levels[i - 1]) {
      if i < |sl.levels| {
        assert r.levels[i] == r.levels[..|sl.levels|][i];
        assert r.levels[i - 1] == r.levels[..|sl.levels|][i - 1];
      }
    }
    forall i | 0 <= i < |r.levels| ensures StrictlySorted(r.levels[i]) && forall n | n in r.levels[i] :: n.key < TAIL_KEY {
      if i < |sl.levels| {
        assert r.levels[i] == r.levels[..|sl.levels|][i];
      }
    }
  }

  /** Adding `node` to the bottom `lvl + 1` levels of layered levels, each
      kept sorted, keeps them layered. */
  lemma LayeredAfterInsert(a: seq<seq<Node>>, b: seq<seq<Node>>, node: Node, lvl: nat)
    requires Layered(a) && |b| == |a| && lvl < |a|
    requires forall i | 0 <= i < |b| :: StrictlySorted(b[i])
    requires forall i | 0 <= i < |b| :: forall n :: n in b[i] <==> n in a[i] || (i <= lvl && n == node)
    ensures Layered(b)
  {
    forall i | 0 < i < |b| ensures SubList(b[i], b[i - 1]) {
      assert SubList(a[i], a[i - 1]);
    }
  }

  /** One level of `skiplist_insert_at_lvl`: splicing after the greatest
      key below the node's keeps the level sorted and adds just the node. */
  lemma InsertOnLevel(level: seq<Node>, node: Node)
    requires StrictlySorted(level) && node.key !in Keys(level)
    ensures var r := InsertAfter(level, LastBelow(level, node.key), node);
      StrictlySorted(r) && forall n :: n in r <==> n in level || n == node
  {
    LastBelowGap(level, node.key);
    InsertAfterSorted(level, LastBelow(level, node.key), node);
  }

  lemma InsertAtLvlValid(sl: Skiplist, node: Node, lvl: nat)
    requires Valid(sl) && lvl < |sl.levels| && node.key < TAIL_KEY
    requires node.key !in Keys(sl.levels[0])
    ensures var r := InsertAtLvl(sl, node, lvl);
      Valid(r) && LevelMap(r.levels[0]) == LevelMap(sl.levels[0])[node.key := node.value] &&
      (forall n :: n in r.levels[0] <==> n in sl.levels[0] || n == node)
  {
    var r := InsertAtLvl(sl, node, lvl);
    var preds := Preds(sl, node.key);
    PredsAreLastBelow(sl, node.key);
    forall i | 0 <= i < |sl.levels|
      ensures StrictlySorted(r.levels[i])
      ensures forall n :: n in r.levels[i] <==> n in sl.levels[i] || (i <= lvl && n == node)
    {
      if i <= lvl {
        assert node.key !in Keys(sl.levels[i]) by {
          forall n | n in sl.levels[i] ensures n.key != node.key { TowerReachesBottom(sl.levels, i, n); }
        }
        InsertOnLevel(sl.levels[i], node);
      }
    }
    LayeredAfterInsert(sl.levels, r.levels, node, lvl);
    LevelMapAdd(sl.levels[0], r.levels[0], node);
  }

  /** `skiplist_insert` on a valid list without a key-0 node adds a missing
      key with its value and leaves a present key's value as it was. */
  lemma InsertRefines(sl: Skiplist, key: nat, value: Redir, coin: nat -> bool)
    requires Valid(sl) && NoZeroKey(sl) && 0 < key < TAIL_KEY
    ensures var r := Insert(sl, key, value, coin);
      Valid(r.sl) && NoZeroKey(r.sl) &&
      (key in Abs(sl) ==> r.sl == sl && r.node == Real(Node(key, Abs(sl)[key]))) &&
      (key !in Abs(sl) ==> Abs(r.sl) == Abs(sl)[key := value] && r.node == Real(Node(key, value)))
  {
    FindNodeRefines(sl, key);
    if key !in Abs(sl) {
      var lvl := RandomLevel(coin, MAX_LVL);
      var grown := MoveUp(sl, lvl);
      MoveUpValid(sl, lvl);
      InsertAtLvlValid(grown, Node(key, value), lvl);
    }
  }

  // ---------------------------------------------------------------------
  // skiplist_remove
  // ---------------------------------------------------------------------

  /** `skiplist_remove` as written.  The predecessors are recorded on every
      level, but the unlinking loop compares `prev[i]->next` with the node
      it unlinked one level below; the copies of a node on different levels
      are different objects, so only the bottom copy is ever unlinked, and
      the head never drops (its `next` is always a tail). */
  function Remove(sl: Skiplist, key: nat): (r: Skiplist)
    requires |sl.levels| >= 1
    ensures |r.levels| == |sl.levels| && r.levels[1..] == sl.levels[1..]
  {
    var preds := Preds(sl, key);
    var curr := NextAfter(sl.levels[0], preds[0]);
    if curr.Some? && curr.value.key == key then
      Skiplist([RemoveAfter(sl.levels[0], preds[0])] + sl.levels[1..])
    else sl
  }

  /** The removal as evidently intended: unlink the key's copy on every
      level that has one. */
  function RemoveFixed(sl: Skiplist, key: nat): (r: Skiplist)
    requires |sl.levels| >= 1
    ensures |r.levels| == |sl.levels|
  {
    var preds := Preds(sl, key);
    Skiplist(seq(|sl.levels|, i requires 0 <= i < |sl.levels| =>
      var curr := NextAfter(sl.levels[i], preds[i]);
      if curr.Some? && curr.value.key == key then RemoveAfter(sl.levels[i], preds[i]) else sl.levels[i]))
  }

  /** `skiplist_remove` as written takes the key out of the bottom level,
      so the map loses it, and leaves every upper level as it was. */
  lemma RemoveDropsBottom(sl: Skiplist, key: nat)
    requires Valid(sl)
    ensures var r := Remove(sl, key);
      Abs(r) == Abs(sl) - {key} && r.levels[1..] == sl.levels[1..] &&
      (NoZeroKey(sl) ==> NoZeroKey(r))
  {
    PredsAreLastBelow(sl, key);
    RemoveOnLevel(sl.levels[0], key);
    var r := Remove(sl, key);
    LevelMapDrop(sl.levels[0], r.levels[0], key);
  }

  /** The corrected removal keeps the list valid and removes the key from
      the map. */
  lemma RemoveFixedRefines(sl: Skiplist, key: nat)
    requires Valid(sl)
    ensures var r := RemoveFixed(sl, key);
      Valid(r) && Abs(r) == Abs(sl) - {key} && (NoZeroKey(sl) ==> NoZeroKey(r))
  {
    PredsAreLastBelow(sl, key);
    var r := RemoveFixed(sl, key);
    forall i | 0 <= i < |sl.levels|
      ensures StrictlySorted(r.levels[i])
      ensures forall n :: n in r.levels[i] <==> n in sl.levels[i] && n.key != key
    {
      RemoveOnLevel(sl.levels[i], key);
    }
    forall i | 0 < i < |r.levels| ensures SubList(r.levels[i], r.levels[i - 1]) {
      assert SubList(sl.levels[i], sl.levels[i - 1]);
    }
    LevelMapDrop(sl.levels[0], r.levels[0], key);
  }

  /** Counterexample for the as-written removal: key 5 stands on levels 0
      and 1; after removing it the map is empty, yet `skiplist_find_node`
      still returns the level-1 copy, so a following insert of 5 hands back
      that stale node and the new value is lost. */
  lemma RemoveLeavesUpperCopy(coin: nat -> bool)
    ensures
      var n := Node(5, Redir(32, 4096));
      var sl := Skiplist([[n], [n]]);
      var r := Remove(sl, 5);
      Valid(sl) && Abs(r) == map[] && !Valid(r) &&
      FindNode(r, 5) == Some(Real(n)) &&
      Insert(r, 5, Redir(40, 4096), coin).sl == r &&
      FindNode(RemoveFixed(sl, 5), 5) == None
  {
    var n := Node(5, Redir(32, 4096));
    var sl := Skiplist([[n], [n]]);
    assert Valid(sl) by { assert SubList(sl.levels[1], sl.levels[0]); }
    assert Remove(sl, 5) == Skiplist([[], [n]]) by {
      RemoveDropsBottom(sl, 5);
      assert Keys(sl.levels[0]) == {5};
    }
    StaleUpperCopy(n);
    RemoveFixedRefines(sl, 5);
    FindNodeRefines(RemoveFixed(sl, 5), 5);
  }

  /** A list whose bottom level is empty while level 1 still holds `n`. */
  lemma StaleUpperCopy(n: Node)
    requires 0 < n.key < TAIL_KEY
    ensures var r := Skiplist([[], [n]]);
      Abs(r) == map[] && !Valid(r) && FindNode(r, n.key) == Some(Real(n))
  {
    var r := Skiplist([[], [n]]);
    assert Keys(r.levels[0]) == {};
    assert !SubList(r.levels[1], r.levels[0]) by { assert n in r.levels[1]; }
    assert NextAfter(r.levels[1], None) == Some(n);
  }

  // ---------------------------------------------------------------------
  // skiplist_last, skiplist_prev, skiplist_is_empty
  // ---------------------------------------------------------------------

  /** The bottom-level walk of `skiplist_last` from a node with key
      `curKey`: it stops before the tail and, when `skipZero` holds as in
      the source, before a key-0 node. */
  function LastFrom(level: seq<Node>, curKey: nat, skipZero: bool): nat {
    if |level| == 0 || (skipZero && level[0].key == 0) || level[0].key == TAIL_KEY then curKey
    else LastFrom(level[1..], level[0].key, skipZero)
  }

  /** `skiplist_last` as written: the key of the last node of the bottom
      level before any key-0 node, or the head's key 0. */
  function Last(sl: Skiplist): nat
    requires |sl.levels| >= 1
  {
    LastFrom(sl.levels[0], HEAD_KEY, true)
  }

  /** `skiplist_last` without the `curr->next->key` guard. */
  function LastFixed(sl: Skiplist): nat
    requires |sl.levels| >= 1
  {
    LastFrom(sl.levels[0], HEAD_KEY, false)
  }

  lemma {:induction false} LastFromIsMax(level: seq<Node>, curKey: nat, skipZero: bool)
    requires StrictlySorted(level)
    requires forall n | n in level :: (0 < n.key || !skipZero) && n.key < TAIL_KEY
    ensures |level| == 0 ==> LastFrom(level, curKey, skipZero) == curKey
    ensures |level| > 0 ==> LastFrom(level, curKey, skipZero) == level[|level| - 1].key
  {
    if |level| > 0 {
      assert level[0] in level;
      if |level| > 1 {
        forall n | n in level[1..] ensures (0 < n.key || !skipZero) && n.key < TAIL_KEY { assert n in level; }
      }
      LastFromIsMax(level[1..], level[0].key, skipZero);
    }
  }

  /** On a valid list without key 0, `skiplist_last` is the greatest key
      of the map, or 0 when the map is empty. */
  lemma LastRefines(sl: Skiplist)
    requires Valid(sl) && NoZeroKey(sl)
    ensures Last(sl) == LastKey(Abs(sl)).GetOr(HEAD_KEY)
  {
    LastFromIsMax(sl.levels[0], HEAD_KEY, true);
    LastIsBottomEnd(sl);
  }

  /** A node with key 0 stops the walk of `skiplist_last`: with keys 0 and
      5 it reports 0, while the corrected walk reports 5. */
  lemma ZeroKeyHidesLast()
    ensures
      var sl := Skiplist([[Node(0, Redir(32, 4096)), Node(5, Redir(40, 4096))]]);
      Valid(sl) && LastKey(Abs(sl)) == Some(5) &&
      Last(sl) == 0 && LastFixed(sl) == 5
  {
    var sl := Skiplist([[Node(0, Redir(32, 4096)), Node(5, Redir(40, 4096))]]);
    LastFixedRefines(sl);
  }

  /** Without the zero-key guard `skiplist_last` is the greatest key of
      the map on every valid list, or 0 when the map is empty. */
  lemma LastFixedRefines(sl: Skiplist)
    requires Valid(sl)
    ensures LastFixed(sl) == LastKey(Abs(sl)).GetOr(HEAD_KEY)
  {
    LastFromIsMax(sl.levels[0], HEAD_KEY, false);
    LastIsBottomEnd(sl);
  }

  /** The map's greatest key is the bottom level's last node. */
  lemma LastIsBottomEnd(sl: Skiplist)
    requires Valid(sl)
    ensures |sl.levels[0]| == 0 ==> LastKey(Abs(sl)) == None
    ensures |sl.levels[0]| > 0 ==> LastKey(Abs(sl)) == Some(sl.levels[0][|sl.levels[0]| - 1].key)
  {
    var level := sl.levels[0];
    if |level| > 0 {
      var top := level[|level| - 1];
      assert top in level;
      assert top.key in Abs(sl);
      forall k | k in Abs(sl) ensures k <= top.key {
        var n :| n in level && n.key == k;
        var i :| 0 <= i < |level| && level[i] == n;
        assert i <= |level| - 1;
      }
    } else {
      assert Abs(sl) == map[];
    }
  }

  /** The node handed back by `skiplist_prev` and the key it reports. */
  datatype PrevResult = PrevResult(node: NodeRef, prevKey: nat)

  /** `skiplist_prev`: the walk's position on the bottom level. */
  function Prev(sl: Skiplist, key: nat): PrevResult
    requires |sl.levels| >= 1
  {
    var p := Preds(sl, key)[0];
    if p.None? then PrevResult(Head, HEAD_KEY)
    else if p.value in Keys(sl.levels[0]) then PrevResult(Real(Node(p.value, ValueOf(sl.levels[0], p.value))), p.value)
    else PrevResult(Head, HEAD_KEY)
  }

  /** On a valid list `skiplist_prev` returns the entry with the greatest
      key below `key`, or the head (key 0) when there is none. */
  lemma PrevRefines(sl: Skiplist, key: nat)
    requires Valid(sl)
    ensures match PrevKey(Abs(sl), key)
      case None => Prev(sl, key) == PrevResult(Head, HEAD_KEY)
      case Some(p) => Prev(sl, key) == PrevResult(Real(Node(p, Abs(sl)[p])), p)
  {
    PredsAreLastBelow(sl, key);
    var lb := LastBelow(sl.levels[0], key);
    var pk := PrevKey(Abs(sl), key);
    if lb.Some? {
      assert lb.value in Abs(sl);
      assert pk.Some? && pk.value >= lb.value;
      var n :| n in sl.levels[0] && n.key == pk.value;
      assert pk.value <= lb.value;
    }
  }

  /** `skiplist_is_empty` reports emptiness by the head's level, not by
      the bottom level: a list whose nodes all have height one reads as
      empty, and a list that once held a taller node never reads as empty
      again. */
  lemma IsEmptyIgnoresBottom()
    ensures
      var one := Skiplist([[Node(5, Redir(32, 4096))]]);
      var none := Skiplist([[], []]);
      Valid(one) && Abs(one) != map[] && IsEmpty(one) &&
      Valid(none) && Abs(none) == map[] && !IsEmpty(none) &&
      IsEmptyFixed(one) != IsEmpty(one) && IsEmptyFixed(none) != IsEmpty(none)
  {
    var one := Skiplist([[Node(5, Redir(32, 4096))]]);
    assert 5 in Keys(one.levels[0]) by { assert one.levels[0][0] in one.levels[0]; }
    var none := Skiplist([[], []]);
    assert Valid(none) by { assert SubList(none.levels[1], none.levels[0]); }
    assert Keys(none.levels[0]) == {};
    assert Abs(none) == map[];
    assert 5 in Abs(one);
    assert IsEmptyFixed(none) && !IsEmptyFixed(one);
  }

  /** Emptiness judged by the bottom level. */
  predicate IsEmptyFixed(sl: Skiplist)
    requires |sl.levels| >= 1
  {
    sl.levels[0] == []
  }

  lemma IsEmptyFixedRefines(sl: Skiplist)
    requires Valid(sl)
    ensures IsEmptyFixed(sl) <==> Abs(sl) == map[]
  {
    if sl.levels[0] != [] {
      assert sl.levels[0][0].key in Abs(sl);
    }
  }
}

=== FILE: text.dfy ===
/** Text helpers shared by the C and the Python parts of the model:
    decimal printing and parsing, and the Python `str` operations the test
    scripts use (`strip`, `lstrip`, `split`, `lower`, `replace`, `in`).
    Characters are code points; whitespace, digits and case mapping are
    those of the ASCII range. */
module Text {

  function DigitChar(d: nat): char
    requires d < 10
  {
    "0123456789"[d]
  }

  predicate IsDigitChar(c: char) {
    '0' <= c <= '9'
  }

  function DigitValue(c: char): nat
    requires IsDigitChar(c)
  {
    (c as int - '0' as int) as nat
  }

  /** The decimal digits of `n` without leading zeros. */
  function Digits(n: nat): (s: string)
    ensures 1 <= |s| && forall i | 0 <= i < |s| :: IsDigitChar(s[i])
    ensures |s| > 1 ==> s[0] != '0'
  {
    if n < 10 then [DigitChar(n)] else Digits(n / 10) + [DigitChar(n % 10)]
  }


  /** Reads back a string of decimal digits. */
  function ParseDigits(s: string): nat
    requires forall i | 0 <= i < |s| :: IsDigitChar(s[i])
  {
    if |s| == 0 then 0
    else ParseDigits(s[..|s| - 1]) * 10 + DigitValue(s[|s| - 1])
  }

  /** Reads back an optionally negative decimal number. */
  function ParseDecimal(s: string): int
    requires |s| >= 1
    requires forall i | 1 <= i < |s| :: IsDigitChar(s[i])
    requires s[0] == '-' || IsDigitChar(s[0])
  {
    if s[0] == '-' then 0 - ParseDigits(s[1..]) as int else ParseDigits(s)
  }

  lemma {:induction false} ParseDigitsOfDigits(n: nat)
    ensures ParseDigits(Digits(n)) == n
  {
    var s := Digits(n);
    if n >= 10 {
      ParseDigitsOfDigits(n / 10);
      assert s[..|s| - 1] == Digits(n / 10);
      assert s[|s| - 1] == DigitChar(n % 10);
    }
  }

  /** `printf("%d", n)` and Python's `str(n)`: reading the text back
      gives `n`. */
  function Decimal(n: int): (s: string)
    ensures |s| >= 1 && (s[0] == '-' || IsDigitChar(s[0]))
    ensures forall i | 1 <= i < |s| :: IsDigitChar(s[i])
    ensures ParseDecimal(s) == n
  {
    ParseDigitsOfDigits(if n < 0 then -n else n);
    if n < 0 then
      var s := "-" + Digits(-n);
      assert s[1..] == Digits(-n);
      s
    else Digits(n)
  }


  // ---------------------------------------------------------------------
  // Python str operations
  // ---------------------------------------------------------------------

  /** `str.isspace()` on the ASCII range, which is also what `\s` matches
      there: space, tab to carriage return, and the four separators
      0x1c..0x1f. */
  predicate IsSpace(c: char) {
    c == ' ' || (9 <= c as int <= 13) || (28 <= c as int <= 31)
  }

  predicate AllSpace(s: string) {
    forall i | 0 <= i < |s| :: IsSpace(s[i])
  }

  /** `s.lstrip(c)`: drops every leading `c`. */
  function LStrip(s: string, c: char): (r: string)
    ensures |r| <= |s| && r == s[|s| - |r|..]
    ensures forall i | 0 <= i < |s| - |r| :: s[i] == c
    ensures |r| > 0 ==> r[0] != c
  {
    if |s| > 0 && s[0] == c then LStrip(s[1..], c) else s
  }

  /** The end of the run of whitespace starting at `i`. */
  function SpaceEnd(s: string, i: nat): (e: nat)
    requires i <= |s|
    ensures i <= e <= |s|
    ensures forall k | i <= k < e :: IsSpace(s[k])
    ensures e < |s| ==> !IsSpace(s[e])
    decreases |s| - i
  {
    if i < |s| && IsSpace(s[i]) then SpaceEnd(s, i + 1) else i
  }

  /** The start of the run of whitespace ending at `j`, not going below `i`. */
  function SpaceStart(s: string, i: nat, j: nat): (e: nat)
    requires i <= j <= |s|
    ensures i <= e <= j
    ensures forall k | e <= k < j :: IsSpace(s[k])
    ensures e > i ==> !IsSpace(s[e - 1])
    decreases j
  {
    if j > i && IsSpace(s[j - 1]) then SpaceStart(s, i, j - 1) else j
  }

  /** `r` is the slice of `s` starting at `i` and only whitespace lies
      outside it. */
  predicate TrimmedAt(s: string, r: string, i: nat) {
    i + |r| <= |s| && r == s[i..i + |r|] && AllSpace(s[..i]) && AllSpace(s[i + |r|..])
  }

  /** `s.strip()`: the slice of `s` between its leading and trailing
      whitespace. */
  function Strip(s: string): (r: string)
    ensures exists i: nat :: TrimmedAt(s, r, i)
    ensures |r| > 0 ==> !IsSpace(r[0]) && !IsSpace(r[|r| - 1])
  {
    var i := SpaceEnd(s, 0);
    var j := SpaceStart(s, i, |s|);
    SliceTrimmed(s, i, j);
    s[i..j]
  }

  /** The slice between two whitespace runs is trimmed. */
  lemma SliceTrimmed(s: string, i: nat, j: nat)
    requires i <= j <= |s|
    requires forall k | 0 <= k < i :: IsSpace(s[k])
    requires forall k | j <= k < |s| :: IsSpace(s[k])
    ensures TrimmedAt(s, s[i..j], i)
  {
    assert forall k | 0 <= k < i :: s[..i][k] == s[k];
    assert forall k | 0 <= k < |s| - j :: s[j..][k] == s[j + k];
  }

  /** Stripping twice strips nothing more. */
  lemma StripIdempotent(s: string)
    ensures Strip(Strip(s)) == Strip(s)
  {
    var r := Strip(s);
    StripUntouched(r);
  }

  /** A string with no whitespace at either end is its own strip. */
  lemma StripUntouched(s: string)
    requires |s| > 0 ==> !IsSpace(s[0]) && !IsSpace(s[|s| - 1])
    ensures Strip(s) == s
  {
    assert SpaceEnd(s, 0) == 0;
    assert SpaceStart(s, 0, |s|) == |s|;
    assert s[0..|s|] == s;
  }

  /** `sub in s` for strings. */
  predicate Contains(s: string, sub: string) {
    exists i: nat | i <= |s| :: OccursAt(s, sub, i)
  }

  predicate OccursAt(s: string, sub: string, i: nat) {
    i + |sub| <= |s| && s[i..i + |sub|] == sub
  }

  /** `s.index(c)`: the first position of `c`. */
  function IndexOf(s: string, c: char): (r: nat)
    requires c in s
    ensures r < |s| && s[r] == c && c !in s[..r]
  {
    if s[0] == c then 0
    else
      assert c in s[1..] by { var k :| 0 <= k < |s| && s[k] == c; assert s[1..][k - 1] == c; }
      var r := 1 + IndexOf(s[1..], c);
      assert s[..r] == [s[0]] + s[1..][..r - 1];
      r
  }

  /** `sep.join(parts)`. */
  function Join(parts: seq<string>, sep: char): string
    requires |parts| >= 1
  {
    if |parts| == 1 then parts[0] else parts[0] + [sep] + Join(parts[1..], sep)
  }

  /** `s.split(sep)` for a one-character separator: the pieces between
      consecutive separators, empty pieces included. */
  function Split(s: string, sep: char): (r: seq<string>)
    ensures |r| >= 1
    ensures forall k | 0 <= k < |r| :: sep !in r[k]
    ensures Join(r, sep) == s
    decreases |s|
  {
    if sep !in s then [s]
    else
      var i := IndexOf(s, sep);
      var rest := Split(s[i + 1..], sep);
      var r := [s[..i]] + rest;
      assert r[1..] == rest;
      assert s == s[..i] + [sep] + s[i + 1..];
      r
  }

  /** Splitting the join of separator-free pieces gives the pieces back. */
  lemma {:induction false} SplitJoin(parts: seq<string>, sep: char)
    requires |parts| >= 1
    requires forall k | 0 <= k < |parts| :: sep !in parts[k]
    ensures Split(Join(parts, sep), sep) == parts
  {
    var s := Join(parts, sep);
    if |parts| == 1 {
      assert s == parts[0];
    } else {
      var rest := Join(parts[1..], sep);
      assert s == parts[0] + [sep] + rest;
      assert s[|parts[0]|] == sep;
      assert s[..|parts[0]|] == parts[0];
      assert IndexOf(s, sep) == |parts[0]|;
      assert s[|parts[0]| + 1..] == rest;
      SplitJoin(parts[1..], sep);
      assert Split(s, sep) == [parts[0]] + Split(rest, sep);
      assert [parts[0]] + parts[1..] == parts;
    }
  }

  /** `c.lower()` for one character. */
  function LowerChar(c: char): char {
    if 'A' <= c <= 'Z' then (c as int + 32) as char else c
  }

  /** `s.lower()`. */
  function Lower(s: string): (r: string)
    ensures |r| == |s|
    ensures forall i | 0 <= i < |s| :: r[i] == LowerChar(s[i])
  {
    seq(|s|, i requires 0 <= i < |s| => LowerChar(s[i]))
  }

  /** Lowering twice lowers nothing more, and leaves digits alone. */
  lemma LowerIdempotent(s: string)
    ensures Lower(Lower(s)) == Lower(s)
    ensures forall i | 0 <= i < |s| && IsDigitChar(s[i]) :: Lower(s)[i] == s[i]
  {
  }

  /** `s.replace(a, b)` for single characters. */
  function ReplaceChar(s: string, a: char, b: char): (r: string)
    ensures |r| == |s|
    ensures forall i | 0 <= i < |s| :: r[i] == (if s[i] == a then b else s[i])
  {
    seq(|s|, i requires 0 <= i < |s| => if s[i] == a then b else s[i])
  }

  /** After replacing `a` by another character no `a` is left, and every
      other character is where it was. */
  lemma ReplaceCharRemoves(s: string, a: char, b: char)
    requires a != b
    ensures a !in ReplaceChar(s, a, b)
    ensures forall i | 0 <= i < |s| && s[i] != a :: ReplaceChar(s, a, b)[i] == s[i]
  {
  }

  /** The longest prefix of decimal digits (what `\d+` consumes at the
      start of a string). */
  function LeadingDigits(s: string): (r: string)
    ensures |r| <= |s| && r == s[..|r|]
    ensures forall i | 0 <= i < |r| :: IsDigitChar(r[i])
    ensures |r| < |s| ==> !IsDigitChar(s[|r|])
  {
    if |s| > 0 && IsDigitChar(s[0]) then
      var r := [s[0]] + LeadingDigits(s[1..]);
      r
    else []
  }

  /** A digit run followed by a non-digit is exactly what `\d+` takes. */
  lemma {:induction false} LeadingDigitsOf(d: string, rest: string)
    requires forall i | 0 <= i < |d| :: IsDigitChar(d[i])
    requires |rest| > 0 ==> !IsDigitChar(rest[0])
    ensures LeadingDigits(d + rest) == d
  {
    if |d| > 0 {
      assert (d + rest)[1..] == d[1..] + rest;
      LeadingDigitsOf(d[1..], rest);
      assert [d[0]] + d[1..] == d;
    } else {
      assert d + rest == rest;
    }
  }
}

=== FILE: tp_iops_plots.dfy ===
/** The pure helpers of `test/tp_iops_plots.py`: where the plots go, which
    device the titles name, which rows a plot keeps, the block-size sort
    key and the file-name sanitising. The plotting itself is outside the
    model. */
module TpIopsPlots {
  import opened Text
  import GeneralConcPlots

  // ---------------------------------------------------------------------
  // PLOTS_PATH and DEVICE
  // ---------------------------------------------------------------------

  /** `PLOTS_PATH`, from the `--raw` and `--rewrite` flags. */
  function PlotsPath(raw: bool, rewrite: bool): string {
    (if raw then "./plots/avg/raw" else "./plots/avg/vbd")
    + (if rewrite then "/rewrite" else "/non_rewrite")
  }

  /** `DEVICE`, the device the titles name. */
  function Device(raw: bool): string {
    if raw then "nullb0" else "lsvbd1"
  }

  /** The four flag combinations write to four different directories under
      `./plots/avg/`, and the device is the null block device exactly for
      raw runs. */
  lemma PathsSeparateRuns(raw: bool, rewrite: bool, raw2: bool, rewrite2: bool)
    ensures (raw, rewrite) != (raw2, rewrite2) ==> PlotsPath(raw, rewrite) != PlotsPath(raw2, rewrite2)
    ensures PlotsPath(raw, rewrite)[..12] == "./plots/avg/"
    ensures Device(raw) == "nullb0" <==> raw
  {
    var p := PlotsPath(raw, rewrite);
    var q := PlotsPath(raw2, rewrite2);
    if raw != raw2 {
      assert p[12] != q[12];
    } else if rewrite != rewrite2 {
      assert p[16] != q[16];
    }
  }

  // ---------------------------------------------------------------------
  // The MODE filter
  // ---------------------------------------------------------------------

  /** The metric column of a run: bandwidth under `--tp`, IOPS otherwise. */
  function MetricColumn(tp: bool): string {
    if tp then "BW" else "IOPS"
  }

  /** The `MODE` value the plot functions keep for a metric column. */
  function ModeFilter(metricCol: string): string {
    if metricCol == "BW" then "tp" else "iops"
  }

  /** The `MODE` value the concurrent bar charts keep, from the flag. */
  function ConcModeFilter(tp: bool): string {
    if tp then "tp" else "iops"
  }

  /** Both ways of choosing the mode pick the same rows in a run. */
  lemma ModeFiltersAgree(tp: bool)
    ensures ModeFilter(MetricColumn(tp)) == ConcModeFilter(tp)
    ensures ModeFilter(MetricColumn(tp)) == "tp" <==> tp
  {
  }

  /** One row of `logs/fio_results.dat`, with the columns the filters
      read. */
  datatype Row = Row(runId: int, bs: string, mix: string, mode: string, iodepth: int, numjobs: int)

  /** `df[df["MODE"] == mode]`: the rows of that mode, in order. */
  function FilterMode(rows: seq<Row>, mode: string): (r: seq<Row>)
    ensures |r| <= |rows|
    ensures forall i | 0 <= i < |r| :: r[i].mode == mode && r[i] in rows
    ensures forall row | row in rows && row.mode == mode :: row in r
  {
    if |rows| == 0 then []
    else
      var rest := FilterMode(rows[1..], mode);
      assert forall row | row in rows[1..] :: row in rows;
      if rows[0].mode == mode then [rows[0]] + rest else rest
  }

  /** Filtering keeps the relative order: the kept rows are a
      subsequence of the input. */
  predicate SubsequenceOf(r: seq<Row>, rows: seq<Row>) {
    |r| == 0 || (|rows| > 0 && (if r[0] == rows[0] then SubsequenceOf(r[1..], rows[1..]) else SubsequenceOf(r, rows[1..])))
  }

  lemma {:induction false} FilterModeKeepsOrder(rows: seq<Row>, mode: string)
    ensures SubsequenceOf(FilterMode(rows, mode), rows)
  {
    if |rows| > 0 {
      FilterModeKeepsOrder(rows[1..], mode);
      var rest := FilterMode(rows[1..], mode);
      if rows[0].mode == mode {
        assert ([rows[0]] + rest)[1..] == rest;
      }
    }
  }

  // ---------------------------------------------------------------------
  // parse_block_size_for_sorting
  // ---------------------------------------------------------------------

  /** As written: `re.match(r"(\d+)([kmgtpbs]*)", s.lower())`, then the
      number times 1024 whatever the unit was; 0 when the string does not
      start with a digit. */
  function ParseBlockSizeForSorting(bs: string): (r: nat)
    ensures (|bs| == 0 || !IsDigitChar(bs[0])) ==> r == 0
    ensures r % 1024 == 0
  {
    var d := LeadingDigits(Lower(bs));
    if |d| == 0 then 0 else ParseDigits(d) * 1024
  }

  /** The unit is read and then dropped: `"<n>"`, `"<n>k"` and `"<n>m"`
      all give `n * 1024`. */
  lemma UnitIgnored(n: nat)
    ensures ParseBlockSizeForSorting(Digits(n)) == n * 1024
    ensures ParseBlockSizeForSorting(Digits(n) + "k") == n * 1024
    ensures ParseBlockSizeForSorting(Digits(n) + "m") == n * 1024
  {
    NumberBeforeSuffix(n, "");
    assert Digits(n) + "" == Digits(n);
    NumberBeforeSuffix(n, "k");
    NumberBeforeSuffix(n, "m");
  }

  lemma NumberBeforeSuffix(n: nat, suffix: string)
    requires |suffix| > 0 ==> !IsDigitChar(LowerChar(suffix[0]))
    ensures ParseBlockSizeForSorting(Digits(n) + suffix) == n * 1024
  {
    var d := Digits(n);
    assert Lower(d + suffix) == d + Lower(suffix) by {
      assert forall i | 0 <= i < |d| :: LowerChar(d[i]) == d[i];
    }
    LeadingDigitsOf(d, Lower(suffix));
    ParseDigitsOfDigits(n);
  }

  /** So sorting by this key puts one megabyte before four kilobytes. */
  lemma MegabyteSortsBeforeKilobytes()
    ensures ParseBlockSizeForSorting("1m") < ParseBlockSizeForSorting("4k")
  {
    UnitIgnored(1);
    UnitIgnored(4);
    assert Digits(1) + "m" == "1m";
    assert Digits(4) + "k" == "4k";
  }

  /** Corrected: the byte count the documentation promises, `k` and `m`
      being binary units as in `test/general_conc_plots.py`. */
  function BlockSizeBytes(bs: string): (r: nat)
    ensures (|bs| == 0 || !IsDigitChar(bs[0])) ==> r == 0
  {
    GeneralConcPlots.ParseBlockSizeForSorting(bs)
  }

  /** With the corrected key, KiB sizes sort below MiB sizes exactly when
      they are fewer bytes. */
  lemma CorrectedKeyOrdersBytes(a: nat, b: nat)
    ensures BlockSizeBytes(Digits(a) + "k") < BlockSizeBytes(Digits(b) + "m") <==> a < 1024 * b
  {
    GeneralConcPlots.KibiBelowMebi(a, b);
  }

  /** In particular `"4k"` sorts before `"1m"` again. */
  lemma KilobytesSortBeforeMegabyte()
    ensures BlockSizeBytes("4k") < BlockSizeBytes("1m")
  {
    CorrectedKeyOrdersBytes(4, 1);
    assert Digits(1) + "m" == "1m";
    assert Digits(4) + "k" == "4k";
  }

  // ---------------------------------------------------------------------
  // File names
  // ---------------------------------------------------------------------

  /** `str(v).replace("/", "_")` for the block-size and mix fragments of
      a file name. */
  function SafeName(s: string): string {
    ReplaceChar(s, '/', '_')
  }

  /** A sanitised fragment holds no path separator, keeps its length and
      every other character. */
  lemma SafeNameHasNoSlash(s: string)
    ensures '/' !in SafeName(s) && |SafeName(s)| == |s|
    ensures forall i | 0 <= i < |s| && s[i] != '/' :: SafeName(s)[i] == s[i]
  {
    ReplaceCharRemoves(s, '/', '_');
  }
}

=== FILE: wrappers.dfy ===
/** Failure-compatible wrappers shared by every module of the model. */
module Wrappers {

  /** A possibly-absent value; `None` stands for a C `NULL` pointer or a
      Python `None`. */
  datatype Option<+T> = None | Some(value: T) {

    /** Returns the wrapped value, or `default` when there is none. */
    function GetOr(default: T): T {
      match this
      case Some(v) => v
      case None => default
    }
  }
}
